=== FILE: README.md ===
# gyl-cloud-functions in Dafny

A model of the Lambda handlers behind a self-hosted mailing-list service
("grow your list"). The handlers read and write three DynamoDB tables:

- **Subscribers**, keyed by `subscriberId` and looked up through an index by lower-case `email`;
- **Queue**, keyed by `(queuePlacement, runAtModified)`, where an item is pending while its placement is `queued`;
- **Settings**, keyed by setting name (`lists`, `autoresponder-<id>`, `blockedEmailDomains`, `isDoingBroadcast`,
  `pendingBroadcast`, `previewSubscriberCount`).

The tables are the three maps of the class `Model.Store`. Each handler that touches the tables is a module with a pure function that says
what the handler answers and how the tables look afterwards, lemmas that state its cases and the properties the
source promises, and a `method Handle` that makes the table calls one at a time on a `Store` and is proved to
reach the state and answer of that function while keeping every record under its own key (`Store.Valid`).

Whatever the handlers learn from outside is an input:
- the answers of the secondary indexes and of the queue queries (a query answer is a sequence; "complete" means it
  lists every pending item of the subscriber, and the properties that need completeness say so);
- Joi's verdicts on e-mail addresses, GUIDs and time zones, and bcrypt's verdicts;
- the SES outcomes of the single e-mail send and the template save, the clock (`now`, one reading per invocation) and random values (UUIDs, random bytes, the random
  fraction of a queue key).

Shared modules:

- `Js`: the JavaScript values a request body can hold (`JsVal`) and the string operations the handlers use;
- `Patterns`: the regular expressions;
- `Requests`: the Joi schemas;
- `Model`: tables, records and the store;
- `Tags`: the tag-list algebra;
- `Scheduling`: queue keys and queue items;
- `Triggers`: confirmation and autoresponder triggers;
- `Cleanup`: deletes of queue items and their batching;
- `Blocking`: blocked domains;
- `ListSettings`: the `lists` setting;
- `Broadcasts`: the broadcast schemas;
- `Web`: JSON string quoting, and percent-encoding as RFC 3986 section 2.1 describes it.

## Model

| member | source | states |
|---|---|---|
| Js.Or | gyl-admin-single-email-send-post/index.js:42 | `a \|\| b` is the first operand exactly when that operand is truthy, else the second |
| Js.ToLower | gyl-admin-subscriber-post/index.js:334 | lower-casing keeps the length and maps each character on its own |
| Js.LowerIsLowerCase | gyl-admin-subscriber-post/index.js:358 | the lower-cased text is lower case, lower-casing is idempotent, and a text is lower case exactly when lower-casing leaves it alone |
| Js.FirstIndex | gyl-admin-subscriber-post/index.js:217 | `indexOf`: the position found holds the value and no earlier position does; past the end means the value is absent |
| Js.FirstIndexAbsent | gyl-admin-subscriber-post/index.js:217 | `indexOf` answers "not found" exactly when the value does not occur |
| Js.FirstIndexUnique | gyl-admin-subscriber-untag-post/index.js:63-81 | a position holding the value with no earlier occurrence is the one `indexOf` finds |
| Js.TrimShape | gyl-admin-single-email-send-post/index.js:9-15 | `trim()` returns a slice of the input with only white space around it, has no white space at its ends, and is empty exactly when the input is all white space |
| Js.TrimEndInside | gyl-admin-single-email-send-post/index.js:9-15 | trimming the end of a suffix leaves a slice of the text followed only by white space |
| Js.SplitPieces | gyl-admin-subscriber-post/index.js:348 | no piece that `split` produces holds the separator |
| Js.JoinSplit | gyl-api-authorizer/index.js:12-15 | joining the pieces of a split with the same separator gives back the text |
| Js.AfterLast | gyl-admin-subscriber-post/index.js:348-349 | the last piece holds no separator, and is the whole text when there is no separator |
| Js.AfterLastIsLastPiece | gyl-admin-subscriber-post/index.js:348-349 | `split(sep)` followed by taking the last piece is `AfterLast` |
| Js.AfterLastShape | gyl-admin-subscriber-post/index.js:348-349 | the last piece ends the text, and when the text holds the separator one stands right before that piece |
| Js.ReplaceFirst | gyl-react-to-interaction/index.js:136 | `replace(a, b)` with one-character strings replaces the first `a` only |
| Js.ReplaceFirstRoundTrip | gyl-react-to-interaction/index.js:136 | replacing the first `a` by `b` and then the first `b` by `a` restores a text that had no `b` |
| Js.NatToString | gyl-admin-subscriber-post/index.js:297 | the decimal rendering is non-empty, all digits, and starts with `0` only for zero |
| Js.DigitsRoundTrip | gyl-admin-subscriber-post/index.js:297 | reading back the decimal rendering of a number gives the number |
| Js.NatToStringInjective | gyl-admin-subscriber-post/index.js:297 | two numbers render alike only when they are equal |
| Js.HexOfBytes | gyl-public-subscriber-unsubscribe-get/index.js:93-96 | `toString('hex')` gives two lower-case hexadecimal digits per byte |
| Js.HexRoundTrip | gyl-public-subscriber-unsubscribe-get/index.js:93-96 | reading the hexadecimal text back gives the bytes |
| Patterns.FormatUuidV4 | gyl-subscriber-confirm/index.js:6-7 | the layout of sixteen bytes as a version 4 UUID (sections 4.1.1, 4.1.3 and 4.4 of RFC 4122) is 36 characters long |
| Patterns.FormattedUuidIsV4 | gyl-subscriber-confirm/index.js:6-7 | every identifier a version 4 generator produces passes the handlers' UUID pattern |
| Patterns.DigitsUnderscoreDigitsEquivalent | gyl-react-to-interaction/index.js:106-137 | the unanchored `\d+_\d+` matches exactly when an underscore has a digit on each side |
| Patterns.AddTagDirective | gyl-react-to-interaction/index.js:5 | the captured tag is 1 to 248 identifier characters, and the trigger is `add-tag_` followed by it |
| Patterns.AddTagDirectiveRoundTrip | gyl-react-to-interaction/index.js:5 | a directive built from a valid tag gives that tag back |
| Patterns.BasicEmailEquivalent | gyl-admin-list-post/index.js:39-65 | `^[^\s@]+@[^\s@]+\.[^\s@]+$` matches exactly the texts the executable test accepts |
| Patterns.BasicEmailTest | gyl-admin-list-post/index.js:39-65 | a text passing the executable test decomposes as the expression requires |
| Patterns.BasicEmailDecompose | gyl-admin-list-post/index.js:39-65 | a match of the expression passes the executable test |
| Patterns.LabelledEmailEquivalent | gyl-admin-list-post/index.js:39-65 | `^.*<[^\s@]+@[^\s@]+\.[^\s@]+>$` matches exactly a label without line terminators followed by an address in angle brackets |
| Requests.Field | gyl-admin-list-post/index.js:70-72 | reading a key gives `undefined` for a non-object or a missing key, and the stored value otherwise |
| Requests.Strings | gyl-admin-subscriber-count-post/index.js:17-26 | the strings of an array of strings, in order |
| Requests.JoiScalar | gyl-admin-subscriber-post/index.js:41-50 | the `boolean/number/string` alternatives convert `true`/`false` in any case and digit strings, keep other non-empty strings, and refuse the rest |
| Requests.JoiBoolean | gyl-admin-subscribers-post/index.js:29-31 | `boolean()` accepts a boolean or the strings `true`/`false` in any case |
| Requests.LowerEmail | gyl-public-subscriber-unsubscribe-get/index.js:8-13 | a lower-cased non-empty address the address check accepts, and nothing else |
| Requests.ParseTimezone | gyl-admin-subscriber-post/index.js:31 | an absent zone passes; an accepted zone is a non-empty string the zone database knows |
| Requests.ParseDtp | gyl-admin-subscriber-post/index.js:32-35 | an absent time passes; an object of exactly `hour` and `minute` is accepted exactly when each is a number or digit string that converts into 0-23 and 0-59, and the converted values are stored |
| Requests.ParseTags | gyl-admin-subscriber-post/index.js:36-40 | an absent key, `null` and a list are told apart; accepted tags are exactly the arrays of at most 50 strings of 1 to 64 characters, kept element for element |
| Requests.ParseFlag | gyl-admin-subscriber-post/index.js:41-50 | an absent flag stays absent, a present one is converted or refused |
| Requests.ParseTagBody | gyl-admin-subscriber-tag-post/index.js:9-16 | accepted exactly for an object of a valid address and a `^[\w-]+$` tag within the length limit; the address comes back lower-cased |
| Model.Overlay | gyl-admin-subscriber-post/index.js:374-382 | `Object.assign`: every key the input carries replaces the stored one, the id, join time, token and display address among them, every undeclared key is stored, the others stay |
| Model.Assign | gyl-admin-subscribers-post/index.js:104 | a body key naming a record attribute sets it when its value has the attribute's type; every key that names no attribute is stored as given, and stored keys it does not name stay |
| Model.OverlayWithoutOthers | gyl-admin-subscriber-post/index.js:374-382 | a body with no undeclared key keeps the stored id, join time, token, display address and other keys |
| Model.TagsOf | gyl-admin-subscriber-untag-post/index.js:65 | `tags || []`: the stored list, or the empty list when the record has no tags attribute |
| Model.TagsAttribute | gyl-admin-subscriber-post/index.js:384-386 | the tags attribute a body sets: its list, none for `null`, none when it names no tags |
| Model.KeysOf | gyl-admin-subscriber-unsubscribe-post/index.js:61-89 | the keys of the items of a query answer |
| Model.DeleteAnswer | gyl-admin-subscriber-unsubscribe-post/index.js:61-89 | deleting the keys of a query answer removes only pending items of that subscriber, and a complete answer leaves none of theirs |
| Model.PutAll | gyl-admin-subscriber-post/index.js:436-446 | puts in order: each item is stored under its own key, later puts replacing earlier ones |
| Model.PutAllKeepsKeys | gyl-admin-subscriber-post/index.js:436-446 | puts keep every queue item stored under its own key |
| Model.PutAllHolds | gyl-admin-subscriber-post/index.js:436-446 | after the puts every key they name holds one of the items put |
| Model.Recipient | gyl-admin-subscriber-post/index.js:183 | `displayEmail \|\| email`: the address as typed when there is one, else the stored one |
| Model.JsonString | gyl-admin-subscriber-post/index.js:362 | a plain string is written between double quotes |
| Tags.CheckHasAllTags | gyl-admin-subscriber-post/index.js:207-222 | true for an empty request, false for an empty stored list against a non-empty request, and otherwise true exactly when every requested tag is stored |
| Tags.HasAllReflexive | gyl-admin-subscriber-post/index.js:207-222 | a tag list has all of its own tags |
| Tags.AppendMissing | gyl-admin-subscriber-post/index.js:229-238 | the stored tags in order, then each requested tag not yet there, once, in request order |
| Tags.MergeTags | gyl-admin-subscriber-post/index.js:229-238 | the loop over a copy computes the merge and leaves both inputs alone |
| Tags.AppendMissingKeepsAll | gyl-admin-subscriber-post/index.js:229-238 | merging tags the subscriber already has changes nothing |
| Tags.AppendMissingIdempotent | gyl-admin-subscriber-post/index.js:229-238 | after a merge every requested tag is present, so merging again changes nothing |
| Tags.AddTag | gyl-react-to-interaction/index.js:32-40 | the tag is present afterwards and nothing else is added; the old tags keep their places; a tag already there changes nothing; no duplicate arises |
| Tags.AddTagIsMerge | gyl-react-to-interaction/index.js:32-40 | adding one tag is merging a request that names only that tag |
| Tags.RemoveFirst | gyl-admin-subscriber-untag-post/index.js:63-81 | the first occurrence of the tag leaves the list, the rest keep their order |
| Tags.RemoveFirstMultiset | gyl-admin-subscriber-untag-post/index.js:63-81 | exactly one copy of the tag goes when there is one, and nothing else |
| Tags.RemoveFirstIsSplice | gyl-admin-subscriber-untag-post/index.js:63-81 | the removal is `splice(indexOf(tag), 1)` |
| Tags.RemoveEachMultiset | gyl-public-subscriber-unsubscribe-post/index.js:114-122 | removing each listed id once takes exactly one copy of each away, as far as there are copies |
| Tags.RemoveEachKeepsOut | gyl-public-subscriber-unsubscribe-post/index.js:114-122 | a tag absent before the removals is absent after them |
| Blocking.EmailDomain | gyl-admin-subscriber-post/index.js:347-349 | the text after the last `@` of the lower-cased address: a suffix of it without `@` |
| Blocking.SetHas | gyl-admin-subscriber-post/index.js:345-350 | a non-iterable stored value throws; otherwise the domain is blocked exactly when it is non-empty and listed |
| Blocking.AdminBlockCheck | gyl-admin-subscriber-post/index.js:339-354 | without the setting nothing is blocked; with it, the verdict is `SetHas` on the stored value |
| Blocking.PublicBlocked | gyl-public-subscriber-post/index.js:188-203 | only an array setting is consulted, and the domain is blocked exactly when it is non-empty and in the array |
| Triggers.TriggerOf | gyl-admin-subscriber-post/index.js:254-272 | a confirmation names its template, `Confirmation` by default; an autoresponder needs a non-empty id; anything else does nothing |
| Triggers.ActionIds | gyl-admin-subscriber-post/index.js:265-271 | an action enrols in at most the one autoresponder it names |
| Triggers.ConfirmationLink | gyl-admin-subscriber-post/index.js:190 | the confirmation link ends with the subscriber's id |
| Triggers.TriggerEmails | gyl-admin-subscriber-post/index.js:178-200 | one e-mail exactly for a confirmation, to the recipient, from the named template, carrying the subscriber's link |
| Triggers.EnrolOne | gyl-admin-subscriber-post/index.js:274-316 | no item without a start step, otherwise the one enrolment item |
| Triggers.EnrolAll | gyl-admin-subscriber-post/index.js:240-247 | at most one item per requested autoresponder |
| Triggers.EnrolAllShape | gyl-admin-subscriber-post/index.js:240-247 | every item is a fresh pending item of the subscriber for one of the requested autoresponders, running its start step |
| Triggers.EnrolAllInOrder | gyl-admin-subscriber-post/index.js:244-246 | when every named autoresponder has a start step, one item per id, in the order requested |
| Triggers.EnrolAllWithoutStart | gyl-admin-subscriber-post/index.js:289-295 | autoresponders without a start step enrol nobody |
| Triggers.EnrolEach | gyl-admin-subscriber-post/index.js:244-246 | the loop puts the items of `EnrolAll` in turn |
| Triggers.RunTriggers | gyl-admin-subscriber-post/index.js:240-272 | the trigger and then the requested enrolments: the e-mails of `TriggerEmails` and the puts of the enrolments |
| Scheduling.RunAtModified | gyl-admin-subscriber-post/index.js:297 | the key starts with the decimal digits of the run time |
| Scheduling.RunAtModifiedRoundTrip | gyl-admin-subscriber-post/index.js:297 | a key built from a plain fraction gives back its run time |
| Scheduling.RunAtModifiedSeparatesTimes | gyl-admin-subscriber-post/index.js:297 | keys built at different run times differ |
| Scheduling.KeyTagRoundTrip | gyl-react-to-interaction/index.js:136 | the interaction handler turns the sender's tag (`.` as `_`) back into the queue key |
| Scheduling.GetRunAtTime | gyl-subscriber-confirm/index.js:33-42 | without a time zone the start time is kept; with one it is the zone projection of the preference, 9:30 by default |
| Scheduling.StartStep | gyl-admin-subscriber-post/index.js:283-288 | the `Start` step of `autoresponder-<id>`, none when the setting or the step is missing |
| Scheduling.EnrolmentItem | gyl-admin-subscriber-post/index.js:298-309 | the step overlaid with `queued`, the run time and key, no attempts, neither failed nor completed, the snapshot and ids, and step `Start` |
| Scheduling.Enrol | gyl-admin-subscriber-post/index.js:274-316 | without a start step the queue is unchanged; otherwise exactly one fresh pending item is put |
| Scheduling.NewQueueItem | gyl-subscriber-confirm/index.js:58-73 | a pending item of the step's type and template, never attempted, whose key starts with the decimal digits of its run time |
| Scheduling.Eligible | gyl-subscriber-confirm/index.js:96-121 | no more autoresponders than scanned, each sending a template from its start step |
| Scheduling.EligibleMembers | gyl-subscriber-confirm/index.js:96-121 | an autoresponder is eligible exactly when it was scanned and its start step sends a template |
| Scheduling.BatchOf | gyl-subscriber-confirm/index.js:96-121 | one item per eligible autoresponder, the j-th drawing the j-th random fraction |
| Scheduling.BatchOfItems | gyl-subscriber-confirm/index.js:96-121 | the j-th item is the new queue item of the j-th eligible autoresponder |
| Scheduling.ConstructQueueBatch | gyl-subscriber-confirm/index.js:96-121 | the loop emits exactly `BatchOf` of the eligible autoresponders, in scan order |
| Cleanup.Requests | gyl-react-to-unsubscribe-event/index.js:93-108 | one delete request per item of the answer, in order |
| Cleanup.RequestsNameAnswer | gyl-react-to-unsubscribe-event/index.js:93-108 | the requests name exactly the keys of the items |
| Cleanup.Batch | gyl-react-to-unsubscribe-event/index.js:109-119 | the batches concatenate to the requests in order, all but the last hold 25, the last 1 to 25; no requests give one empty batch |
| Cleanup.DeleteRequests | gyl-admin-subscriber-unsubscribe-post/index.js:61-89 | each named item leaves the queue and nothing else does |
| Cleanup.DeleteAnswerItems | gyl-admin-subscriber-unsubscribe-post/index.js:61-89 | the queue loses exactly the keys of the answer; an empty answer writes nothing |
| Cleanup.WriteBatches | gyl-react-to-unsubscribe-event/index.js:120-130 | the batch writes together delete every request of every batch |
| ListSettings.KeyCount | gyl-admin-list-post/index.js:70-72 | `Object.keys(v).length` throws exactly for `null` and `undefined`, and counts an object's keys |
| ListSettings.ValidateId | gyl-admin-list-post/index.js:12-25 | no message exactly for a non-empty `[a-zA-Z0-9_-]` string of at most 64 characters; a falsy id is "No list id provided" |
| ListSettings.ArrayLists | gyl-admin-list-post/index.js:82-90 | the stored lists exactly when the setting is there and holds a list array |
| ListSettings.FindList | gyl-admin-list-delete/index.js:51-58 | `findIndex`: -1 exactly when no entry has the id, otherwise the first entry with it |
| ListSettings.WithLists | gyl-admin-list-post/index.js:124-128 | the setting afterwards holds the lists given; every other setting is unchanged |
| ListSettings.WithSameLists | gyl-admin-list-post/index.js:124-128 | writing back the lists already held changes nothing |
| ListSettings.FindListReplaced | gyl-admin-list-post/index.js:103-105 | an entry with the id put in place of the first one is still found there |
| ListSettings.FindListAppended | gyl-admin-list-post/index.js:106-107 | an appended entry with a new id is the first with it |
| ListSettings.WithListsTwice | gyl-admin-list-post/index.js:124-128 | a second write of the setting overrides the first |
| Requests.JoiNumber | gyl-admin-subscribers-post/index.js:38 | a number is kept, a digit string is converted, anything else is refused |
| Broadcasts.RunAt | gyl-admin-broadcast-post/index.js:17-19 | `runAt` passes absent or `null`, or as a number greater than the bound, exactly so |
| Broadcasts.OptBool | gyl-admin-broadcast-post/index.js:20-31 | an optional boolean stays absent or becomes a boolean |
| Broadcasts.Converted | gyl-admin-broadcast-post/index.js:7-31 | only a present key takes the converted value, the others stay |
| Broadcasts.Interaction | gyl-admin-broadcast-post/index.js:20-31 | accepted exactly for an object of the four keys with a `^[\w-]+$` template id, a valid date and booleans; the id and date pass through |
| Broadcasts.Interactions | gyl-admin-broadcast-post/index.js:20-31 | accepted exactly when every element is, each converted in place |
| Broadcasts.InteractionsField | gyl-admin-broadcast-post/index.js:20-31 | absent stays absent, an array passes exactly when its elements do |
| Broadcasts.Validate | gyl-admin-broadcast-post/index.js:6-32 | an accepted broadcast has only the schema's keys, a `^[\w-]+$` template name, valid tags, object properties, `runAt` in the window and valid interactions, converted and otherwise unchanged |
| Broadcasts.NonObjectRefused | gyl-admin-broadcast-post/index.js:6-32 | anything that is not an object is refused |
| Broadcasts.RunAtStable | gyl-admin-broadcast-post/index.js:17-19 | the `runAt` check, applied to its own result, gives it back |
| Broadcasts.InteractionStable | gyl-admin-broadcast-post/index.js:20-31 | a converted interaction passes again unchanged |
| Broadcasts.InteractionsStable | gyl-admin-broadcast-post/index.js:20-31 | converted interactions pass again unchanged |
| Broadcasts.ValidateStable | gyl-admin-broadcast-post/index.js:77-84 | the broadcast stored validates to itself |
| Broadcasts.DatedInteractionPassesBoth | gyl-admin-broadcast-start/index.js:7-18 | an interaction the post schema accepts, the start schema accepts alike |
| Web.EscapeChar | gyl-public-subscriber-unsubscribe-get/index.js:69 | QuoteJSONString's escape of one character is never empty, and a character that is not a quote, a backslash or a control character is written as itself |
| Web.JsonQuote | gyl-public-subscriber-unsubscribe-get/index.js:69 | `JSON.stringify` of a string: the escaped text between double quotes |
| Web.UnescapeEscape | gyl-public-subscriber-unsubscribe-get/index.js:69 | reading the escapes back gives the string |
| Web.JsonQuoteRoundTrip | gyl-public-subscriber-unsubscribe-get/index.js:69 | a quoted string is read back between its quotes |
| Web.PlainQuote | gyl-public-subscriber-unsubscribe-get/index.js:69 | a string without quotes, backslashes or control characters is written as it is |
| Web.Utf8 | gyl-public-subscriber-unsubscribe-get/index.js:69 | the UTF-8 encoding of a character has 1 to 4 bytes (RFC 3629 section 3) |
| Web.Utf8Decodes | gyl-public-subscriber-unsubscribe-get/index.js:69 | the encoding decodes to the character, and its first byte gives its length |
| Web.EncodeUriComponent | gyl-public-subscriber-unsubscribe-get/index.js:69 | unreserved characters stay, every other character becomes the `%XX` escapes of its UTF-8 bytes |
| Web.UriComponentRoundTrip | gyl-public-subscriber-unsubscribe-get/index.js:69 | decoding the encoded text gives back the text |
| Web.EncodedAlphabet | gyl-public-subscriber-unsubscribe-get/index.js:69 | the encoded text holds only unreserved characters, `%` and upper-case hexadecimal digits |
| AdminSubscriberPost.AutoresponderIds | gyl-admin-subscriber-post/index.js:240-244 | none without the multi-valued query; with valid options every id is alphanumeric |
| AdminSubscriberPost.ValidateAccepts | gyl-admin-subscriber-post/index.js:29-88 | validation lets through only an object with a checked non-empty address and well-formed options |
| AdminSubscriberPost.ValidateRefuses | gyl-admin-subscriber-post/index.js:324-331 | a body that is not JSON, not an object, or has no address is refused |
| AdminSubscriberPost.NewRecord | gyl-admin-subscriber-post/index.js:148-170 | the request's keys over the defaults, then the fresh id, token and join time over whatever the request said |
| AdminSubscriberPost.NewRecordShape | gyl-admin-subscriber-post/index.js:356-359 | a new record is lower-case addressed with the typed address for display, unconfirmed and subscribed unless the request says otherwise, with the fresh id and token, the request's tags attribute and every undeclared key of the request |
| AdminSubscriberPost.UpdatedRecord | gyl-admin-subscriber-post/index.js:364-395 | the merged record keeps the stored id unless the body names another, which then replaces it |
| AdminSubscriberPost.UpdateKeepsIdentity | gyl-admin-subscriber-post/index.js:374-382 | the address is stored lower-cased; join time, token and display address come from the body when it names them, else from the stored record; every undeclared key is stored; a body without such keys keeps id, join time, token, display address and stored keys |
| AdminSubscriberPost.UpdateTags | gyl-admin-subscriber-post/index.js:367-389 | a returning subscriber gets exactly the requested tags attribute; otherwise the indexed tags when nothing is new, else the stored tags (none when missing) followed by the new ones |
| AdminSubscriberPost.UpdateConfirmed | gyl-admin-subscriber-post/index.js:383-395 | an explicit `confirmed` decides, a confirmed subscriber asked to be confirmed keeps its value, a returning subscriber is unconfirmed unless told |
| AdminSubscriberPost.UpdateUnsubscribed | gyl-admin-subscriber-post/index.js:383-389 | when the index shows the subscriber subscribed, the request's flag when given, else the stored one |
| AdminSubscriberPost.Resnapshot | gyl-admin-subscriber-post/index.js:420-447 | the pending items are re-put with the new snapshot only when the query found items and the batch read answered with a list |
| AdminSubscriberPost.ResnapshotRefreshes | gyl-admin-subscriber-post/index.js:434-447 | every re-written item holds the updated snapshot, every other item is untouched |
| AdminSubscriberPost.Added | gyl-admin-subscriber-post/index.js:356-362 | adding a new address keeps every record under its own key |
| AdminSubscriberPost.Updated | gyl-admin-subscriber-post/index.js:363-449 | updating a known address keeps every record under its own key |
| AdminSubscriberPost.PostFailsCleanly | gyl-admin-subscriber-post/index.js:451-456 | every failure answers 500 and writes and sends nothing |
| AdminSubscriberPost.DispatchAddsNew | gyl-admin-subscriber-post/index.js:356-362 | a new address is stored under the fresh id, nothing else is touched, and a requested confirmation goes to the typed address |
| AdminSubscriberPost.DispatchRepeatIsQuiet | gyl-admin-subscriber-post/index.js:402-405 | a post bringing no new tag sends nothing and enrols nobody |
| AdminSubscriberPost.DispatchUpdateTriggers | gyl-admin-subscriber-post/index.js:396-405 | a post bringing a new tag answers `Updated`, stores the merged record under its id, and runs the trigger and the requested enrolments on it |
| AdminSubscriberPost.PostKeepsKeys | gyl-admin-subscriber-post/index.js:322-457 | every outcome keeps each record under its own key |
| AdminSubscriberPost.AddNew | gyl-admin-subscriber-post/index.js:356-362 | the table calls of a new address reach the state of `Added` |
| AdminSubscriberPost.UpdateExisting | gyl-admin-subscriber-post/index.js:363-449 | the table calls of a known address reach the state of `Updated` |
| AdminSubscriberPost.Refresh | gyl-admin-subscriber-post/index.js:436-446 | the batch write leaves the queue as `Resnapshot` says |
| AdminSubscriberPost.Handle | gyl-admin-subscriber-post/index.js:322-457 | the handler's answer, e-mails and tables are those of `Post` |
| AdminSubscriberAdd.ParseInputAccepts | gyl-admin-subscriber-add/index.js:55 | the schema lets through an object with a checked address, stored lower-cased |
| AdminSubscriberAdd.NewRecord | gyl-admin-subscriber-add/index.js:118-131 | the request's keys, then a fresh id, token and join time, and "not confirmed", "not unsubscribed" whatever the request said |
| AdminSubscriberAdd.NewRecordShape | gyl-admin-subscriber-add/index.js:118-131 | a new record is unconfirmed and subscribed, has the fresh id, token and join time, the request's tags attribute and every undeclared key of the request |
| AdminSubscriberAdd.TagAddedRecord | gyl-admin-subscriber-add/index.js:272-279 | the request's keys over the stored ones (its id too when it names one, every undeclared key stored) with the stored tags followed by the missing requested ones |
| AdminSubscriberAdd.ReplacedRecord | gyl-admin-subscriber-add/index.js:286 | the request's keys over the stored ones, tags and flags included when given, the stored values otherwise; the id is replaced only when the request names one |
| AdminSubscriberAdd.TagAddedKeepsTags | gyl-admin-subscriber-add/index.js:192-208 | adding tags keeps every stored tag in place and adds each requested one |
| AdminSubscriberAdd.ReplacedDropsTags | gyl-admin-subscriber-add/index.js:284-289 | when no requested tag is new, the requested list replaces the stored one |
| AdminSubscriberAdd.Saved | gyl-admin-subscriber-add/index.js:271-293 | the record is written under its id, then the trigger runs on it |
| AdminSubscriberAdd.TagWritten | gyl-admin-subscriber-add/index.js:192-208 | `updateSubscriberTags` first writes the merged tags on the stored record under its own id, touching no other record |
| AdminSubscriberAdd.TagWriteOverwritten | gyl-admin-subscriber-add/index.js:272-282 | when the request names no other id, the final put overwrites the early tag write |
| AdminSubscriberAdd.PostRefuses | gyl-admin-subscriber-add/index.js:250-254 | a body that is not JSON or is falsy answers 400, an invalid one 400, and neither changes anything |
| AdminSubscriberAdd.SavedTriggers | gyl-admin-subscriber-add/index.js:271-293 | the requested confirmation goes to the address of the record written |
| AdminSubscriberAdd.DispatchAlwaysTriggers | gyl-admin-subscriber-add/index.js:271-293 | a valid request always runs its trigger, whether or not it changed anything |
| AdminSubscriberAdd.DispatchAddsNew | gyl-admin-subscriber-add/index.js:257-269 | a new address is saved under the fresh id, unconfirmed and subscribed, and the answer is `OK` |
| AdminSubscriberAdd.DispatchKeepsKeys | gyl-admin-subscriber-add/index.js:250-306 | every outcome keeps each record under its own key |
| AdminSubscriberAdd.Save | gyl-admin-subscriber-add/index.js:118-131 | the put and the trigger reach the state of `Saved` |
| AdminSubscriberAdd.UpdateKnown | gyl-admin-subscriber-add/index.js:271-293 | the early tag write, the put and the trigger reach the state `Dispatch` gives a known address |
| AdminSubscriberAdd.Handle | gyl-admin-subscriber-add/index.js:250-306 | the handler's answer, e-mails and tables are those of `Post` |
| PublicSubscriberPost.PublicConfirmLink | gyl-public-subscriber-post/index.js:115 | the confirmation link ends with the subscriber's id |
| PublicSubscriberPost.ConfirmationEmail | gyl-public-subscriber-post/index.js:114-156 | the e-mail goes to the address as typed, else the stored one, and carries the link |
| PublicSubscriberPost.ParseEmail | gyl-public-subscriber-post/index.js:27-29 | only an object holding exactly a checked address is accepted |
| PublicSubscriberPost.NewRecord | gyl-public-subscriber-post/index.js:89-106 | lower-cased address, typed one for display, the default list as its only tag when configured, unconfirmed, subscribed, joined and asked now |
| PublicSubscriberPost.NewRecordShape | gyl-public-subscriber-post/index.js:206-217 | the new record's fields, each as the handler sets it |
| PublicSubscriberPost.Resends | gyl-public-subscriber-post/index.js:226-243 | one confirmation per check that holds, both checks reading the record as fetched |
| PublicSubscriberPost.PostRefusesQuietly | gyl-public-subscriber-post/index.js:188-203 | a refused body answers 500 and a blocked domain 200 `OK`; neither stores nor sends anything |
| PublicSubscriberPost.PostAddsNew | gyl-public-subscriber-post/index.js:206-217 | a new address is saved and sent exactly one confirmation, to the address as typed |
| PublicSubscriberPost.PostResends | gyl-public-subscriber-post/index.js:218-245 | a stale index answers 500; otherwise `lastConfirmation` is stamped exactly when a confirmation was sent, and nothing else changes |
| PublicSubscriberPost.ConfirmedIsLeftAlone | gyl-public-subscriber-post/index.js:226-243 | a confirmed, subscribed subscriber is sent nothing and nothing is written |
| PublicSubscriberPost.ResendIsThrottled | gyl-public-subscriber-post/index.js:236-242 | an unconfirmed subscriber asked within the last three hours is not asked again |
| PublicSubscriberPost.UnsubscribedStaleGetsTwo | gyl-public-subscriber-post/index.js:226-243 | an unsubscribed, unconfirmed subscriber asked long ago is sent the confirmation twice |
| PublicSubscriberPost.PostKeepsKeys | gyl-public-subscriber-post/index.js:179-252 | every outcome keeps each record under its own key |
| PublicSubscriberPost.SendAndStamp | gyl-public-subscriber-post/index.js:158-173 | one e-mail and `lastConfirmation` set to now, nothing else of the record |
| PublicSubscriberPost.Revisit | gyl-public-subscriber-post/index.js:226-243 | the resend calls reach the state and e-mails of `Resends` |
| PublicSubscriberPost.Handle | gyl-public-subscriber-post/index.js:179-252 | the handler's answer, e-mails and tables are those of `Post` |
| PublicSubscriberUnsubscribePost.ParseToken | gyl-public-subscriber-unsubscribe-post/index.js:9-14 | twelve hexadecimal digits, lower-cased |
| PublicSubscriberUnsubscribePost.ParseBody | gyl-public-subscriber-unsubscribe-post/index.js:9-14 | accepted exactly for a boolean `allEmails`, a valid address, a valid token and valid list ids, and no other key |
| PublicSubscriberUnsubscribePost.ListTags | gyl-public-subscriber-unsubscribe-post/index.js:114-122 | one copy of each listed id leaves the tags, as far as there are copies; nothing else goes |
| PublicSubscriberUnsubscribePost.TokenChecks | gyl-public-subscriber-unsubscribe-post/index.js:183-197 | 403 `expired` for an expired token before any comparison, 403 `invalid` for a different value; only an accepted token reaches 200 or the 500 of a failed update |
| PublicSubscriberUnsubscribePost.OldTokenRefused | gyl-public-subscriber-unsubscribe-post/index.js:183-191 | a token created more than 48 hours ago is refused whatever its value |
| PublicSubscriberUnsubscribePost.PostRefuses | gyl-public-subscriber-unsubscribe-post/index.js:170-182 | a refused body answers 400 and an unknown address 404; neither changes anything |
| PublicSubscriberUnsubscribePost.PostAccepted | gyl-public-subscriber-unsubscribe-post/index.js:198-206 | an accepted token hands the request to the unsubscribe branches |
| PublicSubscriberUnsubscribePost.LeavesAll | gyl-public-subscriber-unsubscribe-post/index.js:78-107 | `unsubscribed` is set, only pending items of the subscriber are deleted, and a complete answer leaves none |
| PublicSubscriberUnsubscribePost.LeavesLists | gyl-public-subscriber-unsubscribe-post/index.js:114-165 | an index entry without tags answers 500 and writes nothing; otherwise one copy of each named list leaves the tags, `unsubscribed` exactly when none is left, and only pending items caused by a named list are deleted |
| PublicSubscriberUnsubscribePost.NothingNamed | gyl-public-subscriber-unsubscribe-post/index.js:201-206 | neither `allEmails` nor any list id changes nothing and answers 200 |
| PublicSubscriberUnsubscribePost.PostKeepsKeys | gyl-public-subscriber-unsubscribe-post/index.js:168-211 | every outcome keeps each record under its own key |
| PublicSubscriberUnsubscribePost.RemoveListIds | gyl-public-subscriber-unsubscribe-post/index.js:116-122 | the splice loop over a copy computes `ListTags` |
| PublicSubscriberUnsubscribePost.LeaveLists | gyl-public-subscriber-unsubscribe-post/index.js:109-166 | the tag update and the deletes reach the state `LeftLists` and the answer's deletes give |
| PublicSubscriberUnsubscribePost.LeaveStore | gyl-public-subscriber-unsubscribe-post/index.js:198-206 | the branch taken reaches the state `Leave` gives |
| PublicSubscriberUnsubscribePost.Handle | gyl-public-subscriber-unsubscribe-post/index.js:168-211 | the handler's answer and tables are those of `Post` |
| PublicSubscriberUnsubscribeGet.GenerateToken | gyl-public-subscriber-unsubscribe-get/index.js:91-97 | six bytes give twelve lower-case hexadecimal digits |
| PublicSubscriberUnsubscribeGet.GenerateTokenInjective | gyl-public-subscriber-unsubscribe-get/index.js:91-97 | different bytes give different tokens |
| PublicSubscriberUnsubscribeGet.CurrentOrNew | gyl-public-subscriber-unsubscribe-get/index.js:99-115 | a new token created now when there is none, it has no creation time, or it is over 24 hours old; otherwise the stored one |
| PublicSubscriberUnsubscribeGet.HandedOutTokenStaysValid | gyl-public-subscriber-unsubscribe-get/index.js:99-115 | a token handed out passes the unsubscribe endpoint's expiry check for the next 24 hours |
| PublicSubscriberUnsubscribeGet.ListsRead | gyl-public-subscriber-unsubscribe-get/index.js:72-78 | a missing setting reads as no lists, an array setting as its entries |
| PublicSubscriberUnsubscribeGet.SelectLists | gyl-public-subscriber-unsubscribe-get/index.js:51-61 | an entry is selected exactly when its id is one of the subscriber's `list-` tags |
| PublicSubscriberUnsubscribeGet.SelectListsIsSubsequence | gyl-public-subscriber-unsubscribe-get/index.js:57-61 | the selection keeps the settings order |
| PublicSubscriberUnsubscribeGet.UrlParams | gyl-public-subscriber-unsubscribe-get/index.js:69 | `p=` followed by the percent-encoded JSON, which decodes back to it |
| PublicSubscriberUnsubscribeGet.ParamsFor | gyl-public-subscriber-unsubscribe-get/index.js:51-69 | the typed address when non-empty, else the stored one, `unsubscribed` as stored, exactly the list entries named by the subscriber's `list-` tags, and the token's value |
| PublicSubscriberUnsubscribeGet.ParseQuery | gyl-public-subscriber-unsubscribe-get/index.js:8-13 | an address only for a query whose one key is `email`, and then that address lower-cased |
| PublicSubscriberUnsubscribeGet.Redirect | gyl-public-subscriber-unsubscribe-get/index.js:41-49 | a 303 whose body is the location |
| PublicSubscriberUnsubscribeGet.GetFailures | gyl-public-subscriber-unsubscribe-get/index.js:125-141 | `bad-request` for a refused query and `not-found` for an unknown address, writing nothing; a record without tags or an unreadable `lists` setting gives `server-error` after the token write; the table changes only when a new token is due |
| PublicSubscriberUnsubscribeGet.KnownRedirectsWithParams | gyl-public-subscriber-unsubscribe-get/index.js:136-138 | the redirect carries the percent-encoded JSON of the parameters with the selected lists and the token handed out |
| PublicSubscriberUnsubscribeGet.SplitQuery | gyl-public-subscriber-unsubscribe-get/index.js:138 | a URL with a `p=` query splits back into the URL and the parameter |
| PublicSubscriberUnsubscribeGet.WithTokenChangesOnlyToken | gyl-public-subscriber-unsubscribe-get/index.js:99-115 | only a new token changes the table, and then only that subscriber's token, which is the one handed out |
| PublicSubscriberUnsubscribeGet.Handle | gyl-public-subscriber-unsubscribe-get/index.js:117-143 | the handler's answer and Subscribers table are those of `Get` |
| AdminSubscriberUnsubscribePost.ParseBody | gyl-admin-subscriber-unsubscribe-post/index.js:94-102 | an address only for a body with no key but `email`, and then a lower-case one |
| AdminSubscriberUnsubscribePost.IndexedId | gyl-admin-subscriber-unsubscribe-post/index.js:20-35 | the id of the index entry, none when there is no entry or its id is empty |
| AdminSubscriberUnsubscribePost.Unsubscribed | gyl-admin-subscriber-unsubscribe-post/index.js:53-60 | only the subscriber's own record changes; every other record stays |
| AdminSubscriberUnsubscribePost.PostRefuses | gyl-admin-subscriber-unsubscribe-post/index.js:94-106 | a refused body answers 400, an address without id 404, and neither changes anything |
| AdminSubscriberUnsubscribePost.PostUnsubscribes | gyl-admin-subscriber-unsubscribe-post/index.js:53-108 | only `unsubscribed` becomes true, only pending items of the subscriber leave, a complete answer leaves none, and the answer is 200 `OK` |
| AdminSubscriberUnsubscribePost.PostKeepsKeys | gyl-admin-subscriber-unsubscribe-post/index.js:92-113 | every outcome keeps each record under its own key |
| AdminSubscriberUnsubscribePost.Handle | gyl-admin-subscriber-unsubscribe-post/index.js:92-113 | the handler's answer and tables are those of `Post` |
| ReactToUnsubscribeEvent.Reason | gyl-react-to-unsubscribe-event/index.js:49-76 | `Complaint` for a complaint, `Bounce - Permanent` for a permanent bounce |
| ReactToUnsubscribeEvent.Address | gyl-react-to-unsubscribe-event/index.js:36-44 | the first complained or bounced recipient, lower-cased |
| ReactToUnsubscribeEvent.Unsubscribed | gyl-react-to-unsubscribe-event/index.js:49-76 | `unsubscribed` set, with its time and reason |
| ReactToUnsubscribeEvent.IgnoresOthers | gyl-react-to-unsubscribe-event/index.js:30-33 | deliveries, transient bounces, and notifications without address or subscriber change nothing |
| ReactToUnsubscribeEvent.AlreadyUnsubscribedIsQuiet | gyl-react-to-unsubscribe-event/index.js:46-48 | an already unsubscribed subscriber causes no write |
| ReactToUnsubscribeEvent.ReactUnsubscribes | gyl-react-to-unsubscribe-event/index.js:49-108 | the record is unsubscribed with time and reason, one delete per item of the answer, and a complete answer leaves no pending item |
| ReactToUnsubscribeEvent.ReactKeepsKeys | gyl-react-to-unsubscribe-event/index.js:26-137 | every outcome keeps each record under its own key |
| ReactToUnsubscribeEvent.Handle | gyl-react-to-unsubscribe-event/index.js:26-137 | the update and the batched deletes reach the tables of `React` |
| ReactToInteraction.GetTrigger | gyl-react-to-interaction/index.js:94-104 | the first `Interaction-Click` value for a click, the first `Interaction-Open` value for an open, none otherwise |
| ReactToInteraction.AutoConfirmTags | gyl-react-to-interaction/index.js:68-72 | the comma-separated pieces, each trimmed, in order; none when the variable is unset |
| ReactToInteraction.TriggeredStamps | gyl-react-to-interaction/index.js:46-90 | times stamped; an add-tag trigger adds its tag and then `active` to the indexed tags; `confirmed` becomes the timestamp exactly for a click with an auto-confirm tag |
| ReactToInteraction.TriggerCarriesTag | gyl-react-to-interaction/index.js:59-67 | a trigger built from a tag adds exactly that tag |
| ReactToInteraction.SentItemKey | gyl-react-to-interaction/index.js:106-137 | a key only for an open or click whose tags carry `DateStamp` and `RunAtModified`: the first `DateStamp` and the first `RunAtModified` with its `_` turned back into `.` |
| ReactToInteraction.Recorded | gyl-react-to-interaction/index.js:138-158 | the item records the time of the click, or of the open; a missing item stays missing and no other item changes |
| ReactToInteraction.SentItemFound | gyl-react-to-interaction/index.js:106-158 | the e-mail tagged with an item's key finds that item, which records the interaction and nothing else |
| ReactToInteraction.SentItemKeyOfTags | gyl-react-to-interaction/index.js:106-137 | the handler's key for the sender's tags is the item's key |
| ReactToInteraction.TagHasDigitsUnderscoreDigits | gyl-react-to-interaction/index.js:106-137 | the sender's tag for a key built from a plain fraction passes the `\d+_\d+` test |
| ReactToInteraction.UnsubscribeClickIgnored | gyl-react-to-interaction/index.js:165-173 | a click on an unsubscribe link changes nothing |
| ReactToInteraction.ReactChangesOnlyTheirs | gyl-react-to-interaction/index.js:161-183 | only the indexed subscriber's record changes, and the queue only in the named item's click or open time |
| ReactToInteraction.DoTriggerOthers | gyl-react-to-interaction/index.js:46-90 | `doTrigger` changes no record but the indexed subscriber's |
| ReactToInteraction.RecordedStampsOnly | gyl-react-to-interaction/index.js:138-158 | recording changes at most the click or open time of the item |
| ReactToInteraction.StampSubscriber | gyl-react-to-interaction/index.js:46-90 | the update built field by field reaches `DoTrigger` |
| ReactToInteraction.BuildUpdate | gyl-react-to-interaction/index.js:59-89 | the assignments appended one by one give `Triggered` |
| ReactToInteraction.RecordOnItem | gyl-react-to-interaction/index.js:106-158 | the conditional update reaches `Recorded` |
| ReactToInteraction.Handle | gyl-react-to-interaction/index.js:161-183 | the handler's tables are those of `React` |
| SubscriberConfirm.QueueBatch | gyl-subscriber-confirm/index.js:96-121 | one item per eligible autoresponder |
| SubscriberConfirm.Confirmed | gyl-subscriber-confirm/index.js:80-94 | `confirmed` true, `unsubscribed` false, `confirmTimestamp` now |
| SubscriberConfirm.ThankYou | gyl-subscriber-confirm/index.js:166-175 | a 307 redirect to the thank-you page |
| SubscriberConfirm.ConfirmRefuses | gyl-subscriber-confirm/index.js:155-164 | a request without a query string fails without an answer (`null['t']` throws outside any promise); a missing or malformed id answers 400 and an unknown one 404; none writes |
| SubscriberConfirm.AlreadyConfirmedIsQuiet | gyl-subscriber-confirm/index.js:166-175 | `confirmed === true` and `unsubscribed === false` redirect and write nothing |
| SubscriberConfirm.EnrolledConfirms | gyl-subscriber-confirm/index.js:177-185 | the subscriber is confirmed, subscribed and stamped, nothing else changes, and every item is a fresh pending item of theirs from an eligible start step |
| SubscriberConfirm.NewQueueItemSnapshot | gyl-subscriber-confirm/index.js:58-73 | the snapshot an item carries is the subscriber as read |
| SubscriberConfirm.ConfirmTwice | gyl-subscriber-confirm/index.js:166-175 | a second visit finds the subscriber confirmed and writes nothing |
| SubscriberConfirm.IdParam | gyl-subscriber-confirm/index.js:155 | the `t` parameter exactly when the query string has it |
| SubscriberConfirm.ConfirmKeepsKeys | gyl-subscriber-confirm/index.js:154-195 | every outcome keeps each record under its own key |
| SubscriberConfirm.EnrolledKeepsKeys | gyl-subscriber-confirm/index.js:166-195 | confirming and enqueueing keep each record under its own key |
| SubscriberConfirm.Handle | gyl-subscriber-confirm/index.js:154-195 | the handler's answer and tables are those of `Confirm`; a request without a query string fails without an answer and changes nothing |
| PublicSubscriberConfirmGet.GetCases | gyl-public-subscriber-confirm-get/index.js:63-95 | 400 for a malformed id, 404 for an unknown one, else 307; only a record not both confirmed and subscribed changes, to both, stamped |
| PublicSubscriberConfirmGet.StricterElsewhere | gyl-public-subscriber-confirm-get/index.js:73-81 | every record the other confirmation link leaves alone this one leaves alone too, but a click-confirmed record is left alone only here |
| PublicSubscriberConfirmGet.Handle | gyl-public-subscriber-confirm-get/index.js:63-95 | the handler's answer and tables are those of `Get` |
| AdminSubscriberTagPost.TriggerParams | gyl-admin-subscriber-tag-post/index.js:97-106 | only `autoresponder` with an alphanumeric id, or no query, is accepted |
| AdminSubscriberTagPost.Requested | gyl-admin-subscriber-tag-post/index.js:165-182 | the autoresponder asked for; a failed validation asks nothing |
| AdminSubscriberTagPost.Tagged | gyl-admin-subscriber-tag-post/index.js:76-94 | the indexed tags with the tag appended unless present |
| AdminSubscriberTagPost.Enrolment | gyl-admin-subscriber-tag-post/index.js:113-158 | an item only when the record and a start step exist |
| AdminSubscriberTagPost.PostRefuses | gyl-admin-subscriber-tag-post/index.js:39-57 | a refused body answers 500 and an unknown address 404; nothing written |
| AdminSubscriberTagPost.TaggedHasTag | gyl-admin-subscriber-tag-post/index.js:76-94 | the tag is there afterwards; a present tag writes nothing; a new one is appended and nothing else changes |
| AdminSubscriberTagPost.EnrolmentShape | gyl-admin-subscriber-tag-post/index.js:113-158 | exactly the requested enrolment, a fresh pending item of the subscriber carrying the record read back |
| AdminSubscriberTagPost.PostTagsAndEnrols | gyl-admin-subscriber-tag-post/index.js:165-182 | 200, the tag set, and the enrolment even when the tag was already there |
| AdminSubscriberTagPost.PostKeepsKeys | gyl-admin-subscriber-tag-post/index.js:161-187 | every outcome keeps each record under its own key |
| AdminSubscriberTagPost.AddTagTo | gyl-admin-subscriber-tag-post/index.js:76-94 | the update reaches `Tagged` |
| AdminSubscriberTagPost.Handle | gyl-admin-subscriber-tag-post/index.js:161-187 | the handler's answer and tables are those of `Post` |
| AdminSubscriberTagAdd.PostCases | gyl-admin-subscriber-tag-add/index.js:60-92 | 400 without a request, 500 for a refused body, 404 for an unknown address, 500 for a record without tags, else 200; only a new tag writes, appended, nothing else changes |
| AdminSubscriberTagAdd.PostTwice | gyl-admin-subscriber-tag-add/index.js:60-65 | adding the same tag again writes nothing |
| AdminSubscriberTagAdd.PostKeepsKeys | gyl-admin-subscriber-tag-add/index.js:79-94 | every outcome keeps each record under its own key |
| AdminSubscriberTagAdd.Handle | gyl-admin-subscriber-tag-add/index.js:66-76 | `slice`, `push` and the update reach the tables of `Post` |
| AdminSubscriberUntagPost.PostUntags | gyl-admin-subscriber-untag-post/index.js:63-89 | 200; only `tags` changes, losing one occurrence with the rest in order; an absent tag writes nothing |
| AdminSubscriberUntagPost.PostRefuses | gyl-admin-subscriber-untag-post/index.js:50-57 | a refused body or unknown address answers 500 and writes nothing |
| AdminSubscriberUntagPost.PostKeepsKeys | gyl-admin-subscriber-untag-post/index.js:84-94 | every outcome keeps each record under its own key |
| AdminSubscriberUntagPost.Handle | gyl-admin-subscriber-untag-post/index.js:63-81 | `indexOf` and `splice` on a copy, then the update, reach the tables of `Post` |
| AdminAutoresponderTrigger.ParseSubscriberInfo | gyl-admin-autoresponder-trigger/index.js:8-13 | a valid `email`, an optional GUID `subscriberId`, no other key |
| AdminAutoresponderTrigger.FullSubscriber | gyl-admin-autoresponder-trigger/index.js:33-68 | by id when given, else the first index entry looked up by its id |
| AdminAutoresponderTrigger.ParseTrigger | gyl-admin-autoresponder-trigger/index.js:16-26 | `autoresponder` with ids holding a letter or digit somewhere, no other key |
| AdminAutoresponderTrigger.StepName | gyl-admin-autoresponder-trigger/index.js:104 | the named step, `Start` by default |
| AdminAutoresponderTrigger.StepNamed | gyl-admin-autoresponder-trigger/index.js:98-114 | the named step, with the setting's `autoresponderId`, exactly when the setting holds an autoresponder with that step |
| AdminAutoresponderTrigger.DefaultStepIsStart | gyl-admin-autoresponder-trigger/index.js:104 | without a step name the start step of the other enrolments runs |
| AdminAutoresponderTrigger.RunTriggerItem | gyl-admin-autoresponder-trigger/index.js:115-136 | the step overlaid with a fresh pending placement now, the snapshot and id, and the step name |
| AdminAutoresponderTrigger.SubscriberComesFirst | gyl-admin-autoresponder-trigger/index.js:141-148 | a body naming no subscriber answers 400 whatever the query says |
| AdminAutoresponderTrigger.TriggerRefuses | gyl-admin-autoresponder-trigger/index.js:139-153 | 500 for a refused body or query, 400 for an unknown subscriber or missing step, and no write |
| AdminAutoresponderTrigger.TriggerWrites | gyl-admin-autoresponder-trigger/index.js:115-149 | 200 and exactly one fresh pending item of the stored subscriber, running the named step now |
| AdminAutoresponderTrigger.FullSubscriberIsStored | gyl-admin-autoresponder-trigger/index.js:33-68 | the subscriber found is stored under its own id |
| AdminAutoresponderTrigger.TriggerKeepsKeys | gyl-admin-autoresponder-trigger/index.js:139-153 | every outcome keeps each record under its own key |
| AdminAutoresponderTrigger.Handle | gyl-admin-autoresponder-trigger/index.js:139-153 | the handler's answer and tables are those of `Trigger` |
| AdminSubscriberEmailPost.ParseEmailBody | gyl-admin-subscriber-email-post/index.js:9-12 | a lower-cased UUID `subscriberId` and a valid `email`, nothing else |
| AdminSubscriberEmailPost.DisplayEmail | gyl-admin-subscriber-email-post/index.js:46-59 | empty when the typed address is lower case, else the typed address |
| AdminSubscriberEmailPost.ReaddressedItems | gyl-admin-subscriber-email-post/index.js:61-102 | only the two address fields of listed pending items change; a complete answer re-addresses every pending item |
| AdminSubscriberEmailPost.PostRefuses | gyl-admin-subscriber-email-post/index.js:24-28 | a refused body answers 500 and an unknown id 404; nothing written |
| AdminSubscriberEmailPost.PostChangesAddress | gyl-admin-subscriber-email-post/index.js:33-59 | the same address writes nothing; a new one is stored lower-cased with the typed form kept exactly when it differs, nothing else changes |
| AdminSubscriberEmailPost.PostTwice | gyl-admin-subscriber-email-post/index.js:33-42 | asking again for the address just set writes nothing |
| AdminSubscriberEmailPost.PostKeepsKeys | gyl-admin-subscriber-email-post/index.js:14-124 | every outcome keeps each record under its own key |
| AdminSubscriberEmailPost.ReaddressAll | gyl-admin-subscriber-email-post/index.js:62-105 | the updates one after another reach `Readdressed` |
| AdminSubscriberEmailPost.Handle | gyl-admin-subscriber-email-post/index.js:14-124 | the handler's answer and tables are those of `Post` |
| AdminSubscribersPost.ParseImportItem | gyl-admin-subscribers-post/index.js:32-63 | accepted exactly for an object with a valid `email`, none of `displayEmail`, `confirmationToken`, `subscriberId`, a known zone, a delivery time and tags the shared schema accepts (digit-string hours and minutes converted), and `joined` any number Joi accepts; every undeclared key kept |
| AdminSubscribersPost.ParseImport | gyl-admin-subscribers-post/index.js:32-63 | `opts` with only `overwriteExisting`, 1 to 25 valid subscribers |
| AdminSubscribersPost.DefaultsUnreachable | gyl-admin-subscribers-post/index.js:29-31 | a request naming either default is refused, so both defaults are always missing |
| AdminSubscribersPost.ImportRecords | gyl-admin-subscribers-post/index.js:92-120 | one record per subscriber, in order |
| AdminSubscribersPost.ImportRecordsShape | gyl-admin-subscribers-post/index.js:92-120 | each record: the lower-cased and typed address, drawn id and token, `confirmed` as given else `true`, `unsubscribed` as given when truthy else `false`, the join time given (when non-zero) else now, the tags attribute as given, and every undeclared key of the item |
| AdminSubscribersPost.PutSubscribersStores | gyl-admin-subscribers-post/index.js:113-121 | with distinct ids every record is stored under its id and every other record stays |
| AdminSubscribersPost.PutSubscribersKeyed | gyl-admin-subscribers-post/index.js:113-121 | the puts keep every record under its own key |
| AdminSubscribersPost.PostCases | gyl-admin-subscribers-post/index.js:80-127 | 500 and no write for a refused request or no overwrite; otherwise 200 and every subscriber stored |
| AdminSubscribersPost.Handle | gyl-admin-subscribers-post/index.js:80-127 | the handler's answer and tables are those of `Post` |
| AdminSubscriberDelete.RequestedId | gyl-admin-subscriber-delete/index.js:29-32 | the id when it is a v4 UUID; a missing one is tested as `undefined` |
| AdminSubscriberDelete.AsWrittenKeepsPending | gyl-admin-subscriber-delete/index.js:47 | as written, a subscriber with a pending item answers 500 and keeps its record and items |
| AdminSubscriberDelete.DeleteRefuses | gyl-admin-subscriber-delete/index.js:29-32 | no query answers 500, a malformed id 400; nothing deleted |
| AdminSubscriberDelete.DeleteRemovesAll | gyl-admin-subscriber-delete/index.js:47-66 | 204, the record gone, only pending items of the subscriber deleted, none left with a complete answer |
| AdminSubscriberDelete.DeleteKeepsKeys | gyl-admin-subscriber-delete/index.js:27-71 | every outcome keeps each record under its own key |
| AdminSubscriberDelete.Handle | gyl-admin-subscriber-delete/index.js:27-71 | the corrected handler reaches the answer and tables of `Delete` |
| AdminSubscriberRemoveQueueItems.ShippedRunOnlyLogs | gyl-admin-subscriber-remove-queue-items/index.js:66 | as shipped, the script only logs `No email provided` |
| AdminSubscriberRemoveQueueItems.RemoveCases | gyl-admin-subscriber-remove-queue-items/index.js:10-59 | the three errors delete nothing; otherwise only the subscriber's pending items leave, none left with a complete answer |
| AdminSubscriberRemoveQueueItems.Run | gyl-admin-subscriber-remove-queue-items/index.js:8-64 | the run reaches the error and queue of `Remove` |
| AdminListPost.ValidateName | gyl-admin-list-post/index.js:27-37 | no message exactly for a non-empty string of at most 64 characters |
| AdminListPost.ValidateSourceEmail | gyl-admin-list-post/index.js:39-65 | no message exactly for `null`, a labelled address within 256, or a bare address within 254 characters |
| AdminListPost.CheckListAccepts | gyl-admin-list-post/index.js:70-81 | accepted exactly when the keys are `id`, `name` and `sourceEmail`, each valid |
| AdminListPost.UpsertedCases | gyl-admin-list-post/index.js:91-108 | a listed id: same lists with only its first entry changed in name and source; a new id: the lists then the new entry |
| AdminListPost.UpsertedFinds | gyl-admin-list-post/index.js:91-108 | afterwards the first entry with the id carries the name and source asked for |
| AdminListPost.UpsertedCarries | gyl-admin-list-post/index.js:91-108 | the entry found after the upsert has the request's name and source |
| AdminListPost.UpsertedIdempotent | gyl-admin-list-post/index.js:91-108 | upserting the same request again changes nothing |
| AdminListPost.PostCases | gyl-admin-list-post/index.js:82-142 | a refused body writes nothing; `List updated` exactly when listed; a missing setting counts as no lists; nothing else changes |
| AdminListPost.PostCreates | gyl-admin-list-post/index.js:106-128 | a new id answers `List created` and appends the entry |
| AdminListPost.PostTwice | gyl-admin-list-post/index.js:91-128 | posting the same list twice leaves the lists as the first post did |
| AdminListPost.Handle | gyl-admin-list-post/index.js:67-143 | the handler's answer and settings are those of `Post` |
| AdminListDelete.CheckId | gyl-admin-list-delete/index.js:27-35 | accepted exactly for a body of one key whose `id` is valid |
| AdminListDelete.CheckIdObject | gyl-admin-list-delete/index.js:30-33 | an object is accepted exactly when `id` is its only key and valid |
| AdminListDelete.Without | gyl-admin-list-delete/index.js:60 | `splice(i, 1)`: the entries before and after `i`, in order |
| AdminListDelete.DeleteRefuses | gyl-admin-list-delete/index.js:40-58 | a refused body, a missing or non-array setting, or an unlisted id changes nothing |
| AdminListDelete.DeleteRemovesFirst | gyl-admin-list-delete/index.js:60-80 | `List deleted`, exactly the first entry with the id gone, order kept, no other setting changed |
| AdminListDelete.DeleteShrinks | gyl-admin-list-delete/index.js:60-80 | a delete removes one entry and adds none |
| AdminListDelete.CreateThenDelete | gyl-admin-list-delete/index.js:60-80 | creating a list under a new id and deleting it gives the settings back |
| AdminListDelete.Handle | gyl-admin-list-delete/index.js:27-94 | the handler's answer and settings are those of `Delete` |
| AdminBroadcastPost.Accepted | gyl-admin-broadcast-post/index.js:55-61 | the validated broadcast of a parsed body |
| AdminBroadcastPost.PostRefuses | gyl-admin-broadcast-post/index.js:55-91 | only an accepted body, an existing template and no running broadcast lead to a write; a running broadcast answers 500 |
| AdminBroadcastPost.PostWrites | gyl-admin-broadcast-post/index.js:77-84 | `pendingBroadcast` holds the validated broadcast, which validates to itself; no other setting changes |
| AdminBroadcastPost.Handle | gyl-admin-broadcast-post/index.js:53-92 | the handler's answer and settings are those of `Post` |
| AdminBroadcastStart.Input | gyl-admin-broadcast-start/index.js:20-29 | a body that does not parse reads as `null` |
| AdminBroadcastStart.StartCases | gyl-admin-broadcast-start/index.js:53-79 | refusals answer 500 and write nothing; otherwise `pendingBroadcast` holds the validated broadcast and the answer is `OK` |
| AdminBroadcastStart.StartWhileBusy | gyl-admin-broadcast-start/index.js:53-79 | a running broadcast does not stop this endpoint |
| AdminBroadcastStart.Handle | gyl-admin-broadcast-start/index.js:53-79 | the handler's answer and settings are those of `Start` |
| AdminSubscriberCountPost.StringList | gyl-admin-subscriber-count-post/index.js:17-26 | an array of strings is kept, one with a non-string is refused, a non-array is empty |
| AdminSubscriberCountPost.Properties | gyl-admin-subscriber-count-post/index.js:37-46 | an object of strings is kept, `null` or another object refused, a non-object is `null` |
| AdminSubscriberCountPost.InteractionsOf | gyl-admin-subscriber-count-post/index.js:47-51 | an array kept, anything else `null` |
| AdminSubscriberCountPost.StringListOfArray | gyl-admin-subscriber-count-post/index.js:17-26 | a list written as an array reads back as itself |
| AdminSubscriberCountPost.PreviewValue | gyl-admin-subscriber-count-post/index.js:59-76 | status `triggered`, count 0, and the tags, excluded tags, properties and interactions asked for |
| AdminSubscriberCountPost.NormaliseCases | gyl-admin-subscriber-count-post/index.js:15-58 | each normalisation rule, with the unvalidated flags passed on |
| AdminSubscriberCountPost.PreviewRoundTrip | gyl-admin-subscriber-count-post/index.js:59-76 | the stored value posted back gives the same selection |
| AdminSubscriberCountPost.NullPropertiesNotReposted | gyl-admin-subscriber-count-post/index.js:37-46 | a selection whose properties became `null` is refused when posted back |
| AdminSubscriberCountPost.CountCases | gyl-admin-subscriber-count-post/index.js:59-82 | an accepted body writes the selection with `triggered` and 0, nothing else |
| AdminSubscriberCountPost.Handle | gyl-admin-subscriber-count-post/index.js:5-89 | the handler's answer and settings are those of `Count` |
| AdminAnalyticsGet.BucketStamp | gyl-admin-analytics-get/index.js:7-9 | a multiple of 900000 in `(t, t + 900000]` |
| AdminAnalyticsGet.SameBucket | gyl-admin-analytics-get/index.js:7-9 | two times share a bucket exactly when they share a quarter hour |
| AdminAnalyticsGet.Bump | gyl-admin-analytics-get/index.js:46-51 | the bucket holds one more, or 1 when it was empty |
| AdminAnalyticsGet.AddOne | gyl-admin-analytics-get/index.js:59-63 | `+= 1` on a missing or NaN count gives NaN |
| AdminAnalyticsGet.TallyExact | gyl-admin-analytics-get/index.js:46-81 | each map lists every bucket with its exact count, and none is NaN |
| AdminAnalyticsGet.SendsCounted | gyl-admin-analytics-get/index.js:46-51 | every item counts as a send in the bucket of its last attempt |
| AdminAnalyticsGet.AsWrittenAgrees | gyl-admin-analytics-get/index.js:52-81 | without a click lacking an open, the tally as written is the tally as meant |
| AdminAnalyticsGet.ClickOnlyOpensNaN | gyl-admin-analytics-get/index.js:59-63 | one item clicked but not opened gives NaN opens as written, where one open is meant |
| AdminAnalyticsGet.Checked | gyl-admin-analytics-get/index.js:14-20 | no query string answers 500; the checks pass exactly when both parameters are present and non-empty |
| AdminAnalyticsGet.Handle | gyl-admin-analytics-get/index.js:11-98 | the loop's report is `Get`'s, counting every item exactly |
| EcosystemAnalytics.Add | gyl-ecosystem-analytics/index.js:37-46 | a point added to zero counters gives the point's own counters |
| EcosystemAnalytics.SummariseSums | gyl-ecosystem-analytics/index.js:30-46 | exactly the hours of the points other than the current one, each with the sums of its points' counters |
| EcosystemAnalytics.SumAbsent | gyl-ecosystem-analytics/index.js:37-46 | an hour no point falls in sums to zero |
| EcosystemAnalytics.CollectCases | gyl-ecosystem-analytics/index.js:13-27 | stops before any call without configuration, after SES without data, else posts the sums |
| EcosystemAnalytics.Run | gyl-ecosystem-analytics/index.js:11-60 | the job's outcome is `Collect`'s, its statistics recorded one point at a time |
| ApiAuthorizer.ApiPrefix | gyl-api-authorizer/index.js:12-15 | the ARN up to its first `/`, holding no `/` |
| ApiAuthorizer.AuthKey | gyl-api-authorizer/index.js:40 | the first of the three headers that is present and non-empty |
| ApiAuthorizer.DecisionTable | gyl-api-authorizer/index.js:38-69 | allowed exactly for a usable admin key, or the subscribe key on the subscribe endpoint; a missing key is an admin-shaped Deny |
| ApiAuthorizer.AdminResourceCovers | gyl-api-authorizer/index.js:12-15 | the admin resource is the ARN cut at its first slash followed by `/*` |
| ApiAuthorizer.LowerCaseHeaderFirst | gyl-api-authorizer/index.js:40 | the lower-case header wins over the other spellings |
| AdminSingleEmailSendPost.BodyOf | gyl-admin-single-email-send-post/index.js:8-36 | none exactly for a `null` body |
| AdminSingleEmailSendPost.BodyCases | gyl-admin-single-email-send-post/index.js:8-36 | HTML only and trimmed for a string with `html>`, text only for another string, the truthy parts of an object, nothing else |
| AdminSingleEmailSendPost.HtmlResent | gyl-admin-single-email-send-post/index.js:9-15 | the HTML part sent again as the body gives the same part |
| AdminSingleEmailSendPost.Source | gyl-admin-single-email-send-post/index.js:42 | `fromEmailAddress` when truthy, else the configured address |
| AdminSingleEmailSendPost.SendCases | gyl-admin-single-email-send-post/index.js:38-71 | `OK` exactly when the body parses, its `body` is not `null` and SES accepts; the message's fields as given |
| AdminTemplatePost.ToJsString | gyl-admin-template-post/index.js:34-48 | a string is written as itself inside the template literal |
| AdminTemplatePost.WrapHtmlPartEnds | gyl-admin-template-post/index.js:34-48 | the wrapped part opens with `<!DOCTYPE html>` and closes with `</html>` |
| AdminTemplatePost.WrapHtmlPartTitle | gyl-admin-template-post/index.js:39 | the subject stands between `<title>` and `</title>` right after the head |
| AdminTemplatePost.WrapHtmlPartBody | gyl-admin-template-post/index.js:43-45 | the body stands unchanged inside the `div`, followed by `</div>` |
| AdminTemplatePost.WrapHtmlPartInjective | gyl-admin-template-post/index.js:34-48 | for subjects of equal length, subject and body are read back from the wrapped part |
| AdminTemplatePost.TemplatePassesThrough | gyl-admin-template-post/index.js:56-65 | name, subject and text pass unchanged; only the HTML part is wrapped |
| AdminTemplatePost.MissingPartsWriteUndefined | gyl-admin-template-post/index.js:56-65 | a missing subject or body is written as `undefined` |
| AdminTemplatePost.PostCases | gyl-admin-template-post/index.js:86-97 | a non-JSON or falsy body answers 400 and asks nothing; otherwise SES is asked to save the template, 200 when saved and 500 when not |

## Left out

- The AWS SDK calls are not modelled. DynamoDB, SES, Lambda configuration and the `needle` POST are modelled as table maps and input answers. The paging and retries of `queryAllForDynamoDB` and `writeAllForDynamoDB` are not modelled.
- The DocumentClient's dropping of `undefined` attributes is not modelled.
- PublicSubscriberPost.Post, AdminSubscriberPost.Post, AdminSubscriberAdd.Post: every confirmation or trigger e-mail is assumed accepted by SES. In the source the send is awaited after the record is written, so a refused send answers 500 with the record already stored. The model has no input for that outcome, so a new address always answers 200. The same holds for `PostAddsNew`, `DispatchAddsNew` and `PostFailsCleanly`, which cover the refusals made before any write.
- Model.Assign: a body key that names a record attribute but holds a value of another type (a string `joined`, a negative `lastOpen`, any `unsubscribeToken`) is not stored. The record's attributes have fixed types in the model. A key that names no attribute is stored as given.
- Model.TagsAttribute: a `null` tags value is stored as a missing attribute. Every reader treats the two alike: `tags || []` gives the empty list for both, and an unguarded `tags.indexOf`, `tags.slice` or `tags.filter` throws for both.
- Js.ToLower folds only the ASCII letters. `toLocaleLowerCase` and Joi's `lowercase()` fold every Unicode letter.
- Requests.LowerEmail inherits that ASCII-only folding. Two addresses that differ only in a non-ASCII letter's case are different addresses in the model.
- Requests.ParseTags, Requests.ParseTagBody, PublicSubscriberUnsubscribePost.ListIdsOk, ListSettings.ValidateId, AdminListPost.ValidateName, AdminListPost.ValidateSourceEmail and AdminSubscriberRemoveQueueItems.Remove: the length limits (64, 26, 254 and 256) count characters. JavaScript counts UTF-16 code units, so a string with a character outside the Basic Multilingual Plane is longer in the source than in the model.
- Time-zone conversion is a parameter (`project`), not an implementation. Time-zone validity, Joi's `.email()`, `.guid()` and `.uuid()`, and bcrypt are boolean inputs.
- Randomness enters as parameters: `uuid.v4`, the `Math.random()` fraction of queue keys, and `crypto.randomBytes`. Whether keys are collision-free is a question of probability and is not stated.
- Concurrency is modelled as sequential calls. This covers the worker pool of the e-mail change, the `Promise.all` of the interaction and bounce handlers, and read-then-write races.
- Joi's error messages are not modelled. A refusal answers with an empty message.
- Joi's number conversion is limited to strings of decimal digits. Signs, decimals and exponents are not modelled.
- The messages of Joi refusals and of runtime errors (a body that is not JSON, a `TypeError`) are left out. Those refusals answer with their status code and an empty body. The texts the handlers write themselves, such as `Subscriber not found`, `Server error`, `Not found`, `Error` and the 403 token messages, are kept. The one uncaught throw, subscriber-confirm's read of a missing query string, is modelled as an invocation without an answer; what API Gateway then sends is not modelled.
- Headers, content types and logging are left out. The analytics report is held as its three maps, not as its JSON text.
- Objects inside the unsubscribe page parameters are written as `{}`. Only their key order would matter, and the model does not keep key order.
- The hour ids of the ecosystem statistics are inputs. Their ISO formatting is not modelled.
- Analytics items without `lastAttempt` are not modelled. Every item counts as a send.
- Table name prefixes are not modelled, nor are the unprefixed names some handlers use.
- `ApiAuthorizer`: an undefined `methodArn` is not modelled. The ARN is always a string.
- `AdminBroadcastStart.Handle` and `AdminBroadcastPost.Handle`: the SES template lookup is an input outcome.
- `AdminTemplatePost.Post`: the outcome of the create-then-update fallback is the input `saved`. The fallback resolves before its update finishes, so an update that fails still answers 200. That callback ordering is not modelled.
- `AdminTemplatePost.WrapHtmlPartInjective` reads subject and body back only for subjects of the same length. A subject containing `</title>` can shift the split, so injectivity for all inputs is not claimed.
- PublicSubscriberUnsubscribeGet.ParamsJson writes list entries with their name, id and sender only. Other keys of a stored list entry are not written.
- The thin handlers are not modelled: subscriber, status, history and queue reads; lists, count and e-mail-history reads; autoresponder CRUD; auto-confirm tags; the unsubscribe link; template listing, reading and deleting. They hold no logic beyond one lookup or put.
- The build and maintenance scripts are file-system and process plumbing: build-with-docker.js, set-cloud-functions-versions.js, npm-outdated-all.js, npm-upgrade-all.js, install-aws-sdk-as-peer.js.

## Findings

| source | as written | input that shows it | evidently intended | confidence | as-written member | corrected member |
|---|---|---|---|---|---|---|
| gyl-admin-subscriber-delete/index.js:47 | `queueItems` is read inside its own initialiser, which throws a ReferenceError whenever the query's `Count` is non-zero | a subscriber with one pending queue item: the answer is 500, and the item and the record stay | delete the pending items, then the record, and answer 204 | high, not executed | AdminSubscriberDelete.AsWrittenKeepsPending | AdminSubscriberDelete.DeleteRemovesAll |
| gyl-admin-analytics-get/index.js:59-63 | a click without an open does `opens[bucket] += 1` on a bucket that may be missing, which gives NaN | one item, sent at 1 and clicked at 1, never opened: `opens` holds NaN at bucket 900000 | the click counts as one open in that bucket | high, not executed | AdminAnalyticsGet.ClickOnlyOpensNaN | AdminAnalyticsGet.TallyExact |

=== FILE: admin_analytics_get.dfy ===
/**
 * The admin endpoint that reports, for one template on one day, how many
 * e-mails were sent, opened and clicked in each quarter hour. The queue
 * items of that day and template are tallied into three maps from a
 * bucket stamp to a count.
 *
 * As written, a click without an open is counted as an open of its bucket
 * by `opens[b] += 1` on both branches, so a bucket with no earlier open
 * gets `undefined + 1`, which is NaN. The tally below counts that open as
 * 1, as the code evidently means to; the tally as written is kept beside
 * it.
 */
module AdminAnalyticsGet {
  import opened Js
  import opened Model

  /** A quarter of an hour, in milliseconds. */
  const BucketWidth: nat := 900000

  /** `bucketStamp`: the end of the quarter hour a time falls in; a time on a boundary goes to the next one. */
  function BucketStamp(t: nat): (b: nat)
    ensures b % BucketWidth == 0 && t < b <= t + BucketWidth
  {
    BucketWidth + t - t % BucketWidth
  }

  /** Two times share a bucket exactly when they share a quarter hour. */
  lemma SameBucket(s: nat, t: nat)
    ensures BucketStamp(s) == BucketStamp(t) <==> s / BucketWidth == t / BucketWidth
  {
    assert BucketStamp(s) == BucketWidth * (s / BucketWidth + 1);
    assert BucketStamp(t) == BucketWidth * (t / BucketWidth + 1);
  }

  /**
   * The attributes read from a queue item: when it was last attempted, and
   * when it was clicked and opened (0 when it was not).
   */
  datatype Item = Item(lastAttempt: nat, click: nat, open: nat)

  /** What a JavaScript number under a bucket key can hold here. */
  datatype Number = Count(n: nat) | NaN

  /** A truthy count: a positive number; NaN and 0 are falsy. */
  predicate IsTruthy(t: Number) {
    t.Count? && t.n > 0
  }

  /** `if (m[b]) m[b] += 1; else m[b] = 1;` */
  function Bump(m: map<nat, Number>, b: nat): (r: map<nat, Number>)
    ensures r.Keys == m.Keys + {b}
    ensures forall k :: k in m && k != b ==> r[k] == m[k]
    ensures r[b] == if b in m && IsTruthy(m[b]) then Count(m[b].n + 1) else Count(1)
  {
    m[b := if b in m && IsTruthy(m[b]) then Count(m[b].n + 1) else Count(1)]
  }

  /** `m[b] += 1` whatever `m[b]` holds: `undefined + 1` and `NaN + 1` are NaN. */
  function AddOne(m: map<nat, Number>, b: nat): (r: map<nat, Number>)
    ensures r.Keys == m.Keys + {b}
    ensures forall k :: k in m && k != b ==> r[k] == m[k]
    ensures b !in m ==> r[b] == NaN
  {
    m[b := if b in m && m[b].Count? then Count(m[b].n + 1) else NaN]
  }

  /** The three maps of the answer. */
  datatype Report = Report(sends: map<nat, Number>, opens: map<nat, Number>, clicks: map<nat, Number>)

  /** A click without an open, the case the two tallies treat differently. */
  predicate ClickOnly(item: Item) {
    item.click != 0 && item.open == 0
  }

  /** `onEachItem` as written. */
  function StepAsWritten(r: Report, item: Item): Report {
    var sends := Bump(r.sends, BucketStamp(item.lastAttempt));
    if ClickOnly(item) then
      Report(sends, AddOne(r.opens, BucketStamp(item.click)), Bump(r.clicks, BucketStamp(item.click)))
    else
      Report(sends,
             if item.open != 0 then Bump(r.opens, BucketStamp(item.open)) else r.opens,
             if item.click != 0 then Bump(r.clicks, BucketStamp(item.click)) else r.clicks)
  }

  /** `onEachItem` as meant: a click without an open also counts as an open of the click's bucket. */
  function Step(r: Report, item: Item): Report {
    var sends := Bump(r.sends, BucketStamp(item.lastAttempt));
    if ClickOnly(item) then
      Report(sends, Bump(r.opens, BucketStamp(item.click)), Bump(r.clicks, BucketStamp(item.click)))
    else
      Report(sends,
             if item.open != 0 then Bump(r.opens, BucketStamp(item.open)) else r.opens,
             if item.click != 0 then Bump(r.clicks, BucketStamp(item.click)) else r.clicks)
  }

  const Empty: Report := Report(map[], map[], map[])

  /** The items tallied in order, as written. */
  function TallyAsWritten(items: seq<Item>): Report {
    if items == [] then Empty else StepAsWritten(TallyAsWritten(items[..|items| - 1]), items[|items| - 1])
  }

  /** The items tallied in order, as meant. */
  function Tally(items: seq<Item>): Report {
    if items == [] then Empty else Step(Tally(items[..|items| - 1]), items[|items| - 1])
  }

  /** The three things the answer counts. */
  datatype Kind = Sends | Opens | Clicks

  /** The map of the report that counts `kind`. */
  function Of(r: Report, kind: Kind): map<nat, Number> {
    match kind
    case Sends => r.sends
    case Opens => r.opens
    case Clicks => r.clicks
  }

  /**
   * The bucket an item counts in: a send in the bucket of its last attempt,
   * a click in the bucket of its click, and an open in the bucket of its
   * open or, when it was clicked unopened, of its click.
   */
  function HitBucket(item: Item, kind: Kind): Option<nat> {
    match kind
    case Sends => Some(BucketStamp(item.lastAttempt))
    case Clicks => if item.click != 0 then Some(BucketStamp(item.click)) else None
    case Opens =>
      if item.open != 0 then Some(BucketStamp(item.open))
      else if item.click != 0 then Some(BucketStamp(item.click))
      else None
  }

  /** The number of items that count as `kind` in bucket `b`. */
  function CountAt(items: seq<Item>, kind: Kind, b: nat): nat {
    if items == [] then 0
    else CountAt(items[..|items| - 1], kind, b) + if HitBucket(items[|items| - 1], kind) == Some(b) then 1 else 0
  }

  /** The map lists exactly the buckets some item counts in, each with the number of such items. */
  ghost predicate Exact(m: map<nat, Number>, items: seq<Item>, kind: Kind) {
    forall b :: (b in m <==> CountAt(items, kind, b) > 0) && (b in m ==> m[b] == Count(CountAt(items, kind, b)))
  }

  /** `m` with the bucket counted, if there is one. */
  function Tick(m: map<nat, Number>, b: Option<nat>): map<nat, Number> {
    if b.Some? then Bump(m, b.value) else m
  }

  /** One step of the tally as meant ticks each map at the item's bucket for it. */
  lemma StepTicks(r: Report, item: Item, kind: Kind)
    ensures Of(Step(r, item), kind) == Tick(Of(r, kind), HitBucket(item, kind))
  {
  }

  /** Ticking an exact map at the new item's bucket keeps it exact. */
  lemma TickExact(m: map<nat, Number>, items: seq<Item>, item: Item, kind: Kind)
    requires Exact(m, items, kind)
    ensures Exact(Tick(m, HitBucket(item, kind)), items + [item], kind)
  {
    var longer := items + [item];
    assert longer[..|longer| - 1] == items;
  }

  /** Each map of the tally as meant lists every bucket with its exact count, and no bucket is NaN. */
  lemma {:induction false} TallyExact(items: seq<Item>, kind: Kind)
    ensures Exact(Of(Tally(items), kind), items, kind)
  {
    if items != [] {
      var init := items[..|items| - 1];
      TallyExact(init, kind);
      StepTicks(Tally(init), items[|items| - 1], kind);
      TickExact(Of(Tally(init), kind), init, items[|items| - 1], kind);
      assert init + [items[|items| - 1]] == items;
    }
  }

  /** Every item counts among the sends of the bucket of its last attempt. */
  lemma {:induction false} SendsCounted(items: seq<Item>, j: nat)
    requires j < |items|
    ensures CountAt(items, Sends, BucketStamp(items[j].lastAttempt)) > 0
  {
    var init := items[..|items| - 1];
    if j < |items| - 1 {
      SendsCounted(init, j);
      assert init[j] == items[j];
    }
  }

  /** Without a click lacking an open, the tally as written is the tally as meant. */
  lemma {:induction false} AsWrittenAgrees(items: seq<Item>)
    requires forall j :: 0 <= j < |items| ==> !ClickOnly(items[j])
    ensures TallyAsWritten(items) == Tally(items)
  {
    if items != [] {
      AsWrittenAgrees(items[..|items| - 1]);
    }
  }

  /**
   * The discrepancy: one item sent and clicked but not opened gives, as
   * written, NaN opens in the click's bucket, where one open is meant.
   */
  lemma ClickOnlyOpensNaN()
    ensures TallyAsWritten([Item(1, 1, 0)]).opens[BucketWidth] == NaN
    ensures Tally([Item(1, 1, 0)]).opens[BucketWidth] == Count(1)
  {
    assert [Item(1, 1, 0)][..0] == [];
    assert BucketStamp(1) == BucketWidth;
  }

  /** The answer: a refusal, or status 200 with the three maps as its JSON body. */
  datatype Answer = Refused(response: Response) | Counted(report: Report)

  /**
   * `templateId` and `date` from the query string: a request without one
   * throws (500 `Error`), an empty or missing parameter answers 400.
   */
  function Checked(query: Option<map<string, string>>): (r: Option<Response>)
    ensures query.None? ==> r == Some(Response(500, "Error"))
    ensures r.None? <==> query.Some? && "templateId" in query.value && query.value["templateId"] != ""
                         && "date" in query.value && query.value["date"] != ""
  {
    if query.None? then Some(Response(500, "Error"))
    else if "templateId" !in query.value || query.value["templateId"] == "" || "date" !in query.value || query.value["date"] == ""
    then Some(Response(400, "Bad request"))
    else None
  }

  /** What the handler does, as meant; `items` are the queue items of that day and template. */
  function Get(query: Option<map<string, string>>, items: seq<Item>): Answer {
    if Checked(query).Some? then Refused(Checked(query).value) else Counted(Tally(items))
  }

  /** What the handler does, as written. */
  function GetAsWritten(query: Option<map<string, string>>, items: seq<Item>): Answer {
    if Checked(query).Some? then Refused(Checked(query).value) else Counted(TallyAsWritten(items))
  }

  /** The handler, as meant: the checks, then the items tallied one by one. */
  method Handle(query: Option<map<string, string>>, items: seq<Item>) returns (answer: Answer)
    ensures answer == Get(query, items)
    ensures answer.Counted? ==>
      Exact(answer.report.sends, items, Sends) && Exact(answer.report.opens, items, Opens)
      && Exact(answer.report.clicks, items, Clicks)
  {
    var refusal := Checked(query);
    if refusal.Some? {
      return Refused(refusal.value);
    }
    var sends: map<nat, Number> := map[];
    var opens: map<nat, Number> := map[];
    var clicks: map<nat, Number> := map[];
    for i := 0 to |items|
      invariant Report(sends, opens, clicks) == Tally(items[..i])
    {
      var item := items[i];
      sends := Bump(sends, BucketStamp(item.lastAttempt));
      if item.click != 0 && item.open == 0 {
        var clickBucket := BucketStamp(item.click);
        clicks := Bump(clicks, clickBucket);
        opens := Bump(opens, clickBucket);
      } else {
        if item.click != 0 {
          clicks := Bump(clicks, BucketStamp(item.click));
        }
        if item.open != 0 {
          opens := Bump(opens, BucketStamp(item.open));
        }
      }
      assert items[..i + 1][..i] == items[..i];
    }
    assert items[..|items|] == items;
    TallyExact(items, Sends);
    TallyExact(items, Opens);
    TallyExact(items, Clicks);
    answer := Counted(Report(sends, opens, clicks));
  }
}

=== FILE: admin_autoresponder_trigger.dfy ===
/**
 * The admin endpoint that starts an autoresponder for one subscriber: the
 * body names the subscriber, the query string the autoresponder and,
 * optionally, the step to run; one queue item is written that runs that
 * step now.
 */
module AdminAutoresponderTrigger {
  import opened Js
  import opened Model
  import opened Requests
  import opened Patterns
  import opened Scheduling

  /** A reference to a subscriber: an address and an id (`""` when absent). */
  datatype SubscriberRef = SubscriberRef(email: string, subscriberId: string)

  /**
   * `subscriberSchema`: an object with a valid `email` and, optionally, a
   * `subscriberId` Joi accepts as a GUID, and no other key; `emailOk` and
   * `guidOk` are Joi's verdicts on the two strings.
   */
  function ParseSubscriberInfo(body: Option<JsVal>, emailOk: bool, guidOk: bool): (r: Option<SubscriberRef>)
    ensures r.Some? <==>
      body.Some? && OnlyKeys(body.value, {"email", "subscriberId"})
      && IsNonEmptyString(Field(body.value, "email")) && emailOk
      && (Field(body.value, "subscriberId") == Undefined || (IsNonEmptyString(Field(body.value, "subscriberId")) && guidOk))
    ensures r.Some? ==> Field(body.value, "email") == Str(r.value.email)
    ensures r.Some? && Field(body.value, "subscriberId") == Undefined ==> r.value.subscriberId == ""
    ensures r.Some? && Field(body.value, "subscriberId") != Undefined ==>
      r.value.subscriberId != "" && Field(body.value, "subscriberId") == Str(r.value.subscriberId)
  {
    if body.None? || !OnlyKeys(body.value, {"email", "subscriberId"}) then None
    else
      var email := Field(body.value, "email");
      var id := Field(body.value, "subscriberId");
      if !IsNonEmptyString(email) || !emailOk then None
      else if id == Undefined then Some(SubscriberRef(email.s, ""))
      else if IsNonEmptyString(id) && guidOk then Some(SubscriberRef(email.s, id.s))
      else None
  }

  /**
   * `getFullSubscriber`: by id when the reference has one; otherwise the
   * first entry the e-mail index lists for the address, looked up again by
   * its id. `index` is that first entry (none when the index lists nothing).
   * The address is used as given, without lower-casing.
   */
  function FullSubscriber(subscribers: map<string, Subscriber>, ref: SubscriberRef, index: Option<Subscriber>): (r: Option<Subscriber>)
    decreases if ref.subscriberId != "" then 0 else 1
    ensures ref.subscriberId != "" ==>
      r == (if ref.subscriberId in subscribers then Some(subscribers[ref.subscriberId]) else None)
    ensures ref.subscriberId == "" ==>
      r == (if index.Some? && index.value.subscriberId != "" && index.value.subscriberId in subscribers
            then Some(subscribers[index.value.subscriberId]) else None)
  {
    if ref.subscriberId != "" then
      if ref.subscriberId in subscribers then Some(subscribers[ref.subscriberId]) else None
    else if index.None? || index.value.subscriberId == "" then None
    else FullSubscriber(subscribers, SubscriberRef(index.value.email, index.value.subscriberId), index)
  }

  /** What the query asks for: an autoresponder, and the step to run when it names one. */
  datatype TriggerRequest = TriggerRequest(triggerId: string, triggerStep: Option<string>)

  /**
   * `triggerSchema`: `triggerType` is `autoresponder`, `triggerId` and the
   * optional `triggerStep` contain a letter or a digit somewhere (the
   * patterns are not anchored), and there is no other key. A request
   * without a query string fails: Joi refuses `null` for an object.
   */
  function ParseTrigger(query: Option<map<string, string>>): (r: Option<TriggerRequest>)
    ensures r.Some? <==>
      query.Some? && query.value.Keys <= {"triggerType", "triggerId", "triggerStep"}
      && "triggerType" in query.value && query.value["triggerType"] == "autoresponder"
      && "triggerId" in query.value && HasAlnum(query.value["triggerId"])
      && ("triggerStep" in query.value ==> HasAlnum(query.value["triggerStep"]))
    ensures r.Some? ==>
      r.value.triggerId == query.value["triggerId"]
      && (r.value.triggerStep.Some? <==> "triggerStep" in query.value)
      && (r.value.triggerStep.Some? ==> r.value.triggerStep.value == query.value["triggerStep"])
  {
    if query.None? then None
    else
      var q := query.value;
      if q.Keys <= {"triggerType", "triggerId", "triggerStep"}
         && "triggerType" in q && q["triggerType"] == "autoresponder"
         && "triggerId" in q && HasAlnum(q["triggerId"])
         && ("triggerStep" in q ==> HasAlnum(q["triggerStep"]))
      then Some(TriggerRequest(q["triggerId"], if "triggerStep" in q then Some(q["triggerStep"]) else None))
      else None
  }

  /** `trigger.triggerStep || 'Start'`. */
  function StepName(trigger: TriggerRequest): (name: string)
    ensures trigger.triggerStep.None? ==> name == "Start"
    ensures trigger.triggerStep.Some? && trigger.triggerStep.value != "" ==> name == trigger.triggerStep.value
  {
    if trigger.triggerStep.Some? && trigger.triggerStep.value != "" then trigger.triggerStep.value else "Start"
  }

  /**
   * The step `name` of `autoresponder-<id>`, with the `autoresponderId`
   * attribute of the setting: none when the setting is missing or holds no
   * such step.
   */
  function StepNamed(settings: map<string, SettingItem>, autoresponderId: string, name: string): (r: Option<(string, Step)>)
    ensures r.Some? <==>
      "autoresponder-" + autoresponderId in settings
      && settings["autoresponder-" + autoresponderId].value.AutoresponderDef?
      && name in settings["autoresponder-" + autoresponderId].value.autoresponder.steps
    ensures r.Some? ==>
      var item := settings["autoresponder-" + autoresponderId];
      r.value == (item.autoresponderId, item.value.autoresponder.steps[name])
  {
    var key := "autoresponder-" + autoresponderId;
    if key in settings && settings[key].value.AutoresponderDef? && name in settings[key].value.autoresponder.steps
    then Some((settings[key].autoresponderId, settings[key].value.autoresponder.steps[name]))
    else None
  }

  /** Without a step name the trigger runs the same start step the other enrolments run. */
  lemma DefaultStepIsStart(settings: map<string, SettingItem>, autoresponderId: string)
    ensures StepNamed(settings, autoresponderId, "Start").Some? <==> StartStep(settings, autoresponderId).Some?
    ensures StepNamed(settings, autoresponderId, "Start").Some? ==>
      StepNamed(settings, autoresponderId, "Start").value.1 == StartStep(settings, autoresponderId).value
  {
  }

  /**
   * One invocation: the request; Joi's verdicts on the address and on the
   * id; the first entry the e-mail index lists for the address; the clock
   * and the random fraction of the queue key.
   */
  datatype Call = Call(request: Request, emailOk: bool, guidOk: bool, index: Option<Subscriber>, now: nat, random: string)

  /** `runTrigger`: the item written, or the refusal when there is no such step. */
  function RunTrigger(settings: map<string, SettingItem>, trigger: TriggerRequest, subscriber: Subscriber, now: nat, random: string)
    : (r: Option<QueueItem>)
  {
    var found := StepNamed(settings, trigger.triggerId, StepName(trigger));
    if found.None? then None
    else Some(EnrolmentItem(found.value.1, subscriber, found.value.0, StepName(trigger), now, random))
  }

  /** What the handler does. */
  function Trigger(subscribers: map<string, Subscriber>, queue: map<QueueKey, QueueItem>, settings: map<string, SettingItem>,
                   call: Call): Outcome
  {
    var info := ParseSubscriberInfo(call.request.body, call.emailOk, call.guidOk);
    if info.None? then NoChange(Response(500, ""), subscribers, queue)
    else
      var subscriber := FullSubscriber(subscribers, info.value, call.index);
      if subscriber.None? then NoChange(Response(400, JsonString("Subscriber not found")), subscribers, queue)
      else
        var trigger := ParseTrigger(call.request.query);
        if trigger.None? then NoChange(Response(500, ""), subscribers, queue)
        else
          var item := RunTrigger(settings, trigger.value, subscriber.value, call.now, call.random);
          if item.None? then NoChange(Response(400, JsonString("Autoresponder not found")), subscribers, queue)
          else Outcome(Response(200, JsonString("OK")), subscribers, queue[item.value.key := item.value], [], [item.value])
  }

  /**
   * The item written: the step overlaid with a fresh pending placement that
   * runs now, the subscriber's snapshot and id, the setting's
   * `autoresponderId` and the step name.
   */
  lemma RunTriggerItem(settings: map<string, SettingItem>, trigger: TriggerRequest, subscriber: Subscriber, now: nat, random: string)
    ensures var r := RunTrigger(settings, trigger, subscriber, now, random);
      var found := StepNamed(settings, trigger.triggerId, StepName(trigger));
      (r.Some? <==> found.Some?)
      && (r.Some? ==>
            FreshPending(r.value) && IsPendingFor(r.value, subscriber.subscriberId) && r.value.runAt == now
            && r.value.subscriber == subscriber && r.value.step == found.value.1
            && r.value.autoresponderId == found.value.0 && r.value.autoresponderStep == StepName(trigger))
  {
  }

  /**
   * The subscriber is resolved before the query is looked at: a body that
   * names no subscriber is refused with 400 whatever the query says, and
   * nothing is written.
   */
  lemma SubscriberComesFirst(subscribers: map<string, Subscriber>, queue: map<QueueKey, QueueItem>, settings: map<string, SettingItem>,
                             call: Call, query: Option<map<string, string>>)
    requires ParseSubscriberInfo(call.request.body, call.emailOk, call.guidOk).Some?
    requires FullSubscriber(subscribers, ParseSubscriberInfo(call.request.body, call.emailOk, call.guidOk).value, call.index).None?
    ensures Trigger(subscribers, queue, settings, call)
         == Trigger(subscribers, queue, settings, call.(request := call.request.(query := query)))
         == NoChange(Response(400, JsonString("Subscriber not found")), subscribers, queue)
  {
  }

  /**
   * The refusals: 500 for a refused body or query, 400 for an unknown
   * subscriber or a missing step; none of them writes anything.
   */
  lemma TriggerRefuses(subscribers: map<string, Subscriber>, queue: map<QueueKey, QueueItem>, settings: map<string, SettingItem>,
                       call: Call)
    ensures var r := Trigger(subscribers, queue, settings, call);
      var info := ParseSubscriberInfo(call.request.body, call.emailOk, call.guidOk);
      var trigger := ParseTrigger(call.request.query);
      (info.None? ==> r == NoChange(Response(500, ""), subscribers, queue))
      && (info.Some? && FullSubscriber(subscribers, info.value, call.index).None? ==>
            r == NoChange(Response(400, JsonString("Subscriber not found")), subscribers, queue))
      && (info.Some? && FullSubscriber(subscribers, info.value, call.index).Some? && trigger.None? ==>
            r == NoChange(Response(500, ""), subscribers, queue))
      && (info.Some? && FullSubscriber(subscribers, info.value, call.index).Some? && trigger.Some?
          && StepNamed(settings, trigger.value.triggerId, StepName(trigger.value)).None? ==>
            r == NoChange(Response(400, JsonString("Autoresponder not found")), subscribers, queue))
  {
  }

  /**
   * Otherwise the answer is 200 and exactly one item is written: a fresh
   * pending item of the subscriber as stored, running the named step now;
   * the Subscribers table does not change.
   */
  lemma TriggerWrites(subscribers: map<string, Subscriber>, queue: map<QueueKey, QueueItem>, settings: map<string, SettingItem>,
                      call: Call)
    requires Keyed(subscribers, queue)
    ensures var r := Trigger(subscribers, queue, settings, call);
      var info := ParseSubscriberInfo(call.request.body, call.emailOk, call.guidOk);
      var trigger := ParseTrigger(call.request.query);
      r.subscribers == subscribers && r.emails == []
      && (r.response.statusCode == 200 <==>
            info.Some? && FullSubscriber(subscribers, info.value, call.index).Some? && trigger.Some?
            && StepNamed(settings, trigger.value.triggerId, StepName(trigger.value)).Some?)
      && (r.response.statusCode == 200 ==>
            var s := FullSubscriber(subscribers, info.value, call.index).value;
            r.response == Response(200, JsonString("OK"))
            && |r.enqueued| == 1 && r.queue == queue[r.enqueued[0].key := r.enqueued[0]]
            && s.subscriberId in subscribers && s == subscribers[s.subscriberId]
            && FreshPending(r.enqueued[0]) && IsPendingFor(r.enqueued[0], s.subscriberId)
            && r.enqueued[0].subscriber == s && r.enqueued[0].runAt == call.now
            && r.enqueued[0].autoresponderStep == StepName(trigger.value))
  {
    var info := ParseSubscriberInfo(call.request.body, call.emailOk, call.guidOk);
    var trigger := ParseTrigger(call.request.query);
    if info.Some? && FullSubscriber(subscribers, info.value, call.index).Some? && trigger.Some? {
      FullSubscriberIsStored(subscribers, queue, info.value, call.index);
      RunTriggerItem(settings, trigger.value, FullSubscriber(subscribers, info.value, call.index).value, call.now, call.random);
    }
  }

  /** The subscriber found is a record of the table, under its own id. */
  lemma FullSubscriberIsStored(subscribers: map<string, Subscriber>, queue: map<QueueKey, QueueItem>, ref: SubscriberRef, index: Option<Subscriber>)
    requires Keyed(subscribers, queue)
    ensures var r := FullSubscriber(subscribers, ref, index);
      r.Some? ==> r.value.subscriberId in subscribers && subscribers[r.value.subscriberId] == r.value
  {
  }

  /** Every outcome keeps each record under its own key. */
  lemma TriggerKeepsKeys(subscribers: map<string, Subscriber>, queue: map<QueueKey, QueueItem>, settings: map<string, SettingItem>, call: Call)
    requires Keyed(subscribers, queue)
    ensures Keyed(Trigger(subscribers, queue, settings, call).subscribers, Trigger(subscribers, queue, settings, call).queue)
  {
  }

  /** The handler: validate the body, resolve the subscriber, validate the query, write the item. */
  method Handle(store: Store, call: Call) returns (response: Response, enqueued: seq<QueueItem>)
    requires store.Valid()
    modifies store
    ensures store.Valid() && store.settings == old(store.settings) && store.subscribers == old(store.subscribers)
    ensures Outcome(response, store.subscribers, store.queue, [], enqueued)
         == Trigger(old(store.subscribers), old(store.queue), old(store.settings), call)
  {
    var info := ParseSubscriberInfo(call.request.body, call.emailOk, call.guidOk);
    if info.None? {
      return Response(500, ""), [];
    }
    var subscriber := FullSubscriber(store.subscribers, info.value, call.index);
    if subscriber.None? {
      return Response(400, JsonString("Subscriber not found")), [];
    }
    var trigger := ParseTrigger(call.request.query);
    if trigger.None? {
      return Response(500, ""), [];
    }
    var item := RunTrigger(store.settings, trigger.value, subscriber.value, call.now, call.random);
    if item.None? {
      return Response(400, JsonString("Autoresponder not found")), [];
    }
    store.queue := store.queue[item.value.key := item.value];
    response, enqueued := Response(200, JsonString("OK")), [item.value];
  }
}

=== FILE: admin_broadcast_post.dfy ===
/**
 * The admin endpoint that schedules a broadcast: the body is validated,
 * the SES template it names is looked up, and unless a broadcast is in
 * progress the validated broadcast is stored as the `pendingBroadcast`
 * setting for the broadcast runner to pick up.
 */
module AdminBroadcastPost {
  import opened Js
  import opened Model
  import opened Requests
  import opened Broadcasts

  /**
   * One invocation: the parsed body (none when it is not JSON), `Date.now()`
   * when the schema was built, and what the template lookup answered — none
   * when the template exists, else the `statusCode` of the error (0 when it
   * carries none).
   */
  datatype Call = Call(body: Option<JsVal>, loadTime: int, templateError: Option<nat>)

  /** The message of the error thrown while a broadcast is running. */
  const BusyMessage: string := "A broadcast is already in progress. Try again later."

  /** A broadcast is running: the `isDoingBroadcast` setting is there and its flag is truthy. */
  predicate Busy(settings: map<string, SettingItem>) {
    "isDoingBroadcast" in settings && Truthy(settings["isDoingBroadcast"].isDoingBroadcast)
  }

  /** The broadcast the body describes, when the body parses and the schema accepts it. */
  function Accepted(call: Call): (r: Option<JsVal>)
    ensures r.Some? <==> call.body.Some? && Validate(call.body.value, PostSchema, call.loadTime).Some?
  {
    if call.body.None? then None else Validate(call.body.value, PostSchema, call.loadTime)
  }

  /**
   * What the handler does: a refused body answers 400 (`Bad request: ` and
   * Joi's message), a failed lookup answers with the error's status or 500,
   * a running broadcast 500; otherwise `pendingBroadcast` holds the
   * validated broadcast and the answer is `"OK"`.
   */
  function Post(settings: map<string, SettingItem>, call: Call): (Response, map<string, SettingItem>) {
    var broadcast := Accepted(call);
    if broadcast.None? then (Response(400, "Bad request: "), settings)
    else if call.templateError.Some? then
      (Response(if call.templateError.value == 0 then 500 else call.templateError.value, ""), settings)
    else if Busy(settings) then (Response(500, JsonString(BusyMessage)), settings)
    else (Response(200, JsonString("OK")), settings["pendingBroadcast" := ValueItem(Json(broadcast.value))])
  }

  /**
   * Only an accepted body, a template that exists and no broadcast running
   * lead to a write; every refusal leaves the settings as they were, and a
   * running broadcast is answered 500 with its message.
   */
  lemma PostRefuses(settings: map<string, SettingItem>, call: Call)
    ensures var (response, r) := Post(settings, call);
      (response == Response(200, JsonString("OK")) <==> Accepted(call).Some? && call.templateError.None? && !Busy(settings))
      && (response != Response(200, JsonString("OK")) ==> r == settings)
      && (Accepted(call).None? ==> response.statusCode == 400)
      && (Accepted(call).Some? && call.templateError.None? && Busy(settings) ==>
            response == Response(500, JsonString(BusyMessage)))
  {
  }

  /**
   * A write stores the validated broadcast, which passes the schema again
   * as it stands, under `pendingBroadcast`; no other setting changes, and
   * in particular the broadcast flag stays as it was.
   */
  lemma PostWrites(settings: map<string, SettingItem>, call: Call)
    requires Accepted(call).Some? && call.templateError.None? && !Busy(settings)
    ensures var (response, r) := Post(settings, call);
      var broadcast := Accepted(call).value;
      response == Response(200, JsonString("OK"))
      && r.Keys == settings.Keys + {"pendingBroadcast"}
      && r["pendingBroadcast"].value == Json(broadcast)
      && Validate(broadcast, PostSchema, call.loadTime) == Some(broadcast)
      && Field(broadcast, "TemplateName") == Field(call.body.value, "TemplateName")
      && (forall name :: name in settings && name != "pendingBroadcast" ==> r[name] == settings[name])
      && !Busy(r)
  {
    ValidateStable(call.body.value, PostSchema, call.loadTime);
  }

  /** The handler: validation, the template lookup, the broadcast flag, then the write. */
  method Handle(store: Store, call: Call) returns (response: Response)
    requires store.Valid()
    modifies store
    ensures store.Valid() && store.subscribers == old(store.subscribers) && store.queue == old(store.queue)
    ensures (response, store.settings) == Post(old(store.settings), call)
  {
    var broadcast := Accepted(call);
    if broadcast.None? {
      return Response(400, "Bad request: ");
    }
    if call.templateError.Some? {
      var code := call.templateError.value;
      return Response(if code == 0 then 500 else code, "");
    }
    if "isDoingBroadcast" in store.settings && Truthy(store.settings["isDoingBroadcast"].isDoingBroadcast) {
      return Response(500, JsonString(BusyMessage));
    }
    store.settings := store.settings["pendingBroadcast" := ValueItem(Json(broadcast.value))];
    response := Response(200, JsonString("OK"));
  }
}

=== FILE: admin_broadcast_start.dfy ===
/**
 * The older endpoint that schedules a broadcast: a body that is not JSON
 * is validated as `null`, the SES template is looked up by the raw
 * `templateId`, and the validated broadcast is stored as the
 * `pendingBroadcast` setting. It does not look at the broadcast flag.
 */
module AdminBroadcastStart {
  import opened Js
  import opened Model
  import opened Broadcasts
  import AdminBroadcastPost

  /**
   * One invocation: the parsed body (none when it is not JSON), `Date.now()`
   * when the schema was built, and whether SES found the template.
   */
  datatype Call = Call(body: Option<JsVal>, loadTime: int, templateFound: bool)

  /** `getInput`: the parsed body, `null` when it does not parse. */
  function Input(body: Option<JsVal>): (v: JsVal)
    ensures body.None? ==> v == Null
    ensures body.Some? ==> v == body.value
  {
    if body.None? then Null else body.value
  }

  /**
   * What the handler does: a refused body or a failed lookup answers 500
   * with the error's message; otherwise `pendingBroadcast` holds the
   * validated broadcast and the answer is the plain text `OK`.
   */
  function Start(settings: map<string, SettingItem>, call: Call): (Response, map<string, SettingItem>) {
    var broadcast := Validate(Input(call.body), StartSchema, call.loadTime);
    if broadcast.None? || !call.templateFound then (Response(500, ""), settings)
    else (Response(200, "OK"), settings["pendingBroadcast" := ValueItem(Json(broadcast.value))])
  }

  /**
   * A body that is not JSON is refused like `null`; every refusal answers
   * 500 and writes nothing; an accepted body with its template found is
   * stored whatever the broadcast flag says, the stored broadcast passes
   * the schema again as it stands, and no other setting changes.
   */
  lemma StartCases(settings: map<string, SettingItem>, call: Call)
    ensures var (response, r) := Start(settings, call);
      (call.body.None? ==> response == Response(500, "") && r == settings)
      && (response.statusCode == 200 <==> Validate(Input(call.body), StartSchema, call.loadTime).Some? && call.templateFound)
      && (response.statusCode != 200 ==> response == Response(500, "") && r == settings)
      && (response.statusCode == 200 ==>
            var broadcast := Validate(call.body.value, StartSchema, call.loadTime).value;
            response == Response(200, "OK")
            && r.Keys == settings.Keys + {"pendingBroadcast"}
            && r["pendingBroadcast"].value == Json(broadcast)
            && Validate(broadcast, StartSchema, call.loadTime) == Some(broadcast)
            && forall name :: name in settings && name != "pendingBroadcast" ==> r[name] == settings[name])
  {
    if call.body.None? {
      NonObjectRefused(Null, StartSchema, call.loadTime);
    }
    var broadcast := Validate(Input(call.body), StartSchema, call.loadTime);
    if broadcast.Some? {
      ValidateStable(Input(call.body), StartSchema, call.loadTime);
    }
  }

  /**
   * Unlike the broadcast-post endpoint, a running broadcast does not stop
   * this one: with the flag set, it still overwrites `pendingBroadcast`.
   */
  lemma StartWhileBusy(settings: map<string, SettingItem>, call: Call)
    requires AdminBroadcastPost.Busy(settings)
    requires Validate(Input(call.body), StartSchema, call.loadTime).Some? && call.templateFound
    ensures Start(settings, call).0 == Response(200, "OK")
    ensures Start(settings, call).1["pendingBroadcast"].value == Json(Validate(Input(call.body), StartSchema, call.loadTime).value)
  {
  }

  /** The handler: validation, the lookup, then the write. */
  method Handle(store: Store, call: Call) returns (response: Response)
    requires store.Valid()
    modifies store
    ensures store.Valid() && store.subscribers == old(store.subscribers) && store.queue == old(store.queue)
    ensures (response, store.settings) == Start(old(store.settings), call)
  {
    var broadcast := Validate(Input(call.body), StartSchema, call.loadTime);
    if broadcast.None? || !call.templateFound {
      return Response(500, "");
    }
    store.settings := store.settings["pendingBroadcast" := ValueItem(Json(broadcast.value))];
    response := Response(200, "OK");
  }
}

=== FILE: admin_list_delete.dfy ===
/**
 * The admin endpoint that deletes a mailing list from the `lists` setting:
 * the first entry with the id given is spliced out and the rest written
 * back in their order.
 */
module AdminListDelete {
  import opened Js
  import opened Model
  import opened Requests
  import opened ListSettings
  import AdminListPost

  /** The id asked for, or the answer that refuses the body. */
  datatype Checked = Refused(response: Response) | Accepted(id: string)

  /**
   * The checks in order: the body parses (a body that is not JSON, or is
   * `null`, throws: 500), has exactly one key (400 `Bad Request`), and its
   * `id` passes the id check (400 with the check's message).
   */
  function CheckId(body: Option<JsVal>): (r: Checked)
    ensures r.Accepted? <==>
      body.Some? && KeyCount(body.value) == Some(1) && IsListId(Field(body.value, "id"))
    ensures r.Accepted? ==> Field(body.value, "id") == Str(r.id)
    ensures r.Refused? ==> r.response.statusCode in {400, 500}
  {
    if body.None? || KeyCount(body.value).None? then Refused(Response(500, ""))
    else if KeyCount(body.value).value != 1 then Refused(Response(400, JsonString("Bad Request")))
    else
      var idError := ValidateId(Field(body.value, "id"));
      if idError.Some? then Refused(Response(400, JsonString(idError.value)))
      else Accepted(Field(body.value, "id").s)
  }

  /** An object body is accepted exactly when `id` is its only key and a valid list id. */
  lemma CheckIdObject(fields: map<string, JsVal>)
    ensures CheckId(Some(Obj(fields))).Accepted? <==> fields.Keys == {"id"} && IsListId(fields["id"])
  {
    if CheckId(Some(Obj(fields))).Accepted? {
      var rest := fields.Keys - {"id"};
      assert fields.Keys == {"id"} + rest && {"id"} * rest == {};
      assert |fields.Keys| == 1 + |rest|;
    }
  }

  /** `lists.splice(i, 1)`: the lists without position `i`. */
  function Without(lists: seq<ListEntry>, i: nat): (r: seq<ListEntry>)
    requires i < |lists|
    ensures |r| == |lists| - 1
    ensures forall j :: 0 <= j < i ==> r[j] == lists[j]
    ensures forall j :: i <= j < |r| ==> r[j] == lists[j + 1]
  {
    lists[..i] + lists[i + 1..]
  }

  /** What the handler does: the checks, the lookups that answer 404, and the write. */
  function Delete(settings: map<string, SettingItem>, body: Option<JsVal>): (Response, map<string, SettingItem>) {
    var checked := CheckId(body);
    if checked.Refused? then (checked.response, settings)
    else if ArrayLists(settings).None? then (Response(404, JsonString("Not found")), settings)
    else
      var lists := ArrayLists(settings).value;
      var i := FindList(lists, checked.id);
      if i < 0 then (Response(404, JsonString("Not found")), settings)
      else (Response(200, JsonString("List deleted")), WithLists(settings, Without(lists, i)))
  }

  /** A refused body, a missing or non-array setting, or an id not listed changes nothing. */
  lemma DeleteRefuses(settings: map<string, SettingItem>, body: Option<JsVal>)
    ensures var (response, r) := Delete(settings, body);
      (CheckId(body).Refused? ==> response == CheckId(body).response && r == settings)
      && (CheckId(body).Accepted? && ArrayLists(settings).None? ==>
            response == Response(404, JsonString("Not found")) && r == settings)
      && (CheckId(body).Accepted? && ArrayLists(settings).Some?
          && (forall j :: 0 <= j < |ArrayLists(settings).value| ==> ArrayLists(settings).value[j].id != CheckId(body).id) ==>
            response == Response(404, JsonString("Not found")) && r == settings)
  {
  }

  /**
   * An id listed: the answer is `List deleted`, the first entry with the id
   * is gone, the entries before it and after it keep their order, and no
   * other setting changes.
   */
  lemma DeleteRemovesFirst(settings: map<string, SettingItem>, body: Option<JsVal>, i: nat)
    requires CheckId(body).Accepted? && ArrayLists(settings).Some?
    requires var lists := ArrayLists(settings).value;
      i < |lists| && lists[i].id == CheckId(body).id && forall j :: 0 <= j < i ==> lists[j].id != CheckId(body).id
    ensures var (response, r) := Delete(settings, body);
      var lists := ArrayLists(settings).value;
      response == Response(200, JsonString("List deleted"))
      && ArrayLists(r) == Some(lists[..i] + lists[i + 1..])
      && forall name :: name in settings && name != "lists" ==> name in r && r[name] == settings[name]
  {
    var lists := ArrayLists(settings).value;
  }

  /** Deleting twice: the second delete finds one entry fewer with the id, and 404 once none is left. */
  lemma DeleteShrinks(settings: map<string, SettingItem>, body: Option<JsVal>)
    requires CheckId(body).Accepted?
    ensures var (response, r) := Delete(settings, body);
      response.statusCode == 200 ==>
        ArrayLists(settings).Some? && ArrayLists(r).Some?
        && |ArrayLists(r).value| == |ArrayLists(settings).value| - 1
        && multiset(ArrayLists(r).value) <= multiset(ArrayLists(settings).value)
  {
    if ArrayLists(settings).Some? {
      var lists := ArrayLists(settings).value;
      var i := FindList(lists, CheckId(body).id);
      if i >= 0 {
        assert lists == lists[..i] + [lists[i]] + lists[i + 1..] by { SpliceSame(lists, i); }
      }
    }
  }

  /**
   * Creating a list under a new id and then deleting that id gives the
   * settings back as they were, when the `lists` setting holds an array.
   */
  lemma CreateThenDelete(settings: map<string, SettingItem>, created: Option<JsVal>, deleted: Option<JsVal>)
    requires AdminListPost.CheckList(created).Accepted? && CheckId(deleted).Accepted?
    requires CheckId(deleted).id == AdminListPost.CheckList(created).request.id
    requires ArrayLists(settings).Some?
    requires FindList(ArrayLists(settings).value, CheckId(deleted).id) == -1
    ensures Delete(AdminListPost.Post(settings, created).1, deleted) == (Response(200, JsonString("List deleted")), settings)
  {
    var lists := ArrayLists(settings).value;
    var request := AdminListPost.CheckList(created).request;
    var entry := ListEntry(request.id, request.name, request.sourceEmail, map[]);
    var first := WithLists(settings, lists + [entry]);
    AdminListPost.PostCreates(settings, created);
    assert AdminListPost.Post(settings, created).1 == first;
    FindListAppended(lists, request.id, entry);
    DeleteRemovesFirst(first, deleted, |lists|);
    assert Without(lists + [entry], |lists|) == lists;
    assert Delete(first, deleted) == (Response(200, JsonString("List deleted")), WithLists(first, lists));
    WithListsTwice(settings, lists + [entry], lists);
    WithSameLists(settings, lists);
  }

  /** The handler: the checks, the read, the search, the splice and the write. */
  method Handle(store: Store, body: Option<JsVal>) returns (response: Response)
    requires store.Valid()
    modifies store
    ensures store.Valid() && store.subscribers == old(store.subscribers) && store.queue == old(store.queue)
    ensures (response, store.settings) == Delete(old(store.settings), body)
  {
    var checked := CheckId(body);
    if checked.Refused? {
      return checked.response;
    }
    var current := ArrayLists(store.settings);
    if current.None? {
      return Response(404, JsonString("Not found"));
    }
    var lists := current.value;
    var i := FindList(lists, checked.id);
    if i < 0 {
      return Response(404, JsonString("Not found"));
    }
    lists := lists[..i] + lists[i + 1..];
    store.settings := WithLists(store.settings, lists);
    response := Response(200, JsonString("List deleted"));
  }
}

=== FILE: admin_list_post.dfy ===
/**
 * The admin endpoint that creates or updates a mailing list in the `lists`
 * setting: a list with the id given is updated where it stands, and a new
 * id is added at the end.
 */
module AdminListPost {
  import opened Js
  import opened Model
  import opened Patterns
  import opened Requests
  import opened ListSettings

  /** The longest labelled source address (`Label <a@b.c>`) and the longest bare one. */
  const MaxLabelledLength: nat := 256
  const MaxBasicLength: nat := 254

  /** `validateName`: the message of the first check the name fails. */
  function ValidateName(v: JsVal): (error: Option<string>)
    ensures error.None? <==> v.Str? && v.s != "" && |v.s| <= MaxListField
    ensures !Truthy(v) ==> error == Some("No name provided")
  {
    if !Truthy(v) then Some("No name provided")
    else if !v.Str? then Some("Invalid list name: not a string")
    else if |v.s| > MaxListField then Some("Invalid list name: over 64 characters")
    else None
  }

  /** A source address the check accepts: `null`, a labelled address or a bare one, each within its length. */
  predicate IsSourceEmail(v: JsVal) {
    v.Null?
    || (v.Str? && IsLabelledEmail(v.s) && |v.s| <= MaxLabelledLength)
    || (v.Str? && !IsLabelledEmail(v.s) && IsBasicEmail(v.s) && |v.s| <= MaxBasicLength)
  }

  /** `validateSourceEmail`: the labelled form is tried first, and a labelled address gets the longer limit. */
  function ValidateSourceEmail(v: JsVal): (error: Option<string>)
    ensures error.None? <==> IsSourceEmail(v)
  {
    if v.Null? then None
    else if !v.Str? then Some("Invalid source email: not a string")
    else if IsLabelledEmail(v.s) then
      if |v.s| > MaxLabelledLength then Some("Invalid source email: labelled email too long") else None
    else if IsBasicEmail(v.s) then
      if |v.s| > MaxBasicLength then Some("Invalid source email: email address too long") else None
    else Some("Invalid source email: does not appear to be email")
  }

  /** The validated body; `sourceEmail || null` is none for `null`. */
  datatype ListRequest = ListRequest(id: string, name: string, sourceEmail: Option<string>)

  /** A body refused with its answer, or the request it makes. */
  datatype Checked = Refused(response: Response) | Accepted(request: ListRequest)

  /**
   * The checks in order: the body parses and has three keys, then the id,
   * the name and the source address; a refusal by a check answers 400 with
   * its message, and a body that is not JSON, or is `null`, throws (500).
   */
  function CheckList(body: Option<JsVal>): (r: Checked)
  {
    if body.None? || KeyCount(body.value).None? then Refused(Response(500, ""))
    else if KeyCount(body.value).value != 3 then Refused(Response(400, JsonString("Bad Request")))
    else
      var v := body.value;
      var idError := ValidateId(Field(v, "id"));
      var nameError := ValidateName(Field(v, "name"));
      var emailError := ValidateSourceEmail(Field(v, "sourceEmail"));
      if idError.Some? then Refused(Response(400, JsonString(idError.value)))
      else if nameError.Some? then Refused(Response(400, JsonString(nameError.value)))
      else if emailError.Some? then Refused(Response(400, JsonString(emailError.value)))
      else
        var source := Field(v, "sourceEmail");
        Accepted(ListRequest(Field(v, "id").s, Field(v, "name").s, if source.Str? then Some(source.s) else None))
  }

  /**
   * The body is accepted exactly when it is an object whose three keys are
   * `id`, `name` and `sourceEmail`, each valid; the three-key test admits
   * no other shape.
   */
  lemma CheckListAccepts(body: Option<JsVal>)
    ensures CheckList(body).Accepted? <==>
      body.Some? && body.value.Obj? && body.value.fields.Keys == {"id", "name", "sourceEmail"}
      && IsListId(body.value.fields["id"]) && ValidateName(body.value.fields["name"]).None?
      && IsSourceEmail(body.value.fields["sourceEmail"])
    ensures CheckList(body).Accepted? ==>
      var r := CheckList(body).request;
      body.value.fields["id"] == Str(r.id) && body.value.fields["name"] == Str(r.name) && r.name != ""
      && (r.sourceEmail.None? <==> body.value.fields["sourceEmail"].Null?)
      && (r.sourceEmail.Some? ==> body.value.fields["sourceEmail"] == Str(r.sourceEmail.value))
  {
    if CheckList(body).Accepted? {
      var keys := body.value.fields.Keys;
      var named: set<string> := {"id", "name", "sourceEmail"};
      var rest := keys - named;
      assert keys == named + rest && named * rest == {};
      assert |named| == 3;
      assert |keys| == |named| + |rest|;
    }
  }

  /** `Object.assign({}, list, {name, sourceEmail})`: the entry with the new name and source, the rest kept. */
  function Renamed(entry: ListEntry, request: ListRequest): ListEntry {
    entry.(name := request.name, sourceEmail := request.sourceEmail)
  }

  /** The lists after the request: the first entry with the id replaced in place, or a new entry appended. */
  function Upserted(lists: seq<ListEntry>, request: ListRequest): seq<ListEntry> {
    var i := FindList(lists, request.id);
    if i >= 0 then lists[..i] + [Renamed(lists[i], request)] + lists[i + 1..]
    else lists + [ListEntry(request.id, request.name, request.sourceEmail, map[])]
  }

  /**
   * An id already listed: the same lists, in the same order, with only its
   * first entry changed, in name and source address. A new id: the lists
   * as they were, then the new entry.
   */
  lemma UpsertedCases(lists: seq<ListEntry>, request: ListRequest)
    ensures var r := Upserted(lists, request);
      var i := FindList(lists, request.id);
      (i >= 0 ==>
         |r| == |lists| && r[i] == lists[i].(name := request.name, sourceEmail := request.sourceEmail)
         && forall j :: 0 <= j < |lists| && j != i ==> r[j] == lists[j])
      && (i == -1 ==>
         r == lists + [ListEntry(request.id, request.name, request.sourceEmail, map[])]
         && forall j :: 0 <= j < |lists| ==> lists[j].id != request.id)
  {
    var i := FindList(lists, request.id);
    if i >= 0 {
      var r := Upserted(lists, request);
      forall j | 0 <= j < |lists| && j != i ensures r[j] == lists[j] {
        if j < i { assert r[j] == lists[..i][j]; } else { assert r[j] == lists[i + 1..][j - i - 1]; }
      }
    }
  }

  /** Afterwards the first entry with the id carries the name and the source address asked for. */
  lemma UpsertedFinds(lists: seq<ListEntry>, request: ListRequest)
    ensures var r := Upserted(lists, request);
      FindList(r, request.id) >= 0 && r[FindList(r, request.id)] == 
        (if FindList(lists, request.id) >= 0 then Renamed(lists[FindList(lists, request.id)], request)
         else ListEntry(request.id, request.name, request.sourceEmail, map[]))
  {
    var i := FindList(lists, request.id);
    if i >= 0 {
      FindListReplaced(lists, request.id, Renamed(lists[i], request));
    } else {
      FindListAppended(lists, request.id, ListEntry(request.id, request.name, request.sourceEmail, map[]));
    }
  }

  /** The entry found after the upsert has the name and the source address of the request. */
  lemma UpsertedCarries(lists: seq<ListEntry>, request: ListRequest)
    ensures var r := Upserted(lists, request);
      var k := FindList(r, request.id);
      k >= 0 && r[k].name == request.name && r[k].sourceEmail == request.sourceEmail
  {
    UpsertedFinds(lists, request);
  }

  /** Upserting the same request again changes nothing. */
  lemma UpsertedIdempotent(lists: seq<ListEntry>, request: ListRequest)
    ensures Upserted(Upserted(lists, request), request) == Upserted(lists, request)
  {
    var once := Upserted(lists, request);
    UpsertedCarries(lists, request);
    var i := FindList(once, request.id);
    assert Renamed(once[i], request) == once[i];
    SpliceSame(once, i);
  }

  /** What the handler does: the checks, then the lists read, changed and written back. */
  function Post(settings: map<string, SettingItem>, body: Option<JsVal>): (Response, map<string, SettingItem>) {
    var checked := CheckList(body);
    if checked.Refused? then (checked.response, settings)
    else
      var request := checked.request;
      var lists := if ArrayLists(settings).Some? then ArrayLists(settings).value else [];
      var verb := if FindList(lists, request.id) >= 0 then "updated" else "created";
      (Response(200, JsonString("List " + verb)), WithLists(settings, Upserted(lists, request)))
  }

  /**
   * A refused body writes nothing; an accepted one answers `List updated`
   * exactly when the id was listed, and the setting then holds the lists
   * upserted, a missing or non-array setting counting as no lists; no
   * other setting changes.
   */
  lemma PostCases(settings: map<string, SettingItem>, body: Option<JsVal>)
    ensures var (response, r) := Post(settings, body);
      (CheckList(body).Refused? ==> response == CheckList(body).response && r == settings)
      && (CheckList(body).Accepted? ==>
            var request := CheckList(body).request;
            var lists := if ArrayLists(settings).Some? then ArrayLists(settings).value else [];
            response.statusCode == 200
            && (response.body == JsonString("List updated") <==> exists j :: 0 <= j < |lists| && lists[j].id == request.id)
            && (response.body == JsonString("List created") <==> forall j :: 0 <= j < |lists| ==> lists[j].id != request.id)
            && ArrayLists(r) == Some(Upserted(lists, request))
            && forall name :: name in settings && name != "lists" ==> name in r && r[name] == settings[name])
  {
    if CheckList(body).Accepted? {
      var request := CheckList(body).request;
      var lists := if ArrayLists(settings).Some? then ArrayLists(settings).value else [];
      var i := FindList(lists, request.id);
      assert "List " + "updated" == "List updated" && "List " + "created" == "List created";
      assert JsonString("List updated")[6] != JsonString("List created")[6];
      if i >= 0 {
        assert lists[i].id == request.id;
      }
    }
  }

  /** A new id with the setting holding an array: `List created`, and the new entry appended to the lists. */
  lemma PostCreates(settings: map<string, SettingItem>, body: Option<JsVal>)
    requires CheckList(body).Accepted? && ArrayLists(settings).Some?
    requires FindList(ArrayLists(settings).value, CheckList(body).request.id) == -1
    ensures var request := CheckList(body).request;
      Post(settings, body) == (Response(200, JsonString("List created")),
        WithLists(settings, ArrayLists(settings).value + [ListEntry(request.id, request.name, request.sourceEmail, map[])]))
  {
    assert "List " + "created" == "List created";
  }

  /** Posting the same list twice leaves the lists as the first post left them. */
  lemma PostTwice(settings: map<string, SettingItem>, body: Option<JsVal>)
    requires CheckList(body).Accepted?
    ensures var (_, first) := Post(settings, body);
      Post(first, body) == (Response(200, JsonString("List updated")), first)
  {
    var request := CheckList(body).request;
    var lists := if ArrayLists(settings).Some? then ArrayLists(settings).value else [];
    var once := Upserted(lists, request);
    var first := WithLists(settings, once);
    assert ArrayLists(first) == Some(once);
    UpsertedCarries(lists, request);
    assert FindList(once, request.id) >= 0;
    UpsertedIdempotent(lists, request);
    assert Upserted(once, request) == once;
    WithSameLists(first, once);
    assert "List " + "updated" == "List updated";
    assert Post(first, body) == (Response(200, JsonString("List " + "updated")), WithLists(first, Upserted(once, request)));
  }

  /** The handler: the checks, the search, the splice or the push, and the write. */
  method Handle(store: Store, body: Option<JsVal>) returns (response: Response)
    requires store.Valid()
    modifies store
    ensures store.Valid() && store.subscribers == old(store.subscribers) && store.queue == old(store.queue)
    ensures (response, store.settings) == Post(old(store.settings), body)
  {
    var checked := CheckList(body);
    if checked.Refused? {
      return checked.response;
    }
    var request := checked.request;
    var current := ArrayLists(store.settings);
    var lists := if current.Some? then current.value else [];
    var i := FindList(lists, request.id);
    var verb;
    if i >= 0 {
      lists := lists[..i] + [Renamed(lists[i], request)] + lists[i + 1..];
      verb := "updated";
    } else {
      lists := lists + [ListEntry(request.id, request.name, request.sourceEmail, map[])];
      verb := "created";
    }
    store.settings := WithLists(store.settings, lists);
    response := Response(200, JsonString("List " + verb));
  }
}

=== FILE: admin_single_email_send_post.dfy ===
/**
 * The admin endpoint that sends one e-mail through SES: the body is taken
 * as HTML or as text depending on its shape, the sender falls back to the
 * configured source address, and SES's answer decides the status.
 */
module AdminSingleEmailSendPost {
  import opened Js
  import opened Model
  import opened Requests

  /** The message body handed to SES: an HTML part, a text part, either, both or neither. */
  datatype Body = Body(html: Option<JsVal>, text: Option<JsVal>)

  /** The `sendEmail` request. */
  datatype SendRequest = SendRequest(to: JsVal, source: JsVal, subject: JsVal, body: Body)

  /**
   * The body parts: a string holding `html>` once trimmed is sent trimmed as
   * HTML, any other string as text untouched; an object gives an HTML part
   * for a truthy `html` and a text part for a truthy `text`; any other value
   * gives neither. `null` is of type `object` and reading its keys throws,
   * which is none here.
   */
  function BodyOf(v: JsVal): (r: Option<Body>)
    ensures r.None? <==> v.Null?
  {
    match v
    case Str(s) =>
      if Contains(Trim(s), "html>") then Some(Body(Some(Str(Trim(s))), None))
      else Some(Body(None, Some(v)))
    case Null => None
    case Obj(_) =>
      Some(Body(if Truthy(Field(v, "html")) then Some(Field(v, "html")) else None,
                if Truthy(Field(v, "text")) then Some(Field(v, "text")) else None))
    case Arr(_) => Some(Body(None, None))
    case _ => Some(Body(None, None))
  }

  /**
   * The four shapes: HTML only and trimmed for a string with `html>`, text
   * only and untouched for another string, the truthy parts of an object,
   * and nothing for anything else.
   */
  lemma BodyCases(v: JsVal)
    ensures v.Str? && Contains(Trim(v.s), "html>") ==> BodyOf(v) == Some(Body(Some(Str(Trim(v.s))), None))
    ensures v.Str? && !Contains(Trim(v.s), "html>") ==> BodyOf(v) == Some(Body(None, Some(v)))
    ensures v.Obj? ==>
      BodyOf(v).Some?
      && (BodyOf(v).value.html.Some? <==> Truthy(Field(v, "html")))
      && (BodyOf(v).value.text.Some? <==> Truthy(Field(v, "text")))
      && (BodyOf(v).value.html.Some? ==> BodyOf(v).value.html.value == Field(v, "html"))
      && (BodyOf(v).value.text.Some? ==> BodyOf(v).value.text.value == Field(v, "text"))
    ensures !v.Str? && !v.Obj? && !v.Null? ==> BodyOf(v) == Some(Body(None, None))
  {
  }

  /** Trimming twice is trimming once. */
  lemma TrimTwice(s: string)
    ensures Trim(Trim(s)) == Trim(s)
  {
    TrimShape(s);
    var t := Trim(s);
    if t != [] {
      assert TrimStart(t) == t;
      assert TrimEnd(t) == t;
    }
  }

  /** The HTML part, sent again as the body, gives the same HTML part. */
  lemma HtmlResent(s: string)
    requires Contains(Trim(s), "html>")
    ensures BodyOf(BodyOf(Str(s)).value.html.value) == BodyOf(Str(s))
  {
    TrimTwice(s);
  }

  /**
   * One invocation: the parsed body (none when it is not JSON), the
   * configured source address, and whether SES accepted the message.
   */
  datatype Call = Call(body: Option<JsVal>, sourceAddress: string, sendOk: bool)

  /** `fromEmailAddress || SOURCE_EMAIL_ADDRESS` */
  function Source(request: JsVal, sourceAddress: string): (r: JsVal)
    ensures Truthy(Field(request, "fromEmailAddress")) ==> r == Field(request, "fromEmailAddress")
    ensures !Truthy(Field(request, "fromEmailAddress")) ==> r == Str(sourceAddress)
  {
    Or(Field(request, "fromEmailAddress"), Str(sourceAddress))
  }

  /** The request handed to SES, none when the handler throws before sending. */
  function Request(body: Option<JsVal>, sourceAddress: string): (r: Option<SendRequest>)
  {
    if body.None? || body.value.Null? || body.value.Undefined? then None
    else
      var v := body.value;
      var parts := BodyOf(Field(v, "body"));
      if parts.None? then None
      else Some(SendRequest(Field(v, "toEmailAddress"), Source(v, sourceAddress), Field(v, "subject"), parts.value))
  }

  /**
   * What the handler does: the request SES is asked to send, and the
   * answer, `"OK"` once SES accepts it and 500 (`Error: ` and the message)
   * when parsing, reading the body or sending fails.
   */
  function Send(call: Call): (Response, Option<SendRequest>) {
    var request := Request(call.body, call.sourceAddress);
    if request.None? then (Response(500, JsonString("Error: ")), None)
    else if !call.sendOk then (Response(500, JsonString("Error: ")), request)
    else (Response(200, JsonString("OK")), request)
  }

  /**
   * The answer is `"OK"` exactly when the body parses, is an object whose
   * `body` is not `null`, and SES accepts the message; the message goes to
   * `toEmailAddress` with the subject given, from `fromEmailAddress` when
   * it is truthy and from the configured address otherwise.
   */
  lemma SendCases(call: Call)
    ensures var (response, request) := Send(call);
      (response == Response(200, JsonString("OK")) <==>
        call.body.Some? && !call.body.value.Null? && !call.body.value.Undefined? && !Field(call.body.value, "body").Null?
        && call.sendOk)
      && (response != Response(200, JsonString("OK")) ==> response == Response(500, JsonString("Error: ")))
      && (request.Some? ==>
            var v := call.body.value;
            request.value.to == Field(v, "toEmailAddress") && request.value.subject == Field(v, "subject")
            && request.value.body == BodyOf(Field(v, "body")).value
            && (Truthy(Field(v, "fromEmailAddress")) ==> request.value.source == Field(v, "fromEmailAddress"))
            && (!Truthy(Field(v, "fromEmailAddress")) ==> request.value.source == Str(call.sourceAddress)))
  {
    assert JsonString("OK") != JsonString("Error: ");
  }
}

=== FILE: admin_subscriber_add.dfy ===
/**
 * The older admin "add subscriber" endpoint: a new address is saved
 * unconfirmed and subscribed; a known address gets the request's fields,
 * with its tags merged when the request brings a new one; in every case
 * the trigger named in the query string runs.
 */
module AdminSubscriberAdd {
  import opened Js
  import opened Model
  import opened Tags
  import opened Requests
  import opened Triggers

  /**
   * `addSubscriberSchema`: an object with an address (lower-cased by the
   * schema; `emailOk` is Joi's address check) and the optional fields;
   * other keys, `confirmed` and `unsubscribed` among them, pass unconverted.
   */
  function ParseInput(body: JsVal, emailOk: bool, zoneOk: bool): Option<SubscriberInput> {
    if !body.Obj? || !IsNonEmptyString(Field(body, "email")) || !emailOk then None
    else
      var timezone := ParseTimezone(Field(body, "timezone"), zoneOk);
      var dtp := ParseDtp(Field(body, "deliveryTimePreference"));
      var tags := ParseTags(Field(body, "tags"));
      if timezone.None? || dtp.None? || tags.None? then None
      else Some(SubscriberInput(ToLower(Field(body, "email").s), timezone.value, dtp.value, tags.value,
                                Field(body, "confirmed"), Field(body, "unsubscribed"),
                                Others(body.fields, {"email", "timezone", "deliveryTimePreference", "tags", "confirmed", "unsubscribed"})))
  }

  /** What the schema lets through: an object with a checked address, stored lower-cased. */
  lemma ParseInputAccepts(body: JsVal, emailOk: bool, zoneOk: bool)
    ensures var r := ParseInput(body, emailOk, zoneOk);
      r.Some? ==>
        body.Obj? && emailOk && IsNonEmptyString(Field(body, "email"))
        && r.value.email == ToLower(Field(body, "email").s) && IsLowerCase(r.value.email)
        && ParseTags(Field(body, "tags")) == Some(r.value.tags)
        && r.value.confirmed == Field(body, "confirmed") && r.value.unsubscribed == Field(body, "unsubscribed")
        && r.value.extra == Others(body.fields, {"email", "timezone", "deliveryTimePreference", "tags", "confirmed", "unsubscribed"})
  {
    if ParseInput(body, emailOk, zoneOk).Some? {
      LowerIsLowerCase(Field(body, "email").s);
    }
  }

  /**
   * `saveSubscriber`: the request's fields, then a fresh id and token, the
   * time of joining, and "not confirmed", "not unsubscribed" whatever the
   * request said.
   */
  function NewRecord(input: SubscriberInput, subscriberId: string, token: string, now: nat): (s: Subscriber)
    ensures s.subscriberId == subscriberId
  {
    Overlay(Blank(subscriberId), input).(subscriberId := subscriberId, confirmed := Bool(false), unsubscribed := Bool(false),
                                         joined := now, confirmationToken := token)
  }

  /**
   * A new record is unconfirmed and subscribed, whatever the request said,
   * carries the request's tags attribute as given, and keeps every other
   * key of the request.
   */
  lemma NewRecordShape(input: SubscriberInput, subscriberId: string, token: string, now: nat)
    ensures var s := NewRecord(input, subscriberId, token, now);
      s.confirmed == Bool(false) && s.unsubscribed == Bool(false)
      && s.email == input.email && s.tags == TagsAttribute(input)
      && s.joined == now && s.confirmationToken == token
      && s.extra == Others(input.extra, Attributes)
  {
    assert map[] + Others(input.extra, Attributes) == Others(input.extra, Attributes);
  }

  /**
   * The record written when the request brings a tag the subscriber lacks:
   * the request's keys over the stored ones (its id too, when it names one),
   * and the stored tags followed by the new ones.
   */
  function TagAddedRecord(current: Subscriber, input: SubscriberInput): (s: Subscriber)
    ensures s.subscriberId == StrOr(input.extra, "subscriberId", current.subscriberId)
    ensures s.email == input.email && s.joined == IntOr(input.extra, "joined", current.joined)
    ensures forall k :: k in input.extra && k !in Attributes ==> k in s.extra && s.extra[k] == input.extra[k]
  {
    Overlay(current, input).(tags := Some(AppendMissing(TagsOf(current), InputTags(input))))
  }

  /**
   * The record written otherwise: the request's keys over the stored ones,
   * tags included, and the stored values of every key the request lacks.
   */
  function ReplacedRecord(current: Subscriber, input: SubscriberInput): (s: Subscriber)
    ensures s.subscriberId == StrOr(input.extra, "subscriberId", current.subscriberId)
    ensures s.email == input.email && s.joined == IntOr(input.extra, "joined", current.joined)
    ensures s.tags == (if input.tags.Some? then input.tags.value else current.tags)
    ensures s.confirmed == (if input.confirmed.Undefined? then current.confirmed else input.confirmed)
    ensures s.unsubscribed == (if input.unsubscribed.Undefined? then current.unsubscribed else input.unsubscribed)
    ensures forall k :: k in input.extra && k !in Attributes ==> k in s.extra && s.extra[k] == input.extra[k]
    ensures input.extra == map[] ==> s.subscriberId == current.subscriberId
  {
    Overlay(current, input)
  }

  /** Adding tags keeps every stored tag, in place, and adds each requested one. */
  lemma TagAddedKeepsTags(current: Subscriber, input: SubscriberInput)
    ensures var s := TagAddedRecord(current, input);
      s.tags.Some? && |TagsOf(current)| <= |s.tags.value| && s.tags.value[..|TagsOf(current)|] == TagsOf(current)
      && HasAll(s.tags.value, InputTags(input)) && HasAll(s.tags.value, TagsOf(current))
  {
    var stored := TagsOf(current);
    AppendMissingIdempotent(stored, InputTags(input));
    HasAllReflexive(stored);
    var merged := AppendMissing(stored, InputTags(input));
    forall i | 0 <= i < |stored| ensures stored[i] in merged {
      assert merged[..|stored|][i] == stored[i];
    }
  }

  /**
   * When no requested tag is new, the requested list replaces the stored
   * one: a request naming only some of the subscriber's tags removes the
   * others.
   */
  lemma ReplacedDropsTags(current: Subscriber, input: SubscriberInput)
    requires input.tags.Some?
    ensures ReplacedRecord(current, input).tags == input.tags.value
  {
  }

  // ---------------------------------------------------------------------
  // The handler

  /**
   * One invocation: the request; Joi's verdicts on the address and on the
   * time zone; the email-index entry for the address; the API base URL; the
   * clock; the fresh id and token; the random fractions.
   */
  datatype Call = Call(
    request: Request, emailOk: bool, zoneOk: bool, index: Option<Subscriber>,
    api: string, now: nat, newId: string, newToken: string, random: nat -> string)

  /** The record written, then the trigger run on it with its (lower-cased) address. */
  function Saved(subscribers: map<string, Subscriber>, queue: map<QueueKey, QueueItem>, settings: map<string, SettingItem>,
                 s: Subscriber, body: string, call: Call): (r: Outcome)
    ensures Keyed(subscribers, queue) ==> Keyed(r.subscribers, r.queue)
  {
    var action := TriggerOf(call.request.query);
    var enqueued := EnrolAll(settings, ActionIds(action), s, call.now, call.random);
    KeyedPut(subscribers, queue, s);
    PutAllKeyed(subscribers[s.subscriberId := s], queue, enqueued);
    Outcome(Response(200, body), subscribers[s.subscriberId := s], PutAll(queue, enqueued),
            TriggerEmails(action, s.email, call.api, s.subscriberId), enqueued)
  }

  /** What the handler does. */
  function Post(subscribers: map<string, Subscriber>, queue: map<QueueKey, QueueItem>, settings: map<string, SettingItem>,
                call: Call): Outcome
  {
    var body := call.request.body;
    if body.None? || !Truthy(body.value) then NoChange(Response(400, "Bad request"), subscribers, queue)
    else
      var input := ParseInput(body.value, call.emailOk, call.zoneOk);
      if input.None? then NoChange(Response(400, ""), subscribers, queue)
      else Dispatch(subscribers, queue, settings, call, input.value)
  }

  /** What the handler does with a valid request. */
  function Dispatch(subscribers: map<string, Subscriber>, queue: map<QueueKey, QueueItem>, settings: map<string, SettingItem>,
                    call: Call, input: SubscriberInput): Outcome
  {
    if call.index.None? then
      Saved(subscribers, queue, settings, NewRecord(input, call.newId, call.newToken, call.now), "OK", call)
    else if call.index.value.subscriberId !in subscribers then NoChange(Response(500, ""), subscribers, queue)
    else
      var current := subscribers[call.index.value.subscriberId];
      if !HasAll(TagsOf(current), InputTags(input))
      then Saved(TagWritten(subscribers, current, input), queue, settings, TagAddedRecord(current, input), "Tag added", call)
      else Saved(subscribers, queue, settings, ReplacedRecord(current, input), "Subscriber updated", call)
  }

  /**
   * `updateSubscriberTags`: the merged tags are first written on the stored
   * record, under its own id, before the whole record is put.
   */
  function TagWritten(subscribers: map<string, Subscriber>, current: Subscriber, input: SubscriberInput): (r: map<string, Subscriber>)
    ensures r.Keys == subscribers.Keys + {current.subscriberId}
    ensures r[current.subscriberId].tags == Some(AppendMissing(TagsOf(current), InputTags(input)))
    ensures forall k :: k in subscribers && k != current.subscriberId ==> r[k] == subscribers[k]
  {
    subscribers[current.subscriberId := current.(tags := Some(AppendMissing(TagsOf(current), InputTags(input))))]
  }

  /**
   * A request that names no other id leaves the stored record exactly as
   * the final put writes it: the early tag write is overwritten.
   */
  lemma TagWriteOverwritten(subscribers: map<string, Subscriber>, current: Subscriber, input: SubscriberInput)
    requires StrOr(input.extra, "subscriberId", current.subscriberId) == current.subscriberId
    ensures var s := TagAddedRecord(current, input);
      TagWritten(subscribers, current, input)[s.subscriberId := s] == subscribers[current.subscriberId := s]
  {
  }

  /** A body that is not JSON or is falsy is a bad request; an invalid one is refused with 400; neither changes anything. */
  lemma PostRefuses(subscribers: map<string, Subscriber>, queue: map<QueueKey, QueueItem>, settings: map<string, SettingItem>, call: Call)
    ensures var r := Post(subscribers, queue, settings, call);
      (call.request.body.None? ==> r == NoChange(Response(400, "Bad request"), subscribers, queue))
      && (call.request.body.Some? && Truthy(call.request.body.value)
          && ParseInput(call.request.body.value, call.emailOk, call.zoneOk).None? ==>
            r == NoChange(Response(400, ""), subscribers, queue))
  {
  }

  /** The trigger runs on the record written: the confirmation asked for goes to its address. */
  lemma SavedTriggers(subscribers: map<string, Subscriber>, queue: map<QueueKey, QueueItem>, settings: map<string, SettingItem>,
                      s: Subscriber, body: string, call: Call)
    ensures var r := Saved(subscribers, queue, settings, s, body, call);
      r.response == Response(200, body) && r.subscribers == subscribers[s.subscriberId := s]
      && r.emails == TriggerEmails(TriggerOf(call.request.query), s.email, call.api, s.subscriberId)
  {
  }

  /**
   * A valid request always runs its trigger: every outcome but the missing
   * record's 500 sends the confirmation asked for, whether or not the
   * request changed anything.
   */
  lemma DispatchAlwaysTriggers(subscribers: map<string, Subscriber>, queue: map<QueueKey, QueueItem>, settings: map<string, SettingItem>,
                               call: Call, input: SubscriberInput)
    ensures var r := Dispatch(subscribers, queue, settings, call, input);
      r.response.statusCode == 500 || (r.emails != [] <==> TriggerOf(call.request.query).SendConfirmation?)
  {
    if call.index.None? {
      SavedTriggers(subscribers, queue, settings, NewRecord(input, call.newId, call.newToken, call.now), "OK", call);
    } else if call.index.value.subscriberId in subscribers {
      var current := subscribers[call.index.value.subscriberId];
      SavedTriggers(subscribers, queue, settings, TagAddedRecord(current, input), "Tag added", call);
      SavedTriggers(subscribers, queue, settings, ReplacedRecord(current, input), "Subscriber updated", call);
    }
  }

  /** A new address is saved under the fresh id, unconfirmed and subscribed, and the answer is `OK`. */
  lemma DispatchAddsNew(subscribers: map<string, Subscriber>, queue: map<QueueKey, QueueItem>, settings: map<string, SettingItem>,
                        call: Call, input: SubscriberInput)
    requires call.index.None?
    ensures var r := Dispatch(subscribers, queue, settings, call, input);
      r.response == Response(200, "OK")
      && r.subscribers == subscribers[call.newId := NewRecord(input, call.newId, call.newToken, call.now)]
      && !Truthy(r.subscribers[call.newId].confirmed) && !Truthy(r.subscribers[call.newId].unsubscribed)
  {
    NewRecordShape(input, call.newId, call.newToken, call.now);
  }

  /** Every outcome keeps each record under its own key. */
  lemma DispatchKeepsKeys(subscribers: map<string, Subscriber>, queue: map<QueueKey, QueueItem>, settings: map<string, SettingItem>,
                          call: Call, input: SubscriberInput)
    requires Keyed(subscribers, queue)
    ensures Keyed(Dispatch(subscribers, queue, settings, call, input).subscribers, Dispatch(subscribers, queue, settings, call, input).queue)
  {
    if call.index.Some? && call.index.value.subscriberId in subscribers {
      var current := subscribers[call.index.value.subscriberId];
      KeyedPut(subscribers, queue, current.(tags := Some(AppendMissing(TagsOf(current), InputTags(input)))));
      assert Keyed(TagWritten(subscribers, current, input), queue);
    }
  }

  /** Save a record, then run the trigger. */
  method Save(store: Store, s: Subscriber, body: string, call: Call) returns (response: Response, emails: seq<Email>, enqueued: seq<QueueItem>)
    requires store.Valid()
    modifies store
    ensures store.Valid() && store.settings == old(store.settings)
    ensures Outcome(response, store.subscribers, store.queue, emails, enqueued)
         == Saved(old(store.subscribers), old(store.queue), old(store.settings), s, body, call)
  {
    store.subscribers := store.subscribers[s.subscriberId := s];
    emails, enqueued := RunTriggers(store, TriggerOf(call.request.query), [], s, s.email, call.api, call.now, call.random);
    assert ActionIds(TriggerOf(call.request.query)) + [] == ActionIds(TriggerOf(call.request.query));
    response := Response(200, body);
  }

  /** A known address: merge the tags if one is new, then save and run the trigger. */
  method UpdateKnown(store: Store, current: Subscriber, input: SubscriberInput, call: Call)
    returns (response: Response, emails: seq<Email>, enqueued: seq<QueueItem>)
    requires store.Valid() && current.subscriberId in store.subscribers && store.subscribers[current.subscriberId] == current
    modifies store
    ensures store.Valid() && store.settings == old(store.settings)
    ensures Outcome(response, store.subscribers, store.queue, emails, enqueued)
         == (if HasAll(TagsOf(current), InputTags(input))
             then Saved(old(store.subscribers), old(store.queue), old(store.settings), ReplacedRecord(current, input), "Subscriber updated", call)
             else Saved(TagWritten(old(store.subscribers), current, input), old(store.queue), old(store.settings),
                        TagAddedRecord(current, input), "Tag added", call))
  {
    var hasAll := CheckHasAllTags(TagsOf(current), InputTags(input));
    if !hasAll {
      var merged := MergeTags(TagsOf(current), InputTags(input));
      store.subscribers := store.subscribers[current.subscriberId := current.(tags := Some(merged))];
      response, emails, enqueued := Save(store, TagAddedRecord(current, input), "Tag added", call);
    } else {
      response, emails, enqueued := Save(store, ReplacedRecord(current, input), "Subscriber updated", call);
    }
  }

  /** The handler, one table call at a time. */
  method Handle(store: Store, call: Call) returns (response: Response, emails: seq<Email>, enqueued: seq<QueueItem>)
    requires store.Valid()
    modifies store
    ensures store.Valid() && store.settings == old(store.settings)
    ensures Outcome(response, store.subscribers, store.queue, emails, enqueued)
         == Post(old(store.subscribers), old(store.queue), old(store.settings), call)
  {
    emails, enqueued := [], [];
    var body := call.request.body;
    if body.None? || !Truthy(body.value) {
      response := Response(400, "Bad request");
      return;
    }
    var input := ParseInput(body.value, call.emailOk, call.zoneOk);
    if input.None? {
      response := Response(400, "");
      return;
    }
    if call.index.None? {
      var s := NewRecord(input.value, call.newId, call.newToken, call.now);
      response, emails, enqueued := Save(store, s, "OK", call);
    } else if call.index.value.subscriberId !in store.subscribers {
      response := Response(500, "");
    } else {
      var current := store.subscribers[call.index.value.subscriberId];
      response, emails, enqueued := UpdateKnown(store, current, input.value, call);
    }
  }
}

=== FILE: admin_subscriber_count_post.dfy ===
/**
 * The admin endpoint that asks for a preview of how many subscribers a
 * broadcast would reach: it normalises the selection in the body and
 * stores it, with the status `triggered` and a count of 0, as the
 * `previewSubscriberCount` setting for the counting job.
 */
module AdminSubscriberCountPost {
  import opened Js
  import opened Model
  import opened Requests

  /** The normalised selection. */
  datatype Preview = Preview(
    tags: seq<string>,
    excludeTags: seq<string>,
    properties: JsVal,
    interactions: JsVal,
    interactionWithAnyEmail: JsVal,
    ignoreConfirmed: JsVal)

  /** `tags` and `excludeTags`: an array must hold only strings, and anything else counts as none. */
  function StringList(v: JsVal): (r: Option<seq<string>>)
    ensures !v.Arr? ==> r == Some([])
    ensures v.Arr? ==> (r.Some? <==> AllStrings(v.elems))
    ensures v.Arr? && r.Some? ==> Arr(seq(|r.value|, j requires 0 <= j < |r.value| => Str(r.value[j]))) == v
  {
    if !v.Arr? then Some([])
    else if AllStrings(v.elems) then
      var r := Strings(v.elems);
      assert seq(|r|, j requires 0 <= j < |r| => Str(r[j])) == v.elems;
      Some(r)
    else None
  }

  /** The values under the keys of an object, or the elements of an array, are all strings. */
  predicate OnlyStringValues(v: JsVal) {
    (v.Obj? && forall k :: k in v.fields ==> v.fields[k].Str?)
    || (v.Arr? && AllStrings(v.elems))
  }

  /**
   * `properties`: a value of type `object` must have only string values
   * (`null` is of that type, and `Object.keys(null)` throws); anything else
   * counts as none.
   */
  function Properties(v: JsVal): (r: Option<JsVal>)
    ensures IsObjectType(v) ==> (r.Some? <==> OnlyStringValues(v))
    ensures r.Some? && IsObjectType(v) ==> r.value == v
    ensures !IsObjectType(v) ==> r == Some(Null)
  {
    if !IsObjectType(v) then Some(Null)
    else if OnlyStringValues(v) then Some(v)
    else None
  }

  /** `Array.isArray(input.interactions) ? input.interactions : null` */
  function InteractionsOf(v: JsVal): (r: JsVal)
    ensures v.Arr? ==> r == v
    ensures !v.Arr? ==> r == Null
  {
    if v.Arr? then v else Null
  }

  /**
   * The selection in the body, or none when the body is refused: it does
   * not parse, it is `null` (reading a key of it throws), or a list or the
   * properties hold a value that is not a string.
   */
  function Normalise(body: Option<JsVal>): (r: Option<Preview>)
  {
    if body.None? || body.value.Null? || body.value.Undefined? then None
    else
      var input := body.value;
      var tags := StringList(Field(input, "tags"));
      var excludeTags := StringList(Field(input, "excludeTags"));
      var properties := Properties(Field(input, "properties"));
      if tags.None? || excludeTags.None? || properties.None? then None
      else Some(Preview(tags.value, excludeTags.value, properties.value, InteractionsOf(Field(input, "interactions")),
                        Field(input, "interactionWithAnyEmail"), Field(input, "ignoreConfirmed")))
  }

  /** The strings as a JSON array. */
  function StrArray(ss: seq<string>): (v: JsVal)
    ensures v.Arr? && |v.elems| == |ss| && AllStrings(v.elems)
    ensures forall j :: 0 <= j < |ss| ==> v.elems[j] == Str(ss[j])
  {
    Arr(seq(|ss|, j requires 0 <= j < |ss| => Str(ss[j])))
  }

  /** A list written as an array reads back as itself. */
  lemma StringListOfArray(ss: seq<string>)
    ensures StringList(StrArray(ss)) == Some(ss)
  {
    var r := Strings(StrArray(ss).elems);
    assert forall j :: 0 <= j < |ss| ==> Str(r[j]) == Str(ss[j]);
    assert r == ss;
  }

  /** The value of the `previewSubscriberCount` setting. */
  function PreviewValue(p: Preview): (v: JsVal)
    ensures v.Obj? && Field(v, "status") == Str("triggered") && Field(v, "count") == Num(0)
    ensures Field(v, "tags") == StrArray(p.tags) && Field(v, "excludeTags") == StrArray(p.excludeTags)
    ensures Field(v, "properties") == p.properties && Field(v, "interactions") == p.interactions
  {
    Obj(map[
      "status" := Str("triggered"), "count" := Num(0),
      "tags" := StrArray(p.tags), "excludeTags" := StrArray(p.excludeTags),
      "properties" := p.properties, "interactions" := p.interactions,
      "interactionWithAnyEmail" := p.interactionWithAnyEmail, "ignoreConfirmed" := p.ignoreConfirmed])
  }

  /**
   * Each normalisation rule: a list that is not an array becomes empty, an
   * array with a non-string is refused, an array of strings is kept; the
   * properties must be an object or array of strings, other values becoming
   * `null`, an explicit `null` refused; interactions that are not an array
   * become `null`; the two flags pass unvalidated.
   */
  lemma NormaliseCases(input: JsVal)
    requires !input.Null? && !input.Undefined?
    ensures var r := Normalise(Some(input));
      (r.Some? <==>
        (!Field(input, "tags").Arr? || AllStrings(Field(input, "tags").elems))
        && (!Field(input, "excludeTags").Arr? || AllStrings(Field(input, "excludeTags").elems))
        && (IsObjectType(Field(input, "properties")) ==> OnlyStringValues(Field(input, "properties"))))
      && (Field(input, "properties").Null? ==> r.None?)
      && (r.Some? ==>
            (!Field(input, "tags").Arr? ==> r.value.tags == [])
            && (Field(input, "tags").Arr? ==> StrArray(r.value.tags) == Field(input, "tags"))
            && (!Field(input, "excludeTags").Arr? ==> r.value.excludeTags == [])
            && (Field(input, "excludeTags").Arr? ==> StrArray(r.value.excludeTags) == Field(input, "excludeTags"))
            && (IsObjectType(Field(input, "properties")) ==> r.value.properties == Field(input, "properties"))
            && (!IsObjectType(Field(input, "properties")) ==> r.value.properties.Null?)
            && r.value.interactions == InteractionsOf(Field(input, "interactions"))
            && r.value.interactionWithAnyEmail == Field(input, "interactionWithAnyEmail")
            && r.value.ignoreConfirmed == Field(input, "ignoreConfirmed"))
  {
    assert !OnlyStringValues(Null);
  }

  /**
   * The stored value, posted back as a body, gives the same selection when
   * its properties are an object or array of strings; normalised properties
   * that became `null` cannot be posted back (below).
   */
  lemma PreviewRoundTrip(p: Preview)
    requires OnlyStringValues(p.properties)
    requires p.interactions.Arr? || p.interactions.Null?
    ensures Normalise(Some(PreviewValue(p))) == Some(p)
  {
    var v := PreviewValue(p);
    assert Field(v, "tags") == StrArray(p.tags);
    assert Field(v, "excludeTags") == StrArray(p.excludeTags);
    StringListOfArray(p.tags);
    StringListOfArray(p.excludeTags);
  }

  /** A stored selection whose properties were normalised to `null` is refused when posted back. */
  lemma NullPropertiesNotReposted(p: Preview)
    requires p.properties.Null?
    ensures Normalise(Some(PreviewValue(p))).None?
  {
    assert Field(PreviewValue(p), "properties") == Null;
    assert !OnlyStringValues(Null);
  }

  /** What the handler does: a refused body answers 400, otherwise the selection is stored. */
  function Count(settings: map<string, SettingItem>, body: Option<JsVal>): (Response, map<string, SettingItem>) {
    var preview := Normalise(body);
    if preview.None? then (Response(400, "Bad request"), settings)
    else (Response(200, JsonString("OK")), settings["previewSubscriberCount" := ValueItem(Json(PreviewValue(preview.value)))])
  }

  /**
   * A refused body writes nothing; an accepted one writes the selection,
   * with status `triggered` and count 0, and nothing else.
   */
  lemma CountCases(settings: map<string, SettingItem>, body: Option<JsVal>)
    ensures var (response, r) := Count(settings, body);
      (Normalise(body).None? ==> response == Response(400, "Bad request") && r == settings)
      && (body.None? || body.value.Null? ==> response == Response(400, "Bad request"))
      && (Normalise(body).Some? ==>
            response == Response(200, JsonString("OK"))
            && r.Keys == settings.Keys + {"previewSubscriberCount"}
            && r["previewSubscriberCount"].value == Json(PreviewValue(Normalise(body).value))
            && Field(PreviewValue(Normalise(body).value), "status") == Str("triggered")
            && Field(PreviewValue(Normalise(body).value), "count") == Num(0)
            && forall name :: name in settings && name != "previewSubscriberCount" ==> r[name] == settings[name])
  {
  }

  /** The handler: normalisation, then the write. */
  method Handle(store: Store, body: Option<JsVal>) returns (response: Response)
    requires store.Valid()
    modifies store
    ensures store.Valid() && store.subscribers == old(store.subscribers) && store.queue == old(store.queue)
    ensures (response, store.settings) == Count(old(store.settings), body)
  {
    var preview := Normalise(body);
    if preview.None? {
      return Response(400, "Bad request");
    }
    store.settings := store.settings["previewSubscriberCount" := ValueItem(Json(PreviewValue(preview.value)))];
    response := Response(200, JsonString("OK"));
  }
}

=== FILE: admin_subscriber_delete.dfy ===
/**
 * The admin endpoint that deletes a subscriber: their pending queue items
 * are deleted, then their record. As written, the handler reads the list
 * of pending items inside its own initialiser, so it fails with 500 before
 * deleting anything whenever the subscriber has a pending item; the
 * handler below deletes those items, as the code evidently means to.
 */
module AdminSubscriberDelete {
  import opened Js
  import opened Model
  import opened Patterns
  import opened Cleanup

  /**
   * One invocation: the query string parameters (none when the request has
   * none, and reading the id then throws) and the pending items the
   * subscriber-id index lists for the id.
   */
  datatype Call = Call(query: Option<map<string, string>>, pending: seq<QueueItem>)

  /** The id asked for, when it is a v4 UUID; a missing one is tested as the text `undefined`, which is not. */
  function RequestedId(query: map<string, string>): (id: Option<string>)
    ensures id.Some? <==> "subscriberId" in query && IsUuidV4(query["subscriberId"])
    ensures id.Some? ==> id.value == query["subscriberId"]
  {
    if "subscriberId" in query && IsUuidV4(query["subscriberId"]) then Some(query["subscriberId"]) else None
  }

  /**
   * The handler as written: a non-zero `Count` makes the initialiser of
   * `queueItems` read `queueItems` itself, which throws before any delete.
   */
  function DeleteAsWritten(subscribers: map<string, Subscriber>, queue: map<QueueKey, QueueItem>, call: Call): Outcome {
    if call.query.None? then NoChange(Response(500, ""), subscribers, queue)
    else if RequestedId(call.query.value).None? then NoChange(Response(400, "Invalid subscriber id"), subscribers, queue)
    else if |call.pending| != 0 then NoChange(Response(500, ""), subscribers, queue)
    else Outcome(Response(204, ""), subscribers - {RequestedId(call.query.value).value}, queue, [], [])
  }

  /**
   * As written, a subscriber with a pending item is never deleted: the
   * answer is 500, the record stays and so does every pending item.
   */
  lemma AsWrittenKeepsPending(subscribers: map<string, Subscriber>, queue: map<QueueKey, QueueItem>, call: Call)
    requires call.query.Some? && RequestedId(call.query.value).Some?
    requires PageOf(queue, RequestedId(call.query.value).value, call.pending) && call.pending != []
    ensures var r := DeleteAsWritten(subscribers, queue, call);
      var id := RequestedId(call.query.value).value;
      r == NoChange(Response(500, ""), subscribers, queue) && !NoPendingFor(r.queue, id)
      && (id in subscribers ==> id in r.subscribers)
  {
    var id := RequestedId(call.query.value).value;
    assert call.pending[0].key in queue && IsPendingFor(queue[call.pending[0].key], id);
  }

  /** What the handler evidently means to do: delete the pending items listed, then the record. */
  function Delete(subscribers: map<string, Subscriber>, queue: map<QueueKey, QueueItem>, call: Call): Outcome {
    if call.query.None? then NoChange(Response(500, ""), subscribers, queue)
    else if RequestedId(call.query.value).None? then NoChange(Response(400, "Invalid subscriber id"), subscribers, queue)
    else Outcome(Response(204, ""), subscribers - {RequestedId(call.query.value).value}, queue - KeysOf(call.pending), [], [])
  }

  /** A request without a query string is a 500 and a malformed id a 400; neither deletes anything. */
  lemma DeleteRefuses(subscribers: map<string, Subscriber>, queue: map<QueueKey, QueueItem>, call: Call)
    ensures var r := Delete(subscribers, queue, call);
      (call.query.None? ==> r == NoChange(Response(500, ""), subscribers, queue))
      && (call.query.Some? && RequestedId(call.query.value).None? ==>
            r == NoChange(Response(400, "Invalid subscriber id"), subscribers, queue))
  {
  }

  /**
   * A well-formed id: 204, the record is gone and every other record stays;
   * only pending items of the subscriber leave the queue, and when the
   * answer is complete none of theirs is left. Where the subscriber has no
   * pending item this is what the handler as written does too.
   */
  lemma DeleteRemovesAll(subscribers: map<string, Subscriber>, queue: map<QueueKey, QueueItem>, call: Call)
    requires call.query.Some? && RequestedId(call.query.value).Some?
    requires PageOf(queue, RequestedId(call.query.value).value, call.pending)
    ensures var r := Delete(subscribers, queue, call);
      var id := RequestedId(call.query.value).value;
      r.response == Response(204, "") && id !in r.subscribers
      && (forall other :: other in subscribers && other != id ==> other in r.subscribers && r.subscribers[other] == subscribers[other])
      && (forall k :: k in r.queue ==> k in queue && r.queue[k] == queue[k])
      && (forall k :: k in queue && k !in r.queue ==> IsPendingFor(queue[k], id))
      && (CompleteFor(queue, id, call.pending) ==> NoPendingFor(r.queue, id))
      && (call.pending == [] ==> r == DeleteAsWritten(subscribers, queue, call))
  {
    DeleteAnswer(queue, RequestedId(call.query.value).value, call.pending);
    if call.pending == [] {
      assert KeysOf(call.pending) == {};
    }
  }

  /** Every outcome keeps each record under its own key. */
  lemma DeleteKeepsKeys(subscribers: map<string, Subscriber>, queue: map<QueueKey, QueueItem>, call: Call)
    requires Keyed(subscribers, queue)
    ensures Keyed(Delete(subscribers, queue, call).subscribers, Delete(subscribers, queue, call).queue)
  {
  }

  /** The handler, corrected: the deletes of the pending items, then the delete of the record. */
  method Handle(store: Store, call: Call) returns (response: Response)
    requires store.Valid()
    modifies store
    ensures store.Valid() && store.settings == old(store.settings)
    ensures Outcome(response, store.subscribers, store.queue, [], []) == Delete(old(store.subscribers), old(store.queue), call)
  {
    if call.query.None? {
      return Response(500, "");
    }
    var id := RequestedId(call.query.value);
    if id.None? {
      return Response(400, "Invalid subscriber id");
    }
    DeleteAnswerItems(store, call.pending);
    store.subscribers := store.subscribers - {id.value};
    response := Response(204, "");
  }
}

=== FILE: admin_subscriber_email_post.dfy ===
/**
 * The admin endpoint that changes a subscriber's address: the record gets
 * the lower-cased address and, when the address was typed with capitals,
 * the typed form for display; every pending queue item of the subscriber
 * has its snapshot re-addressed the same way.
 */
module AdminSubscriberEmailPost {
  import opened Js
  import opened Model
  import opened Requests

  /** The validated body: the lower-cased id and the address as typed. */
  datatype EmailRequest = EmailRequest(subscriberId: string, email: string)

  /**
   * `updateEmailSchema`: an object with a `subscriberId` Joi lower-cases and
   * then accepts as a UUID, a valid `email`, and no other key. `idOk` and
   * `emailOk` are Joi's verdicts on the lower-cased id and on the address.
   */
  function ParseEmailBody(body: Option<JsVal>, idOk: bool, emailOk: bool): (r: Option<EmailRequest>)
    ensures r.Some? <==>
      body.Some? && OnlyKeys(body.value, {"subscriberId", "email"})
      && IsNonEmptyString(Field(body.value, "subscriberId")) && idOk
      && IsNonEmptyString(Field(body.value, "email")) && emailOk
    ensures r.Some? ==>
      r.value.subscriberId == ToLower(Field(body.value, "subscriberId").s) && IsLowerCase(r.value.subscriberId)
      && Field(body.value, "email") == Str(r.value.email)
  {
    if body.None? || !OnlyKeys(body.value, {"subscriberId", "email"}) then None
    else
      var id := Field(body.value, "subscriberId");
      var email := Field(body.value, "email");
      if IsNonEmptyString(id) && idOk && IsNonEmptyString(email) && emailOk
      then
        LowerIsLowerCase(id.s);
        Some(EmailRequest(ToLower(id.s), email.s))
      else None
  }

  /** `newDisplayEmail`: nothing when the typed address is already lower case, else the typed address. */
  function DisplayEmail(email: string): (d: string)
    ensures d == "" <==> ToLower(email) == email || email == ""
    ensures d != "" ==> d == email
  {
    if ToLower(email) == email then "" else email
  }

  /** A snapshot of the subscriber with the new address. */
  function Readdress(item: QueueItem, email: string, displayEmail: string): QueueItem {
    item.(subscriber := item.subscriber.(email := email, displayEmail := displayEmail))
  }

  /** The queue after the updates of the listed keys; an update names a stored item. */
  function Readdressed(queue: map<QueueKey, QueueItem>, keys: set<QueueKey>, email: string, displayEmail: string)
    : map<QueueKey, QueueItem>
  {
    map k | k in queue :: if k in keys then Readdress(queue[k], email, displayEmail) else queue[k]
  }

  /**
   * The re-addressing touches only the snapshot's two address fields of the
   * items the answer lists, which are pending items of the subscriber; when
   * the answer is complete, every pending item of theirs carries the new
   * address afterwards.
   */
  lemma ReaddressedItems(queue: map<QueueKey, QueueItem>, id: string, pending: seq<QueueItem>, email: string, displayEmail: string)
    requires PageOf(queue, id, pending)
    ensures var r := Readdressed(queue, KeysOf(pending), email, displayEmail);
      r.Keys == queue.Keys
      && (forall k :: k in queue && r[k] != queue[k] ==> IsPendingFor(queue[k], id))
      && (forall k :: k in queue ==>
            r[k].(subscriber := queue[k].subscriber) == queue[k]
            && r[k].subscriber.(email := queue[k].subscriber.email, displayEmail := queue[k].subscriber.displayEmail) == queue[k].subscriber)
      && (forall i :: 0 <= i < |pending| ==>
            r[pending[i].key].subscriber.email == email && r[pending[i].key].subscriber.displayEmail == displayEmail)
      && (CompleteFor(queue, id, pending) ==>
            forall k :: k in r && IsPendingFor(r[k], id) ==> r[k].subscriber.email == email && r[k].subscriber.displayEmail == displayEmail)
  {
    var r := Readdressed(queue, KeysOf(pending), email, displayEmail);
    forall k | k in queue && r[k] != queue[k]
      ensures IsPendingFor(queue[k], id)
    {
      var i :| 0 <= i < |pending| && pending[i].key == k;
    }
  }

  /**
   * One invocation: the request; Joi's verdicts on the id and on the
   * address; the pending items the subscriber-id index lists.
   */
  datatype Call = Call(request: Request, idOk: bool, emailOk: bool, pending: seq<QueueItem>)

  /** What the handler does. */
  function Post(subscribers: map<string, Subscriber>, queue: map<QueueKey, QueueItem>, call: Call): Outcome {
    var body := ParseEmailBody(call.request.body, call.idOk, call.emailOk);
    if body.None? then NoChange(Response(500, ""), subscribers, queue)
    else if body.value.subscriberId !in subscribers then NoChange(Response(404, JsonString("Subscriber not found")), subscribers, queue)
    else
      var id := body.value.subscriberId;
      var lower := ToLower(body.value.email);
      if lower == subscribers[id].email then NoChange(Response(200, JsonString("OK")), subscribers, queue)
      else
        var display := DisplayEmail(body.value.email);
        Outcome(Response(200, JsonString("OK")),
                subscribers[id := subscribers[id].(email := lower, displayEmail := display)],
                Readdressed(queue, KeysOf(call.pending), lower, display), [], [])
  }

  /** A refused body is a 500 and an unknown id a 404; neither writes anything. */
  lemma PostRefuses(subscribers: map<string, Subscriber>, queue: map<QueueKey, QueueItem>, call: Call)
    ensures var r := Post(subscribers, queue, call);
      var body := ParseEmailBody(call.request.body, call.idOk, call.emailOk);
      (body.None? ==> r == NoChange(Response(500, ""), subscribers, queue))
      && (body.Some? && body.value.subscriberId !in subscribers ==>
            r == NoChange(Response(404, JsonString("Subscriber not found")), subscribers, queue))
  {
  }

  /**
   * A new address: the record stores it in lower case and keeps the typed
   * form exactly when it differs, so the subscriber is written to at the
   * address as typed; nothing else of the record, and no other record,
   * changes; the queue changes only in pending items of the subscriber.
   */
  lemma PostChangesAddress(subscribers: map<string, Subscriber>, queue: map<QueueKey, QueueItem>, call: Call)
    requires ParseEmailBody(call.request.body, call.idOk, call.emailOk).Some?
    requires PageOf(queue, ParseEmailBody(call.request.body, call.idOk, call.emailOk).value.subscriberId, call.pending)
    ensures var r := Post(subscribers, queue, call);
      var body := ParseEmailBody(call.request.body, call.idOk, call.emailOk).value;
      var id := body.subscriberId;
      id in subscribers && ToLower(body.email) != subscribers[id].email ==>
        r.response == Response(200, JsonString("OK")) && id in r.subscribers
        && r.subscribers[id].email == ToLower(body.email) && IsLowerCase(r.subscribers[id].email)
        && Recipient(r.subscribers[id]) == body.email
        && (r.subscribers[id].displayEmail == "" <==> IsLowerCase(body.email))
        && r.subscribers[id] == subscribers[id].(email := r.subscribers[id].email, displayEmail := r.subscribers[id].displayEmail)
        && r.subscribers.Keys == subscribers.Keys
        && (forall other :: other in subscribers && other != id ==> r.subscribers[other] == subscribers[other])
        && r.queue.Keys == queue.Keys
        && (forall k :: k in queue && r.queue[k] != queue[k] ==> IsPendingFor(queue[k], id))
        && (CompleteFor(queue, id, call.pending) ==>
              forall k :: k in r.queue && IsPendingFor(r.queue[k], id) ==>
                r.queue[k].subscriber.email == r.subscribers[id].email
                && r.queue[k].subscriber.displayEmail == r.subscribers[id].displayEmail)
  {
    var body := ParseEmailBody(call.request.body, call.idOk, call.emailOk).value;
    var id := body.subscriberId;
    if id in subscribers && ToLower(body.email) != subscribers[id].email {
      LowerIsLowerCase(body.email);
      ReaddressedItems(queue, id, call.pending, ToLower(body.email), DisplayEmail(body.email));
    }
  }

  /** Asking again for the address just set is answered 200 and writes nothing. */
  lemma PostTwice(subscribers: map<string, Subscriber>, queue: map<QueueKey, QueueItem>, call: Call, again: Call)
    requires again.request.body == call.request.body && again.idOk == call.idOk && again.emailOk == call.emailOk
    requires ParseEmailBody(call.request.body, call.idOk, call.emailOk).Some?
    requires ParseEmailBody(call.request.body, call.idOk, call.emailOk).value.subscriberId in subscribers
    ensures var first := Post(subscribers, queue, call);
      Post(first.subscribers, first.queue, again) == NoChange(Response(200, JsonString("OK")), first.subscribers, first.queue)
  {
  }

  /** Every outcome keeps each record under its own key. */
  lemma PostKeepsKeys(subscribers: map<string, Subscriber>, queue: map<QueueKey, QueueItem>, call: Call)
    requires Keyed(subscribers, queue)
    ensures Keyed(Post(subscribers, queue, call).subscribers, Post(subscribers, queue, call).queue)
  {
  }

  /** The update of each listed item, one after another. */
  method ReaddressAll(store: Store, pending: seq<QueueItem>, email: string, displayEmail: string)
    requires store.Valid()
    modifies store
    ensures store.Valid() && store.subscribers == old(store.subscribers) && store.settings == old(store.settings)
    ensures store.queue == Readdressed(old(store.queue), KeysOf(pending), email, displayEmail)
  {
    var i := 0;
    while i < |pending|
      invariant 0 <= i <= |pending|
      invariant store.Valid() && store.subscribers == old(store.subscribers) && store.settings == old(store.settings)
      invariant store.queue == Readdressed(old(store.queue), KeysOf(pending[..i]), email, displayEmail)
    {
      var k := pending[i].key;
      ReaddressedStep(old(store.queue), pending, i, email, displayEmail);
      if k in store.queue {
        store.queue := store.queue[k := Readdress(store.queue[k], email, displayEmail)];
      }
      i := i + 1;
    }
    assert pending[..i] == pending;
  }

  /** One more listed key: the item under it is re-addressed, once however often it is listed. */
  lemma ReaddressedStep(queue: map<QueueKey, QueueItem>, pending: seq<QueueItem>, i: nat, email: string, displayEmail: string)
    requires i < |pending|
    ensures var before := Readdressed(queue, KeysOf(pending[..i]), email, displayEmail);
      var k := pending[i].key;
      Readdressed(queue, KeysOf(pending[..i + 1]), email, displayEmail)
        == if k in before then before[k := Readdress(before[k], email, displayEmail)] else before
  {
    var k := pending[i].key;
    assert KeysOf(pending[..i + 1]) == KeysOf(pending[..i]) + {k} by {
      forall x | x in KeysOf(pending[..i + 1]) ensures x in KeysOf(pending[..i]) + {k} {
        var j :| 0 <= j < i + 1 && pending[..i + 1][j].key == x;
        if j < i { assert pending[..i][j].key == x; }
      }
      forall x | x in KeysOf(pending[..i]) ensures x in KeysOf(pending[..i + 1]) {
        var j :| 0 <= j < i && pending[..i][j].key == x;
        assert pending[..i + 1][j].key == x;
      }
      assert pending[..i + 1][i].key == k;
    }
  }

  /** The handler: the record's update, then the updates of its pending items. */
  method Handle(store: Store, call: Call) returns (response: Response)
    requires store.Valid()
    modifies store
    ensures store.Valid() && store.settings == old(store.settings)
    ensures Outcome(response, store.subscribers, store.queue, [], []) == Post(old(store.subscribers), old(store.queue), call)
  {
    var body := ParseEmailBody(call.request.body, call.idOk, call.emailOk);
    if body.None? {
      return Response(500, "");
    }
    var id := body.value.subscriberId;
    if id !in store.subscribers {
      return Response(404, JsonString("Subscriber not found"));
    }
    var lower := ToLower(body.value.email);
    if lower == store.subscribers[id].email {
      return Response(200, JsonString("OK"));
    }
    var display := DisplayEmail(body.value.email);
    var record := store.subscribers[id].(email := lower, displayEmail := display);
    KeyedPut(store.subscribers, store.queue, record);
    store.subscribers := store.subscribers[id := record];
    ReaddressAll(store, call.pending, lower, display);
    response := Response(200, JsonString("OK"));
  }
}

=== FILE: admin_subscriber_post.dfy ===
/**
 * The admin "post subscriber" endpoint: validate the body and the trigger
 * options, suppress blocked domains, then either create the subscriber or
 * merge the request into the stored record, run the triggers when the
 * request brings tags the subscriber did not have, and refresh the
 * subscriber snapshot held by its pending queue items.
 */
module AdminSubscriberPost {
  import opened Js
  import opened Model
  import opened Patterns
  import opened Tags
  import opened Requests
  import opened Blocking
  import opened Triggers

  // ---------------------------------------------------------------------
  // Validation

  /** The keys `addSubscriberSchema` declares. */
  const Declared: set<string> := {"email", "timezone", "deliveryTimePreference", "tags", "confirmed", "unsubscribed"}

  /**
   * `addSubscriberSchema`: an object with an e-mail address (`emailOk` is
   * Joi's address check) and the optional fields above; other keys pass
   * unchanged.
   */
  function ParseInput(body: JsVal, emailOk: bool, zoneOk: bool): Option<SubscriberInput>
  {
    if !body.Obj? || !IsNonEmptyString(Field(body, "email")) || !emailOk then None
    else
      var timezone := ParseTimezone(Field(body, "timezone"), zoneOk);
      var dtp := ParseDtp(Field(body, "deliveryTimePreference"));
      var tags := ParseTags(Field(body, "tags"));
      var confirmed := ParseFlag(Field(body, "confirmed"));
      var unsubscribed := ParseFlag(Field(body, "unsubscribed"));
      if timezone.None? || dtp.None? || tags.None? || confirmed.None? || unsubscribed.None? then None
      else Some(SubscriberInput(Field(body, "email").s, timezone.value, dtp.value, tags.value, confirmed.value, unsubscribed.value,
                                Others(body.fields, Declared)))
  }

  /**
   * `triggerSchema`: no keys but the three options; a `triggerType` is
   * `confirmation` or `autoresponder` and comes with an alphanumeric
   * `triggerId`; without a type there is no id.
   */
  predicate TriggerParamsValid(q: map<string, string>) {
    q.Keys <= {"triggerType", "triggerId", "triggerAutoresponders"}
    && ("triggerType" in q ==>
          (q["triggerType"] == "confirmation" || q["triggerType"] == "autoresponder")
          && "triggerId" in q && IsAlnumWord(q["triggerId"]))
    && ("triggerType" !in q ==> "triggerId" !in q)
  }

  /** `optsSchema`: no keys but the three options; `triggerAutoresponders` lists alphanumeric ids. */
  predicate OptsValid(m: map<string, seq<string>>) {
    m.Keys <= {"triggerType", "triggerId", "triggerAutoresponders"}
    && ("triggerAutoresponders" in m ==>
          forall j :: 0 <= j < |m["triggerAutoresponders"]| ==> IsAlnumWord(m["triggerAutoresponders"][j]))
  }

  /** The autoresponders the multi-valued query asks to enrol in, in order. */
  function AutoresponderIds(multiQuery: Option<map<string, seq<string>>>): (ids: seq<string>)
    ensures multiQuery.None? ==> ids == []
    ensures multiQuery.Some? && OptsValid(multiQuery.value) ==> forall j :: 0 <= j < |ids| ==> IsAlnumWord(ids[j])
  {
    if multiQuery.Some? && "triggerAutoresponders" in multiQuery.value then multiQuery.value["triggerAutoresponders"] else []
  }

  /** The request as the three schemas let it through: `None` when one of them refuses it. */
  function Validate(request: Request, emailOk: bool, zoneOk: bool): Option<SubscriberInput> {
    if request.body.None? then None
    else if request.query.Some? && !TriggerParamsValid(request.query.value) then None
    else if request.multiQuery.Some? && !OptsValid(request.multiQuery.value) then None
    else ParseInput(request.body.value, emailOk, zoneOk)
  }

  /** What validation lets through: an object naming a checked, non-empty address and well-formed options. */
  lemma ValidateAccepts(request: Request, emailOk: bool, zoneOk: bool)
    ensures var v := Validate(request, emailOk, zoneOk);
      v.Some? ==>
        request.body.Some? && request.body.value.Obj? && emailOk
        && Field(request.body.value, "email") == Str(v.value.email) && v.value.email != ""
        && (request.query.Some? ==> TriggerParamsValid(request.query.value))
        && (request.multiQuery.Some? ==> OptsValid(request.multiQuery.value))
        && ParseTags(Field(request.body.value, "tags")) == Some(v.value.tags)
        && v.value.extra == Others(request.body.value.fields, Declared)
        && (v.value.confirmed.Undefined? || Some(v.value.confirmed) == JoiScalar(Field(request.body.value, "confirmed")))
        && (v.value.unsubscribed.Undefined? || Some(v.value.unsubscribed) == JoiScalar(Field(request.body.value, "unsubscribed")))
  {
  }

  /** A body that is not JSON, not an object, or has no address is refused. */
  lemma ValidateRefuses(request: Request, emailOk: bool, zoneOk: bool)
    requires request.body.None? || !request.body.value.Obj? || !IsNonEmptyString(Field(request.body.value, "email")) || !emailOk
    ensures Validate(request, emailOk, zoneOk).None?
  {
  }

  // ---------------------------------------------------------------------
  // The records written

  /**
   * `saveSubscriber` on a new address: the request's fields over the
   * defaults "not confirmed" and "not unsubscribed", the address kept as
   * typed for display and stored lower-cased, then the time of joining, a
   * fresh id and a fresh token over whatever the body said.
   */
  function NewRecord(input: SubscriberInput, subscriberId: string, token: string, now: nat): (s: Subscriber)
    ensures s.subscriberId == subscriberId
  {
    var defaults := Blank(subscriberId).(confirmed := Bool(false), unsubscribed := Bool(false));
    Overlay(defaults, input).(email := ToLower(input.email), displayEmail := input.email,
                               joined := now, subscriberId := subscriberId, confirmationToken := token)
  }

  /**
   * A new record is unconfirmed and subscribed unless the request says
   * otherwise, is addressed as typed, is found by its lower-cased address,
   * and keeps every other key of the body.
   */
  lemma NewRecordShape(input: SubscriberInput, subscriberId: string, token: string, now: nat)
    ensures var s := NewRecord(input, subscriberId, token, now);
      s.confirmationToken == token && s.joined == now && s.tags == TagsAttribute(input)
      && s.extra == Others(input.extra, Attributes)
      && s.email == ToLower(input.email) && IsLowerCase(s.email) && Recipient(s) == input.email
      && (if input.confirmed.Undefined? then s.confirmed == Bool(false) else s.confirmed == input.confirmed)
      && (if input.unsubscribed.Undefined? then s.unsubscribed == Bool(false) else s.unsubscribed == input.unsubscribed)
  {
    LowerIsLowerCase(input.email);
    assert map[] + Others(input.extra, Attributes) == Others(input.extra, Attributes);
  }

  /**
   * The record an update writes over `full` (the stored record), given the
   * index entry `index` and the request:
   * - the tags stay as indexed when the request brings none that are new,
   *   and otherwise gain the new ones at the end;
   * - a subscriber the index shows as unsubscribed is re-subscribed with
   *   exactly the requested tags and, unless the request says otherwise,
   *   as unconfirmed;
   * - a confirmed subscriber asked to be confirmed keeps its confirmation;
   * - every other key of the body is written over the stored record, the
   *   id among them.
   */
  function UpdatedRecord(full: Subscriber, index: Subscriber, input: SubscriberInput): (r: Subscriber)
    ensures r.subscriberId == StrOr(input.extra, "subscriberId", full.subscriberId)
  {
    var tagsUpdate := if HasAll(TagsOf(full), InputTags(input)) then index.tags else Some(AppendMissing(TagsOf(full), InputTags(input)));
    var merged := Overlay(full, input).(tags := tagsUpdate, email := ToLower(input.email));
    var revived :=
      if Truthy(index.unsubscribed)
      then merged.(unsubscribed := Bool(false), tags := TagsAttribute(input),
                   confirmed := if input.confirmed.Undefined? then Bool(false) else merged.confirmed)
      else merged;
    if Truthy(index.confirmed) && Truthy(input.confirmed) then revived.(confirmed := index.confirmed) else revived
  }

  /**
   * An update stores the address lower-cased and keeps the record's join
   * time, token and display address unless the body names them, and a body
   * with no key outside the schema keeps the record's id and other
   * attributes; every other key of the body is stored.
   */
  lemma UpdateKeepsIdentity(full: Subscriber, index: Subscriber, input: SubscriberInput)
    ensures var r := UpdatedRecord(full, index, input);
      r.joined == IntOr(input.extra, "joined", full.joined)
      && r.confirmationToken == StrOr(input.extra, "confirmationToken", full.confirmationToken)
      && r.displayEmail == StrOr(input.extra, "displayEmail", full.displayEmail)
      && r.email == ToLower(input.email) && IsLowerCase(r.email)
      && (forall k :: k in input.extra && k !in Attributes ==> k in r.extra && r.extra[k] == input.extra[k])
      && (input.extra == map[] ==>
            r.subscriberId == full.subscriberId && r.joined == full.joined && r.confirmationToken == full.confirmationToken
            && r.displayEmail == full.displayEmail && r.extra == full.extra)
  {
    LowerIsLowerCase(input.email);
    if input.extra == map[] {
      OverlayWithoutOthers(full, input);
    }
  }

  /**
   * The tags an update stores: exactly the requested ones for a subscriber
   * coming back from unsubscribed; otherwise the indexed ones when nothing
   * is new, and the stored ones followed by the new ones when something is.
   */
  lemma UpdateTags(full: Subscriber, index: Subscriber, input: SubscriberInput)
    ensures var r := UpdatedRecord(full, index, input);
      (Truthy(index.unsubscribed) ==> r.unsubscribed == Bool(false) && r.tags == TagsAttribute(input))
      && (!Truthy(index.unsubscribed) && HasAll(TagsOf(full), InputTags(input)) ==> r.tags == index.tags)
      && (!Truthy(index.unsubscribed) && !HasAll(TagsOf(full), InputTags(input)) ==>
            r.tags.Some? && |TagsOf(full)| <= |r.tags.value| && r.tags.value[..|TagsOf(full)|] == TagsOf(full)
            && forall x :: x in r.tags.value <==> x in TagsOf(full) || x in InputTags(input))
  {
  }

  /**
   * The confirmation an update stores: an explicit request decides whether
   * the subscriber is confirmed, a confirmed subscriber asked to be
   * confirmed keeps its confirmation, and a returning subscriber is
   * unconfirmed unless the request says otherwise.
   */
  lemma UpdateConfirmed(full: Subscriber, index: Subscriber, input: SubscriberInput)
    ensures var r := UpdatedRecord(full, index, input);
      (!input.confirmed.Undefined? ==> (Truthy(r.confirmed) <==> Truthy(input.confirmed)))
      && (Truthy(index.confirmed) && Truthy(input.confirmed) ==> r.confirmed == index.confirmed)
      && (input.confirmed.Undefined? && Truthy(index.unsubscribed) ==> r.confirmed == Bool(false))
      && (input.confirmed.Undefined? && !Truthy(index.unsubscribed) ==> r.confirmed == full.confirmed)
  {
  }

  /** The unsubscribed flag an update stores when the index shows the subscriber as subscribed. */
  lemma UpdateUnsubscribed(full: Subscriber, index: Subscriber, input: SubscriberInput)
    requires !Truthy(index.unsubscribed)
    ensures UpdatedRecord(full, index, input).unsubscribed == (if input.unsubscribed.Undefined? then full.unsubscribed else input.unsubscribed)
  {
  }

  /**
   * The pending queue items re-written with the new snapshot: only when the
   * pending query found items and the batch read answered with a list.
   */
  function Resnapshot(pending: seq<QueueItem>, batchGet: Option<seq<QueueItem>>, updated: Subscriber): (items: seq<QueueItem>)
    ensures pending == [] || batchGet.None? ==> items == []
    ensures batchGet.Some? && pending != [] ==> |items| == |batchGet.value|
    ensures forall j :: 0 <= j < |items| ==> items[j] == batchGet.value[j].(subscriber := updated)
  {
    if pending == [] || batchGet.None? then []
    else seq(|batchGet.value|, j requires 0 <= j < |batchGet.value| => batchGet.value[j].(subscriber := updated))
  }

  /** After the re-write every re-written item holds the updated snapshot, and nothing else moves. */
  lemma ResnapshotRefreshes(queue: map<QueueKey, QueueItem>, pending: seq<QueueItem>, batchGet: Option<seq<QueueItem>>, updated: Subscriber)
    ensures forall k :: k in KeysOf(Resnapshot(pending, batchGet, updated)) ==>
      PutAll(queue, Resnapshot(pending, batchGet, updated))[k].subscriber == updated
    ensures forall k :: k in queue && k !in KeysOf(Resnapshot(pending, batchGet, updated)) ==>
      PutAll(queue, Resnapshot(pending, batchGet, updated))[k] == queue[k]
  {
    PutAllHolds(queue, Resnapshot(pending, batchGet, updated), (item: QueueItem) => item.subscriber == updated);
  }

  // ---------------------------------------------------------------------
  // The handler

  /** A new address: the record saved, then the trigger and the requested enrolments. */
  function Added(subscribers: map<string, Subscriber>, queue: map<QueueKey, QueueItem>, settings: map<string, SettingItem>,
                 input: SubscriberInput, action: TriggerAction, ids: seq<string>,
                 api: string, now: nat, newId: string, newToken: string, random: nat -> string): (r: Outcome)
    ensures Keyed(subscribers, queue) ==> Keyed(r.subscribers, r.queue)
  {
    var s := NewRecord(input, newId, newToken, now);
    var enqueued := EnrolAll(settings, ActionIds(action) + ids, s, now, random);
    KeyedPut(subscribers, queue, s);
    PutAllKeyed(subscribers[newId := s], queue, enqueued);
    Outcome(Response(200, JsonString("Added")), subscribers[newId := s], PutAll(queue, enqueued),
            TriggerEmails(action, Recipient(s), api, newId), enqueued)
  }

  /**
   * A known address: the merged record saved; the trigger and the requested
   * enrolments only when the request brings a tag the record lacks; then the
   * pending items re-written with the merged record.
   */
  function Updated(subscribers: map<string, Subscriber>, queue: map<QueueKey, QueueItem>, settings: map<string, SettingItem>,
                   full: Subscriber, index: Subscriber, input: SubscriberInput, action: TriggerAction, ids: seq<string>,
                   pending: seq<QueueItem>, batchGet: Option<seq<QueueItem>>,
                   api: string, now: nat, random: nat -> string): (r: Outcome)
    ensures Keyed(subscribers, queue) ==> Keyed(r.subscribers, r.queue)
  {
    var s := UpdatedRecord(full, index, input);
    var quiet := HasAll(TagsOf(full), InputTags(input));
    var enqueued := if quiet then [] else EnrolAll(settings, ActionIds(action) + ids, s, now, random);
    KeyedPut(subscribers, queue, s);
    PutAllKeyed(subscribers[s.subscriberId := s], queue, enqueued);
    PutAllKeyed(subscribers[s.subscriberId := s], PutAll(queue, enqueued), Resnapshot(pending, batchGet, s));
    var emails := if quiet then [] else TriggerEmails(action, Recipient(s), api, s.subscriberId);
    Outcome(Response(200, JsonString("Updated")), subscribers[s.subscriberId := s],
            PutAll(PutAll(queue, enqueued), Resnapshot(pending, batchGet, s)), emails, enqueued)
  }

  /**
   * One invocation: the request; Joi's verdicts on the address and on the
   * time zone; the email-index entry for the lower-cased address; the
   * answers of the pending-items query and of the batch read of those items
   * (`None` when the batch answer carries no item list); the API base URL;
   * the clock; the fresh id and token; the random fractions.
   */
  datatype Call = Call(
    request: Request, emailOk: bool, zoneOk: bool, index: Option<Subscriber>,
    pending: seq<QueueItem>, batchGet: Option<seq<QueueItem>>,
    api: string, now: nat, newId: string, newToken: string, random: nat -> string)

  /** What the handler does: validation, then the rest. */
  function Post(subscribers: map<string, Subscriber>, queue: map<QueueKey, QueueItem>, settings: map<string, SettingItem>,
                call: Call): Outcome
  {
    var valid := Validate(call.request, call.emailOk, call.zoneOk);
    if valid.None? then NoChange(Response(500, ""), subscribers, queue)
    else Dispatch(subscribers, queue, settings, call, valid.value, AdminBlockCheck(settings, valid.value.email))
  }

  /** What the handler does with a valid request, given the verdict on its domain. */
  function Dispatch(subscribers: map<string, Subscriber>, queue: map<QueueKey, QueueItem>, settings: map<string, SettingItem>,
                    call: Call, input: SubscriberInput, block: BlockCheck): Outcome
  {
    if block == Fails then NoChange(Response(500, ""), subscribers, queue)
    else if block == Blocked then NoChange(Response(200, JsonString("Added")), subscribers, queue)
    else
      var action := TriggerOf(call.request.query);
      var ids := AutoresponderIds(call.request.multiQuery);
      if call.index.None? then
        Added(subscribers, queue, settings, input, action, ids, call.api, call.now, call.newId, call.newToken, call.random)
      else if call.index.value.subscriberId !in subscribers then NoChange(Response(500, ""), subscribers, queue)
      else
        var full := subscribers[call.index.value.subscriberId];
        Updated(subscribers, queue, settings, full, call.index.value, input, action, ids, call.pending, call.batchGet,
                call.api, call.now, call.random)
  }

  /** Every failure answers 500 and leaves the tables as they were, sending nothing. */
  lemma PostFailsCleanly(subscribers: map<string, Subscriber>, queue: map<QueueKey, QueueItem>, settings: map<string, SettingItem>, call: Call)
    ensures var r := Post(subscribers, queue, settings, call);
      (r.response.statusCode == 200 || r.response.statusCode == 500)
      && (r.response.statusCode == 500 ==> r == NoChange(r.response, subscribers, queue))
      && (Validate(call.request, call.emailOk, call.zoneOk).None? ==> r.response.statusCode == 500)
  {
    var valid := Validate(call.request, call.emailOk, call.zoneOk);
    if valid.Some? {
      DispatchFailsCleanly(subscribers, queue, settings, call, valid.value, AdminBlockCheck(settings, valid.value.email));
    }
  }

  lemma DispatchFailsCleanly(subscribers: map<string, Subscriber>, queue: map<QueueKey, QueueItem>, settings: map<string, SettingItem>,
                             call: Call, input: SubscriberInput, block: BlockCheck)
    ensures var r := Dispatch(subscribers, queue, settings, call, input, block);
      (r.response.statusCode == 200 || r.response.statusCode == 500)
      && (r.response.statusCode == 500 ==> r == NoChange(r.response, subscribers, queue))
      && (block == Blocked ==> r == NoChange(Response(200, JsonString("Added")), subscribers, queue))
  {
  }

  /**
   * A new address is stored under the fresh id as `NewRecord` builds it
   * (see `NewRecordShape`), nothing else is touched, and the confirmation,
   * if asked for, goes to the address as typed.
   */
  lemma DispatchAddsNew(subscribers: map<string, Subscriber>, queue: map<QueueKey, QueueItem>, settings: map<string, SettingItem>,
                        call: Call, input: SubscriberInput)
    requires call.index.None?
    ensures var r := Dispatch(subscribers, queue, settings, call, input, NotBlocked);
      r.response == Response(200, JsonString("Added"))
      && r.subscribers == subscribers[call.newId := NewRecord(input, call.newId, call.newToken, call.now)]
      && r.emails == TriggerEmails(TriggerOf(call.request.query), input.email, call.api, call.newId)
  {
    NewRecordShape(input, call.newId, call.newToken, call.now);
  }

  /**
   * A post that brings no tag the subscriber lacks runs no trigger: no
   * e-mail, no enrolment; only the record and its pending items' snapshot
   * are written.
   */
  lemma DispatchRepeatIsQuiet(subscribers: map<string, Subscriber>, queue: map<QueueKey, QueueItem>, settings: map<string, SettingItem>,
                              call: Call, input: SubscriberInput)
    requires call.index.Some? && call.index.value.subscriberId in subscribers
    requires HasAll(TagsOf(subscribers[call.index.value.subscriberId]), InputTags(input))
    ensures var r := Dispatch(subscribers, queue, settings, call, input, NotBlocked);
      r.response == Response(200, JsonString("Updated")) && r.emails == [] && r.enqueued == []
  {
  }

  /**
   * A post that brings a tag the subscriber lacks runs the trigger asked for
   * and the requested enrolments on the merged record, which is stored
   * under its id.
   */
  lemma DispatchUpdateTriggers(subscribers: map<string, Subscriber>, queue: map<QueueKey, QueueItem>, settings: map<string, SettingItem>,
                               call: Call, input: SubscriberInput)
    requires call.index.Some? && call.index.value.subscriberId in subscribers
    requires !HasAll(TagsOf(subscribers[call.index.value.subscriberId]), InputTags(input))
    ensures var r := Dispatch(subscribers, queue, settings, call, input, NotBlocked);
      var s := UpdatedRecord(subscribers[call.index.value.subscriberId], call.index.value, input);
      var action := TriggerOf(call.request.query);
      r.response == Response(200, JsonString("Updated"))
      && r.subscribers == subscribers[s.subscriberId := s]
      && r.emails == TriggerEmails(action, Recipient(s), call.api, s.subscriberId)
      && r.enqueued == EnrolAll(settings, ActionIds(action) + AutoresponderIds(call.request.multiQuery), s, call.now, call.random)
  {
  }

  /** Every outcome keeps each record under its own key. */
  lemma PostKeepsKeys(subscribers: map<string, Subscriber>, queue: map<QueueKey, QueueItem>, settings: map<string, SettingItem>, call: Call)
    requires Keyed(subscribers, queue)
    ensures Keyed(Post(subscribers, queue, settings, call).subscribers, Post(subscribers, queue, settings, call).queue)
  {
    var valid := Validate(call.request, call.emailOk, call.zoneOk);
    if valid.Some? {
      DispatchKeepsKeys(subscribers, queue, settings, call, valid.value, AdminBlockCheck(settings, valid.value.email));
    }
  }

  lemma DispatchKeepsKeys(subscribers: map<string, Subscriber>, queue: map<QueueKey, QueueItem>, settings: map<string, SettingItem>,
                          call: Call, input: SubscriberInput, block: BlockCheck)
    requires Keyed(subscribers, queue)
    ensures Keyed(Dispatch(subscribers, queue, settings, call, input, block).subscribers,
                  Dispatch(subscribers, queue, settings, call, input, block).queue)
  {
  }

  /** A new address: save the record, then run the triggers. */
  method AddNew(store: Store, input: SubscriberInput, action: TriggerAction, ids: seq<string>,
                api: string, now: nat, newId: string, newToken: string, random: nat -> string)
    returns (emails: seq<Email>, enqueued: seq<QueueItem>)
    requires store.Valid()
    modifies store
    ensures store.Valid() && store.settings == old(store.settings)
    ensures Outcome(Response(200, JsonString("Added")), store.subscribers, store.queue, emails, enqueued)
         == Added(old(store.subscribers), old(store.queue), old(store.settings), input, action, ids, api, now, newId, newToken, random)
  {
    var s := NewRecord(input, newId, newToken, now);
    store.subscribers := store.subscribers[newId := s];
    emails, enqueued := RunTriggers(store, action, ids, s, Recipient(s), api, now, random);
  }

  /** A known address: save the merged record, run the triggers if a tag is new, refresh the pending items. */
  method UpdateExisting(store: Store, full: Subscriber, index: Subscriber, input: SubscriberInput, action: TriggerAction, ids: seq<string>,
                        pending: seq<QueueItem>, batchGet: Option<seq<QueueItem>>, api: string, now: nat, random: nat -> string)
    returns (emails: seq<Email>, enqueued: seq<QueueItem>)
    requires store.Valid()
    modifies store
    ensures store.Valid() && store.settings == old(store.settings)
    ensures Outcome(Response(200, JsonString("Updated")), store.subscribers, store.queue, emails, enqueued)
         == Updated(old(store.subscribers), old(store.queue), old(store.settings), full, index, input, action, ids, pending, batchGet, api, now, random)
  {
    emails, enqueued := [], [];
    var hasAllTags := CheckHasAllTags(TagsOf(full), InputTags(input));
    var s := UpdatedRecord(full, index, input);
    store.subscribers := store.subscribers[s.subscriberId := s];
    if !hasAllTags {
      emails, enqueued := RunTriggers(store, action, ids, s, Recipient(s), api, now, random);
    }
    Refresh(store, Resnapshot(pending, batchGet, s));
  }

  /** The batch write of the re-snapshotted pending items. */
  method Refresh(store: Store, rewrites: seq<QueueItem>)
    requires store.Valid()
    modifies store
    ensures store.Valid()
    ensures store.subscribers == old(store.subscribers) && store.settings == old(store.settings)
    ensures store.queue == PutAll(old(store.queue), rewrites)
  {
    PutAllKeepsKeys(store.queue, rewrites);
    store.queue := PutAll(store.queue, rewrites);
  }

  /** The handler, one table call at a time. */
  method Handle(store: Store, call: Call) returns (response: Response, emails: seq<Email>, enqueued: seq<QueueItem>)
    requires store.Valid()
    modifies store
    ensures store.Valid() && store.settings == old(store.settings)
    ensures Outcome(response, store.subscribers, store.queue, emails, enqueued)
         == Post(old(store.subscribers), old(store.queue), old(store.settings), call)
  {
    response, emails, enqueued := Response(500, ""), [], [];
    var valid := Validate(call.request, call.emailOk, call.zoneOk);
    if valid.None? {
      return;
    }
    var input := valid.value;
    var block := AdminBlockCheck(store.settings, input.email);
    if block == Fails {
      return;
    } else if block == Blocked {
      response := Response(200, JsonString("Added"));
      return;
    }
    var action := TriggerOf(call.request.query);
    var ids := AutoresponderIds(call.request.multiQuery);
    if call.index.None? {
      emails, enqueued := AddNew(store, input, action, ids, call.api, call.now, call.newId, call.newToken, call.random);
      response := Response(200, JsonString("Added"));
    } else if call.index.value.subscriberId in store.subscribers {
      var full := store.subscribers[call.index.value.subscriberId];
      emails, enqueued := UpdateExisting(store, full, call.index.value, input, action, ids, call.pending, call.batchGet,
                                         call.api, call.now, call.random);
      response := Response(200, JsonString("Updated"));
    }
  }
}

=== FILE: admin_subscriber_remove_queue_items.dfy ===
/**
 * The maintenance script that deletes every pending queue item of the
 * subscriber with a given address. Its failures are only logged; as
 * shipped, it is run without an input and so stops at the first check.
 */
module AdminSubscriberRemoveQueueItems {
  import opened Js
  import opened Model
  import opened Requests
  import opened Cleanup

  /** The longest address the script looks up. */
  const MaxEmailLength: nat := 256

  /**
   * `run(input)`: the message it logs when it stops, or none when the
   * deletes went through, and the queue afterwards. `index` is the first
   * entry the e-mail index lists for the lower-cased address and `pending`
   * the subscriber-id index's answer for that entry.
   */
  function Remove(queue: map<QueueKey, QueueItem>, input: JsVal, index: Option<Subscriber>, pending: seq<QueueItem>)
    : (Option<string>, map<QueueKey, QueueItem>)
  {
    if !Truthy(input) || !Field(input, "email").Str? then (Some("No email provided"), queue)
    else if |ToLower(Field(input, "email").s)| > MaxEmailLength then (Some("Email too large"), queue)
    else if index.None? then (Some("Subscriber not found"), queue)
    else (None, queue - KeysOf(pending))
  }

  /** Called as shipped, without an input, the script only logs that no address was given. */
  lemma ShippedRunOnlyLogs(queue: map<QueueKey, QueueItem>, index: Option<Subscriber>, pending: seq<QueueItem>)
    ensures Remove(queue, Undefined, index, pending) == (Some("No email provided"), queue)
  {
  }

  /**
   * Every run: an input without a string address, an address longer than
   * 256 characters, or one the index does not list stops the script with
   * nothing deleted; otherwise exactly the listed items leave the queue,
   * all of them pending items of the subscriber, and with a complete answer
   * none of theirs is left.
   */
  lemma RemoveCases(queue: map<QueueKey, QueueItem>, input: JsVal, index: Option<Subscriber>, pending: seq<QueueItem>)
    requires index.Some? ==> PageOf(queue, index.value.subscriberId, pending)
    ensures var (error, r) := Remove(queue, input, index, pending);
      (error.Some? ==> r == queue)
      && (!Truthy(input) || !Field(input, "email").Str? ==> error == Some("No email provided"))
      && (Truthy(input) && Field(input, "email").Str? && |Field(input, "email").s| > MaxEmailLength ==> error == Some("Email too large"))
      && (error.None? <==> Truthy(input) && Field(input, "email").Str? && |Field(input, "email").s| <= MaxEmailLength && index.Some?)
      && (error.None? ==>
            (forall k :: k in r ==> k in queue && r[k] == queue[k])
            && (forall k :: k in queue && k !in r ==> IsPendingFor(queue[k], index.value.subscriberId))
            && (CompleteFor(queue, index.value.subscriberId, pending) ==> NoPendingFor(r, index.value.subscriberId)))
  {
    if index.Some? {
      DeleteAnswer(queue, index.value.subscriberId, pending);
    }
  }

  /** `run`: the checks, then one batch of deletes when the answer lists any item. */
  method Run(store: Store, input: JsVal, index: Option<Subscriber>, pending: seq<QueueItem>) returns (error: Option<string>)
    requires store.Valid()
    modifies store
    ensures store.Valid() && store.subscribers == old(store.subscribers) && store.settings == old(store.settings)
    ensures (error, store.queue) == Remove(old(store.queue), input, index, pending)
  {
    if !Truthy(input) || !Field(input, "email").Str? {
      return Some("No email provided");
    }
    var email := ToLower(Field(input, "email").s);
    if |email| > MaxEmailLength {
      return Some("Email too large");
    }
    if index.None? {
      return Some("Subscriber not found");
    }
    DeleteAnswerItems(store, pending);
    error := None;
  }
}

=== FILE: admin_subscriber_tag_add.dfy ===
/**
 * The older admin "tag add" endpoint: like the tag endpoint, with tags of
 * at most 26 characters, plain-text answers and no trigger.
 */
module AdminSubscriberTagAdd {
  import opened Js
  import opened Model
  import opened Requests
  import opened Tags

  /** The longest tag the schema accepts. */
  const MaxTagLength: nat := 26

  /**
   * One invocation: the request; Joi's verdict on the address; the
   * email-index entry for the lower-cased address.
   */
  datatype Call = Call(request: Request, emailOk: bool, index: Option<Subscriber>)

  /** A body that is not JSON, or whose JSON is falsy, is not a request at all. */
  predicate NoRequest(body: Option<JsVal>) {
    body.None? || !Truthy(body.value)
  }

  /**
   * What the handler does: a missing tag is appended to a copy of the
   * indexed tags; a record with no tags attribute fails on the lookup and
   * is a server error.
   */
  function Post(subscribers: map<string, Subscriber>, call: Call): (Response, map<string, Subscriber>) {
    if NoRequest(call.request.body) then (Response(400, "Invalid request"), subscribers)
    else
      var body := ParseTagBody(call.request.body, call.emailOk, MaxTagLength);
      if body.None? then (Response(500, "Server error"), subscribers)
      else if call.index.None? then (Response(404, "Not found"), subscribers)
      else
        var status := call.index.value;
        var tag := body.value.tag;
        if status.tags.None? then (Response(500, "Server error"), subscribers)
        else if tag in status.tags.value then (Response(200, "OK"), subscribers)
        else (Response(200, "OK"), subscribers[status.subscriberId := Current(subscribers, status.subscriberId).(tags := Some(status.tags.value + [tag]))])
  }

  /**
   * Every answer: 400 without a request, 500 for a refused body, 404 for
   * an unknown address, 500 for a record without tags, else 200; only a
   * new tag writes, appending it to the indexed tags, as adding a tag
   * does, and changing nothing else.
   */
  lemma PostCases(subscribers: map<string, Subscriber>, call: Call)
    ensures var (r, subs) := Post(subscribers, call);
      var body := ParseTagBody(call.request.body, call.emailOk, MaxTagLength);
      (NoRequest(call.request.body) ==> r == Response(400, "Invalid request") && subs == subscribers)
      && (!NoRequest(call.request.body) && body.None? ==> r == Response(500, "Server error") && subs == subscribers)
      && (!NoRequest(call.request.body) && body.Some? && call.index.None? ==> r == Response(404, "Not found") && subs == subscribers)
      && (!NoRequest(call.request.body) && body.Some? && call.index.Some? ==>
            var status := call.index.value;
            var id := status.subscriberId;
            (status.tags.None? ==> r == Response(500, "Server error") && subs == subscribers)
            && (status.tags.Some? ==>
                  r == Response(200, "OK")
                  && (body.value.tag in status.tags.value ==> subs == subscribers)
                  && (body.value.tag !in status.tags.value ==>
                        subs == subscribers[id := Current(subscribers, id).(tags := Some(AddTag(body.value.tag, status.tags.value)))])))
  {
    var body := ParseTagBody(call.request.body, call.emailOk, MaxTagLength);
    if body.Some? && call.index.Some? && call.index.value.tags.Some? && body.value.tag !in call.index.value.tags.value
       && call.index.value.tags.value == [] {
      assert call.index.value.tags.value + [body.value.tag] == [body.value.tag];
    }
  }

  /**
   * Adding the same tag twice, with the index up to date each time: the
   * second request finds the tag and writes nothing.
   */
  lemma PostTwice(subscribers: map<string, Subscriber>, call: Call, again: Call)
    requires again.request.body == call.request.body && again.emailOk == call.emailOk
    requires call.index.Some? && again.index.Some? && again.index.value.subscriberId == call.index.value.subscriberId
    requires call.index.value.subscriberId in subscribers && subscribers[call.index.value.subscriberId].tags == call.index.value.tags
    requires again.index.value.subscriberId in Post(subscribers, call).1
    requires again.index.value.tags == Post(subscribers, call).1[again.index.value.subscriberId].tags
    ensures Post(Post(subscribers, call).1, again) == (Post(subscribers, call).0, Post(subscribers, call).1)
  {
  }

  /** Every outcome keeps each record under its own key. */
  lemma PostKeepsKeys(subscribers: map<string, Subscriber>, queue: map<QueueKey, QueueItem>, call: Call)
    requires Keyed(subscribers, queue)
    ensures Keyed(Post(subscribers, call).1, queue)
  {
    var body := ParseTagBody(call.request.body, call.emailOk, MaxTagLength);
    if body.Some? && call.index.Some? {
      var status := call.index.value;
      if status.tags.Some? {
        KeyedPut(subscribers, queue, Current(subscribers, status.subscriberId).(tags := Some(status.tags.value + [body.value.tag])));
      }
    }
  }

  /** The handler: `slice`, `push`, then the update. */
  method Handle(store: Store, call: Call) returns (response: Response)
    requires store.Valid()
    modifies store
    ensures store.Valid() && store.settings == old(store.settings) && store.queue == old(store.queue)
    ensures (response, store.subscribers) == Post(old(store.subscribers), call)
  {
    if NoRequest(call.request.body) {
      return Response(400, "Invalid request");
    }
    var body := ParseTagBody(call.request.body, call.emailOk, MaxTagLength);
    if body.None? {
      return Response(500, "Server error");
    }
    if call.index.None? {
      return Response(404, "Not found");
    }
    var status := call.index.value;
    if status.tags.None? {
      return Response(500, "Server error");
    }
    if body.value.tag !in status.tags.value {
      var newTags := status.tags.value;
      newTags := newTags + [body.value.tag];
      var record := Current(store.subscribers, status.subscriberId).(tags := Some(newTags));
      KeyedPut(store.subscribers, store.queue, record);
      store.subscribers := store.subscribers[status.subscriberId := record];
    }
    response := Response(200, "OK");
  }
}

=== FILE: admin_subscriber_tag_post.dfy ===
/**
 * The admin "tag" endpoint: the subscriber found by address gets the tag
 * unless they have it already, and a query string naming an autoresponder
 * enrols them in it, whether or not the tag was new.
 */
module AdminSubscriberTagPost {
  import opened Js
  import opened Model
  import opened Requests
  import opened Patterns
  import opened Scheduling
  import opened Tags

  /** The longest tag the schema accepts. */
  const MaxTagLength: nat := 64

  /**
   * `paramsSchema`: an empty query asks for nothing, and the only other
   * query accepted names an autoresponder by an alphanumeric id; every other
   * query fails validation.
   */
  function TriggerParams(q: map<string, string>): (r: Option<Option<string>>)
    ensures r == Some(None) <==> q == map[]
    ensures r.Some? && r.value.Some? <==>
      q.Keys == {"triggerType", "triggerId"} && q["triggerType"] == "autoresponder" && IsAlnumWord(q["triggerId"])
    ensures r.Some? && r.value.Some? ==> r.value.value == q["triggerId"]
  {
    if q == map[] then Some(None)
    else if q.Keys == {"triggerType", "triggerId"} && q["triggerType"] == "autoresponder" && IsAlnumWord(q["triggerId"])
    then Some(Some(q["triggerId"]))
    else None
  }

  /** The autoresponder to enrol in: only a valid query naming one; a failed validation is only logged. */
  function Requested(query: Option<map<string, string>>): (id: Option<string>)
    ensures id.Some? ==> query.Some? && TriggerParams(query.value) == Some(id)
  {
    if query.None? then None
    else
      var params := TriggerParams(query.value);
      if params.Some? then params.value else None
  }

  /**
   * One invocation: the request; Joi's verdict on the address; the
   * email-index entry for the lower-cased address; the clock and the random
   * fraction of the queue key.
   */
  datatype Call = Call(request: Request, emailOk: bool, index: Option<Subscriber>, now: nat, random: string)

  /**
   * `addTag`: the indexed tags (none when the record has no tags attribute)
   * with the tag appended, unless it is one of them already.
   */
  function Tagged(subscribers: map<string, Subscriber>, status: Subscriber, tag: string): (r: map<string, Subscriber>)
    ensures tag in TagsOf(status) ==> r == subscribers
    ensures tag !in TagsOf(status) ==> r == subscribers[status.subscriberId := Current(subscribers, status.subscriberId).(tags := Some(TagsOf(status) + [tag]))]
  {
    if tag in TagsOf(status) then subscribers
    else subscribers[status.subscriberId := Current(subscribers, status.subscriberId).(tags := Some(TagsOf(status) + [tag]))]
  }

  /** `runTrigger` on the record as read after the tag: the enrolment item, when there is a record and a start step. */
  function Enrolment(subscribers: map<string, Subscriber>, settings: map<string, SettingItem>, id: string,
                     autoresponderId: Option<string>, now: nat, random: string): (items: seq<QueueItem>)
    ensures |items| <= 1
    ensures items != [] <==> autoresponderId.Some? && id in subscribers && StartStep(settings, autoresponderId.value).Some?
  {
    if autoresponderId.None? || id !in subscribers then []
    else
      var start := StartStep(settings, autoresponderId.value);
      if start.None? then []
      else [EnrolmentItem(start.value, subscribers[id], autoresponderId.value, "Start", now, random)]
  }

  /** What the handler does. */
  function Post(subscribers: map<string, Subscriber>, queue: map<QueueKey, QueueItem>, settings: map<string, SettingItem>,
                call: Call): Outcome
  {
    var body := ParseTagBody(call.request.body, call.emailOk, MaxTagLength);
    if body.None? then NoChange(Response(500, ""), subscribers, queue)
    else if call.index.None? then NoChange(Response(404, "Subscriber not found"), subscribers, queue)
    else
      var status := call.index.value;
      var tagged := Tagged(subscribers, status, body.value.tag);
      var items := Enrolment(tagged, settings, status.subscriberId, Requested(call.request.query), call.now, call.random);
      Outcome(Response(200, JsonString("OK")), tagged, PutAll(queue, items), [], items)
  }

  /** A refused body is a 500 and an unknown address a 404, and neither writes anything. */
  lemma PostRefuses(subscribers: map<string, Subscriber>, queue: map<QueueKey, QueueItem>, settings: map<string, SettingItem>, call: Call)
    ensures var r := Post(subscribers, queue, settings, call);
      var body := ParseTagBody(call.request.body, call.emailOk, MaxTagLength);
      (body.None? ==> r == NoChange(Response(500, ""), subscribers, queue))
      && (body.Some? && call.index.None? ==> r == NoChange(Response(404, "Subscriber not found"), subscribers, queue))
  {
  }

  /**
   * `addTag`: the subscriber has the tag afterwards; an existing tag writes
   * nothing, a new one is appended to the indexed tags and nothing else of
   * the record changes; no other record changes.
   */
  lemma TaggedHasTag(subscribers: map<string, Subscriber>, status: Subscriber, tag: string)
    ensures var r := Tagged(subscribers, status, tag);
      var id := status.subscriberId;
      (tag in TagsOf(status) ==> r == subscribers)
      && (tag !in TagsOf(status) ==>
            id in r && r[id].tags == Some(AddTag(tag, TagsOf(status))) && tag in TagsOf(r[id])
            && r[id] == Current(subscribers, id).(tags := r[id].tags))
      && (forall other :: other in subscribers && other != id ==> other in r && r[other] == subscribers[other])
  {
    if TagsOf(status) == [] {
      assert TagsOf(status) + [tag] == [tag];
    }
  }

  /**
   * The trigger: exactly the enrolment asked for, as a fresh pending item of
   * the subscriber that runs now and carries the record as read back.
   */
  lemma EnrolmentShape(subscribers: map<string, Subscriber>, settings: map<string, SettingItem>, id: string,
                       autoresponderId: Option<string>, now: nat, random: string)
    requires forall k :: k in subscribers ==> subscribers[k].subscriberId == k
    ensures var items := Enrolment(subscribers, settings, id, autoresponderId, now, random);
      items != [] ==>
        |items| == 1 && FreshPending(items[0]) && IsPendingFor(items[0], id)
        && items[0].subscriber == subscribers[id] && items[0].autoresponderId == autoresponderId.value
        && items[0].runAt == now && items[0].autoresponderStep == "Start"
        && items[0].step == StartStep(settings, autoresponderId.value).value
  {
  }

  /**
   * A known address: 200, the tag as `addTag` sets it, and the enrolment the
   * query asks for, also when the tag was already there.
   */
  lemma PostTagsAndEnrols(subscribers: map<string, Subscriber>, queue: map<QueueKey, QueueItem>, settings: map<string, SettingItem>,
                          call: Call)
    requires ParseTagBody(call.request.body, call.emailOk, MaxTagLength).Some? && call.index.Some?
    ensures var r := Post(subscribers, queue, settings, call);
      var tag := ParseTagBody(call.request.body, call.emailOk, MaxTagLength).value.tag;
      var tagged := Tagged(subscribers, call.index.value, tag);
      r.response == Response(200, JsonString("OK")) && r.subscribers == tagged
      && r.enqueued == Enrolment(tagged, settings, call.index.value.subscriberId, Requested(call.request.query), call.now, call.random)
      && r.queue == PutAll(queue, r.enqueued)
  {
  }

  /** Every outcome keeps each record under its own key. */
  lemma PostKeepsKeys(subscribers: map<string, Subscriber>, queue: map<QueueKey, QueueItem>, settings: map<string, SettingItem>, call: Call)
    requires Keyed(subscribers, queue)
    ensures Keyed(Post(subscribers, queue, settings, call).subscribers, Post(subscribers, queue, settings, call).queue)
  {
    var body := ParseTagBody(call.request.body, call.emailOk, MaxTagLength);
    if body.Some? && call.index.Some? {
      var status := call.index.value;
      var tagged := Tagged(subscribers, status, body.value.tag);
      KeyedPut(subscribers, queue, Current(subscribers, status.subscriberId).(tags := Some(TagsOf(status) + [body.value.tag])));
      PutAllKeyed(tagged, queue, Enrolment(tagged, settings, status.subscriberId, Requested(call.request.query), call.now, call.random));
    }
  }

  /** `addTag`'s update. */
  method AddTagTo(store: Store, status: Subscriber, tag: string)
    requires store.Valid()
    modifies store
    ensures store.Valid() && store.settings == old(store.settings) && store.queue == old(store.queue)
    ensures store.subscribers == Tagged(old(store.subscribers), status, tag)
  {
    if tag in TagsOf(status) {
      return;
    }
    var record := Current(store.subscribers, status.subscriberId).(tags := Some(TagsOf(status) + [tag]));
    KeyedPut(store.subscribers, store.queue, record);
    store.subscribers := store.subscribers[status.subscriberId := record];
  }

  /** The handler: the tag, then the trigger on the record read back. */
  method Handle(store: Store, call: Call) returns (response: Response, enqueued: seq<QueueItem>)
    requires store.Valid()
    modifies store
    ensures store.Valid() && store.settings == old(store.settings)
    ensures Outcome(response, store.subscribers, store.queue, [], enqueued)
         == Post(old(store.subscribers), old(store.queue), old(store.settings), call)
  {
    var body := ParseTagBody(call.request.body, call.emailOk, MaxTagLength);
    if body.None? {
      return Response(500, ""), [];
    }
    if call.index.None? {
      return Response(404, "Subscriber not found"), [];
    }
    var status := call.index.value;
    AddTagTo(store, status, body.value.tag);
    enqueued := [];
    var ar := Requested(call.request.query);
    if ar.Some? && status.subscriberId in store.subscribers {
      enqueued := Enrol(store, ar.value, store.subscribers[status.subscriberId], call.now, call.random);
    }
    response := Response(200, JsonString("OK"));
  }
}

=== FILE: admin_subscriber_unsubscribe_post.dfy ===
/**
 * The admin "unsubscribe" endpoint: the subscriber found by address is
 * marked unsubscribed and every queued item the queue query returns for
 * them is deleted.
 */
module AdminSubscriberUnsubscribePost {
  import opened Js
  import opened Model
  import opened Requests
  import opened Cleanup

  /**
   * One invocation: the request; Joi's verdict on the address; the
   * email-index entry for the lower-cased address; the single, unpaged
   * answer of the queued-items query for that subscriber.
   */
  datatype Call = Call(request: Request, emailOk: bool, index: Option<Subscriber>, pending: seq<QueueItem>)

  /** The body schema: an object holding exactly an address, lower-cased. */
  function ParseBody(body: Option<JsVal>, emailOk: bool): (email: Option<string>)
    ensures email.Some? ==> body.Some? && OnlyKeys(body.value, {"email"}) && IsLowerCase(email.value)
  {
    if body.Some? && OnlyKeys(body.value, {"email"}) then LowerEmail(Field(body.value, "email"), emailOk) else None
  }

  /** `getSubscriberIdByEmail`: the id of the index entry, or none when there is no entry or its id is empty. */
  function IndexedId(index: Option<Subscriber>): (id: Option<string>)
    ensures id.Some? <==> index.Some? && index.value.subscriberId != ""
    ensures id.Some? ==> id.value == index.value.subscriberId
  {
    if index.Some? && index.value.subscriberId != "" then Some(index.value.subscriberId) else None
  }

  /** `unsubscribeSubscriber`'s update: an upsert that sets `unsubscribed` and nothing else. */
  function Unsubscribed(subscribers: map<string, Subscriber>, id: string): (r: map<string, Subscriber>)
    ensures r.Keys == subscribers.Keys + {id}
    ensures forall other :: other in subscribers && other != id ==> r[other] == subscribers[other]
  {
    subscribers[id := Current(subscribers, id).(unsubscribed := Bool(true))]
  }

  /** What the handler does. */
  function Post(subscribers: map<string, Subscriber>, queue: map<QueueKey, QueueItem>, call: Call): Outcome {
    var email := ParseBody(call.request.body, call.emailOk);
    if email.None? then NoChange(Response(400, ""), subscribers, queue)
    else if IndexedId(call.index).None? then NoChange(Response(404, JsonString("Not found")), subscribers, queue)
    else
      var id := IndexedId(call.index).value;
      Outcome(Response(200, JsonString("OK")), Unsubscribed(subscribers, id), queue - KeysOf(call.pending), [], [])
  }

  /** A refused body, or an address without a subscriber id, changes nothing. */
  lemma PostRefuses(subscribers: map<string, Subscriber>, queue: map<QueueKey, QueueItem>, call: Call)
    ensures var r := Post(subscribers, queue, call);
      (ParseBody(call.request.body, call.emailOk).None? ==> r == NoChange(Response(400, ""), subscribers, queue))
      && (ParseBody(call.request.body, call.emailOk).Some? && IndexedId(call.index).None?
          ==> r == NoChange(Response(404, JsonString("Not found")), subscribers, queue))
  {
  }

  /**
   * A known subscriber: only its `unsubscribed` becomes true, only queued
   * items of that subscriber leave the queue, and when the query answer is
   * complete none of them is left.
   */
  lemma PostUnsubscribes(subscribers: map<string, Subscriber>, queue: map<QueueKey, QueueItem>, call: Call)
    requires ParseBody(call.request.body, call.emailOk).Some? && IndexedId(call.index).Some?
    requires PageOf(queue, call.index.value.subscriberId, call.pending)
    ensures var r := Post(subscribers, queue, call);
      var id := call.index.value.subscriberId;
      r.response == Response(200, JsonString("OK")) && r.emails == [] && r.enqueued == []
      && id in r.subscribers && r.subscribers[id] == Current(subscribers, id).(unsubscribed := Bool(true))
      && Truthy(r.subscribers[id].unsubscribed)
      && (forall other :: other in subscribers && other != id ==> other in r.subscribers && r.subscribers[other] == subscribers[other])
      && r.queue.Keys <= queue.Keys
      && (forall k :: k in r.queue ==> r.queue[k] == queue[k])
      && (forall k :: k in queue && k !in r.queue ==> IsPendingFor(queue[k], id))
      && (CompleteFor(queue, id, call.pending) ==> NoPendingFor(r.queue, id))
  {
    DeleteAnswer(queue, call.index.value.subscriberId, call.pending);
  }

  /** Every outcome keeps each record under its own key. */
  lemma PostKeepsKeys(subscribers: map<string, Subscriber>, queue: map<QueueKey, QueueItem>, call: Call)
    requires Keyed(subscribers, queue)
    ensures Keyed(Post(subscribers, queue, call).subscribers, Post(subscribers, queue, call).queue)
  {
  }

  /** The handler: the update, then the deletes for the query answer. */
  method Handle(store: Store, call: Call) returns (response: Response)
    requires store.Valid()
    modifies store
    ensures store.Valid() && store.settings == old(store.settings)
    ensures Outcome(response, store.subscribers, store.queue, [], [])
         == Post(old(store.subscribers), old(store.queue), call)
  {
    var email := ParseBody(call.request.body, call.emailOk);
    if email.None? {
      return Response(400, "");
    }
    var id := IndexedId(call.index);
    if id.None? {
      return Response(404, JsonString("Not found"));
    }
    store.subscribers := Unsubscribed(store.subscribers, id.value);
    DeleteAnswerItems(store, call.pending);
    response := Response(200, JsonString("OK"));
  }
}

=== FILE: admin_subscriber_untag_post.dfy ===
/**
 * The admin "untag" endpoint: the first occurrence of the tag leaves the
 * subscriber's tags; an unknown address is a server error.
 */
module AdminSubscriberUntagPost {
  import opened Js
  import opened Model
  import opened Requests
  import opened Tags

  /** The longest tag the schema accepts. */
  const MaxTagLength: nat := 64

  /**
   * One invocation: the request; Joi's verdict on the address; the
   * email-index entry for the lower-cased address.
   */
  datatype Call = Call(request: Request, emailOk: bool, index: Option<Subscriber>)

  /**
   * What the handler does. The lookup failure carries no status code, so it
   * is answered 500 with its message.
   */
  function Post(subscribers: map<string, Subscriber>, call: Call): (Response, map<string, Subscriber>) {
    var body := ParseTagBody(call.request.body, call.emailOk, MaxTagLength);
    if body.None? then (Response(500, ""), subscribers)
    else if call.index.None? then (Response(500, "Subscriber not found"), subscribers)
    else
      var status := call.index.value;
      var tag := body.value.tag;
      if tag !in TagsOf(status) then (Response(200, JsonString("OK")), subscribers)
      else (Response(200, JsonString("OK")),
            subscribers[status.subscriberId := Current(subscribers, status.subscriberId).(tags := Some(RemoveFirst(TagsOf(status), tag)))])
  }

  /**
   * A known address and a tag they have: 200, and only `tags` changes: it
   * loses one occurrence of the tag, the rest in order; a tag they do not
   * have writes nothing.
   */
  lemma PostUntags(subscribers: map<string, Subscriber>, call: Call)
    requires ParseTagBody(call.request.body, call.emailOk, MaxTagLength).Some? && call.index.Some?
    ensures var (r, subs) := Post(subscribers, call);
      var tag := ParseTagBody(call.request.body, call.emailOk, MaxTagLength).value.tag;
      var status := call.index.value;
      var id := status.subscriberId;
      var tags := TagsOf(status);
      r == Response(200, JsonString("OK"))
      && (tag !in tags ==> subs == subscribers)
      && (tag in tags ==>
            id in subs && subs[id] == Current(subscribers, id).(tags := subs[id].tags) && subs[id].tags.Some?
            && multiset(subs[id].tags.value) == multiset(tags) - multiset{tag}
            && (exists i :: 0 <= i < |tags| && tags[i] == tag && tag !in tags[..i]
                            && subs[id].tags.value == tags[..i] + tags[i + 1..])
            && forall other :: other in subscribers && other != id ==> other in subs && subs[other] == subscribers[other])
  {
    var tag := ParseTagBody(call.request.body, call.emailOk, MaxTagLength).value.tag;
    var tags := TagsOf(call.index.value);
    if tag in tags {
      RemoveFirstMultiset(tags, tag);
      RemoveFirstIsSplice(tags, tag);
    }
  }

  /** A refused body or an unknown address is a 500 and writes nothing. */
  lemma PostRefuses(subscribers: map<string, Subscriber>, call: Call)
    ensures var body := ParseTagBody(call.request.body, call.emailOk, MaxTagLength);
      (body.None? ==> Post(subscribers, call) == (Response(500, ""), subscribers))
      && (body.Some? && call.index.None? ==> Post(subscribers, call) == (Response(500, "Subscriber not found"), subscribers))
  {
  }

  /** Every outcome keeps each record under its own key. */
  lemma PostKeepsKeys(subscribers: map<string, Subscriber>, queue: map<QueueKey, QueueItem>, call: Call)
    requires Keyed(subscribers, queue)
    ensures Keyed(Post(subscribers, call).1, queue)
  {
    var body := ParseTagBody(call.request.body, call.emailOk, MaxTagLength);
    if body.Some? && call.index.Some? {
      var status := call.index.value;
      KeyedPut(subscribers, queue, Current(subscribers, status.subscriberId).(tags := Some(RemoveFirst(TagsOf(status), body.value.tag))));
    }
  }

  /** `removeTag`: `indexOf` on a copy, `splice` there, then the update. */
  method Handle(store: Store, call: Call) returns (response: Response)
    requires store.Valid()
    modifies store
    ensures store.Valid() && store.settings == old(store.settings) && store.queue == old(store.queue)
    ensures (response, store.subscribers) == Post(old(store.subscribers), call)
  {
    var body := ParseTagBody(call.request.body, call.emailOk, MaxTagLength);
    if body.None? {
      return Response(500, "");
    }
    if call.index.None? {
      return Response(500, "Subscriber not found");
    }
    var status := call.index.value;
    var newTags := TagsOf(status);
    var currentIndex := FirstIndex(newTags, body.value.tag);
    if currentIndex < |newTags| {
      RemoveFirstIsSplice(TagsOf(status), body.value.tag);
      newTags := newTags[..currentIndex] + newTags[currentIndex + 1..];
      var record := Current(store.subscribers, status.subscriberId).(tags := Some(newTags));
      KeyedPut(store.subscribers, store.queue, record);
      store.subscribers := store.subscribers[status.subscriberId := record];
    }
    response := Response(200, JsonString("OK"));
  }
}

=== FILE: admin_subscribers_post.dfy ===
/**
 * The admin bulk import: up to 25 subscribers in one request, each stored
 * as a new record under a new id, with the confirmation and subscription
 * flags defaulted, in one batch write.
 */
module AdminSubscribersPost {
  import opened Js
  import opened Model
  import opened Requests

  /** The most subscribers one request may carry. */
  const MaxImport: nat := 25

  /**
   * One subscriber of the request; `joined` is 0 when the request gives
   * none; `extra` holds the keys the schema does not declare.
   */
  datatype ImportInput = ImportInput(
    email: string,
    timezone: Option<string>,
    deliveryTimePreference: Option<Dtp>,
    tags: Option<Option<seq<string>>>,
    joined: int,
    confirmed: JsVal,
    unsubscribed: JsVal,
    extra: map<string, JsVal>)

  /** The keys an element of `subscribers` declares. */
  const Declared: set<string> := {"email", "timezone", "joined", "deliveryTimePreference", "tags", "confirmed", "unsubscribed"}

  /**
   * The validated request: the `opts` the handler reads (the overwrite flag,
   * `false` when absent, and the two defaults) and the subscribers.
   */
  datatype ImportRequest = ImportRequest(
    overwriteExisting: bool,
    defaultConfirmedValue: JsVal,
    defaultUnsubscribedValue: JsVal,
    subscribers: seq<ImportInput>)

  /**
   * One element of `subscribers`: an object with a valid `email`, the
   * declared optional fields, any other key, and none of `displayEmail`,
   * `confirmationToken` and `subscriberId`. `emailOk` and `zoneOk` are Joi's
   * verdicts on an address and on a zone name.
   */
  function ParseImportItem(v: JsVal, emailOk: string -> bool, zoneOk: string -> bool): (r: Option<ImportInput>)
    ensures r.Some? ==>
      v.Obj? && Field(v, "email") == Str(r.value.email) && r.value.email != "" && emailOk(r.value.email)
      && "displayEmail" !in v.fields && "confirmationToken" !in v.fields && "subscriberId" !in v.fields
      && r.value.confirmed == Field(v, "confirmed") && r.value.unsubscribed == Field(v, "unsubscribed")
      && (if Field(v, "joined").Undefined? then r.value.joined == 0 else JoiNumber(Field(v, "joined")) == Some(r.value.joined))
      && r.value.extra == Others(v.fields, Declared)
      && ParseDtp(Field(v, "deliveryTimePreference")) == Some(r.value.deliveryTimePreference)
      && ParseTags(Field(v, "tags")) == Some(r.value.tags)
    ensures r.Some? <==>
      v.Obj? && IsNonEmptyString(Field(v, "email")) && emailOk(Field(v, "email").s)
      && "displayEmail" !in v.fields && "confirmationToken" !in v.fields && "subscriberId" !in v.fields
      && ParseTimezone(Field(v, "timezone"), Field(v, "timezone").Str? && zoneOk(Field(v, "timezone").s)).Some?
      && ParseDtp(Field(v, "deliveryTimePreference")).Some? && ParseTags(Field(v, "tags")).Some?
      && (Field(v, "joined").Undefined? || JoiNumber(Field(v, "joined")).Some?)
  {
    if !v.Obj? || !IsNonEmptyString(Field(v, "email")) || !emailOk(Field(v, "email").s)
       || "displayEmail" in v.fields || "confirmationToken" in v.fields || "subscriberId" in v.fields
    then None
    else
      var zone := ParseTimezone(Field(v, "timezone"), Field(v, "timezone").Str? && zoneOk(Field(v, "timezone").s));
      var dtp := ParseDtp(Field(v, "deliveryTimePreference"));
      var tags := ParseTags(Field(v, "tags"));
      var joined := Field(v, "joined");
      if zone.None? || dtp.None? || tags.None? || !(joined.Undefined? || JoiNumber(joined).Some?) then None
      else Some(ImportInput(Field(v, "email").s, zone.value, dtp.value, tags.value,
                            if joined.Undefined? then 0 else JoiNumber(joined).value,
                            Field(v, "confirmed"), Field(v, "unsubscribed"), Others(v.fields, Declared)))
  }

  /** Every element of the array parses. */
  predicate AllParse(elems: seq<JsVal>, emailOk: string -> bool, zoneOk: string -> bool) {
    forall j :: 0 <= j < |elems| ==> ParseImportItem(elems[j], emailOk, zoneOk).Some?
  }

  /**
   * `addSubscribersSchema`: `opts` is required and declares only
   * `overwriteExisting`, a boolean; `subscribers` holds 1 to 25 valid
   * elements; no other key.
   */
  function ParseImport(body: Option<JsVal>, emailOk: string -> bool, zoneOk: string -> bool): (r: Option<ImportRequest>)
    ensures r.Some? ==>
      body.Some? && OnlyKeys(body.value, {"opts", "subscribers"})
      && OnlyKeys(Field(body.value, "opts"), {"overwriteExisting"})
      && Field(body.value, "subscribers").Arr?
      && |r.value.subscribers| == |Field(body.value, "subscribers").elems|
      && (forall j :: 0 <= j < |r.value.subscribers| ==>
            ParseImportItem(Field(body.value, "subscribers").elems[j], emailOk, zoneOk) == Some(r.value.subscribers[j]))
    ensures r.Some? ==> 1 <= |r.value.subscribers| <= MaxImport
  {
    if body.None? || !OnlyKeys(body.value, {"opts", "subscribers"}) then None
    else
      var opts := Field(body.value, "opts");
      var list := Field(body.value, "subscribers");
      var flag := Field(opts, "overwriteExisting");
      if !OnlyKeys(opts, {"overwriteExisting"}) || !(flag.Undefined? || JoiBoolean(flag).Some?) then None
      else if !list.Arr? || !(1 <= |list.elems| <= MaxImport) || !AllParse(list.elems, emailOk, zoneOk) then None
      else
        var inputs := seq(|list.elems|, j requires 0 <= j < |list.elems| => ParseImportItem(list.elems[j], emailOk, zoneOk).value);
        Some(ImportRequest(flag != Undefined && JoiBoolean(flag).value,
                           Field(opts, "defaultConfirmedValue"), Field(opts, "defaultUnsubscribedValue"), inputs))
  }

  /**
   * The schema of `opts` leaves the two defaults the handler reads
   * unreachable: a request that names either is refused, so both are
   * always missing.
   */
  lemma DefaultsUnreachable(body: Option<JsVal>, emailOk: string -> bool, zoneOk: string -> bool)
    requires ParseImport(body, emailOk, zoneOk).Some?
    ensures ParseImport(body, emailOk, zoneOk).value.defaultConfirmedValue == Undefined
    ensures ParseImport(body, emailOk, zoneOk).value.defaultUnsubscribedValue == Undefined
  {
    var opts := Field(body.value, "opts");
    assert "defaultConfirmedValue" !in opts.fields && "defaultUnsubscribedValue" !in opts.fields;
  }

  /** `a || b`: the first operand when truthy, else the second. */
  function Or(a: JsVal, b: JsVal): (r: JsVal)
    ensures Truthy(a) ==> r == a
    ensures !Truthy(a) ==> r == b
  {
    if Truthy(a) then a else b
  }

  /** `confirmed`: the subscriber's own when given, else the default when given, else `true`. */
  function ImportConfirmed(input: ImportInput, request: ImportRequest): JsVal {
    if !input.confirmed.Undefined? then input.confirmed
    else if !request.defaultConfirmedValue.Undefined? then request.defaultConfirmedValue
    else Bool(true)
  }

  /**
   * The record one subscriber of the request becomes: every key given, the
   * address in lower case with the typed form for display, a new id and
   * confirmation token, the flags defaulted, and now as the join time when
   * none (or zero) is given.
   */
  function ImportRecord(input: ImportInput, request: ImportRequest, subscriberId: string, token: string, now: nat): Subscriber {
    Assign(Blank(subscriberId), input.extra).(
      email := ToLower(input.email), displayEmail := input.email, subscriberId := subscriberId,
      confirmed := ImportConfirmed(input, request),
      unsubscribed := Or(Or(input.unsubscribed, request.defaultUnsubscribedValue), Bool(false)),
      tags := if input.tags.Some? then input.tags.value else None,
      timezone := input.timezone, deliveryTimePreference := input.deliveryTimePreference,
      joined := if input.joined != 0 then input.joined else now,
      confirmationToken := token)
  }

  /**
   * The records of the request, in order; `uuid(k)` is the k-th v4 UUID the
   * handler draws, two per subscriber: the id, then the token.
   */
  function ImportRecords(request: ImportRequest, uuid: nat -> string, now: nat): (records: seq<Subscriber>)
    ensures |records| == |request.subscribers|
    ensures forall j :: 0 <= j < |records| ==>
      records[j] == ImportRecord(request.subscribers[j], request, uuid(2 * j), uuid(2 * j + 1), now)
  {
    seq(|request.subscribers|, j requires 0 <= j < |request.subscribers| =>
      ImportRecord(request.subscribers[j], request, uuid(2 * j), uuid(2 * j + 1), now))
  }

  /**
   * Each record of a validated request: the lower-cased address and the
   * typed one, the drawn id and token, `confirmed` as given or else `true`,
   * `unsubscribed` as given when truthy or else `false`, the join time given
   * or else now.
   */
  lemma ImportRecordsShape(body: Option<JsVal>, emailOk: string -> bool, zoneOk: string -> bool, uuid: nat -> string, now: nat)
    requires ParseImport(body, emailOk, zoneOk).Some?
    ensures var request := ParseImport(body, emailOk, zoneOk).value;
      var records := ImportRecords(request, uuid, now);
      |records| == |request.subscribers| && 1 <= |records| <= MaxImport
      && forall j :: 0 <= j < |records| ==>
        var input := request.subscribers[j];
        records[j].email == ToLower(input.email) && IsLowerCase(records[j].email) && records[j].displayEmail == input.email
        && records[j].subscriberId == uuid(2 * j) && records[j].confirmationToken == uuid(2 * j + 1)
        && records[j].confirmed == (if input.confirmed.Undefined? then Bool(true) else input.confirmed)
        && records[j].unsubscribed == (if Truthy(input.unsubscribed) then input.unsubscribed else Bool(false))
        && records[j].joined == (if input.joined != 0 then input.joined else now)
        && (now > 0 && input.joined >= 0 ==> records[j].joined > 0)
        && records[j].tags == (if input.tags.Some? then input.tags.value else None)
        && (forall k :: k in input.extra && k !in Attributes ==> k in records[j].extra && records[j].extra[k] == input.extra[k])
  {
    DefaultsUnreachable(body, emailOk, zoneOk);
    var request := ParseImport(body, emailOk, zoneOk).value;
    forall j | 0 <= j < |request.subscribers| ensures IsLowerCase(ToLower(request.subscribers[j].email)) {
      LowerIsLowerCase(request.subscribers[j].email);
    }
  }

  /** No two records share an id. */
  predicate DistinctIds(records: seq<Subscriber>) {
    forall i, j :: 0 <= i < j < |records| ==> records[i].subscriberId != records[j].subscriberId
  }

  /** The batch of puts, in order, each record under its own id. */
  function PutSubscribers(subscribers: map<string, Subscriber>, records: seq<Subscriber>): (r: map<string, Subscriber>)
    decreases |records|
  {
    if records == [] then subscribers
    else PutSubscribers(subscribers[records[0].subscriberId := records[0]], records[1..])
  }

  /** The ids of the records. */
  function IdsOf(records: seq<Subscriber>): set<string> {
    set j | 0 <= j < |records| :: records[j].subscriberId
  }

  /** After the batch: every record under its id, and every other record as it was. */
  predicate StoresAll(before: map<string, Subscriber>, after: map<string, Subscriber>, records: seq<Subscriber>) {
    after.Keys == before.Keys + IdsOf(records)
    && (forall j :: 0 <= j < |records| ==> after[records[j].subscriberId] == records[j])
    && (forall id :: id in before && id !in IdsOf(records) ==> after[id] == before[id])
  }

  /**
   * With distinct ids the batch stores every record under its id and leaves
   * every other record as it was.
   */
  lemma {:induction false} PutSubscribersStores(subscribers: map<string, Subscriber>, records: seq<Subscriber>)
    requires DistinctIds(records)
    ensures StoresAll(subscribers, PutSubscribers(subscribers, records), records)
    decreases |records|
  {
    if records != [] {
      var head := records[0];
      var rest := records[1..];
      var next := subscribers[head.subscriberId := head];
      assert DistinctIds(rest) by {
        forall i, j | 0 <= i < j < |rest| ensures rest[i].subscriberId != rest[j].subscriberId {
          assert rest[i] == records[i + 1] && rest[j] == records[j + 1];
        }
      }
      PutSubscribersStores(next, rest);
      var r := PutSubscribers(subscribers, records);
      assert r == PutSubscribers(next, rest);
      assert IdsOf(records) == {head.subscriberId} + IdsOf(rest) by {
        forall id | id in IdsOf(records) ensures id in {head.subscriberId} + IdsOf(rest) {
          var j :| 0 <= j < |records| && records[j].subscriberId == id;
          if j > 0 { assert rest[j - 1].subscriberId == id; }
        }
        forall id | id in IdsOf(rest) ensures id in IdsOf(records) {
          var j :| 0 <= j < |rest| && rest[j].subscriberId == id;
          assert records[j + 1].subscriberId == id;
        }
        assert records[0].subscriberId == head.subscriberId;
      }
      forall i | 0 <= i < |rest| ensures rest[i].subscriberId != head.subscriberId {
        assert rest[i] == records[i + 1];
      }
      forall j | 0 <= j < |records|
        ensures r[records[j].subscriberId] == records[j]
      {
        if j > 0 {
          assert records[j] == rest[j - 1];
        }
      }
    }
  }

  /** Puts of records keep every record under its own key. */
  lemma {:induction false} PutSubscribersKeyed(subscribers: map<string, Subscriber>, queue: map<QueueKey, QueueItem>, records: seq<Subscriber>)
    requires Keyed(subscribers, queue)
    ensures Keyed(PutSubscribers(subscribers, records), queue)
    decreases |records|
  {
    if records != [] {
      KeyedPut(subscribers, queue, records[0]);
      PutSubscribersKeyed(subscribers[records[0].subscriberId := records[0]], queue, records[1..]);
    }
  }

  /**
   * One invocation: the parsed body (none when it is not JSON); Joi's
   * verdicts on addresses and zone names; the v4 UUIDs drawn, in order; the
   * clock.
   */
  datatype Call = Call(body: Option<JsVal>, emailOk: string -> bool, zoneOk: string -> bool, uuid: nat -> string, now: nat)

  /** What the handler does: a refused request, or one that does not ask to overwrite, is a 500. */
  function Post(subscribers: map<string, Subscriber>, call: Call): (Response, map<string, Subscriber>) {
    var request := ParseImport(call.body, call.emailOk, call.zoneOk);
    if request.None? || !request.value.overwriteExisting then (Response(500, ""), subscribers)
    else (Response(200, JsonString("OK")), PutSubscribers(subscribers, ImportRecords(request.value, call.uuid, call.now)))
  }

  /**
   * Every answer: 500 and nothing written for a refused request or one that
   * does not ask to overwrite; otherwise 200, and with distinct ids each
   * subscriber of the request is stored under its id and nothing else
   * changes.
   */
  lemma PostCases(subscribers: map<string, Subscriber>, call: Call)
    ensures var (response, r) := Post(subscribers, call);
      var request := ParseImport(call.body, call.emailOk, call.zoneOk);
      (request.None? || !request.value.overwriteExisting ==> response == Response(500, "") && r == subscribers)
      && (request.Some? && request.value.overwriteExisting ==>
            response == Response(200, JsonString("OK"))
            && (DistinctIds(ImportRecords(request.value, call.uuid, call.now)) ==>
                  StoresAll(subscribers, r, ImportRecords(request.value, call.uuid, call.now))))
  {
    var request := ParseImport(call.body, call.emailOk, call.zoneOk);
    if request.Some? && request.value.overwriteExisting {
      var records := ImportRecords(request.value, call.uuid, call.now);
      if DistinctIds(records) {
        PutSubscribersStores(subscribers, records);
      }
    }
  }

  /** The handler: validate, refuse a request that does not overwrite, then write the batch. */
  method Handle(store: Store, call: Call) returns (response: Response)
    requires store.Valid()
    modifies store
    ensures store.Valid() && store.settings == old(store.settings) && store.queue == old(store.queue)
    ensures (response, store.subscribers) == Post(old(store.subscribers), call)
  {
    var request := ParseImport(call.body, call.emailOk, call.zoneOk);
    if request.None? || !request.value.overwriteExisting {
      return Response(500, "");
    }
    var records := ImportRecords(request.value, call.uuid, call.now);
    PutSubscribersKeyed(store.subscribers, store.queue, records);
    store.subscribers := PutSubscribers(store.subscribers, records);
    response := Response(200, JsonString("OK"));
  }
}

=== FILE: admin_template_post.dfy ===
/**
 * The admin endpoint that creates or updates an SES template: the body's
 * parts are passed on as they are, except the HTML part, which is wrapped
 * in a complete HTML document titled with the subject.
 */
module AdminTemplatePost {
  import opened Js
  import opened Model
  import opened Requests

  /** The `Template` handed to SES. */
  datatype Template = Template(name: JsVal, subject: JsVal, html: string, text: JsVal)

  /**
   * ToString (ECMA-262 section 7.1.17) as `+` and template literals apply
   * it: an array joins its elements' texts with commas, `null` and
   * `undefined` elements writing as nothing, and any other object writes as
   * `[object Object]`.
   */
  function ToJsString(v: JsVal): (r: string)
    ensures v.Str? ==> r == v.s
  {
    match v
    case Undefined => "undefined"
    case Null => "null"
    case Bool(b) => if b then "true" else "false"
    case Num(n) => if n >= 0 then NatToString(n) else "-" + NatToString(-n)
    case Str(s) => s
    case Arr(elems) => JoinedElements(elems)
    case Obj(_) => "[object Object]"
  }

  /** `elems.join(',')`. */
  function JoinedElements(elems: seq<JsVal>): string
    decreases elems
  {
    if elems == [] then ""
    else
      var first := if elems[0].Undefined? || elems[0].Null? then "" else ToJsString(elems[0]);
      if |elems| == 1 then first else first + "," + JoinedElements(elems[1..])
  }

  /** The document's opening, up to the title. */
  const Doctype: string := "<!DOCTYPE html>"
  const Head: string := Doctype + HeadRest
  const HeadRest: string :=
    "<html lang=\"en\">" + "<head>" + "<meta http-equiv=\"Content-Type\" content=\"text/html; charset=utf-8\">"

  /** The text between the title and the `div` that holds the HTML body. */
  const Middle: string :=
    "<meta name=\"viewport\" content=\"width=device-width,initial-scale=1\">" + "</head>"
    + "<body style=\"background:#ffffff;color:#000000;\">"

  /** The opening tag of that `div`. */
  const Div: string := "<div style=\"background:#ffffff;color:#000000\">"

  /** The document's closing. */
  const Tail: string := "</body>" + HtmlClose
  const HtmlClose: string := "</html>"

  /** `wrapHtmlPart(subject, htmlBody)` on the texts of the two values. */
  function WrapHtmlPart(subject: string, body: string): string {
    Head + "<title>" + subject + "</title>" + Middle + Div + body + "</div>" + Tail
  }

  /** A part put between two texts occurs where the first one ends. */
  lemma OccursBetween(a: string, part: string, b: string)
    ensures OccursAt(a + part + b, part, |a|)
  {
    assert (a + part + b)[|a|..|a| + |part|] == part;
  }

  /** The wrapped part regrouped around the title. */
  lemma GroupTitle(subject: string, body: string)
    ensures WrapHtmlPart(subject, body) == Head + ("<title>" + subject + "</title>") + (Middle + Div + body + "</div>" + Tail)
  {
    RegroupTitle(Head, "<title>", subject, "</title>", Middle, Div, body, "</div>", Tail);
  }

  /** The wrapped part regrouped around the `div`. */
  lemma GroupBody(subject: string, body: string)
    ensures WrapHtmlPart(subject, body) == (Head + "<title>" + subject + "</title>" + Middle) + (Div + body + "</div>") + Tail
  {
    RegroupBody(Head, "<title>", subject, "</title>", Middle, Div, body, "</div>", Tail);
  }

  /** The wrapped part split after the doctype and before `</html>`. */
  lemma GroupEnds(subject: string, body: string)
    ensures WrapHtmlPart(subject, body) == Doctype + (HeadRest + "<title>" + subject + "</title>" + Middle + Div + body + "</div>" + Tail)
    ensures WrapHtmlPart(subject, body) == (Head + "<title>" + subject + "</title>" + Middle + Div + body + "</div>" + "</body>") + HtmlClose
  {
    RegroupEnds(Doctype, HeadRest, "<title>", subject, "</title>", Middle, Div, body, "</div>", "</body>", HtmlClose);
  }

  lemma RegroupTitle(a: string, b: string, c: string, d: string, e: string, f: string, g: string, h: string, i: string)
    ensures a + b + c + d + e + f + g + h + i == a + (b + c + d) + (e + f + g + h + i)
  {
  }

  lemma RegroupBody(a: string, b: string, c: string, d: string, e: string, f: string, g: string, h: string, i: string)
    ensures a + b + c + d + e + f + g + h + i == (a + b + c + d + e) + (f + g + h) + i
  {
  }

  lemma RegroupEnds(a: string, a': string, b: string, c: string, d: string, e: string, f: string, g: string, h: string, i: string, i': string)
    ensures (a + a') + b + c + d + e + f + g + h + (i + i') == a + (a' + b + c + d + e + f + g + h + (i + i'))
    ensures (a + a') + b + c + d + e + f + g + h + (i + i') == ((a + a') + b + c + d + e + f + g + h + i) + i'
  {
  }

  /** The wrapped part opens with the doctype and closes with `</html>`. */
  lemma WrapHtmlPartEnds(subject: string, body: string)
    ensures StartsWith(WrapHtmlPart(subject, body), "<!DOCTYPE html>")
    ensures EndsWith(WrapHtmlPart(subject, body), "</html>")
  {
    GroupEnds(subject, body);
    var r := WrapHtmlPart(subject, body);
    assert r[..|Doctype|] == Doctype;
    assert r[|r| - 7..] == "</html>";
  }

  /** The subject stands between `<title>` and `</title>`, right after the head's opening. */
  lemma WrapHtmlPartTitle(subject: string, body: string)
    ensures OccursAt(WrapHtmlPart(subject, body), "<title>" + subject + "</title>", |Head|)
  {
    GroupTitle(subject, body);
    OccursBetween(Head, "<title>" + subject + "</title>", Middle + Div + body + "</div>" + Tail);
  }

  /** The HTML body stands unchanged inside the `div`, followed by its closing tag. */
  lemma WrapHtmlPartBody(subject: string, body: string)
    ensures OccursAt(WrapHtmlPart(subject, body), Div + body + "</div>", |Head| + 15 + |subject| + |Middle|)
  {
    GroupBody(subject, body);
    OccursBetween(Head + "<title>" + subject + "</title>" + Middle, Div + body + "</div>", Tail);
  }

  /** Two texts alike after a common start, whose first parts have the same length, are alike part by part. */
  lemma SplitAlike(a: string, x: string, c: string, y: string, d: string)
    requires a + x + c == a + y + d && |x| == |y|
    ensures x == y && c == d
  {
    assert x == (a + x + c)[|a|..|a| + |x|];
    assert y == (a + y + d)[|a|..|a| + |y|];
    assert c == (a + x + c)[|a| + |x|..];
    assert d == (a + y + d)[|a| + |y|..];
  }

  /** What follows the title, regrouped around the body. */
  lemma RegroupRest(m: string, v: string, g: string, h: string, t: string)
    ensures m + v + g + h + t == (m + v) + g + (h + t)
  {
  }

  /** The subject and the body can be read back from the wrapped part: different inputs wrap differently. */
  lemma WrapHtmlPartInjective(subject: string, body: string, subject': string, body': string)
    requires |subject| == |subject'|
    requires WrapHtmlPart(subject, body) == WrapHtmlPart(subject', body')
    ensures subject == subject' && body == body'
  {
    GroupTitle(subject, body);
    GroupTitle(subject', body');
    SplitAlike(Head, "<title>" + subject + "</title>", Middle + Div + body + "</div>" + Tail,
               "<title>" + subject' + "</title>", Middle + Div + body' + "</div>" + Tail);
    SplitAlike("<title>", subject, "</title>", subject', "</title>");
    RegroupRest(Middle, Div, body, "</div>", Tail);
    RegroupRest(Middle, Div, body', "</div>", Tail);
    SplitAlike(Middle + Div, body, "</div>" + Tail, body', "</div>" + Tail);
  }

  /**
   * The template built from the body: `TemplateName`, `SubjectPart` and
   * `TextPart` passed on as they are, and `HtmlPart` wrapped with the
   * subject as its title.
   */
  function TemplateOf(v: JsVal): (t: Template)
  {
    Template(Field(v, "TemplateName"), Field(v, "SubjectPart"),
             WrapHtmlPart(ToJsString(Field(v, "SubjectPart")), ToJsString(Field(v, "HtmlPart"))),
             Field(v, "TextPart"))
  }

  /**
   * Only the HTML part is changed: the name, the subject and the text part
   * are the body's own, and the HTML part, for a string subject and a
   * string body, wraps exactly those strings.
   */
  lemma TemplatePassesThrough(fields: map<string, JsVal>)
    ensures var t := TemplateOf(Obj(fields));
      (("TemplateName" in fields ==> t.name == fields["TemplateName"]) && ("TemplateName" !in fields ==> t.name == Undefined))
      && (("SubjectPart" in fields ==> t.subject == fields["SubjectPart"]) && ("SubjectPart" !in fields ==> t.subject == Undefined))
      && (("TextPart" in fields ==> t.text == fields["TextPart"]) && ("TextPart" !in fields ==> t.text == Undefined))
      && ("SubjectPart" in fields && fields["SubjectPart"].Str? && "HtmlPart" in fields && fields["HtmlPart"].Str? ==>
            t.html == WrapHtmlPart(fields["SubjectPart"].s, fields["HtmlPart"].s))
  {
  }

  /** A missing subject or HTML body is written as `undefined` in the wrapped part. */
  lemma MissingPartsWriteUndefined(fields: map<string, JsVal>)
    requires "SubjectPart" !in fields && "HtmlPart" !in fields
    ensures TemplateOf(Obj(fields)).html == WrapHtmlPart("undefined", "undefined")
  {
  }

  /**
   * One invocation: the parsed body (none when it is not JSON), and
   * whether SES's create, or its update of an existing template, succeeded.
   */
  datatype Call = Call(body: Option<JsVal>, saved: bool)

  /**
   * What the handler does: the template it asks SES to save, none when the
   * body is refused, and its answer, a bare status code.
   */
  function Post(call: Call): (Response, Option<Template>) {
    if call.body.None? || !Truthy(call.body.value) then (Response(400, ""), None)
    else if call.saved then (Response(200, ""), Some(TemplateOf(call.body.value)))
    else (Response(500, ""), Some(TemplateOf(call.body.value)))
  }

  /**
   * A body that is not JSON, or parses to a falsy value, answers 400 and
   * asks nothing of SES; any other body asks SES to save the template built
   * from it, and answers 200 when SES saves it and 500 when it does not.
   */
  lemma PostCases(call: Call)
    ensures var (response, template) := Post(call);
      (template.None? <==> call.body.None? || !Truthy(call.body.value))
      && (template.None? ==> response == Response(400, ""))
      && (template.Some? ==>
            template.value == TemplateOf(call.body.value)
            && (response == Response(200, "") <==> call.saved)
            && (!call.saved ==> response == Response(500, "")))
  {
  }
}

=== FILE: api_authorizer.dfy ===
/**
 * The API Gateway authorizer: it reads the key header, compares it with
 * the admin key's hash and, on the subscribe endpoint only, with the
 * subscribe-only key's hash, and answers an IAM policy of one statement.
 * The two bcrypt comparisons are inputs here: whether the key matches each
 * hash.
 */
module ApiAuthorizer {
  import opened Js

  datatype Effect = Allow | Deny

  /** The policy returned: its principal and its one statement. */
  datatype Policy = Policy(principalId: string, version: string, action: string, effect: Effect, resource: string)

  const AdminPrincipal: string := "gyl-admin"
  const SubscriberPrincipal: string := "gyl-subscriber-only"
  const PolicyVersion: string := "2012-10-17"
  const InvokeAction: string := "execute-api:Invoke"

  /** The three spellings of the key header, in the order they are tried. */
  const KeyHeaders: seq<string> := ["x-gyl-auth-key", "X-Gyl-Auth-Key", "X-GYL-AUTH-KEY"]

  /** `methodArn.split('/').slice(0, 1).join()`: the ARN up to its first `/`. */
  function ApiPrefix(methodArn: string): (r: string)
    ensures StartsWith(methodArn, r) && '/' !in r
    ensures |r| < |methodArn| ==> methodArn[|r|] == '/'
  {
    var k := FirstIndex(methodArn, '/');
    assert Split(methodArn, '/')[0] == methodArn[..k];
    Split(methodArn, '/')[0]
  }

  /** `getAdminPolicy`: every method of the API, for the admin principal. */
  function AdminPolicy(methodArn: string, effect: Effect): Policy {
    Policy(AdminPrincipal, PolicyVersion, InvokeAction, effect, ApiPrefix(methodArn) + "/*")
  }

  /** `getSubscribeOnlyPolicy`: exactly the method called, for the subscribe-only principal. */
  function SubscribeOnlyPolicy(methodArn: string, effect: Effect): Policy {
    Policy(SubscriberPrincipal, PolicyVersion, InvokeAction, effect, methodArn)
  }

  /**
   * `headers[a] || headers[b] || headers[c]`: the first of the three
   * headers that is present and non-empty; empty when none is (a missing
   * header and an empty one are refused alike).
   */
  function AuthKey(headers: map<string, string>): (key: string)
    ensures key != "" ==> exists name :: name in KeyHeaders && name in headers && headers[name] == key
    ensures "x-gyl-auth-key" in headers && headers["x-gyl-auth-key"] != "" ==> key == headers["x-gyl-auth-key"]
    ensures key == "" <==> forall name :: name in KeyHeaders && name in headers ==> headers[name] == ""
  {
    if "x-gyl-auth-key" in headers && headers["x-gyl-auth-key"] != "" then headers["x-gyl-auth-key"]
    else if "X-Gyl-Auth-Key" in headers && headers["X-Gyl-Auth-Key"] != "" then headers["X-Gyl-Auth-Key"]
    else if "X-GYL-AUTH-KEY" in headers && headers["X-GYL-AUTH-KEY"] != "" then headers["X-GYL-AUTH-KEY"]
    else ""
  }

  /**
   * One invocation: the request's headers and method ARN, the ARN of the
   * subscribe endpoint (empty when unset), and whether the key matches the
   * admin hash and the subscribe-only hash.
   */
  datatype Call = Call(headers: map<string, string>, methodArn: string, subscriberArn: string, adminMatch: bool, subscribeMatch: bool)

  /** `authorizer`: the decision. */
  function Authorize(call: Call): Policy {
    var key := AuthKey(call.headers);
    if Trim(key) == "" then AdminPolicy(call.methodArn, Deny)
    else if call.adminMatch then AdminPolicy(call.methodArn, Allow)
    else if call.methodArn != "" && call.methodArn == call.subscriberArn then
      SubscribeOnlyPolicy(call.methodArn, if call.subscribeMatch then Allow else Deny)
    else SubscribeOnlyPolicy(call.methodArn, Deny)
  }

  /** The key is usable: some header holds it and it is not only white space. */
  predicate HasKey(call: Call) {
    !AllSpace(AuthKey(call.headers))
  }

  /**
   * The decision table: access is allowed exactly for a usable key that is
   * the admin key, or, on the subscribe endpoint only, the subscribe-only
   * key; an admin allowance covers the whole API and a subscribe-only one
   * just the subscribe endpoint; a missing or blank key is denied with the
   * admin-shaped policy, and every other refusal has the subscribe-only
   * shape.
   */
  lemma DecisionTable(call: Call)
    ensures var p := Authorize(call);
      (p.effect == Allow <==>
        HasKey(call) && (call.adminMatch || (call.methodArn != "" && call.methodArn == call.subscriberArn && call.subscribeMatch)))
      && (!HasKey(call) ==> p == AdminPolicy(call.methodArn, Deny))
      && (p.principalId == AdminPrincipal && p.effect == Allow <==> HasKey(call) && call.adminMatch)
      && (p.principalId == SubscriberPrincipal && p.effect == Allow ==>
            p.resource == call.methodArn && call.methodArn == call.subscriberArn && !call.adminMatch)
      && (HasKey(call) && !call.adminMatch ==> p.principalId == SubscriberPrincipal && p.resource == call.methodArn)
      && p.version == PolicyVersion && p.action == InvokeAction
  {
    TrimShape(AuthKey(call.headers));
  }

  /**
   * The admin resource is the method ARN cut at its first slash, followed
   * by a slash and a star: a wildcard over every method of the API the
   * call is for.
   */
  lemma AdminResourceCovers(call: Call)
    requires Authorize(call).principalId == AdminPrincipal
    ensures var p := Authorize(call);
      exists prefix :: p.resource == prefix + "/*" && StartsWith(call.methodArn, prefix) && '/' !in prefix
        && (|prefix| == |call.methodArn| || call.methodArn[|prefix|] == '/')
  {
    var prefix := ApiPrefix(call.methodArn);
    assert Authorize(call).resource == prefix + "/*";
  }

  /** The lower-case header wins over the other spellings. */
  lemma LowerCaseHeaderFirst(headers: map<string, string>, key: string, other: string)
    requires key != ""
    ensures AuthKey(headers["x-gyl-auth-key" := key]["X-Gyl-Auth-Key" := other]["X-GYL-AUTH-KEY" := other]) == key
  {
  }
}

=== FILE: blocking.dfy ===
/**
 * Blocked-domain suppression: the `blockedEmailDomains` setting lists the
 * domains whose addresses the subscribe handlers silently accept without
 * storing anything or sending anything.
 */
module Blocking {
  import opened Js
  import opened Model

  const BlockedSetting: string := "blockedEmailDomains"

  /** `email.toLocaleLowerCase().split('@')` and its last piece. */
  function EmailDomain(email: string): (domain: string)
    ensures '@' !in domain
    ensures EndsWith(ToLower(email), domain)
  {
    AfterLastShape(ToLower(email), '@');
    AfterLast(ToLower(email), '@')
  }

  /** The outcome of `new Set(value).has(domain)` behind `if (domain && ...)`. */
  datatype BlockCheck = Blocked | NotBlocked | Fails

  /**
   * `new Set(value)` takes any iterable, `undefined` or `null`, and throws on
   * any other value; only then is the domain tested, and an empty domain is
   * never blocked.
   */
  function SetHas(value: SettingValue, domain: string): (r: BlockCheck)
    ensures r == Blocked ==> domain != ""
    ensures value.Domains? ==> (r == Blocked <==> domain != "" && domain in value.domains) && r != Fails
    ensures value.AutoresponderDef? ==> r == Fails
  {
    match value
    case Domains(ds) => if domain != "" && domain in ds then Blocked else NotBlocked
    case Lists(_) => NotBlocked
    case AutoresponderDef(_) => Fails
    case Json(v) =>
      match v
      case Undefined => NotBlocked
      case Null => NotBlocked
      case Arr(elems) => if domain != "" && Str(domain) in elems then Blocked else NotBlocked
      case Str(s) => if |domain| == 1 && domain[0] in s then Blocked else NotBlocked
      case _ => Fails
  }

  /** The admin handler's test: any stored value goes into the `Set`. */
  function AdminBlockCheck(settings: map<string, SettingItem>, email: string): (r: BlockCheck)
    ensures BlockedSetting !in settings ==> r == NotBlocked
    ensures BlockedSetting in settings && settings[BlockedSetting].value.Domains? ==>
      (r == Blocked <==> EmailDomain(email) != "" && EmailDomain(email) in settings[BlockedSetting].value.domains)
  {
    if BlockedSetting !in settings then NotBlocked
    else SetHas(settings[BlockedSetting].value, EmailDomain(email))
  }

  /** `Array.isArray(value)`: the settings values that are arrays. */
  predicate IsArrayValue(value: SettingValue) {
    value.Domains? || value.Lists? || (value.Json? && value.json.Arr?)
  }

  /** The public handler's test: only an array value is consulted, so it never throws. */
  function PublicBlocked(settings: map<string, SettingItem>, email: string): (r: bool)
    ensures r ==> BlockedSetting in settings && IsArrayValue(settings[BlockedSetting].value) && EmailDomain(email) != ""
    ensures BlockedSetting in settings && settings[BlockedSetting].value.Domains? ==>
      (r <==> EmailDomain(email) != "" && EmailDomain(email) in settings[BlockedSetting].value.domains)
  {
    BlockedSetting in settings && IsArrayValue(settings[BlockedSetting].value)
    && SetHas(settings[BlockedSetting].value, EmailDomain(email)) == Blocked
  }
}

=== FILE: broadcasts.dfy ===
/**
 * The broadcast description both broadcast handlers validate before they
 * store it as the `pendingBroadcast` setting: the schema, and the value Joi
 * hands back, with its conversions of booleans and numbers written as text.
 */
module Broadcasts {
  import opened Js
  import opened Patterns
  import opened Requests

  /** The longest tag a broadcast may select. */
  const MaxTagLength: nat := 128

  /**
   * The two schemas: the one behind the broadcast-post endpoint, and the
   * older one behind broadcast-start.
   */
  datatype Schema = PostSchema | StartSchema

  /** The key naming the SES template. */
  function NameKey(schema: Schema): string {
    if schema.PostSchema? then "TemplateName" else "templateId"
  }

  /** How far back `runAt` may lie before the time the schema was built, in milliseconds. */
  function Window(schema: Schema): nat {
    if schema.PostSchema? then 86400000 else 5000
  }

  /** Whether an interaction must carry its `emailDate`. */
  predicate DateRequired(schema: Schema) {
    schema.PostSchema?
  }

  /** The keys a broadcast may have. */
  function BroadcastKeys(schema: Schema): set<string> {
    {NameKey(schema), "tags", "properties", "runAt", "interactions"}
  }

  /** The keys an interaction may have. */
  const InteractionKeys: set<string> := {"templateId", "emailDate", "click", "open"}

  /** A tag the schema accepts: `^[\w-]+$`, at most 128 characters. */
  predicate IsBroadcastTag(v: JsVal) {
    v.Str? && IsWordDash(v.s) && |v.s| <= MaxTagLength
  }

  /** `tags`: absent, or an array of tags. */
  predicate TagsOk(v: JsVal) {
    v.Undefined? || (v.Arr? && forall j :: 0 <= j < |v.elems| ==> IsBroadcastTag(v.elems[j]))
  }

  /** `runAt`: absent, `null`, or a number greater than `loadTime - window`, converted. */
  function RunAt(v: JsVal, bound: int): (r: Option<JsVal>)
    ensures v.Undefined? || v.Null? ==> r == Some(v)
    ensures v.Num? ==> (r.Some? <==> v.n > bound)
    ensures r.Some? ==> r.value.Undefined? || r.value.Null? || (r.value.Num? && r.value.n > bound)
  {
    if v.Undefined? || v.Null? then Some(v)
    else
      var n := JoiNumber(v);
      if n.Some? && n.value > bound then Some(Num(n.value)) else None
  }

  /** `boolean()` on an optional key: absent stays absent, otherwise converted. */
  function OptBool(v: JsVal): (r: Option<JsVal>)
    ensures v.Undefined? || v.Bool? ==> r == Some(v)
    ensures r.Some? ==> r.value.Undefined? || r.value.Bool?
  {
    if v.Undefined? then Some(v)
    else
      var b := JoiBoolean(v);
      if b.Some? then Some(Bool(b.value)) else None
  }

  /** The fields with `key` holding the converted value, where the key is present. */
  function Converted(fields: map<string, JsVal>, key: string, x: JsVal): (r: map<string, JsVal>)
    ensures r.Keys == fields.Keys
    ensures forall k :: k in fields && k != key ==> r[k] == fields[k]
    ensures key in fields ==> r[key] == x
  {
    if key in fields then fields[key := x] else fields
  }

  /** `emailDate`: `^\d{4}-\d{2}-\d{2}$`; absent only where the schema allows it. */
  predicate EmailDateOk(v: JsVal, schema: Schema) {
    (v.Undefined? && !DateRequired(schema)) || (v.Str? && IsIsoDate(v.s))
  }

  /** One interaction condition: an object of the four keys, with its booleans converted. */
  function Interaction(v: JsVal, schema: Schema): (r: Option<JsVal>)
    ensures r.Some? <==>
      OnlyKeys(v, InteractionKeys) && Field(v, "templateId").Str? && IsWordDash(Field(v, "templateId").s)
      && EmailDateOk(Field(v, "emailDate"), schema)
      && OptBool(Field(v, "click")).Some? && OptBool(Field(v, "open")).Some?
    ensures r.Some? ==>
      r.value.Obj? && r.value.fields.Keys == v.fields.Keys
      && Field(r.value, "templateId") == Field(v, "templateId") && Field(r.value, "emailDate") == Field(v, "emailDate")
  {
    if !OnlyKeys(v, InteractionKeys) then None
    else if !(Field(v, "templateId").Str? && IsWordDash(Field(v, "templateId").s)) then None
    else if !EmailDateOk(Field(v, "emailDate"), schema) then None
    else
      var click := OptBool(Field(v, "click"));
      var open := OptBool(Field(v, "open"));
      if click.None? || open.None? then None
      else Some(Obj(Converted(Converted(v.fields, "click", click.value), "open", open.value)))
  }

  /** `interactions`: every element converted, or none when one of them is refused. */
  function Interactions(elems: seq<JsVal>, schema: Schema): (r: Option<seq<JsVal>>)
    ensures r.Some? <==> forall j :: 0 <= j < |elems| ==> Interaction(elems[j], schema).Some?
    ensures r.Some? ==> |r.value| == |elems| && forall j :: 0 <= j < |elems| ==> r.value[j] == Interaction(elems[j], schema).value
  {
    if elems == [] then Some([])
    else
      var head := Interaction(elems[0], schema);
      var rest := Interactions(elems[1..], schema);
      if head.None? then None
      else if rest.None? then
        assert !forall j :: 0 <= j < |elems| - 1 ==> Interaction(elems[1..][j], schema).Some?;
        None
      else
        var r := [head.value] + rest.value;
        assert forall j :: 0 < j < |elems| ==> elems[j] == elems[1..][j - 1];
        Some(r)
  }

  /** `interactions` on the broadcast: absent stays absent, an array has each element converted. */
  function InteractionsField(v: JsVal, schema: Schema): (r: Option<JsVal>)
    ensures v.Undefined? ==> r == Some(Undefined)
    ensures r.Some? && !v.Undefined? ==> v.Arr? && r.value.Arr? && Interactions(v.elems, schema) == Some(r.value.elems)
    ensures v.Arr? ==> (r.Some? <==> Interactions(v.elems, schema).Some?)
  {
    if v.Undefined? then Some(v)
    else if v.Arr? then
      var r := Interactions(v.elems, schema);
      if r.Some? then Some(Arr(r.value)) else None
    else None
  }

  /**
   * The validated broadcast, or none when the schema refuses it: an object
   * of the schema's keys with a template name of word characters and
   * dashes, valid tags, an object of properties, a `runAt` in the window and
   * valid interactions. `loadTime` is `Date.now()` when the schema was built.
   */
  function Validate(v: JsVal, schema: Schema, loadTime: int): (r: Option<JsVal>)
    ensures r.Some? ==>
      OnlyKeys(v, BroadcastKeys(schema)) && r.value.Obj? && r.value.fields.Keys == v.fields.Keys
      && Field(v, NameKey(schema)).Str? && IsWordDash(Field(v, NameKey(schema)).s)
      && Field(r.value, NameKey(schema)) == Field(v, NameKey(schema))
      && TagsOk(Field(v, "tags")) && Field(r.value, "tags") == Field(v, "tags")
      && (Field(v, "properties").Undefined? || Field(v, "properties").Obj?)
      && Field(r.value, "properties") == Field(v, "properties")
      && RunAt(Field(v, "runAt"), loadTime - Window(schema)) == Some(Field(r.value, "runAt"))
      && InteractionsField(Field(v, "interactions"), schema) == Some(Field(r.value, "interactions"))
  {
    if !OnlyKeys(v, BroadcastKeys(schema)) then None
    else if !(Field(v, NameKey(schema)).Str? && IsWordDash(Field(v, NameKey(schema)).s)) then None
    else if !TagsOk(Field(v, "tags")) then None
    else if !(Field(v, "properties").Undefined? || Field(v, "properties").Obj?) then None
    else
      var runAt := RunAt(Field(v, "runAt"), loadTime - Window(schema));
      var interactions := InteractionsField(Field(v, "interactions"), schema);
      if runAt.None? || interactions.None? then None
      else Some(Obj(Converted(Converted(v.fields, "runAt", runAt.value), "interactions", interactions.value)))
  }

  /** A value the schema refuses: anything that is not an object, `null` included. */
  lemma NonObjectRefused(v: JsVal, schema: Schema, loadTime: int)
    requires !v.Obj?
    ensures Validate(v, schema, loadTime).None?
  {
  }

  /** The runAt check, applied to its own result, gives it back. */
  lemma RunAtStable(v: JsVal, bound: int)
    requires RunAt(v, bound).Some?
    ensures RunAt(RunAt(v, bound).value, bound) == RunAt(v, bound)
  {
  }

  /** A converted interaction passes the check again unchanged. */
  lemma InteractionStable(v: JsVal, schema: Schema)
    requires Interaction(v, schema).Some?
    ensures Interaction(Interaction(v, schema).value, schema) == Interaction(v, schema)
  {
    var w := Interaction(v, schema).value;
    var click := OptBool(Field(v, "click")).value;
    var open := OptBool(Field(v, "open")).value;
    assert Field(w, "click") == click && Field(w, "open") == open;
    assert Converted(Converted(w.fields, "click", click), "open", open) == w.fields;
  }

  /** Converted interactions pass the check again unchanged. */
  lemma InteractionsStable(elems: seq<JsVal>, schema: Schema)
    requires Interactions(elems, schema).Some?
    ensures Interactions(Interactions(elems, schema).value, schema) == Interactions(elems, schema)
  {
    var r := Interactions(elems, schema).value;
    forall j | 0 <= j < |r| ensures Interaction(r[j], schema) == Some(r[j]) {
      InteractionStable(elems[j], schema);
    }
    var again := Interactions(r, schema).value;
    assert again == r;
  }

  /**
   * The stored broadcast is itself a valid broadcast, which validates to
   * itself: validation, applied to what it hands back, changes nothing.
   */
  lemma ValidateStable(v: JsVal, schema: Schema, loadTime: int)
    requires Validate(v, schema, loadTime).Some?
    ensures Validate(Validate(v, schema, loadTime).value, schema, loadTime) == Validate(v, schema, loadTime)
  {
    var w := Validate(v, schema, loadTime).value;
    var bound := loadTime - Window(schema);
    var runAt := RunAt(Field(v, "runAt"), bound).value;
    var interactions := InteractionsField(Field(v, "interactions"), schema).value;
    assert Field(w, "runAt") == runAt && Field(w, "interactions") == interactions;
    RunAtStable(Field(v, "runAt"), bound);
    if Field(v, "interactions").Arr? {
      InteractionsStable(Field(v, "interactions").elems, schema);
    }
    assert InteractionsField(interactions, schema) == Some(interactions);
    assert Converted(Converted(w.fields, "runAt", runAt), "interactions", interactions) == w.fields;
  }

  /** An interaction the post schema accepts, the start schema accepts too, converted alike. */
  lemma DatedInteractionPassesBoth(v: JsVal)
    requires Interaction(v, PostSchema).Some?
    ensures Interaction(v, StartSchema) == Interaction(v, PostSchema)
  {
  }
}

=== FILE: cleanup.dfy ===
/**
 * Removing queued items: the delete requests a query answer turns into,
 * their grouping into batch writes of at most 25, and the deletes
 * themselves.
 */
module Cleanup {
  import opened Model

  /** The most requests one batch write may carry. */
  const BatchThreshold: nat := 25

  /** The key of each item of a query answer, in order: one delete request per item. */
  function Requests(items: seq<QueueItem>): (keys: seq<QueueKey>)
    ensures |keys| == |items|
    ensures forall i :: 0 <= i < |items| ==> keys[i] == items[i].key
  {
    seq(|items|, i requires 0 <= i < |items| => items[i].key)
  }

  /** The keys a list of delete requests names. */
  function KeySet(keys: seq<QueueKey>): (r: set<QueueKey>)
    ensures forall i :: 0 <= i < |keys| ==> keys[i] in r
    ensures forall k :: k in r ==> k in keys
  {
    set i | 0 <= i < |keys| :: keys[i]
  }

  /** The requests for an answer name exactly the keys of its items. */
  lemma RequestsNameAnswer(items: seq<QueueItem>)
    ensures KeySet(Requests(items)) == KeysOf(items)
  {
    forall k | k in KeysOf(items) ensures k in KeySet(Requests(items)) {
      var i :| 0 <= i < |items| && items[i].key == k;
      assert Requests(items)[i] == k;
    }
  }

  lemma KeySetAppend(a: seq<QueueKey>, b: seq<QueueKey>)
    ensures KeySet(a + b) == KeySet(a) + KeySet(b)
  {
    forall k | k in KeySet(a + b) ensures k in KeySet(a) + KeySet(b) {
      var i :| 0 <= i < |a + b| && (a + b)[i] == k;
      if i >= |a| { assert b[i - |a|] == k; }
    }
    forall k | k in KeySet(a) ensures k in KeySet(a + b) {
      var i :| 0 <= i < |a| && a[i] == k;
      assert (a + b)[i] == k;
    }
    forall k | k in KeySet(b) ensures k in KeySet(a + b) {
      var i :| 0 <= i < |b| && b[i] == k;
      assert (a + b)[|a| + i] == k;
    }
  }

  /** The batches one after the other. */
  function Flatten(batches: seq<seq<QueueKey>>): seq<QueueKey> {
    if batches == [] then [] else Flatten(batches[..|batches| - 1]) + batches[|batches| - 1]
  }

  /** Every batch but the last is full, and the last holds between 1 and 25 requests. */
  predicate WellBatched(batches: seq<seq<QueueKey>>) {
    batches != []
    && (forall i :: 0 <= i < |batches| - 1 ==> |batches[i]| == BatchThreshold)
    && 1 <= |batches[|batches| - 1]| <= BatchThreshold
  }

  /**
   * The batching loop: a request goes into the current batch, which is
   * closed first when it already holds 25; the last batch is closed after
   * the loop, so no requests give one empty batch.
   */
  method Batch(requests: seq<QueueKey>) returns (batches: seq<seq<QueueKey>>)
    ensures Flatten(batches) == requests
    ensures requests == [] ==> batches == [[]]
    ensures requests != [] ==> WellBatched(batches) && |batches| == (|requests| + BatchThreshold - 1) / BatchThreshold
  {
    batches := [];
    var current: seq<QueueKey> := [];
    for i := 0 to |requests|
      invariant Flatten(batches) + current == requests[..i]
      invariant forall j :: 0 <= j < |batches| ==> |batches[j]| == BatchThreshold
      invariant |Flatten(batches)| == BatchThreshold * |batches|
      invariant |current| <= BatchThreshold
      invariant i > 0 ==> |current| >= 1
      invariant i == 0 ==> batches == [] && current == []
    {
      if |current| == BatchThreshold {
        assert batches + [current] != [] && (batches + [current])[..|batches|] == batches;
        batches := batches + [current];
        current := [];
      }
      current := current + [requests[i]];
    }
    assert (batches + [current])[..|batches|] == batches;
    var n := |batches|;
    batches := batches + [current];
    assert requests[..|requests|] == requests;
    if requests != [] {
      assert |requests| == BatchThreshold * n + |current|;
      assert (|requests| + BatchThreshold - 1) / BatchThreshold == n + 1;
    }
  }

  /** One delete request per key, in order: each named item leaves the queue, nothing else does. */
  method DeleteRequests(store: Store, requests: seq<QueueKey>)
    requires store.Valid()
    modifies store
    ensures store.Valid()
    ensures store.queue == old(store.queue) - KeySet(requests)
    ensures store.subscribers == old(store.subscribers) && store.settings == old(store.settings)
  {
    for i := 0 to |requests|
      invariant store.Valid()
      invariant store.queue == old(store.queue) - KeySet(requests[..i])
      invariant store.subscribers == old(store.subscribers) && store.settings == old(store.settings)
    {
      KeySetAppend(requests[..i], [requests[i]]);
      assert requests[..i + 1] == requests[..i] + [requests[i]];
      store.queue := store.queue - {requests[i]};
    }
    assert requests[..|requests|] == requests;
  }

  /** `writeAllForDynamoDB` of the delete requests for a query answer, skipped when there are none. */
  method DeleteAnswerItems(store: Store, items: seq<QueueItem>)
    requires store.Valid()
    modifies store
    ensures store.Valid()
    ensures store.queue == old(store.queue) - KeysOf(items)
    ensures store.subscribers == old(store.subscribers) && store.settings == old(store.settings)
  {
    if items == [] {
      assert KeysOf(items) == {};
      return;
    }
    RequestsNameAnswer(items);
    DeleteRequests(store, Requests(items));
  }

  /** The batch writes in turn: together they delete every request of every batch. */
  method WriteBatches(store: Store, batches: seq<seq<QueueKey>>)
    requires store.Valid()
    modifies store
    ensures store.Valid()
    ensures store.queue == old(store.queue) - KeySet(Flatten(batches))
    ensures store.subscribers == old(store.subscribers) && store.settings == old(store.settings)
  {
    for j := 0 to |batches|
      invariant store.Valid()
      invariant store.queue == old(store.queue) - KeySet(Flatten(batches[..j]))
      invariant store.subscribers == old(store.subscribers) && store.settings == old(store.settings)
    {
      assert batches[..j + 1][..j] == batches[..j];
      KeySetAppend(Flatten(batches[..j]), batches[j]);
      DeleteRequests(store, batches[j]);
    }
    assert batches[..|batches|] == batches;
  }
}

=== FILE: ecosystem_analytics.dfy ===
/**
 * The scheduled job that sums the account's SES send statistics by hour
 * and posts them to a central collection point. The hour of each data
 * point (the first 13 characters of its ISO timestamp) and the current
 * hour are inputs; the SES call and the POST are not modelled, only what
 * would be posted.
 */
module EcosystemAnalytics {
  import opened Js

  /** One SES data point: its hour and its four counters. */
  datatype Point = Point(hourId: string, bounces: int, deliveryAttempts: int, complaints: int, rejects: int)

  /** The four counters of one hour. */
  datatype Counters = Counters(bounces: int, deliveryAttempts: int, complaints: int, rejects: int)

  const Zero: Counters := Counters(0, 0, 0, 0)

  /** `{ Bounces, DeliveryAttempts, Complaints, Rejects } = point` */
  function CountersOf(p: Point): Counters {
    Counters(p.bounces, p.deliveryAttempts, p.complaints, p.rejects)
  }

  /** The counters with a point's added, counter by counter. */
  function Add(c: Counters, p: Point): (r: Counters)
    ensures c == Zero ==> r == CountersOf(p)
  {
    Counters(c.bounces + p.bounces, c.deliveryAttempts + p.deliveryAttempts, c.complaints + p.complaints, c.rejects + p.rejects)
  }

  /** One turn of `forEach`: the current hour is skipped, a known hour adds up, a new one starts with the point's counters. */
  function Record(statistics: map<string, Counters>, p: Point, currentHour: string): map<string, Counters> {
    if p.hourId == currentHour then statistics
    else if p.hourId in statistics then statistics[p.hourId := Add(statistics[p.hourId], p)]
    else statistics[p.hourId := CountersOf(p)]
  }

  /** The points recorded in order. */
  function Summarise(points: seq<Point>, currentHour: string): map<string, Counters> {
    if points == [] then map[] else Record(Summarise(points[..|points| - 1], currentHour), points[|points| - 1], currentHour)
  }

  /** The sum of the counters of the points of one hour. */
  function Sum(points: seq<Point>, hourId: string): Counters {
    if points == [] then Zero
    else
      var p := points[|points| - 1];
      var rest := Sum(points[..|points| - 1], hourId);
      if p.hourId == hourId then Add(rest, p) else rest
  }

  /** The hours the points fall in. */
  function HourIds(points: seq<Point>): set<string> {
    set j | 0 <= j < |points| :: points[j].hourId
  }

  /**
   * The statistics hold exactly the hours of the points other than the
   * current one, each with the sums of its points' four counters.
   */
  lemma {:induction false} SummariseSums(points: seq<Point>, currentHour: string)
    ensures var s := Summarise(points, currentHour);
      (forall h :: h in s <==> h in HourIds(points) && h != currentHour)
      && forall h :: h in s ==> s[h] == Sum(points, h)
  {
    if points != [] {
      var init := points[..|points| - 1];
      var p := points[|points| - 1];
      SummariseSums(init, currentHour);
      assert HourIds(points) == HourIds(init) + {p.hourId} by {
        forall h | h in HourIds(points) ensures h in HourIds(init) + {p.hourId} {
          var j :| 0 <= j < |points| && points[j].hourId == h;
          if j < |points| - 1 { assert init[j] == points[j]; }
        }
        forall h | h in HourIds(init) ensures h in HourIds(points) {
          var j :| 0 <= j < |init| && init[j].hourId == h;
          assert points[j] == init[j];
        }
      }
      if p.hourId !in Summarise(init, currentHour) && p.hourId != currentHour {
        assert p.hourId !in HourIds(init);
        SumAbsent(init, p.hourId);
      }
    }
  }

  /** An hour no point falls in sums to zero. */
  lemma {:induction false} SumAbsent(points: seq<Point>, hourId: string)
    requires hourId !in HourIds(points)
    ensures Sum(points, hourId) == Zero
  {
    if points != [] {
      var init := points[..|points| - 1];
      assert HourIds(init) <= HourIds(points) by {
        forall h | h in HourIds(init) ensures h in HourIds(points) {
          var j :| 0 <= j < |init| && init[j].hourId == h;
          assert points[j] == init[j];
        }
      }
      SumAbsent(init, hourId);
      assert points[|points| - 1].hourId in HourIds(points);
    }
  }

  /** What the job does. */
  datatype Outcome =
    | NotConfigured
    | NoData
    | Posted(gylAccountId: string, statistics: map<string, Counters>)

  /**
   * Without an account id or a collection URL (empty when unset) the job
   * stops before any call; without data points it stops after asking SES;
   * otherwise it posts the statistics.
   */
  function Collect(accountId: string, url: string, dataPoints: Option<seq<Point>>, currentHour: string): Outcome {
    if accountId == "" || url == "" then NotConfigured
    else if dataPoints.None? || dataPoints.value == [] then NoData
    else Posted(accountId, Summarise(dataPoints.value, currentHour))
  }

  /** Every outcome, and the sums posted. */
  lemma CollectCases(accountId: string, url: string, dataPoints: Option<seq<Point>>, currentHour: string)
    ensures var r := Collect(accountId, url, dataPoints, currentHour);
      (r.NotConfigured? <==> accountId == "" || url == "")
      && (r.NoData? <==> accountId != "" && url != "" && (dataPoints.None? || dataPoints.value == []))
      && (r.Posted? ==>
            r.gylAccountId == accountId && currentHour !in r.statistics
            && (forall h :: h in r.statistics <==> h in HourIds(dataPoints.value) && h != currentHour)
            && forall h :: h in r.statistics ==> r.statistics[h] == Sum(dataPoints.value, h))
  {
    if dataPoints.Some? {
      SummariseSums(dataPoints.value, currentHour);
    }
  }

  /** The job: the configuration check, the data check, then the points recorded one by one. */
  method Run(accountId: string, url: string, dataPoints: Option<seq<Point>>, currentHour: string) returns (outcome: Outcome)
    ensures outcome == Collect(accountId, url, dataPoints, currentHour)
  {
    if accountId == "" || url == "" {
      return NotConfigured;
    }
    if dataPoints.None? || |dataPoints.value| == 0 {
      return NoData;
    }
    var points := dataPoints.value;
    var statistics: map<string, Counters> := map[];
    for i := 0 to |points|
      invariant statistics == Summarise(points[..i], currentHour)
    {
      var point := points[i];
      if point.hourId != currentHour {
        if point.hourId in statistics {
          statistics := statistics[point.hourId := Add(statistics[point.hourId], point)];
        } else {
          statistics := statistics[point.hourId := CountersOf(point)];
        }
      }
      assert points[..i + 1][..i] == points[..i];
    }
    assert points[..|points|] == points;
    outcome := Posted(accountId, statistics);
  }
}

=== FILE: js.dfy ===
/**
 * The JavaScript semantics the handlers depend on: values and their
 * truthiness, `||`, character classes of regular expressions, ASCII case
 * mapping, `trim`, `split`, the first `replace` of a character, decimal
 * rendering of non-negative integers and hexadecimal rendering of bytes.
 */
module Js {

  datatype Option<T> = None | Some(value: T)

  /** A JavaScript value as the handlers inspect it (numbers are integers). */
  datatype JsVal =
    | Undefined
    | Null
    | Bool(b: bool)
    | Num(n: int)
    | Str(s: string)
    | Arr(elems: seq<JsVal>)
    | Obj(fields: map<string, JsVal>)

  /** ToBoolean (ECMA-262 section 7.1.2) for the values above. */
  predicate Truthy(v: JsVal) {
    match v
    case Undefined => false
    case Null => false
    case Bool(b) => b
    case Num(n) => n != 0
    case Str(s) => s != ""
    case Arr(_) => true
    case Obj(_) => true
  }

  /** `a || b`: the first operand when it is truthy, the second otherwise. */
  function Or(a: JsVal, b: JsVal): (r: JsVal)
    ensures Truthy(r) <==> Truthy(a) || Truthy(b)
    ensures r == a || r == b
    ensures !Truthy(a) ==> r == b
  {
    if Truthy(a) then a else b
  }

  /** `typeof v === 'object'` (which holds of `null` and of arrays). */
  predicate IsObjectType(v: JsVal) {
    v.Null? || v.Arr? || v.Obj?
  }

  // ---------------------------------------------------------------------
  // Character classes of regular expressions

  predicate IsDigit(c: char) { '0' <= c <= '9' }
  predicate IsUpper(c: char) { 'A' <= c <= 'Z' }
  predicate IsLower(c: char) { 'a' <= c <= 'z' }
  predicate IsAlnum(c: char) { IsDigit(c) || IsUpper(c) || IsLower(c) }

  /** `\w` */
  predicate IsWordChar(c: char) { IsAlnum(c) || c == '_' }

  /** `[0-9A-F]` under the `i` flag */
  predicate IsHexDigit(c: char) { IsDigit(c) || 'a' <= c <= 'f' || 'A' <= c <= 'F' }

  /** `\s`: the WhiteSpace and LineTerminator code points of ECMA-262 (sections 12.2 and 12.3). */
  predicate IsSpace(c: char) {
    c == '\t' || c == '\n' || c == '\U{000B}' || c == '\U{000C}' || c == '\r' || c == ' '
    || c == '\U{00A0}' || c == '\U{1680}' || ('\U{2000}' <= c <= '\U{200A}')
    || c == '\U{2028}' || c == '\U{2029}' || c == '\U{202F}' || c == '\U{205F}'
    || c == '\U{3000}' || c == '\U{FEFF}'
  }

  /** The characters `.` does not match: the line terminators. */
  predicate IsLineTerminator(c: char) {
    c == '\n' || c == '\r' || c == '\U{2028}' || c == '\U{2029}'
  }

  // ---------------------------------------------------------------------
  // Case mapping (ASCII letters only)

  function LowerChar(c: char): (r: char)
    ensures !IsUpper(r)
    ensures IsAlnum(r) <==> IsAlnum(c)
    ensures !IsUpper(c) ==> r == c
  {
    if IsUpper(c) then (c as int + 32) as char else c
  }

  /** `toLowerCase()` / `toLocaleLowerCase()` and Joi's `.lowercase()` conversion. */
  function ToLower(s: string): (r: string)
    ensures |r| == |s|
    ensures forall i :: 0 <= i < |s| ==> r[i] == LowerChar(s[i])
  {
    seq(|s|, i requires 0 <= i < |s| => LowerChar(s[i]))
  }

  predicate IsLowerCase(s: string) {
    forall i :: 0 <= i < |s| ==> !IsUpper(s[i])
  }

  lemma LowerIsLowerCase(s: string)
    ensures IsLowerCase(ToLower(s))
    ensures ToLower(ToLower(s)) == ToLower(s)
    ensures IsLowerCase(s) <==> ToLower(s) == s
  {
    if !IsLowerCase(s) {
      var i :| 0 <= i < |s| && IsUpper(s[i]);
      assert ToLower(s)[i] != s[i];
    }
  }

  // ---------------------------------------------------------------------
  // Substrings

  predicate StartsWith(s: string, prefix: string) {
    |prefix| <= |s| && s[..|prefix|] == prefix
  }

  predicate EndsWith(s: string, suffix: string) {
    |suffix| <= |s| && s[|s| - |suffix|..] == suffix
  }

  /** `s.indexOf(part) > -1`, `s.includes(part)`, and an unanchored regular expression without metacharacters. */
  predicate Contains(s: string, part: string) {
    exists i | 0 <= i <= |s| - |part| :: OccursAt(s, part, i)
  }

  predicate OccursAt(s: string, part: string, i: int) {
    0 <= i <= |s| - |part| && s[i..i + |part|] == part
  }

  /** The position of the first `x` in `s`, or `|s|` when there is none (`indexOf` answers -1 there). */
  function FirstIndex<T(==)>(s: seq<T>, x: T): (i: nat)
    ensures i <= |s|
    ensures i < |s| ==> s[i] == x
    ensures forall j :: 0 <= j < i ==> s[j] != x
  {
    if s == [] then 0
    else if s[0] == x then 0
    else 1 + FirstIndex(s[1..], x)
  }

  /** There is no `x` exactly when the first one is past the end. */
  lemma FirstIndexAbsent<T>(s: seq<T>, x: T)
    ensures FirstIndex(s, x) == |s| <==> x !in s
  {
  }

  // ---------------------------------------------------------------------
  // trim()

  function TrimStart(s: string): (r: string)
    ensures |r| <= |s| && r == s[|s| - |r|..]
    ensures forall k :: 0 <= k < |s| - |r| ==> IsSpace(s[k])
    ensures r != [] ==> !IsSpace(r[0])
  {
    if |s| > 0 && IsSpace(s[0]) then TrimStart(s[1..]) else s
  }

  function TrimEnd(s: string): (r: string)
    ensures |r| <= |s| && r == s[..|r|]
    ensures forall k :: |r| <= k < |s| ==> IsSpace(s[k])
    ensures r != [] ==> !IsSpace(r[|r| - 1])
  {
    if |s| > 0 && IsSpace(s[|s| - 1]) then TrimEnd(s[..|s| - 1]) else s
  }

  /** `s.trim()` */
  function Trim(s: string): string {
    TrimEnd(TrimStart(s))
  }

  predicate AllSpace(s: string) {
    forall k :: 0 <= k < |s| ==> IsSpace(s[k])
  }

  /** What `trim()` keeps: a slice of the input with only white space around it, and no white space at its ends. */
  lemma TrimShape(s: string)
    ensures exists i, j ::
      0 <= i <= j <= |s| && Trim(s) == s[i..j] && AllSpace(s[..i]) && AllSpace(s[j..])
    ensures Trim(s) != [] ==> !IsSpace(Trim(s)[0]) && !IsSpace(Trim(s)[|Trim(s)| - 1])
    ensures Trim(s) == [] <==> AllSpace(s)
  {
    var t := TrimStart(s);
    var r := TrimEnd(t);
    var i := |s| - |t|;
    var j := i + |r|;
    TrimEndInside(s, i, t, r);
    assert AllSpace(s[..i]);
    if r == [] {
      assert t == [];
      assert s == s[..i] + s[i..];
    } else {
      assert !IsSpace(s[i]);
    }
  }

  /** Trimming the end of the suffix `t` that starts at `i` leaves a slice of `s` followed by white space only. */
  lemma TrimEndInside(s: string, i: nat, t: string, r: string)
    requires i <= |s| && t == s[i..] && r == TrimEnd(t)
    ensures r == s[i..i + |r|] && AllSpace(s[i + |r|..])
  {
    var rest := s[i + |r|..];
    forall k | 0 <= k < |rest| ensures IsSpace(rest[k]) {
      assert rest[k] == t[|r| + k];
    }
  }

  // ---------------------------------------------------------------------
  // split(sep) and its inverse

  /** `s.split(sep)` for a one-character separator. */
  function Split(s: string, sep: char): (parts: seq<string>)
    ensures |parts| >= 1
    decreases |s|
  {
    var k := FirstIndex(s, sep);
    if k == |s| then [s] else [s[..k]] + Split(s[k + 1..], sep)
  }

  /** No piece holds the separator. */
  lemma {:induction false} SplitPieces(s: string, sep: char)
    ensures forall j :: 0 <= j < |Split(s, sep)| ==> sep !in Split(s, sep)[j]
    decreases |s|
  {
    var k := FirstIndex(s, sep);
    if k < |s| {
      SplitPieces(s[k + 1..], sep);
      SplitStep(s, sep, k);
    }
  }

  /** `parts.join(sep)` */
  function Join(parts: seq<string>, sep: char): string
    requires |parts| >= 1
  {
    if |parts| == 1 then parts[0] else parts[0] + [sep] + Join(parts[1..], sep)
  }

  lemma {:induction false} JoinSplit(s: string, sep: char)
    ensures Join(Split(s, sep), sep) == s
    decreases |s|
  {
    var k := FirstIndex(s, sep);
    if k == |s| {
      assert Split(s, sep) == [s];
    } else {
      var rest := s[k + 1..];
      JoinSplit(rest, sep);
      var tail := Split(rest, sep);
      SplitStep(s, sep, k);
      JoinCons(s[..k], tail, sep);
      SplitAround(s, k);
    }
  }

  lemma SplitAround(s: string, k: nat)
    requires k < |s|
    ensures s == s[..k] + [s[k]] + s[k + 1..]
  {
    assert s == s[..k] + s[k..];
  }

  lemma SplitStep(s: string, sep: char, k: nat)
    requires k == FirstIndex(s, sep) && k < |s|
    ensures Split(s, sep) == [s[..k]] + Split(s[k + 1..], sep)
  {
  }

  lemma JoinCons(head: string, tail: seq<string>, sep: char)
    requires |tail| >= 1
    ensures Join([head] + tail, sep) == head + [sep] + Join(tail, sep)
  {
    assert ([head] + tail)[1..] == tail;
  }

  /** `s.split(sep).pop()`: the text after the last separator. */
  function AfterLast(s: string, sep: char): (r: string)
    ensures sep !in r
    ensures sep !in s ==> r == s
    decreases |s|
  {
    var k := FirstIndex(s, sep);
    if k == |s| then s else AfterLast(s[k + 1..], sep)
  }

  /** `AfterLast` is the last piece `split` produces. */
  lemma {:induction false} AfterLastIsLastPiece(s: string, sep: char)
    ensures var parts := Split(s, sep); AfterLast(s, sep) == parts[|parts| - 1]
    decreases |s|
  {
    var k := FirstIndex(s, sep);
    if k < |s| {
      AfterLastIsLastPiece(s[k + 1..], sep);
      SplitStep(s, sep, k);
    }
  }

  /** `r` ends `s`, and when `s` holds the separator, one stands right before `r`. */
  predicate SuffixAfter(s: string, sep: char, r: string) {
    EndsWith(s, r) && (FirstIndex(s, sep) < |s| ==> |r| < |s| && s[|s| - |r| - 1] == sep)
  }

  /** The result is a suffix of `s`, and unless `s` has no separator, one stands right before it. */
  lemma {:induction false} AfterLastShape(s: string, sep: char)
    ensures SuffixAfter(s, sep, AfterLast(s, sep))
    decreases |s|
  {
    var k := FirstIndex(s, sep);
    if k < |s| {
      var rest := s[k + 1..];
      var r := AfterLast(rest, sep);
      assert AfterLast(s, sep) == r;
      AfterLastShape(rest, sep);
      AfterLastStep(s, sep, k, rest, r);
    } else {
      assert s[|s| - |s|..] == s;
    }
  }

  lemma AfterLastStep(s: string, sep: char, k: nat, rest: string, r: string)
    requires k < |s| && s[k] == sep && rest == s[k + 1..]
    requires SuffixAfter(rest, sep, r)
    requires FirstIndex(rest, sep) == |rest| ==> r == rest
    ensures SuffixAfter(s, sep, r)
  {
    SuffixOfRest(s, k, rest, r);
    if |r| < |rest| {
      assert s[|s| - |r| - 1] == rest[|rest| - |r| - 1];
    }
  }

  lemma SuffixOfRest(s: string, k: nat, rest: string, r: string)
    requires k < |s| && rest == s[k + 1..] && EndsWith(rest, r)
    ensures EndsWith(s, r) && |r| < |s|
  {
    assert s[|s| - |r|..] == rest[|rest| - |r|..];
  }

  // ---------------------------------------------------------------------
  // replace(a, b) of a single character: only the first occurrence changes

  function ReplaceFirst(s: string, a: char, b: char): (r: string)
    ensures |r| == |s|
    ensures a !in s ==> r == s
    ensures a in s ==> r[FirstIndex(s, a)] == b
    ensures forall i :: 0 <= i < |s| && i != FirstIndex(s, a) ==> r[i] == s[i]
  {
    var k := FirstIndex(s, a);
    if k == |s| then s else s[..k] + [b] + s[k + 1..]
  }

  /** Replacing the first `a` by `b` and then the first `b` by `a` restores a string that had no `b`. */
  lemma ReplaceFirstRoundTrip(s: string, a: char, b: char)
    requires b !in s
    ensures ReplaceFirst(ReplaceFirst(s, a, b), b, a) == s
  {
    if a in s {
      var k := FirstIndex(s, a);
      var t := ReplaceFirst(s, a, b);
      assert t[..k] == s[..k];
      FirstIndexUnique(t, b, k);
      var u := ReplaceFirst(t, b, a);
      assert forall i :: 0 <= i < |s| ==> u[i] == s[i];
    }
  }

  lemma FirstIndexUnique<T>(s: seq<T>, x: T, k: nat)
    requires k < |s| && s[k] == x && x !in s[..k]
    ensures FirstIndex(s, x) == k
  {
  }

  // ---------------------------------------------------------------------
  // Decimal rendering: `${n}` and `String(n)` for a non-negative integer

  function DigitChar(d: nat): (c: char)
    requires d < 10
    ensures IsDigit(c)
  {
    ('0' as int + d) as char
  }

  function DigitValue(c: char): nat
    requires IsDigit(c)
  {
    c as int - '0' as int
  }

  predicate AllDigits(s: string) {
    forall i :: 0 <= i < |s| ==> IsDigit(s[i])
  }

  function NatToString(n: nat): (r: string)
    ensures |r| >= 1 && AllDigits(r)
    ensures r[0] == '0' ==> n == 0
  {
    if n < 10 then [DigitChar(n)] else NatToString(n / 10) + [DigitChar(n % 10)]
  }

  /** The value of a string of decimal digits. */
  function DigitsValue(s: string): nat
    requires AllDigits(s)
  {
    if s == [] then 0 else DigitsValue(s[..|s| - 1]) * 10 + DigitValue(s[|s| - 1])
  }

  lemma {:induction false} DigitsRoundTrip(n: nat)
    ensures DigitsValue(NatToString(n)) == n
  {
    if n >= 10 {
      DigitsRoundTrip(n / 10);
      var s := NatToString(n);
      assert s[..|s| - 1] == NatToString(n / 10);
    }
  }

  /** Two numbers render alike only when they are equal. */
  lemma NatToStringInjective(m: nat, n: nat)
    requires NatToString(m) == NatToString(n)
    ensures m == n
  {
    DigitsRoundTrip(m);
    DigitsRoundTrip(n);
  }

  // ---------------------------------------------------------------------
  // Hexadecimal rendering of bytes: `buf.toString('hex')`

  newtype byte = x: int | 0 <= x < 256

  predicate IsLowerHex(c: char) { IsDigit(c) || 'a' <= c <= 'f' }

  function HexChar(d: nat): (c: char)
    requires d < 16
    ensures IsLowerHex(c)
  {
    if d < 10 then DigitChar(d) else ('a' as int + d - 10) as char
  }

  function HexValue(c: char): (d: nat)
    requires IsLowerHex(c)
    ensures d < 16
  {
    if IsDigit(c) then DigitValue(c) else c as int - 'a' as int + 10
  }

  function HexOfBytes(bs: seq<byte>): (r: string)
    ensures |r| == 2 * |bs|
    ensures forall i :: 0 <= i < |r| ==> IsLowerHex(r[i])
  {
    if bs == [] then []
    else [HexChar(bs[0] as int / 16), HexChar(bs[0] as int % 16)] + HexOfBytes(bs[1..])
  }

  function BytesOfHex(s: string): seq<byte>
    requires |s| % 2 == 0
    requires forall i :: 0 <= i < |s| ==> IsLowerHex(s[i])
  {
    if s == [] then []
    else [(HexValue(s[0]) * 16 + HexValue(s[1])) as byte] + BytesOfHex(s[2..])
  }

  lemma {:induction false} HexRoundTrip(bs: seq<byte>)
    ensures BytesOfHex(HexOfBytes(bs)) == bs
  {
    if bs != [] {
      HexRoundTrip(bs[1..]);
      var s := HexOfBytes(bs);
      assert s[2..] == HexOfBytes(bs[1..]);
      var hi, lo := bs[0] as int / 16, bs[0] as int % 16;
      assert HexValue(HexChar(hi)) == hi;
      assert HexValue(HexChar(lo)) == lo;
    }
  }
}

=== FILE: lists.dfy ===
/**
 * What the two list handlers share: the number of keys of the body, the
 * check of a list id, the `lists` setting when it holds an array, and the
 * search for a list by id.
 */
module ListSettings {
  import opened Js
  import opened Model
  import opened Patterns

  /** The longest list id and list name. */
  const MaxListField: nat := 64

  /**
   * `Object.keys(v).length`: an object's keys, an array's indices, a
   * string's positions, none for a number or a boolean; `null` and
   * `undefined` throw.
   */
  function KeyCount(v: JsVal): (n: Option<nat>)
    ensures n.None? <==> v.Undefined? || v.Null?
    ensures v.Obj? ==> n == Some(|v.fields.Keys|)
  {
    match v
    case Undefined => None
    case Null => None
    case Bool(_) => Some(0)
    case Num(_) => Some(0)
    case Str(s) => Some(|s|)
    case Arr(elems) => Some(|elems|)
    case Obj(fields) => Some(|fields.Keys|)
  }

  /** An id the check accepts: a non-empty string of `[a-zA-Z0-9_-]`, at most 64 long. */
  predicate IsListId(v: JsVal) {
    v.Str? && v.s != "" && IdChars(v.s) && |v.s| <= MaxListField
  }

  /** `validateId`: the message of the first check the id fails, none when it passes them all. */
  function ValidateId(v: JsVal): (error: Option<string>)
    ensures error.None? <==> IsListId(v)
    ensures !Truthy(v) ==> error == Some("No list id provided")
  {
    if !Truthy(v) then Some("No list id provided")
    else if !v.Str? then Some("Invalid list id: not a string")
    else if !IdChars(v.s) then Some("Invalid list id: contains invalid characters")
    else if |v.s| > MaxListField then Some("Invalid list id: over 64 characters")
    else None
  }

  /** The entries of the `lists` setting when it is there and holds an array of lists. */
  function ArrayLists(settings: map<string, SettingItem>): (r: Option<seq<ListEntry>>)
    ensures r.Some? <==> "lists" in settings && settings["lists"].value.Lists?
    ensures r.Some? ==> r.value == settings["lists"].value.lists
  {
    if "lists" in settings && settings["lists"].value.Lists? then Some(settings["lists"].value.lists) else None
  }

  /** `lists.findIndex(i => i.id === id)`: the first position holding the id, or -1. */
  function FindList(lists: seq<ListEntry>, id: string): (i: int)
    ensures -1 <= i < |lists|
    ensures i == -1 <==> forall j :: 0 <= j < |lists| ==> lists[j].id != id
    ensures i >= 0 ==> lists[i].id == id && forall j :: 0 <= j < i ==> lists[j].id != id
  {
    if lists == [] then -1
    else if lists[0].id == id then 0
    else
      var rest := FindList(lists[1..], id);
      if rest == -1 then -1 else rest + 1
  }

  /** The `lists` setting after `set #value = :newValue`: a missing setting is created with only its value. */
  function WithLists(settings: map<string, SettingItem>, lists: seq<ListEntry>): (r: map<string, SettingItem>)
    ensures r.Keys == settings.Keys + {"lists"} && r["lists"].value == Lists(lists)
    ensures forall name :: name in settings && name != "lists" ==> r[name] == settings[name]
  {
    if "lists" in settings then settings["lists" := settings["lists"].(value := Lists(lists))]
    else settings["lists" := ValueItem(Lists(lists))]
  }

  /** Writing back the lists the setting already holds changes nothing. */
  lemma WithSameLists(settings: map<string, SettingItem>, lists: seq<ListEntry>)
    requires ArrayLists(settings) == Some(lists)
    ensures WithLists(settings, lists) == settings
  {
    assert settings["lists"].(value := Lists(lists)) == settings["lists"];
  }

  /** An entry with the id put in place of the first one keeps that place first. */
  lemma FindListReplaced(lists: seq<ListEntry>, id: string, entry: ListEntry)
    requires FindList(lists, id) >= 0 && entry.id == id
    ensures var i := FindList(lists, id);
      FindList(lists[..i] + [entry] + lists[i + 1..], id) == i
  {
    var i := FindList(lists, id);
    var r := lists[..i] + [entry] + lists[i + 1..];
    assert r[i] == entry;
    forall j | 0 <= j < i ensures r[j].id != id {
      assert r[j] == lists[j];
    }
  }

  /** An entry with an id not listed, appended, is the first with it. */
  lemma FindListAppended(lists: seq<ListEntry>, id: string, entry: ListEntry)
    requires FindList(lists, id) == -1 && entry.id == id
    ensures FindList(lists + [entry], id) == |lists|
  {
    var r := lists + [entry];
    assert r[|lists|] == entry;
    forall j | 0 <= j < |lists| ensures r[j].id != id {
      assert r[j] == lists[j];
    }
  }

  /** Putting an entry back where it stands gives the same lists. */
  lemma SpliceSame(lists: seq<ListEntry>, i: nat)
    requires i < |lists|
    ensures lists[..i] + [lists[i]] + lists[i + 1..] == lists
  {
    assert lists == lists[..i] + lists[i..];
    assert lists[i..] == [lists[i]] + lists[i + 1..];
  }

  /** A second write of the setting overrides the first. */
  lemma WithListsTwice(settings: map<string, SettingItem>, first: seq<ListEntry>, second: seq<ListEntry>)
    ensures WithLists(WithLists(settings, first), second) == WithLists(settings, second)
  {
    if "lists" !in settings {
      assert ValueItem(Lists(first)).(value := Lists(second)) == ValueItem(Lists(second));
    }
  }
}

=== FILE: model.dfy ===
/**
 * The records the handlers read and write, and the three tables they share:
 * Subscribers (by subscriberId), Queue (by queuePlacement and runAtModified)
 * and Settings (by settingName), held by one `Store` object.
 *
 * An attribute that may be missing is an `Option`, a `JsVal` (`Undefined`
 * when missing) when the handlers test its truthiness or type, or a number
 * whose falsy value 0 stands for "missing" when the handlers only ever test
 * it for truthiness.
 */
module Model {
  import opened Js

  /** A delivery time preference: the local hour and minute to send at. */
  datatype Dtp = Dtp(hour: int, minute: int)

  datatype UnsubscribeToken = UnsubscribeToken(value: string, created: nat)

  /**
   * A Subscribers record. `tags` is none when the attribute is missing or
   * `null`; `extra` holds the attributes a request body brought that the
   * model gives no field of its own (see `Attributes`).
   */
  datatype Subscriber = Subscriber(
    subscriberId: string,
    email: string,
    displayEmail: string,
    confirmed: JsVal,
    unsubscribed: JsVal,
    tags: Option<seq<string>>,
    timezone: Option<string>,
    deliveryTimePreference: Option<Dtp>,
    joined: int,
    confirmationToken: string,
    lastConfirmation: nat,
    confirmTimestamp: nat,
    unsubscribeToken: Option<UnsubscribeToken>,
    unsubscribeTimestamp: nat,
    unsubscribeReason: string,
    lastOpen: nat,
    lastClick: nat,
    lastOpenOrClick: nat,
    extra: map<string, JsVal>)

  /** The attributes a record has a field for. */
  const Attributes: set<string> := {
    "subscriberId", "email", "displayEmail", "confirmed", "unsubscribed", "tags", "timezone",
    "deliveryTimePreference", "joined", "confirmationToken", "lastConfirmation", "confirmTimestamp",
    "unsubscribeToken", "unsubscribeTimestamp", "unsubscribeReason", "lastOpen", "lastClick", "lastOpenOrClick"}

  /** `subscriber.tags || []`: the stored tags, none when the attribute is missing or `null`. */
  function TagsOf(s: Subscriber): (tags: seq<string>)
    ensures s.tags.None? ==> tags == []
    ensures s.tags.Some? ==> tags == s.tags.value
  {
    if s.tags.Some? then s.tags.value else []
  }

  /** What an `update` on an absent key starts from: the key and nothing else. */
  function Blank(subscriberId: string): (s: Subscriber)
    ensures s.subscriberId == subscriberId && s.tags.None? && s.extra == map[]
    ensures !Truthy(s.confirmed) && !Truthy(s.unsubscribed)
  {
    Subscriber(subscriberId, "", "", Undefined, Undefined, None, None, None, 0, "", 0, 0, None, 0, "", 0, 0, 0, map[])
  }

  /** The record an unconditional `update` of `subscriberId` applies to. */
  function Current(subscribers: map<string, Subscriber>, subscriberId: string): (s: Subscriber)
    ensures subscriberId in subscribers ==> s == subscribers[subscriberId]
    ensures subscriberId !in subscribers ==> s == Blank(subscriberId)
  {
    if subscriberId in subscribers then subscribers[subscriberId] else Blank(subscriberId)
  }

  /**
   * The subscriber fields a request body may carry; `None`/`Undefined` when
   * the key is missing. `tags` is `Some(None)` for an explicit `null`.
   * `extra` holds every other key of the body, as the schemas let unknown
   * keys through.
   */
  datatype SubscriberInput = SubscriberInput(
    email: string,
    timezone: Option<string>,
    deliveryTimePreference: Option<Dtp>,
    tags: Option<Option<seq<string>>>,
    confirmed: JsVal,
    unsubscribed: JsVal,
    extra: map<string, JsVal>)

  /** The tags a request names (`null`, `[]` and a missing key all name none). */
  function InputTags(input: SubscriberInput): (tags: seq<string>)
    ensures input.tags.Some? && input.tags.value.Some? ==> tags == input.tags.value.value
    ensures !(input.tags.Some? && input.tags.value.Some?) ==> tags == []
  {
    if input.tags.Some? && input.tags.value.Some? then input.tags.value.value else []
  }

  /** The `tags` attribute `subscriberInput.tags` writes: none when the key is missing or `null`. */
  function TagsAttribute(input: SubscriberInput): (tags: Option<seq<string>>)
    ensures tags.Some? <==> input.tags.Some? && input.tags.value.Some?
    ensures tags.Some? ==> tags.value == InputTags(input)
  {
    if input.tags.Some? then input.tags.value else None
  }

  /** The keys of `body` other than `declared`, with their values. */
  function Others(body: map<string, JsVal>, declared: set<string>): (r: map<string, JsVal>)
    ensures r.Keys == body.Keys - declared
    ensures forall k :: k in r ==> r[k] == body[k]
  {
    map k | k in body && k !in declared :: body[k]
  }

  /** The string `extra` gives `key`, or `d` when it gives none. */
  function StrOr(extra: map<string, JsVal>, key: string, d: string): string {
    if key in extra && extra[key].Str? then extra[key].s else d
  }

  /** The number `extra` gives `key`, or `d` when it gives none. */
  function IntOr(extra: map<string, JsVal>, key: string, d: int): int {
    if key in extra && extra[key].Num? then extra[key].n else d
  }

  /** The time stamp `extra` gives `key`, or `d` when it gives none. */
  function NatOr(extra: map<string, JsVal>, key: string, d: nat): nat {
    if key in extra && extra[key].Num? && extra[key].n >= 0 then extra[key].n else d
  }

  /**
   * `Object.assign(subscriber, extra)` for the keys outside the schema: a
   * key naming one of the record's fields sets it, and every other key is
   * stored as it is.
   */
  function Assign(s: Subscriber, extra: map<string, JsVal>): (r: Subscriber)
    ensures r.subscriberId == StrOr(extra, "subscriberId", s.subscriberId)
    ensures r.displayEmail == StrOr(extra, "displayEmail", s.displayEmail)
    ensures r.joined == IntOr(extra, "joined", s.joined)
    ensures r.confirmationToken == StrOr(extra, "confirmationToken", s.confirmationToken)
    ensures r.lastOpen == NatOr(extra, "lastOpen", s.lastOpen) && r.lastClick == NatOr(extra, "lastClick", s.lastClick)
    ensures r.email == s.email && r.tags == s.tags && r.confirmed == s.confirmed && r.unsubscribed == s.unsubscribed
    ensures r.extra.Keys == s.extra.Keys + (extra.Keys - Attributes)
    ensures forall k :: k in extra && k !in Attributes ==> r.extra[k] == extra[k]
    ensures forall k :: k in s.extra && k !in extra ==> r.extra[k] == s.extra[k]
  {
    s.(subscriberId := StrOr(extra, "subscriberId", s.subscriberId),
       displayEmail := StrOr(extra, "displayEmail", s.displayEmail),
       joined := IntOr(extra, "joined", s.joined),
       confirmationToken := StrOr(extra, "confirmationToken", s.confirmationToken),
       lastConfirmation := NatOr(extra, "lastConfirmation", s.lastConfirmation),
       confirmTimestamp := NatOr(extra, "confirmTimestamp", s.confirmTimestamp),
       unsubscribeTimestamp := NatOr(extra, "unsubscribeTimestamp", s.unsubscribeTimestamp),
       unsubscribeReason := StrOr(extra, "unsubscribeReason", s.unsubscribeReason),
       lastOpen := NatOr(extra, "lastOpen", s.lastOpen),
       lastClick := NatOr(extra, "lastClick", s.lastClick),
       lastOpenOrClick := NatOr(extra, "lastOpenOrClick", s.lastOpenOrClick),
       extra := s.extra + Others(extra, Attributes))
  }

  /** `Object.assign(subscriber, input)`: every key the input carries replaces the stored one. */
  function Overlay(s: Subscriber, input: SubscriberInput): (r: Subscriber)
    ensures r.subscriberId == StrOr(input.extra, "subscriberId", s.subscriberId) && r.email == input.email
    ensures r.tags == (if input.tags.Some? then input.tags.value else s.tags)
    ensures r.confirmed == (if input.confirmed.Undefined? then s.confirmed else input.confirmed)
    ensures r.unsubscribed == (if input.unsubscribed.Undefined? then s.unsubscribed else input.unsubscribed)
    ensures r.joined == IntOr(input.extra, "joined", s.joined)
    ensures r.confirmationToken == StrOr(input.extra, "confirmationToken", s.confirmationToken)
    ensures r.displayEmail == StrOr(input.extra, "displayEmail", s.displayEmail)
    ensures forall k :: k in input.extra && k !in Attributes ==> k in r.extra && r.extra[k] == input.extra[k]
  {
    Assign(s, input.extra).(
       email := input.email,
       timezone := if input.timezone.Some? then input.timezone else s.timezone,
       deliveryTimePreference := if input.deliveryTimePreference.Some? then input.deliveryTimePreference else s.deliveryTimePreference,
       tags := if input.tags.Some? then input.tags.value else s.tags,
       confirmed := if input.confirmed.Undefined? then s.confirmed else input.confirmed,
       unsubscribed := if input.unsubscribed.Undefined? then s.unsubscribed else input.unsubscribed)
  }

  /** A body with no key outside the schema leaves every field the schema does not name as stored. */
  lemma OverlayWithoutOthers(s: Subscriber, input: SubscriberInput)
    requires input.extra == map[]
    ensures var r := Overlay(s, input);
      r.subscriberId == s.subscriberId && r.joined == s.joined && r.confirmationToken == s.confirmationToken
      && r.displayEmail == s.displayEmail && r.extra == s.extra
  {
    assert Others(input.extra, Attributes) == map[];
    assert s.extra + map[] == s.extra;
  }

  // ---------------------------------------------------------------------
  // Queue

  datatype QueueKey = QueueKey(queuePlacement: string, runAtModified: string)

  /** The pending placement: items waiting to be sent. */
  const Queued: string := "queued"

  /**
   * The payload of an autoresponder step, copied into the queue item that
   * runs it: its type, its template, the tags that caused it, and the
   * remaining attributes as they are.
   */
  datatype Step = Step(stepType: string, templateId: string, tagReason: seq<string>, details: map<string, JsVal>)

  datatype QueueItem = QueueItem(
    key: QueueKey,
    runAt: nat,
    attempts: nat,
    failed: bool,
    completed: bool,
    subscriber: Subscriber,
    subscriberId: string,
    autoresponderId: string,
    autoresponderStep: string,
    step: Step,
    lastAttempt: nat,
    click: nat,
    open: nat)

  predicate IsPendingFor(item: QueueItem, subscriberId: string) {
    item.key.queuePlacement == Queued && item.subscriberId == subscriberId
  }

  function KeysOf(items: seq<QueueItem>): (keys: set<QueueKey>)
    ensures forall i :: 0 <= i < |items| ==> items[i].key in keys
    ensures forall k :: k in keys ==> exists i :: 0 <= i < |items| && items[i].key == k
  {
    set i | 0 <= i < |items| :: items[i].key
  }

  /** A query answer: every item it lists is a pending item of the subscriber, as stored. */
  predicate PageOf(queue: map<QueueKey, QueueItem>, subscriberId: string, items: seq<QueueItem>) {
    forall i :: 0 <= i < |items| ==>
      items[i].key in queue && queue[items[i].key] == items[i] && IsPendingFor(items[i], subscriberId)
  }

  /** A complete query answer: it also lists every pending item of the subscriber. */
  predicate CompleteFor(queue: map<QueueKey, QueueItem>, subscriberId: string, items: seq<QueueItem>) {
    PageOf(queue, subscriberId, items)
    && forall k :: k in queue && IsPendingFor(queue[k], subscriberId) ==> k in KeysOf(items)
  }

  predicate NoPendingFor(queue: map<QueueKey, QueueItem>, subscriberId: string) {
    forall k :: k in queue ==> !IsPendingFor(queue[k], subscriberId)
  }

  /**
   * Deleting the keys of a query answer removes only pending items of that
   * subscriber, and when the answer is complete none of them is left.
   */
  lemma DeleteAnswer(queue: map<QueueKey, QueueItem>, subscriberId: string, items: seq<QueueItem>)
    requires PageOf(queue, subscriberId, items)
    ensures forall k :: k in queue && k !in queue - KeysOf(items) ==> IsPendingFor(queue[k], subscriberId)
    ensures CompleteFor(queue, subscriberId, items) ==> NoPendingFor(queue - KeysOf(items), subscriberId)
  {
    forall k | k in queue && k !in queue - KeysOf(items)
      ensures IsPendingFor(queue[k], subscriberId)
    {
      var i :| 0 <= i < |items| && items[i].key == k;
    }
  }

  lemma KeysOfCons(items: seq<QueueItem>)
    requires items != []
    ensures KeysOf(items) == {items[0].key} + KeysOf(items[1..])
  {
    forall k | k in KeysOf(items) ensures k == items[0].key || k in KeysOf(items[1..]) {
      var i :| 0 <= i < |items| && items[i].key == k;
      if i > 0 { assert items[1..][i - 1].key == k; }
    }
    forall k | k in KeysOf(items[1..]) ensures k in KeysOf(items) {
      var i :| 0 <= i < |items[1..]| && items[1..][i].key == k;
      assert items[i + 1].key == k;
    }
  }

  /** Queue puts in order: each item is stored under its key, later puts replacing earlier ones. */
  function PutAll(queue: map<QueueKey, QueueItem>, items: seq<QueueItem>): (r: map<QueueKey, QueueItem>)
    ensures r.Keys == queue.Keys + KeysOf(items)
    ensures forall k :: k in queue && k !in KeysOf(items) ==> r[k] == queue[k]
    decreases |items|
  {
    if items == [] then queue
    else
      KeysOfCons(items);
      PutAll(queue[items[0].key := items[0]], items[1..])
  }

  /** Puts keep every item stored under its own key. */
  lemma {:induction false} PutAllKeepsKeys(queue: map<QueueKey, QueueItem>, items: seq<QueueItem>)
    requires forall k :: k in queue ==> queue[k].key == k
    ensures forall k :: k in PutAll(queue, items) ==> PutAll(queue, items)[k].key == k
    decreases |items|
  {
    if items != [] {
      var q := queue[items[0].key := items[0]];
      assert forall k :: k in q ==> q[k].key == k;
      PutAllKeepsKeys(q, items[1..]);
    }
  }

  /** Storing a record under its own id keeps both tables keyed. */
  lemma KeyedPut(subscribers: map<string, Subscriber>, queue: map<QueueKey, QueueItem>, s: Subscriber)
    ensures Keyed(subscribers, queue) ==> Keyed(subscribers[s.subscriberId := s], queue)
  {
  }

  /** Puts keep both tables keyed. */
  lemma PutAllKeyed(subscribers: map<string, Subscriber>, queue: map<QueueKey, QueueItem>, items: seq<QueueItem>)
    ensures Keyed(subscribers, queue) ==> Keyed(subscribers, PutAll(queue, items))
  {
    if Keyed(subscribers, queue) {
      PutAllKeepsKeys(queue, items);
    }
  }

  /** After the puts, every key they name holds one of the items put, so what holds of them all holds there. */
  lemma {:induction false} PutAllHolds(queue: map<QueueKey, QueueItem>, items: seq<QueueItem>, P: QueueItem -> bool)
    requires forall j :: 0 <= j < |items| ==> P(items[j])
    ensures forall k :: k in KeysOf(items) ==> P(PutAll(queue, items)[k])
    decreases |items|
  {
    if items != [] {
      var q := queue[items[0].key := items[0]];
      var rest := items[1..];
      KeysOfCons(items);
      PutAllHolds(q, rest, P);
    }
  }

  // ---------------------------------------------------------------------
  // Settings

  datatype ListEntry = ListEntry(id: string, name: string, sourceEmail: Option<string>, details: map<string, JsVal>)

  datatype Autoresponder = Autoresponder(autoresponderId: string, trigger: string, steps: map<string, Step>)

  /** The `value` attribute of a setting, by what the handlers find in it. */
  datatype SettingValue =
    | Lists(lists: seq<ListEntry>)
    | Domains(domains: seq<string>)
    | AutoresponderDef(autoresponder: Autoresponder)
    | Json(json: JsVal)

  /** A Settings item: its value and the top-level attributes some handlers read. */
  datatype SettingItem = SettingItem(value: SettingValue, isDoingBroadcast: JsVal, autoresponderId: string)

  function ValueItem(value: SettingValue): (item: SettingItem)
    ensures item.value == value && !Truthy(item.isDoingBroadcast)
  {
    SettingItem(value, Undefined, "")
  }

  // ---------------------------------------------------------------------
  // What leaves a handler

  datatype Response = Response(statusCode: nat, body: string)

  /** `JSON.stringify` of a string without quotes, backslashes or control characters. */
  function JsonString(s: string): (r: string)
    ensures |r| == |s| + 2 && r[0] == '"' && r[|r| - 1] == '"' && r[1..|r| - 1] == s
  {
    "\"" + s + "\""
  }

  /** `displayEmail || email`: the address as the subscriber typed it, else the stored one. */
  function Recipient(s: Subscriber): (to: string)
    ensures s.displayEmail != "" ==> to == s.displayEmail
    ensures s.displayEmail == "" ==> to == s.email
  {
    if s.displayEmail != "" then s.displayEmail else s.email
  }

  /**
   * A confirmation e-mail: its recipient, its SES template (empty for a
   * message written out in full), and the confirmation link it carries.
   */
  datatype Email = Email(to: string, template: string, link: string)

  /**
   * What a subscriber handler leaves behind: its answer, the Subscribers
   * and Queue tables, the e-mails it sent and the queue items it enrolled.
   */
  datatype Outcome = Outcome(
    response: Response,
    subscribers: map<string, Subscriber>,
    queue: map<QueueKey, QueueItem>,
    emails: seq<Email>,
    enqueued: seq<QueueItem>)

  /** An answer that leaves both tables as they were and sends nothing. */
  function NoChange(response: Response, subscribers: map<string, Subscriber>, queue: map<QueueKey, QueueItem>): (r: Outcome)
    ensures r.response == response && r.subscribers == subscribers && r.queue == queue
    ensures r.emails == [] && r.enqueued == []
  {
    Outcome(response, subscribers, queue, [], [])
  }

  // ---------------------------------------------------------------------
  // The tables

  /** Every record is stored under its own key. */
  predicate Keyed(subscribers: map<string, Subscriber>, queue: map<QueueKey, QueueItem>) {
    (forall id :: id in subscribers ==> subscribers[id].subscriberId == id)
    && (forall k :: k in queue ==> queue[k].key == k)
  }

  class Store {
    var subscribers: map<string, Subscriber>
    var queue: map<QueueKey, QueueItem>
    var settings: map<string, SettingItem>

    /** Every item is stored under its own key. */
    ghost predicate Valid()
      reads this
    {
      Keyed(subscribers, queue)
    }

    constructor (settings: map<string, SettingItem>)
      ensures Valid()
      ensures this.subscribers == map[] && this.queue == map[] && this.settings == settings
    {
      this.subscribers := map[];
      this.queue := map[];
      this.settings := settings;
    }
  }
}

=== FILE: patterns.dfy ===
/**
 * The regular expressions the handlers test, each as a predicate on the
 * string. Where the expression is anchored and built from character classes
 * the predicate is the match itself; where the match has a decomposition
 * (an e-mail address, `\d+_\d+`) the decomposition is stated as written and
 * an executable test is proved equivalent to it.
 */
module Patterns {
  import opened Js

  // ---------------------------------------------------------------------
  // Identifiers

  /** `[a-zA-Z0-9_-]` */
  predicate IsIdChar(c: char) { IsWordChar(c) || c == '-' }

  /** `^[a-zA-Z0-9_-]*$` */
  predicate IdChars(s: string) {
    forall i :: 0 <= i < |s| ==> IsIdChar(s[i])
  }

  /** `^[\w-]+$` */
  predicate IsWordDash(s: string) {
    |s| >= 1 && IdChars(s)
  }

  /** `^[a-zA-Z0-9]+$` */
  predicate IsAlnumWord(s: string) {
    |s| >= 1 && forall i :: 0 <= i < |s| ==> IsAlnum(s[i])
  }

  /** `/[a-zA-Z0-9]+/` without anchors: some character is a letter or digit. */
  predicate HasAlnum(s: string) {
    exists i | 0 <= i < |s| :: IsAlnum(s[i])
  }

  /** Joi `.hex()`: only hexadecimal digits, of either case. */
  predicate IsHexString(s: string) {
    forall i :: 0 <= i < |s| ==> IsHexDigit(s[i])
  }

  // ---------------------------------------------------------------------
  // Version 4 UUIDs (RFC 4122 sections 4.1.1, 4.1.3 and 4.4)

  predicate HexRun(s: string, from: int, to: int)
    requires 0 <= from <= to <= |s|
  {
    forall i :: from <= i < to ==> IsHexDigit(s[i])
  }

  /** `/^[0-9A-F]{8}-[0-9A-F]{4}-4[0-9A-F]{3}-[89AB][0-9A-F]{3}-[0-9A-F]{12}$/i` */
  predicate IsUuidV4(s: string) {
    |s| == 36
    && s[8] == '-' && s[13] == '-' && s[18] == '-' && s[23] == '-'
    && HexRun(s, 0, 8) && HexRun(s, 9, 13)
    && s[14] == '4' && HexRun(s, 15, 18)
    && s[19] in "89abAB" && HexRun(s, 20, 23)
    && HexRun(s, 24, 36)
  }

  /**
   * How a generator lays out sixteen random bytes as a version 4 UUID:
   * the high nibble of byte 6 becomes the version 4, the two high bits of
   * byte 8 become the variant 10, and the hexadecimal text is cut 8-4-4-4-12.
   */
  function FormatUuidV4(bs: seq<byte>): (u: string)
    requires |bs| == 16
    ensures |u| == 36
  {
    var b := bs[..6] + [(bs[6] as int % 16 + 0x40) as byte] + [bs[7]]
             + [(bs[8] as int % 64 + 0x80) as byte] + bs[9..];
    var h := HexOfBytes(b);
    h[..8] + "-" + h[8..12] + "-" + h[12..16] + "-" + h[16..20] + "-" + h[20..]
  }

  lemma {:induction false} HexOfBytesAt(bs: seq<byte>, j: nat)
    requires j < |bs|
    ensures HexOfBytes(bs)[2 * j] == HexChar(bs[j] as int / 16)
    ensures HexOfBytes(bs)[2 * j + 1] == HexChar(bs[j] as int % 16)
  {
    var h := HexOfBytes(bs);
    var t := HexOfBytes(bs[1..]);
    assert h == [HexChar(bs[0] as int / 16), HexChar(bs[0] as int % 16)] + t;
    if j > 0 {
      HexOfBytesAt(bs[1..], j - 1);
      assert h[2 * j] == t[2 * (j - 1)];
      assert h[2 * j + 1] == t[2 * (j - 1) + 1];
      assert bs[1..][j - 1] == bs[j];
    }
  }

  /** Every identifier a version 4 generator produces passes the handlers' identifier check. */
  lemma FormattedUuidIsV4(bs: seq<byte>)
    requires |bs| == 16
    ensures IsUuidV4(FormatUuidV4(bs))
  {
    var b := bs[..6] + [(bs[6] as int % 16 + 0x40) as byte] + [bs[7]]
             + [(bs[8] as int % 64 + 0x80) as byte] + bs[9..];
    var h := HexOfBytes(b);
    var u := FormatUuidV4(bs);
    HexOfBytesAt(b, 6);
    HexOfBytesAt(b, 8);
    assert u[14] == h[12];
    assert u[19] == h[16];
    assert HexChar(4) == '4';
    var hi := b[8] as int / 16;
    assert 8 <= hi < 12;
    assert h[16] == HexChar(hi);
    assert HexChar(hi) in "89ab";
    forall i | 0 <= i < 36 && i != 8 && i != 13 && i != 18 && i != 23
      ensures IsHexDigit(u[i])
    {
      if i < 8 { assert u[i] == h[i]; }
      else if i < 13 { assert u[i] == h[i - 1]; }
      else if i < 18 { assert u[i] == h[i - 2]; }
      else if i < 23 { assert u[i] == h[i - 3]; }
      else { assert u[i] == h[i - 4]; }
    }
  }

  // ---------------------------------------------------------------------
  // Dates and queue-key tags

  predicate DigitRun(s: string, from: int, to: int)
    requires 0 <= from <= to <= |s|
  {
    forall i :: from <= i < to ==> IsDigit(s[i])
  }

  /** `^\d{4}-\d{2}-\d{2}$` */
  predicate IsIsoDate(s: string) {
    |s| == 10 && DigitRun(s, 0, 4) && s[4] == '-' && DigitRun(s, 5, 7) && s[7] == '-' && DigitRun(s, 8, 10)
  }

  /** `/\d{4}-\d{2}-\d{2}/` without anchors */
  predicate ContainsIsoDate(s: string) {
    exists i | 0 <= i <= |s| - 10 :: IsoDateAt(s, i)
  }

  predicate IsoDateAt(s: string, i: int) {
    0 <= i <= |s| - 10 && IsIsoDate(s[i..i + 10])
  }

  /** `/\d+_\d+/` without anchors, as the expression decomposes a match. */
  ghost predicate MatchesDigitsUnderscoreDigits(s: string) {
    exists i, j, k :: DigitsUnderscoreDigitsAt(s, i, j, k)
  }

  predicate DigitsUnderscoreDigitsAt(s: string, i: int, j: int, k: int) {
    0 <= i < j && j + 1 < k <= |s| && s[j] == '_' && DigitRun(s, i, j) && DigitRun(s, j + 1, k)
  }

  /** The executable test: an underscore with a digit on each side. */
  predicate HasDigitsUnderscoreDigits(s: string) {
    exists j | 0 < j < |s| - 1 :: s[j] == '_' && IsDigit(s[j - 1]) && IsDigit(s[j + 1])
  }

  lemma DigitsUnderscoreDigitsEquivalent(s: string)
    ensures MatchesDigitsUnderscoreDigits(s) <==> HasDigitsUnderscoreDigits(s)
  {
    if MatchesDigitsUnderscoreDigits(s) {
      var i, j, k :| DigitsUnderscoreDigitsAt(s, i, j, k);
      assert IsDigit(s[j - 1]) && IsDigit(s[j + 1]);
    }
    if HasDigitsUnderscoreDigits(s) {
      var j :| 0 < j < |s| - 1 && s[j] == '_' && IsDigit(s[j - 1]) && IsDigit(s[j + 1]);
      assert DigitsUnderscoreDigitsAt(s, j - 1, j, j + 2);
    }
  }

  // ---------------------------------------------------------------------
  // The add-tag directive of an interaction event

  const AddTagPrefix: string := "add-tag_"

  /** `/^add-tag_([a-zA-Z0-9_-]{1,248})$/`: the captured tag when the trigger matches. */
  function AddTagDirective(trigger: string): (r: Option<string>)
    ensures r.Some? ==> trigger == AddTagPrefix + r.value
    ensures r.Some? ==> 1 <= |r.value| <= 248 && IdChars(r.value)
  {
    if StartsWith(trigger, AddTagPrefix) && 1 <= |trigger| - 8 <= 248 && IdChars(trigger[8..])
    then Some(trigger[8..])
    else None
  }

  /** A directive built from a tag of 1 to 248 identifier characters gives back that tag. */
  lemma AddTagDirectiveRoundTrip(tag: string)
    requires 1 <= |tag| <= 248 && IdChars(tag)
    ensures AddTagDirective(AddTagPrefix + tag) == Some(tag)
  {
    assert (AddTagPrefix + tag)[8..] == tag;
  }

  // ---------------------------------------------------------------------
  // Source e-mail addresses of a list

  /** `[^\s@]+` */
  predicate IsAddressPart(x: string) {
    |x| >= 1 && forall k :: 0 <= k < |x| ==> !IsSpace(x[k]) && x[k] != '@'
  }

  /** `^[^\s@]+@[^\s@]+\.[^\s@]+$`, as the expression decomposes a match. */
  ghost predicate MatchesBasicEmail(s: string) {
    exists p, q :: BasicEmailAt(s, p, q)
  }

  predicate NoSpace(s: string) {
    forall k :: 0 <= k < |s| ==> !IsSpace(s[k])
  }

  /**
   * The executable test: no white space, exactly one `@`, with something
   * before it, and a `.` after it that is neither next to the `@` nor last.
   */
  predicate IsBasicEmail(s: string) {
    var p := FirstIndex(s, '@');
    NoSpace(s) && 0 < p && p + 3 < |s| && '@' !in s[p + 1..] && '.' in s[p + 2..|s| - 1]
  }

  lemma BasicEmailEquivalent(s: string)
    ensures MatchesBasicEmail(s) <==> IsBasicEmail(s)
  {
    if MatchesBasicEmail(s) {
      var p, q :| BasicEmailAt(s, p, q);
      BasicEmailTest(s, p, q);
    }
    if IsBasicEmail(s) {
      BasicEmailDecompose(s);
    }
  }

  predicate BasicEmailAt(s: string, p: int, q: int) {
    0 < p && p + 1 < q < |s| - 1 && s[p] == '@' && s[q] == '.'
    && IsAddressPart(s[..p]) && IsAddressPart(s[p + 1..q]) && IsAddressPart(s[q + 1..])
  }

  lemma BasicEmailTest(s: string, p: int, q: int)
    requires BasicEmailAt(s, p, q)
    ensures IsBasicEmail(s)
  {
    assert '@' !in s[..p] by {
      forall k | 0 <= k < p ensures s[..p][k] != '@' { }
    }
    FirstIndexUnique(s, '@', p);
    forall k | p + 1 <= k < |s| ensures s[k] != '@' && !IsSpace(s[k]) {
      if k < q { assert s[k] == s[p + 1..q][k - p - 1]; }
      else if k > q { assert s[k] == s[q + 1..][k - q - 1]; }
    }
    assert '@' !in s[p + 1..];
    assert s[p + 2..|s| - 1][q - p - 2] == '.';
    forall k | 0 <= k < p ensures !IsSpace(s[k]) {
      assert s[k] == s[..p][k];
    }
  }

  lemma BasicEmailDecompose(s: string)
    requires IsBasicEmail(s)
    ensures MatchesBasicEmail(s)
  {
    var p := FirstIndex(s, '@');
    var t := s[p + 2..|s| - 1];
    var m :| 0 <= m < |t| && t[m] == '.';
    var q := p + 2 + m;
    assert s[q] == '.';
    assert '@' !in s[..p];
    forall k | p + 1 <= k < |s| ensures s[k] != '@' {
      assert s[k] == s[p + 1..][k - p - 1];
    }
    assert IsAddressPart(s[..p]);
    assert IsAddressPart(s[p + 1..q]);
    assert IsAddressPart(s[q + 1..]);
    assert BasicEmailAt(s, p, q);
  }

  predicate NoLineTerminator(s: string) {
    forall k :: 0 <= k < |s| ==> !IsLineTerminator(s[k])
  }

  /** `^.*<[^\s@]+@[^\s@]+\.[^\s@]+>$`: a label, then an address between angle brackets. */
  ghost predicate MatchesLabelledEmail(s: string) {
    exists i :: 0 <= i < |s| - 1 && s[i] == '<' && s[|s| - 1] == '>'
      && NoLineTerminator(s[..i]) && MatchesBasicEmail(Inner(s, i))
  }

  /** The text between the `<` at `i` and the final character. */
  function Inner(s: string, i: int): string
    requires 0 <= i < |s| - 1
  {
    s[i + 1..|s| - 1]
  }

  predicate IsLabelledEmail(s: string) {
    exists i | 0 <= i < |s| - 1 :: s[i] == '<' && s[|s| - 1] == '>'
      && NoLineTerminator(s[..i]) && IsBasicEmail(Inner(s, i))
  }

  lemma LabelledEmailEquivalent(s: string)
    ensures MatchesLabelledEmail(s) <==> IsLabelledEmail(s)
  {
    forall i | 0 <= i < |s| - 1 ensures MatchesBasicEmail(Inner(s, i)) <==> IsBasicEmail(Inner(s, i)) {
      BasicEmailEquivalent(Inner(s, i));
    }
  }
}

=== FILE: public_subscriber_confirm_get.dfy ===
/**
 * The public confirmation link: like the confirmation handler, but it
 * tests `confirmed` and `unsubscribed` for truthiness, updates only a
 * record that exists, and enrols in nothing.
 */
module PublicSubscriberConfirmGet {
  import opened Js
  import opened Model
  import opened Patterns
  import SubscriberConfirm

  /**
   * One invocation: the query string parameters (none when the request has
   * none), the clock and the thank-you page.
   */
  datatype Call = Call(query: Option<map<string, string>>, now: nat, thankYouUrl: string)

  /** Confirmed and not unsubscribed, as the handler reads the two attributes. */
  predicate ConfirmedAndSubscribed(s: Subscriber) {
    Truthy(s.confirmed) && !Truthy(s.unsubscribed)
  }

  /** What the handler does; a request without query parameters fails on reading `t`. */
  function Get(subscribers: map<string, Subscriber>, call: Call): (Response, map<string, Subscriber>) {
    if call.query.None? then (Response(500, "Error"), subscribers)
    else if "t" !in call.query.value || !IsUuidV4(call.query.value["t"]) then (Response(400, JsonString("Bad request")), subscribers)
    else
      var id := call.query.value["t"];
      if id !in subscribers then (Response(404, JsonString("Not found")), subscribers)
      else if ConfirmedAndSubscribed(subscribers[id]) then (Response(307, call.thankYouUrl), subscribers)
      else (Response(307, call.thankYouUrl),
            subscribers[id := subscribers[id].(confirmed := Bool(true), unsubscribed := Bool(false), confirmTimestamp := call.now)])
  }

  /**
   * Every answer: 400 for a malformed id, 404 for an unknown one, and
   * otherwise the thank-you redirect; only an existing record that is not
   * both confirmed and subscribed changes, and it becomes both, stamped.
   */
  lemma GetCases(subscribers: map<string, Subscriber>, call: Call)
    requires call.query.Some?
    ensures var (r, subs) := Get(subscribers, call);
      var t := if "t" in call.query.value then Some(call.query.value["t"]) else None;
      (t.None? || !IsUuidV4(t.value) ==> r == Response(400, JsonString("Bad request")) && subs == subscribers)
      && (t.Some? && IsUuidV4(t.value) && t.value !in subscribers ==> r == Response(404, JsonString("Not found")) && subs == subscribers)
      && (t.Some? && IsUuidV4(t.value) && t.value in subscribers ==>
            r == Response(307, call.thankYouUrl) && subs.Keys == subscribers.Keys
            && ConfirmedAndSubscribed(subs[t.value]) && subs[t.value].confirmed == (if ConfirmedAndSubscribed(subscribers[t.value]) then subscribers[t.value].confirmed else Bool(true))
            && (ConfirmedAndSubscribed(subscribers[t.value]) ==> subs == subscribers)
            && (!ConfirmedAndSubscribed(subscribers[t.value]) ==>
                  subs[t.value] == subscribers[t.value].(confirmed := Bool(true), unsubscribed := Bool(false), confirmTimestamp := call.now))
            && forall other :: other in subscribers && other != t.value ==> subs[other] == subscribers[other])
  {
  }

  /**
   * The two confirmation links disagree on what counts as confirmed: every
   * record the confirmation handler leaves alone this one does too, but a
   * subscriber confirmed by a click, whose `confirmed` is a timestamp, is
   * left alone here and confirmed again there.
   */
  lemma StricterElsewhere(s: Subscriber, isoNow: string)
    requires isoNow != ""
    ensures SubscriberConfirm.AlreadyConfirmed(s) ==> ConfirmedAndSubscribed(s)
    ensures var clicked := s.(confirmed := Str(isoNow), unsubscribed := Bool(false));
      ConfirmedAndSubscribed(clicked) && !SubscriberConfirm.AlreadyConfirmed(clicked)
  {
  }

  /** The handler: the guards, then the conditional update of the record read. */
  method Handle(store: Store, call: Call) returns (response: Response)
    requires store.Valid()
    modifies store
    ensures store.Valid() && store.settings == old(store.settings) && store.queue == old(store.queue)
    ensures (response, store.subscribers) == Get(old(store.subscribers), call)
  {
    if call.query.None? {
      return Response(500, "Error");
    }
    if "t" !in call.query.value || !IsUuidV4(call.query.value["t"]) {
      return Response(400, JsonString("Bad request"));
    }
    var id := call.query.value["t"];
    if id !in store.subscribers {
      return Response(404, JsonString("Not found"));
    }
    var record := store.subscribers[id];
    if !ConfirmedAndSubscribed(record) {
      var confirmed := record.(confirmed := Bool(true), unsubscribed := Bool(false), confirmTimestamp := call.now);
      KeyedPut(store.subscribers, store.queue, confirmed);
      store.subscribers := store.subscribers[id := confirmed];
    }
    response := Response(307, call.thankYouUrl);
  }
}

=== FILE: public_subscriber_post.dfy ===
/**
 * The public "subscribe" endpoint: an address on a blocked domain is
 * answered as accepted and ignored; a new address is saved unconfirmed
 * and sent a confirmation; a known address is sent the confirmation again
 * when it is unsubscribed, and when it is unconfirmed and was last asked
 * more than three hours ago (or never), each resend stamping the time.
 */
module PublicSubscriberPost {
  import opened Js
  import opened Model
  import opened Requests
  import opened Blocking

  /** The throttle between two confirmation e-mails to an unconfirmed subscriber: three hours, in milliseconds. */
  const ResendAfter: int := 10800000

  /** The link of the public confirmation e-mail. */
  function PublicConfirmLink(publicApi: string, subscriberId: string): (link: string)
    ensures StartsWith(link, publicApi) && EndsWith(link, subscriberId)
  {
    var link := publicApi + "/subscriber/confirm?t=" + subscriberId;
    assert link[|link| - |subscriberId|..] == subscriberId;
    link
  }

  /** The confirmation e-mail of this endpoint, written out in full rather than from a template. */
  function ConfirmationEmail(s: Subscriber, publicApi: string): (e: Email)
    ensures e.to == Recipient(s) && e.template == "" && EndsWith(e.link, s.subscriberId)
  {
    Email(Recipient(s), "", PublicConfirmLink(publicApi, s.subscriberId))
  }

  /** The body schema: an object holding exactly a checked address. */
  function ParseEmail(body: Option<JsVal>, emailOk: bool): (email: Option<string>)
    ensures email.Some? ==> body.Some? && OnlyKeys(body.value, {"email"}) && emailOk
                            && Field(body.value, "email") == Str(email.value) && email.value != ""
  {
    if body.Some? && OnlyKeys(body.value, {"email"}) && IsNonEmptyString(Field(body.value, "email")) && emailOk
    then Some(Field(body.value, "email").s)
    else None
  }

  /**
   * `saveSubscriber` for a new address: stored lower-cased, displayed as
   * typed, tagged with the default list when one is configured, neither
   * confirmed nor unsubscribed, asked to confirm now.
   */
  function NewRecord(email: string, defaultList: string, subscriberId: string, token: string, now: nat): (s: Subscriber)
    ensures s.subscriberId == subscriberId
  {
    Blank(subscriberId).(email := ToLower(email), displayEmail := email,
                         tags := Some(if defaultList != "" then [defaultList] else []),
                         confirmed := Bool(false), unsubscribed := Bool(false),
                         joined := now, lastConfirmation := now, confirmationToken := token)
  }

  lemma NewRecordShape(email: string, defaultList: string, subscriberId: string, token: string, now: nat)
    ensures var s := NewRecord(email, defaultList, subscriberId, token, now);
      s.email == ToLower(email) && IsLowerCase(s.email) && Recipient(s) == email
      && !Truthy(s.confirmed) && !Truthy(s.unsubscribed) && s.lastConfirmation == now
      && (defaultList != "" ==> s.tags == Some([defaultList])) && (defaultList == "" ==> s.tags == Some([]))
  {
    LowerIsLowerCase(email);
  }

  /** The first resend: the subscriber is unsubscribed. */
  predicate ResendsForUnsubscribed(s: Subscriber) {
    Truthy(s.unsubscribed)
  }

  /** The second resend: the subscriber is unconfirmed and was never asked, or last asked over three hours ago. */
  predicate ResendsForUnconfirmed(s: Subscriber, now: nat) {
    !Truthy(s.confirmed) && (s.lastConfirmation == 0 || s.lastConfirmation < now - ResendAfter)
  }

  /** The e-mails a known subscriber is sent, both checks reading the record as it was fetched. */
  function Resends(s: Subscriber, publicApi: string, now: nat): (emails: seq<Email>)
    ensures |emails| == (if ResendsForUnsubscribed(s) then 1 else 0) + (if ResendsForUnconfirmed(s, now) then 1 else 0)
    ensures forall e :: e in emails ==> e == ConfirmationEmail(s, publicApi)
  {
    (if ResendsForUnsubscribed(s) then [ConfirmationEmail(s, publicApi)] else [])
    + (if ResendsForUnconfirmed(s, now) then [ConfirmationEmail(s, publicApi)] else [])
  }

  /**
   * One invocation: the request; Joi's verdict on the address; the
   * email-index entry for the lower-cased address; the public API base URL;
   * the configured default list (empty when none); the clock; the fresh id
   * and token.
   */
  datatype Call = Call(request: Request, emailOk: bool, index: Option<Subscriber>,
                       publicApi: string, defaultList: string, now: nat, newId: string, newToken: string)

  /** What the handler does. */
  function Post(subscribers: map<string, Subscriber>, queue: map<QueueKey, QueueItem>, settings: map<string, SettingItem>,
                call: Call): Outcome
  {
    var email := ParseEmail(call.request.body, call.emailOk);
    if email.None? then NoChange(Response(500, ""), subscribers, queue)
    else if PublicBlocked(settings, email.value) then NoChange(Response(200, JsonString("OK")), subscribers, queue)
    else if call.index.None? then
      var s := NewRecord(email.value, call.defaultList, call.newId, call.newToken, call.now);
      Outcome(Response(200, JsonString("OK")), subscribers[call.newId := s], queue, [ConfirmationEmail(s, call.publicApi)], [])
    else if call.index.value.subscriberId !in subscribers then
      NoChange(Response(500, JsonString("Server error")), subscribers, queue)
    else
      var id := call.index.value.subscriberId;
      var s := subscribers[id];
      var emails := Resends(s, call.publicApi, call.now);
      var stamped := if emails == [] then subscribers else subscribers[id := s.(lastConfirmation := call.now)];
      Outcome(Response(200, JsonString("OK")), stamped, queue, emails, [])
  }

  /** A refused body answers 500 and a blocked domain is answered as accepted; neither stores or sends anything. */
  lemma PostRefusesQuietly(subscribers: map<string, Subscriber>, queue: map<QueueKey, QueueItem>, settings: map<string, SettingItem>, call: Call)
    ensures var r := Post(subscribers, queue, settings, call);
      var email := ParseEmail(call.request.body, call.emailOk);
      (email.None? ==> r == NoChange(Response(500, ""), subscribers, queue))
      && (email.Some? && PublicBlocked(settings, email.value) ==> r == NoChange(Response(200, JsonString("OK")), subscribers, queue))
  {
  }

  /** A new address is saved and sent exactly one confirmation, to the address as typed. */
  lemma PostAddsNew(subscribers: map<string, Subscriber>, queue: map<QueueKey, QueueItem>, settings: map<string, SettingItem>, call: Call)
    requires ParseEmail(call.request.body, call.emailOk).Some?
    requires !PublicBlocked(settings, ParseEmail(call.request.body, call.emailOk).value)
    requires call.index.None?
    ensures var r := Post(subscribers, queue, settings, call);
      var email := ParseEmail(call.request.body, call.emailOk).value;
      r.response == Response(200, JsonString("OK"))
      && r.subscribers == subscribers[call.newId := NewRecord(email, call.defaultList, call.newId, call.newToken, call.now)]
      && |r.emails| == 1 && r.emails[0].to == email && EndsWith(r.emails[0].link, call.newId)
      && r.queue == queue
  {
    var email := ParseEmail(call.request.body, call.emailOk).value;
    NewRecordShape(email, call.defaultList, call.newId, call.newToken, call.now);
  }

  /**
   * A known subscriber is sent one confirmation per check that holds, and
   * its `lastConfirmation` is stamped exactly when one was sent; nothing
   * else of the record changes.
   */
  lemma PostResends(subscribers: map<string, Subscriber>, queue: map<QueueKey, QueueItem>, settings: map<string, SettingItem>, call: Call)
    requires ParseEmail(call.request.body, call.emailOk).Some?
    requires !PublicBlocked(settings, ParseEmail(call.request.body, call.emailOk).value)
    requires call.index.Some? && call.index.value.subscriberId in subscribers
    ensures var r := Post(subscribers, queue, settings, call);
      var id := call.index.value.subscriberId;
      var s := subscribers[id];
      r.response == Response(200, JsonString("OK")) && r.queue == queue && r.subscribers.Keys == subscribers.Keys
      && |r.emails| == (if ResendsForUnsubscribed(s) then 1 else 0) + (if ResendsForUnconfirmed(s, call.now) then 1 else 0)
      && (r.emails == [] ==> r.subscribers == subscribers)
      && (r.emails != [] ==> r.subscribers == subscribers[id := s.(lastConfirmation := call.now)])
  {
  }

  /** A confirmed, subscribed subscriber posting again is sent nothing and nothing is written. */
  lemma ConfirmedIsLeftAlone(subscribers: map<string, Subscriber>, queue: map<QueueKey, QueueItem>, settings: map<string, SettingItem>, call: Call)
    requires call.index.Some? && call.index.value.subscriberId in subscribers
    requires Truthy(subscribers[call.index.value.subscriberId].confirmed) && !Truthy(subscribers[call.index.value.subscriberId].unsubscribed)
    ensures Post(subscribers, queue, settings, call).emails == []
    ensures Post(subscribers, queue, settings, call).subscribers == subscribers
  {
  }

  /** An unconfirmed, subscribed subscriber asked within the last three hours is not asked again. */
  lemma ResendIsThrottled(s: Subscriber, publicApi: string, now: nat)
    requires !Truthy(s.unsubscribed) && s.lastConfirmation != 0 && s.lastConfirmation >= now - ResendAfter
    ensures Resends(s, publicApi, now) == []
  {
  }

  /** An unsubscribed, unconfirmed subscriber asked long ago is sent the confirmation twice. */
  lemma UnsubscribedStaleGetsTwo(s: Subscriber, publicApi: string, now: nat)
    requires Truthy(s.unsubscribed) && !Truthy(s.confirmed) && s.lastConfirmation == 0
    ensures |Resends(s, publicApi, now)| == 2
  {
  }

  /** Every outcome keeps each record under its own key. */
  lemma PostKeepsKeys(subscribers: map<string, Subscriber>, queue: map<QueueKey, QueueItem>, settings: map<string, SettingItem>, call: Call)
    requires Keyed(subscribers, queue)
    ensures Keyed(Post(subscribers, queue, settings, call).subscribers, Post(subscribers, queue, settings, call).queue)
  {
    var email := ParseEmail(call.request.body, call.emailOk);
    if email.Some? && !PublicBlocked(settings, email.value) {
      if call.index.None? {
        var s := NewRecord(email.value, call.defaultList, call.newId, call.newToken, call.now);
        KeyedPut(subscribers, queue, s);
      } else if call.index.value.subscriberId in subscribers {
        var id := call.index.value.subscriberId;
        KeyedPut(subscribers, queue, subscribers[id].(lastConfirmation := call.now));
      }
    }
  }

  /** `sendConfirmationEmail` then `updateLastConfirmation` on a record that exists. */
  method SendAndStamp(store: Store, id: string, s: Subscriber, publicApi: string, now: nat) returns (e: Email)
    requires store.Valid() && id in store.subscribers && store.subscribers[id].subscriberId == s.subscriberId
    modifies store
    ensures store.Valid() && store.settings == old(store.settings) && store.queue == old(store.queue)
    ensures e == ConfirmationEmail(s, publicApi)
    ensures store.subscribers == old(store.subscribers)[id := old(store.subscribers)[id].(lastConfirmation := now)]
  {
    e := ConfirmationEmail(s, publicApi);
    store.subscribers := store.subscribers[id := store.subscribers[id].(lastConfirmation := now)];
  }

  /** The resends to a known subscriber, each check reading the record as fetched. */
  method Revisit(store: Store, id: string, publicApi: string, now: nat) returns (emails: seq<Email>)
    requires store.Valid() && id in store.subscribers
    modifies store
    ensures store.Valid() && store.settings == old(store.settings) && store.queue == old(store.queue)
    ensures emails == Resends(old(store.subscribers)[id], publicApi, now)
    ensures store.subscribers == if emails == [] then old(store.subscribers)
                                 else old(store.subscribers)[id := old(store.subscribers)[id].(lastConfirmation := now)]
  {
    emails := [];
    var s := store.subscribers[id];
    if Truthy(s.unsubscribed) {
      var e := SendAndStamp(store, id, s, publicApi, now);
      emails := emails + [e];
    }
    if !Truthy(s.confirmed) {
      if s.lastConfirmation == 0 {
        var e := SendAndStamp(store, id, s, publicApi, now);
        emails := emails + [e];
      } else if s.lastConfirmation < now - ResendAfter {
        var e := SendAndStamp(store, id, s, publicApi, now);
        emails := emails + [e];
      }
    }
  }

  /** The handler, one table call at a time. */
  method Handle(store: Store, call: Call) returns (response: Response, emails: seq<Email>)
    requires store.Valid()
    modifies store
    ensures store.Valid() && store.settings == old(store.settings)
    ensures Outcome(response, store.subscribers, store.queue, emails, [])
         == Post(old(store.subscribers), old(store.queue), old(store.settings), call)
  {
    emails := [];
    var email := ParseEmail(call.request.body, call.emailOk);
    if email.None? {
      response := Response(500, "");
      return;
    }
    if PublicBlocked(store.settings, email.value) {
      response := Response(200, JsonString("OK"));
      return;
    }
    if call.index.None? {
      var s := NewRecord(email.value, call.defaultList, call.newId, call.newToken, call.now);
      store.subscribers := store.subscribers[call.newId := s];
      emails := [ConfirmationEmail(s, call.publicApi)];
      response := Response(200, JsonString("OK"));
      return;
    }
    var id := call.index.value.subscriberId;
    if id !in store.subscribers {
      response := Response(500, JsonString("Server error"));
      return;
    }
    emails := Revisit(store, id, call.publicApi, call.now);
    response := Response(200, JsonString("OK"));
  }
}

=== FILE: public_subscriber_unsubscribe_get.dfy ===
/**
 * The public unsubscribe link: it redirects to the unsubscribe page with
 * the subscriber's address, their lists and an unsubscribe token, issuing
 * a new token when there is none or the current one is a day old.
 */
module PublicSubscriberUnsubscribeGet {
  import opened Js
  import opened Model
  import opened Requests
  import opened Web
  import PublicSubscriberUnsubscribePost

  /** How long a token is handed out again before a new one is issued: 24 hours, in milliseconds. */
  const RenewAfter: int := 86400000

  /** The hexadecimal digits a token has. */
  const TokenLength: nat := 12

  /** `generateUnsubscribeToken`: six random bytes as twelve lower-case hexadecimal digits. */
  function GenerateToken(bytes: seq<byte>): (value: string)
    requires |bytes| == TokenLength / 2
    ensures |value| == TokenLength && forall i :: 0 <= i < |value| ==> IsLowerHex(value[i])
  {
    HexOfBytes(bytes)
  }

  /** The token carries its bytes: two different draws never give the same token. */
  lemma GenerateTokenInjective(a: seq<byte>, b: seq<byte>)
    requires |a| == |b| == TokenLength / 2
    requires GenerateToken(a) == GenerateToken(b)
    ensures a == b
  {
    HexRoundTrip(a);
    HexRoundTrip(b);
  }

  /** No token, no creation time, or one created more than 24 hours ago. */
  predicate NeedsNewToken(token: Option<UnsubscribeToken>, now: nat) {
    token.None? || token.value.created == 0 || token.value.created < now - RenewAfter
  }

  /** `getCurrentOrNewUnsubscribeToken`'s answer. */
  function CurrentOrNew(token: Option<UnsubscribeToken>, bytes: seq<byte>, now: nat): (r: UnsubscribeToken)
    requires |bytes| == TokenLength / 2
    ensures !NeedsNewToken(token, now) ==> r == token.value
    ensures NeedsNewToken(token, now) ==> r.created == now && |r.value| == TokenLength
  {
    if NeedsNewToken(token, now) then UnsubscribeToken(GenerateToken(bytes), now) else token.value
  }

  /**
   * A token handed out is accepted by the unsubscribe endpoint for at
   * least the next 24 hours (a kept token with an empty value excepted).
   */
  lemma HandedOutTokenStaysValid(token: Option<UnsubscribeToken>, bytes: seq<byte>, now: nat, later: nat)
    requires |bytes| == TokenLength / 2 && now > 0
    requires !NeedsNewToken(token, now) ==> token.value.value != ""
    requires now <= later <= now + RenewAfter
    ensures !PublicSubscriberUnsubscribePost.Expired(Some(CurrentOrNew(token, bytes, now)), later)
  {
  }

  /** The `lists` setting as the handler reads it: entries to choose from, or none when it cannot be iterated. */
  function ListsRead(settings: map<string, SettingItem>): (r: Option<seq<ListEntry>>)
    ensures "lists" !in settings ==> r == Some([])
    ensures "lists" in settings && settings["lists"].value.Lists? ==> r == Some(settings["lists"].value.lists)
  {
    if "lists" !in settings then Some([])
    else match settings["lists"].value
      case Lists(ls) => Some(ls)
      case Domains(_) => Some([])
      case AutoresponderDef(_) => None
      case Json(v) => if !Truthy(v) || v.Arr? then Some([]) else None
  }

  /** A subscriber's tag that names a list. */
  predicate IsListTag(tag: string) {
    |tag| >= 5 && tag[..5] == "list-"
  }

  /** The list settings whose id is one of the subscriber's list tags, in settings order. */
  function SelectLists(tags: seq<string>, lists: seq<ListEntry>): (r: seq<ListEntry>)
    ensures |r| <= |lists|
    ensures forall j :: 0 <= j < |r| ==> r[j] in lists && IsListTag(r[j].id) && r[j].id in tags
    ensures forall j :: 0 <= j < |lists| && IsListTag(lists[j].id) && lists[j].id in tags ==> lists[j] in r
  {
    if lists == [] then []
    else
      var rest := SelectLists(tags, lists[1..]);
      assert forall j :: 1 <= j < |lists| ==> lists[j] == lists[1..][j - 1];
      if IsListTag(lists[0].id) && lists[0].id in tags then [lists[0]] + rest else rest
  }

  /** The selection keeps the settings order: it is the settings with the other entries dropped. */
  lemma {:induction false} SelectListsIsSubsequence(tags: seq<string>, lists: seq<ListEntry>)
    ensures IsSubsequence(SelectLists(tags, lists), lists)
  {
    if lists != [] {
      SelectListsIsSubsequence(tags, lists[1..]);
    }
  }

  /** `a` is `b` with some elements dropped. */
  predicate IsSubsequence(a: seq<ListEntry>, b: seq<ListEntry>)
    decreases |b|
  {
    if a == [] then true
    else if b == [] then false
    else if a[0] == b[0] then IsSubsequence(a[1..], b[1..])
    else IsSubsequence(a, b[1..])
  }

  // ---------------------------------------------------------------------
  // The page parameters

  /** `JSON.stringify` of a value: `undefined` has no text; objects, whose key order the model does not keep, write as `{}`. */
  function JsonOf(v: JsVal): (text: Option<string>)
    ensures text.None? <==> v.Undefined?
  {
    match v
    case Undefined => None
    case Null => Some("null")
    case Bool(b) => Some(if b then "true" else "false")
    case Num(n) => Some(if n >= 0 then NatToString(n) else "-" + NatToString(-n))
    case Str(s) => Some(JsonQuote(s))
    case Arr(elems) => Some("[" + JsonElements(elems) + "]")
    case Obj(_) => Some("{}")
  }

  /** Array elements separated by commas; an `undefined` element writes as `null`. */
  function JsonElements(elems: seq<JsVal>): string
    decreases elems
  {
    if elems == [] then ""
    else
      var first := JsonOf(elems[0]);
      var text := if first.Some? then first.value else "null";
      if |elems| == 1 then text else text + "," + JsonElements(elems[1..])
  }

  /** A list entry as stored: name, id and sender, the sender left out when the entry has none. */
  function ListJson(l: ListEntry): string {
    "{\"name\":" + JsonQuote(l.name) + ",\"id\":" + JsonQuote(l.id)
    + (if l.sourceEmail.Some? then ",\"sourceEmail\":" + JsonQuote(l.sourceEmail.value) else "") + "}"
  }

  function ListsJson(lists: seq<ListEntry>): string {
    if lists == [] then ""
    else if |lists| == 1 then ListJson(lists[0])
    else ListJson(lists[0]) + "," + ListsJson(lists[1..])
  }

  datatype PageParams = PageParams(unsubscribed: JsVal, email: string, lists: seq<ListEntry>, tokenValue: string, api: string)

  /** `JSON.stringify(unsubParams)`: the keys in the order written, `unsubscribed` left out when undefined. */
  function ParamsJson(p: PageParams): string {
    var unsub := JsonOf(p.unsubscribed);
    "{" + (if unsub.Some? then "\"unsubscribed\":" + unsub.value + "," else "")
    + "\"email\":" + JsonQuote(p.email) + ",\"lists\":[" + ListsJson(p.lists) + "]"
    + ",\"unsubscribeTokenValue\":" + JsonQuote(p.tokenValue) + ",\"api\":" + JsonQuote(p.api) + "}"
  }

  /** `getUrlParams`: the query that carries the page parameters. */
  function UrlParams(p: PageParams): (query: string)
    ensures |query| >= 2 && query[..2] == "p=" && DecodeUriComponent(query[2..]) == ParamsJson(p)
  {
    UriComponentRoundTrip(ParamsJson(p));
    var query := "p=" + EncodeUriComponent(ParamsJson(p));
    assert query[2..] == EncodeUriComponent(ParamsJson(p));
    query
  }

  /**
   * The parameters for a subscriber with a tags attribute: the address as
   * typed, the lists they are on, the token.
   */
  function ParamsFor(status: Subscriber, token: UnsubscribeToken, lists: seq<ListEntry>, publicApi: string): (p: PageParams)
    requires status.tags.Some?
    ensures p.email == Recipient(status) && p.tokenValue == token.value && p.unsubscribed == status.unsubscribed
    ensures forall j :: 0 <= j < |p.lists| ==> p.lists[j] in lists && IsListTag(p.lists[j].id) && p.lists[j].id in status.tags.value
    ensures forall j :: 0 <= j < |lists| && IsListTag(lists[j].id) && lists[j].id in status.tags.value ==> lists[j] in p.lists
  {
    PageParams(status.unsubscribed, Recipient(status), SelectLists(status.tags.value, lists), token.value, publicApi)
  }

  // ---------------------------------------------------------------------
  // The handler

  /**
   * One invocation: the query string parameters (none when absent); Joi's
   * verdict on the address; the email-index entry for the lower-cased
   * address; six random bytes; the clock; the public API base URL and the
   * unsubscribe page URL.
   */
  datatype Call = Call(query: Option<map<string, string>>, emailOk: bool, index: Option<Subscriber>,
                       tokenBytes: seq<byte>, now: nat, publicApi: string, pageUrl: string)

  /** The query schema: exactly an address, lower-cased. */
  function ParseQuery(query: Option<map<string, string>>, emailOk: bool): (email: Option<string>)
    ensures email.Some? ==> query.Some? && query.value.Keys == {"email"} && email.value == ToLower(query.value["email"])
  {
    if query.Some? && query.value.Keys == {"email"} then LowerEmail(Str(query.value["email"]), emailOk) else None
  }

  /** A 303 redirect; its body is the `Location` it names. */
  function Redirect(location: string): (r: Response)
    ensures r.statusCode == 303 && r.body == location
  {
    Response(303, location)
  }

  /** The Subscribers table after the token is settled: a new one is stored, a current one changes nothing. */
  function WithToken(subscribers: map<string, Subscriber>, status: Subscriber, bytes: seq<byte>, now: nat): map<string, Subscriber>
    requires |bytes| == TokenLength / 2
  {
    if NeedsNewToken(status.unsubscribeToken, now)
    then subscribers[status.subscriberId := Current(subscribers, status.subscriberId).(unsubscribeToken := Some(CurrentOrNew(status.unsubscribeToken, bytes, now)))]
    else subscribers
  }

  /** A known address: the redirect with the page parameters. */
  function Known(status: Subscriber, lists: seq<ListEntry>, call: Call): Response
    requires |call.tokenBytes| == TokenLength / 2 && status.tags.Some?
  {
    var token := CurrentOrNew(status.unsubscribeToken, call.tokenBytes, call.now);
    Redirect(call.pageUrl + "?" + UrlParams(ParamsFor(status, token, lists, call.publicApi)))
  }

  /**
   * What the handler does: the redirect, and the Subscribers table after
   * any new token is stored. The token is settled before the page
   * parameters are built, so a record without tags, or a `lists` setting
   * that cannot be iterated, fails after the write.
   */
  function Get(subscribers: map<string, Subscriber>, settings: map<string, SettingItem>, call: Call): (Response, map<string, Subscriber>)
    requires |call.tokenBytes| == TokenLength / 2
  {
    if ParseQuery(call.query, call.emailOk).None? then (Redirect(call.pageUrl + "?error=bad-request"), subscribers)
    else if call.index.None? then (Redirect(call.pageUrl + "?error=not-found"), subscribers)
    else
      var written := WithToken(subscribers, call.index.value, call.tokenBytes, call.now);
      if call.index.value.tags.None? || ListsRead(settings).None? then (Redirect(call.pageUrl + "?error=server-error"), written)
      else (Known(call.index.value, ListsRead(settings).value, call), written)
  }

  /**
   * Every failure redirects to the page with the error named; a refused
   * query and an unknown address write nothing, while the server error
   * comes after the token is settled and keeps its write.
   */
  lemma GetFailures(subscribers: map<string, Subscriber>, settings: map<string, SettingItem>, call: Call)
    requires |call.tokenBytes| == TokenLength / 2
    ensures var (r, subs) := Get(subscribers, settings, call);
      (ParseQuery(call.query, call.emailOk).None? ==> r == Redirect(call.pageUrl + "?error=bad-request") && subs == subscribers)
      && (ParseQuery(call.query, call.emailOk).Some? && call.index.None?
          ==> r == Redirect(call.pageUrl + "?error=not-found") && subs == subscribers)
      && (ParseQuery(call.query, call.emailOk).Some? && call.index.Some?
          && (call.index.value.tags.None? || ListsRead(settings).None?)
          ==> r == Redirect(call.pageUrl + "?error=server-error")
              && subs == WithToken(subscribers, call.index.value, call.tokenBytes, call.now))
      && (subs != subscribers ==> call.index.Some? && NeedsNewToken(call.index.value.unsubscribeToken, call.now))
  {
  }

  /**
   * A known address: the redirect carries, percent-encoded, the JSON of the
   * page parameters, with the subscriber's list entries and the token
   * handed out.
   */
  lemma KnownRedirectsWithParams(status: Subscriber, lists: seq<ListEntry>, call: Call)
    requires |call.tokenBytes| == TokenLength / 2 && status.tags.Some?
    ensures var r := Known(status, lists, call);
      var token := CurrentOrNew(status.unsubscribeToken, call.tokenBytes, call.now);
      var prefix := call.pageUrl + "?p=";
      r.statusCode == 303 && |prefix| <= |r.body| && r.body[..|prefix|] == prefix
      && DecodeUriComponent(r.body[|prefix|..]) == ParamsJson(ParamsFor(status, token, lists, call.publicApi))
  {
    var token := CurrentOrNew(status.unsubscribeToken, call.tokenBytes, call.now);
    var query := UrlParams(ParamsFor(status, token, lists, call.publicApi));
    SplitQuery(call.pageUrl, query);
  }

  /** A URL with a `p=` query splits back into the URL and the parameter's value. */
  lemma SplitQuery(url: string, query: string)
    requires |query| >= 2 && query[..2] == "p="
    ensures var body := url + "?" + query; var prefix := url + "?p=";
      |prefix| <= |body| && body[..|prefix|] == prefix && body[|prefix|..] == query[2..]
  {
    assert query == "p=" + query[2..];
    assert url + "?" + query == (url + "?p=") + query[2..];
  }

  /**
   * The Subscribers table changes only when a new token is issued, and then
   * only in that subscriber's token, which becomes the one handed out.
   */
  lemma WithTokenChangesOnlyToken(subscribers: map<string, Subscriber>, status: Subscriber, bytes: seq<byte>, now: nat)
    requires |bytes| == TokenLength / 2
    ensures var subs := WithToken(subscribers, status, bytes, now);
      var id := status.subscriberId;
      (!NeedsNewToken(status.unsubscribeToken, now) ==> subs == subscribers)
      && (NeedsNewToken(status.unsubscribeToken, now) ==>
            subs.Keys == subscribers.Keys + {id}
            && subs[id] == Current(subscribers, id).(unsubscribeToken := Some(CurrentOrNew(status.unsubscribeToken, bytes, now)))
            && subs[id].unsubscribeToken.value.created == now
            && forall other :: other in subscribers && other != id ==> subs[other] == subscribers[other])
  {
  }

  /** The handler: a new token is stored before the redirect is built. */
  method Handle(store: Store, call: Call) returns (response: Response)
    requires store.Valid() && |call.tokenBytes| == TokenLength / 2
    modifies store
    ensures store.Valid() && store.settings == old(store.settings) && store.queue == old(store.queue)
    ensures (response, store.subscribers) == Get(old(store.subscribers), old(store.settings), call)
  {
    var email := ParseQuery(call.query, call.emailOk);
    if email.None? {
      return Redirect(call.pageUrl + "?error=bad-request");
    }
    if call.index.None? {
      return Redirect(call.pageUrl + "?error=not-found");
    }
    var status := call.index.value;
    ghost var written := WithToken(store.subscribers, status, call.tokenBytes, call.now);
    if NeedsNewToken(status.unsubscribeToken, call.now) {
      var issued := UnsubscribeToken(GenerateToken(call.tokenBytes), call.now);
      assert issued == CurrentOrNew(status.unsubscribeToken, call.tokenBytes, call.now);
      var record := Current(store.subscribers, status.subscriberId).(unsubscribeToken := Some(issued));
      KeyedPut(store.subscribers, store.queue, record);
      store.subscribers := store.subscribers[status.subscriberId := record];
    }
    assert store.subscribers == written;
    var lists := ListsRead(store.settings);
    if status.tags.None? || lists.None? {
      return Redirect(call.pageUrl + "?error=server-error");
    }
    response := Known(status, lists.value, call);
  }
}

=== FILE: public_subscriber_unsubscribe_post.dfy ===
/**
 * The public "unsubscribe" endpoint, reached from the unsubscribe page
 * with the token it was given: an expired or missing token is refused
 * before a wrong one; then the subscriber leaves everything, or only the
 * named lists.
 */
module PublicSubscriberUnsubscribePost {
  import opened Js
  import opened Model
  import opened Patterns
  import opened Tags
  import opened Requests
  import opened Cleanup

  /** How long an unsubscribe token is accepted: 48 hours, in milliseconds. */
  const TokenLifetime: int := 172800000

  datatype UnsubscribeInput = UnsubscribeInput(allEmails: bool, email: string, tokenValue: string, listIds: seq<string>)

  /** `listIds`: at most 64 strings of 1 to 64 characters. */
  predicate ListIdsOk(v: JsVal) {
    v.Arr? && |v.elems| <= 64 && AllStrings(v.elems) && forall j :: 0 <= j < |v.elems| ==> 1 <= |v.elems[j].s| <= 64
  }

  /** The token: twelve hexadecimal digits, lower-cased. */
  function ParseToken(v: JsVal): (r: Option<string>)
    ensures r.Some? ==> |r.value| == 12 && IsHexString(r.value) && IsLowerCase(r.value)
  {
    if v.Str? && |v.s| == 12 && IsHexString(v.s) then
      LowerIsLowerCase(v.s);
      Some(ToLower(v.s))
    else None
  }

  /** The body schema; every key is required and no other is allowed. */
  function ParseBody(body: Option<JsVal>, emailOk: bool): (r: Option<UnsubscribeInput>)
    ensures r.Some? ==> |r.value.tokenValue| == 12 && IsLowerCase(r.value.email) && |r.value.listIds| <= 64
  {
    if body.None? || !OnlyKeys(body.value, {"allEmails", "email", "unsubscribeTokenValue", "listIds"}) then None
    else
      var all := JoiBoolean(Field(body.value, "allEmails"));
      var email := LowerEmail(Field(body.value, "email"), emailOk);
      var token := ParseToken(Field(body.value, "unsubscribeTokenValue"));
      var ids := Field(body.value, "listIds");
      if all.Some? && email.Some? && token.Some? && ListIdsOk(ids)
      then Some(UnsubscribeInput(all.value, email.value, token.value, Strings(ids.elems)))
      else None
  }

  /** No token, a token without a value or creation time, or one created more than 48 hours ago. */
  predicate Expired(token: Option<UnsubscribeToken>, now: nat) {
    token.None? || token.value.created == 0 || token.value.value == "" || token.value.created < now - TokenLifetime
  }

  /** Leaving only the named lists: each id's first occurrence leaves the tags. */
  function ListTags(tags: seq<string>, listIds: seq<string>): (r: seq<string>)
    ensures |r| <= |tags|
    ensures multiset(r) == multiset(tags) - multiset(listIds)
  {
    RemoveEachMultiset(tags, listIds);
    assert |multiset(RemoveEach(tags, listIds))| <= |multiset(tags)|;
    RemoveEach(tags, listIds)
  }

  /**
   * A queued item of the subscriber caused by one of the lists:
   * `contains(tagReason, id)` for some id. `tagReason` is written outside
   * these handlers and is taken to be a list, where `contains` is list
   * membership; on a string attribute DynamoDB would test for a substring.
   */
  predicate CausedByList(item: QueueItem, listIds: seq<string>) {
    exists j :: 0 <= j < |listIds| && listIds[j] in item.step.tagReason
  }

  /** A complete answer of the list query: exactly the queued items of the subscriber caused by one of the lists. */
  predicate ListAnswer(queue: map<QueueKey, QueueItem>, subscriberId: string, listIds: seq<string>, items: seq<QueueItem>) {
    PageOf(queue, subscriberId, items)
    && (forall i :: 0 <= i < |items| ==> CausedByList(items[i], listIds))
    && (forall k :: k in queue && IsPendingFor(queue[k], subscriberId) && CausedByList(queue[k], listIds) ==> k in KeysOf(items))
  }

  /**
   * One invocation: the request; Joi's verdict on the address; the
   * email-index entry (its id, tags and token); the answer of whichever
   * queue query the branch taken issues; the clock.
   */
  datatype Call = Call(request: Request, emailOk: bool, index: Option<Subscriber>, answer: seq<QueueItem>, now: nat)

  /** `unsubscribeSubscriberFromLists`'s update: the reduced tags, and `unsubscribed` once none are left. */
  function LeftLists(record: Subscriber, indexTags: seq<string>, listIds: seq<string>): (s: Subscriber) {
    var tags := ListTags(indexTags, listIds);
    if tags == [] then record.(tags := Some(tags), unsubscribed := Bool(true)) else record.(tags := Some(tags))
  }

  /** What the handler does. */
  function Post(subscribers: map<string, Subscriber>, queue: map<QueueKey, QueueItem>, call: Call): Outcome {
    var input := ParseBody(call.request.body, call.emailOk);
    if input.None? then NoChange(Response(400, JsonString("Bad request")), subscribers, queue)
    else if call.index.None? then NoChange(Response(404, JsonString("Not found")), subscribers, queue)
    else if Expired(call.index.value.unsubscribeToken, call.now) then
      NoChange(Response(403, JsonString("Forbidden: expired token")), subscribers, queue)
    else if call.index.value.unsubscribeToken.value.value != input.value.tokenValue then
      NoChange(Response(403, JsonString("Forbidden: invalid token")), subscribers, queue)
    else Leave(subscribers, queue, call.index.value, input.value, call.answer)
  }

  /** What an accepted token leads to, for the subscriber `status` names. */
  function Leave(subscribers: map<string, Subscriber>, queue: map<QueueKey, QueueItem>, status: Subscriber,
                 input: UnsubscribeInput, answer: seq<QueueItem>): Outcome
  {
    var id := status.subscriberId;
    var record := Current(subscribers, id);
    if input.allEmails then
      Outcome(Response(200, JsonString("OK")), subscribers[id := record.(unsubscribed := Bool(true))],
              queue - KeysOf(answer), [], [])
    else if input.listIds != [] then
      if status.tags.None? then NoChange(Response(500, JsonString("Server error")), subscribers, queue)
      else Outcome(Response(200, JsonString("OK")), subscribers[id := LeftLists(record, status.tags.value, input.listIds)],
                   queue - KeysOf(answer), [], [])
    else NoChange(Response(200, JsonString("OK")), subscribers, queue)
  }

  /**
   * The token is accepted only when it is unexpired and equal to the stored
   * value, expiry judged first; only an accepted token reaches the 200, or
   * the 500 of a record that cannot be updated.
   */
  lemma TokenChecks(subscribers: map<string, Subscriber>, queue: map<QueueKey, QueueItem>, call: Call)
    requires ParseBody(call.request.body, call.emailOk).Some? && call.index.Some?
    ensures var r := Post(subscribers, queue, call);
      var token := call.index.value.unsubscribeToken;
      (Expired(token, call.now) ==> r == NoChange(Response(403, JsonString("Forbidden: expired token")), subscribers, queue))
      && (!Expired(token, call.now) && token.value.value != ParseBody(call.request.body, call.emailOk).value.tokenValue
          ==> r == NoChange(Response(403, JsonString("Forbidden: invalid token")), subscribers, queue))
      && (r.response.statusCode in {200, 500}
          <==> !Expired(token, call.now) && token.value.value == ParseBody(call.request.body, call.emailOk).value.tokenValue)
  {
  }

  /** A token created more than 48 hours ago is refused whatever its value. */
  lemma OldTokenRefused(subscribers: map<string, Subscriber>, queue: map<QueueKey, QueueItem>, call: Call)
    requires ParseBody(call.request.body, call.emailOk).Some? && call.index.Some?
    requires call.index.value.unsubscribeToken.Some? && call.index.value.unsubscribeToken.value.created < call.now - TokenLifetime
    ensures Post(subscribers, queue, call).response == Response(403, JsonString("Forbidden: expired token"))
    ensures Post(subscribers, queue, call).subscribers == subscribers
  {
  }

  /** A refused body or an unknown address changes nothing. */
  lemma PostRefuses(subscribers: map<string, Subscriber>, queue: map<QueueKey, QueueItem>, call: Call)
    ensures var r := Post(subscribers, queue, call);
      (ParseBody(call.request.body, call.emailOk).None? ==> r == NoChange(Response(400, JsonString("Bad request")), subscribers, queue))
      && (ParseBody(call.request.body, call.emailOk).Some? && call.index.None?
          ==> r == NoChange(Response(404, JsonString("Not found")), subscribers, queue))
  {
  }

  /** The request an accepted token carries. */
  predicate Accepted(call: Call) {
    ParseBody(call.request.body, call.emailOk).Some? && call.index.Some?
    && !Expired(call.index.value.unsubscribeToken, call.now)
    && call.index.value.unsubscribeToken.value.value == ParseBody(call.request.body, call.emailOk).value.tokenValue
  }

  /** An accepted token hands the request to `Leave`. */
  lemma PostAccepted(subscribers: map<string, Subscriber>, queue: map<QueueKey, QueueItem>, call: Call)
    requires Accepted(call)
    ensures Post(subscribers, queue, call)
         == Leave(subscribers, queue, call.index.value, ParseBody(call.request.body, call.emailOk).value, call.answer)
  {
  }

  /** Leaving everything: `unsubscribed` is set, and with a complete answer no queued item of the subscriber remains. */
  lemma LeavesAll(subscribers: map<string, Subscriber>, queue: map<QueueKey, QueueItem>, status: Subscriber,
                  input: UnsubscribeInput, answer: seq<QueueItem>)
    requires input.allEmails
    requires PageOf(queue, status.subscriberId, answer)
    ensures var r := Leave(subscribers, queue, status, input, answer);
      var id := status.subscriberId;
      r.response == Response(200, JsonString("OK"))
      && r.subscribers == subscribers[id := Current(subscribers, id).(unsubscribed := Bool(true))]
      && (forall k :: k in queue && k !in r.queue ==> IsPendingFor(queue[k], id))
      && (CompleteFor(queue, id, answer) ==> NoPendingFor(r.queue, id))
  {
    DeleteAnswer(queue, status.subscriberId, answer);
  }

  /**
   * Leaving some lists: one copy of each named list leaves the tags, the
   * subscriber is unsubscribed exactly when no tag is left, and only queued
   * items of the subscriber caused by a named list are deleted; an index
   * entry without tags fails on the copy, a server error before any write.
   */
  lemma LeavesLists(subscribers: map<string, Subscriber>, queue: map<QueueKey, QueueItem>, status: Subscriber,
                    input: UnsubscribeInput, answer: seq<QueueItem>)
    requires !input.allEmails && input.listIds != []
    requires ListAnswer(queue, status.subscriberId, input.listIds, answer)
    ensures var r := Leave(subscribers, queue, status, input, answer);
      var id := status.subscriberId;
      (status.tags.None? ==> r == NoChange(Response(500, JsonString("Server error")), subscribers, queue))
      && (status.tags.Some? ==>
            var s := r.subscribers[id];
            r.response == Response(200, JsonString("OK")) && s.tags.Some?
            && multiset(s.tags.value) == multiset(status.tags.value) - multiset(input.listIds)
            && (Truthy(s.unsubscribed) <==> s.tags.value == [] || Truthy(Current(subscribers, id).unsubscribed))
            && (forall k :: k in queue && k !in r.queue ==> IsPendingFor(queue[k], id) && CausedByList(queue[k], input.listIds))
            && (forall k :: k in r.queue && IsPendingFor(r.queue[k], id) ==> !CausedByList(r.queue[k], input.listIds)))
  {
    if status.tags.None? {
      return;
    }
    var id := status.subscriberId;
    RemoveEachMultiset(status.tags.value, input.listIds);
    forall k | k in queue && k !in queue - KeysOf(answer)
      ensures IsPendingFor(queue[k], id) && CausedByList(queue[k], input.listIds)
    {
      var i :| 0 <= i < |answer| && answer[i].key == k;
    }
  }

  /** Neither everything nor any list: nothing changes. */
  lemma NothingNamed(subscribers: map<string, Subscriber>, queue: map<QueueKey, QueueItem>, status: Subscriber,
                     input: UnsubscribeInput, answer: seq<QueueItem>)
    requires !input.allEmails && input.listIds == []
    ensures Leave(subscribers, queue, status, input, answer) == NoChange(Response(200, JsonString("OK")), subscribers, queue)
  {
  }

  /** Every outcome keeps each record under its own key. */
  lemma PostKeepsKeys(subscribers: map<string, Subscriber>, queue: map<QueueKey, QueueItem>, call: Call)
    requires Keyed(subscribers, queue)
    ensures Keyed(Post(subscribers, queue, call).subscribers, Post(subscribers, queue, call).queue)
  {
    if Accepted(call) {
      LeaveKeepsKeys(subscribers, queue, call.index.value, ParseBody(call.request.body, call.emailOk).value, call.answer);
    }
  }

  lemma LeaveKeepsKeys(subscribers: map<string, Subscriber>, queue: map<QueueKey, QueueItem>, status: Subscriber,
                       input: UnsubscribeInput, answer: seq<QueueItem>)
    requires Keyed(subscribers, queue)
    ensures var r := Leave(subscribers, queue, status, input, answer); Keyed(r.subscribers, r.queue)
  {
    var id := status.subscriberId;
    var record := Current(subscribers, id);
    KeyedPut(subscribers, queue - KeysOf(answer), record.(unsubscribed := Bool(true)));
    if status.tags.Some? {
      KeyedPut(subscribers, queue - KeysOf(answer), LeftLists(record, status.tags.value, input.listIds));
    }
  }

  /** The loop over `listIds`: each id found by `indexOf` is spliced out of a copy of the tags. */
  method RemoveListIds(tags: seq<string>, listIds: seq<string>) returns (newTags: seq<string>)
    ensures newTags == ListTags(tags, listIds)
  {
    newTags := tags;
    for i := 0 to |listIds|
      invariant RemoveEach(newTags, listIds[i..]) == RemoveEach(tags, listIds)
    {
      assert listIds[i..][0] == listIds[i] && listIds[i..][1..] == listIds[i + 1..];
      var k := FirstIndex(newTags, listIds[i]);
      if k < |newTags| {
        RemoveFirstIsSplice(newTags, listIds[i]);
        newTags := newTags[..k] + newTags[k + 1..];
      }
    }
  }

  /** `unsubscribeSubscriberFromLists`: the update of the tags, then the deletes for the list query's answer. */
  method LeaveLists(store: Store, id: string, indexTags: seq<string>, listIds: seq<string>, answer: seq<QueueItem>)
    requires store.Valid()
    modifies store
    ensures store.Valid() && store.settings == old(store.settings)
    ensures store.subscribers == old(store.subscribers)[id := LeftLists(Current(old(store.subscribers), id), indexTags, listIds)]
    ensures store.queue == old(store.queue) - KeysOf(answer)
  {
    var newTags := RemoveListIds(indexTags, listIds);
    var record := Current(store.subscribers, id).(tags := Some(newTags));
    if newTags == [] {
      record := record.(unsubscribed := Bool(true));
    }
    store.subscribers := store.subscribers[id := record];
    DeleteAnswerItems(store, answer);
  }

  /** The branch an accepted token takes. */
  method LeaveStore(store: Store, status: Subscriber, input: UnsubscribeInput, answer: seq<QueueItem>) returns (response: Response)
    requires store.Valid()
    modifies store
    ensures store.Valid() && store.settings == old(store.settings)
    ensures Outcome(response, store.subscribers, store.queue, [], [])
         == Leave(old(store.subscribers), old(store.queue), status, input, answer)
  {
    if input.allEmails {
      store.subscribers := store.subscribers[status.subscriberId := Current(store.subscribers, status.subscriberId).(unsubscribed := Bool(true))];
      DeleteAnswerItems(store, answer);
    } else if input.listIds != [] {
      if status.tags.None? {
        return Response(500, JsonString("Server error"));
      }
      LeaveLists(store, status.subscriberId, status.tags.value, input.listIds, answer);
    }
    response := Response(200, JsonString("OK"));
  }

  /** The handler. */
  method Handle(store: Store, call: Call) returns (response: Response)
    requires store.Valid()
    modifies store
    ensures store.Valid() && store.settings == old(store.settings)
    ensures Outcome(response, store.subscribers, store.queue, [], [])
         == Post(old(store.subscribers), old(store.queue), call)
  {
    var input := ParseBody(call.request.body, call.emailOk);
    if input.None? {
      return Response(400, JsonString("Bad request"));
    }
    if call.index.None? {
      return Response(404, JsonString("Not found"));
    }
    var status := call.index.value;
    if Expired(status.unsubscribeToken, call.now) {
      return Response(403, JsonString("Forbidden: expired token"));
    }
    if status.unsubscribeToken.value.value != input.value.tokenValue {
      return Response(403, JsonString("Forbidden: invalid token"));
    }
    response := LeaveStore(store, status, input.value, call.answer);
  }
}

=== FILE: react_to_interaction.dfy ===
/**
 * The reaction to an SES open or click notification: the subscriber's
 * last-interaction times are stamped, an `add-tag_<name>` trigger tags
 * them (and, for a configured tag on a click, confirms them), and the
 * queue item the e-mail was sent from records the open or click.
 */
module ReactToInteraction {
  import opened Js
  import opened Model
  import opened Tags
  import opened Patterns
  import opened Scheduling

  /**
   * The parts of the notification the handler reads: its event type, the
   * clicked link when the event carries one as a string, and the e-mail's
   * tags (none when the e-mail has no `tags` object), each a list of values.
   */
  datatype Notification = Notification(eventType: string, link: Option<string>, tags: Option<map<string, seq<string>>>)

  /** Clicks on an unsubscribe link are not interactions. */
  predicate IsUnsubscribeClick(n: Notification) {
    ToLower(n.eventType) == "click" && n.link.Some? && Contains(n.link.value, "unsubscribe")
  }

  /** `getTrigger`: the first value of the tag that names the trigger for this kind of interaction. */
  function GetTrigger(tags: Option<map<string, seq<string>>>, interaction: string): (trigger: Option<string>)
    ensures trigger.Some? ==> tags.Some? && (interaction == "click" || interaction == "open")
    ensures trigger.Some? && interaction == "click" ==>
      "Interaction-Click" in tags.value && tags.value["Interaction-Click"] != [] && trigger.value == tags.value["Interaction-Click"][0]
    ensures trigger.Some? && interaction == "open" ==>
      "Interaction-Open" in tags.value && tags.value["Interaction-Open"] != [] && trigger.value == tags.value["Interaction-Open"][0]
    ensures tags.Some? && interaction == "click" && "Interaction-Click" in tags.value && tags.value["Interaction-Click"] != [] ==> trigger.Some?
    ensures tags.Some? && interaction == "open" && "Interaction-Open" in tags.value && tags.value["Interaction-Open"] != [] ==> trigger.Some?
  {
    if tags.None? || tags.value == map[] then None
    else if interaction == "click" && "Interaction-Click" in tags.value then
      if tags.value["Interaction-Click"] == [] then None else Some(tags.value["Interaction-Click"][0])
    else if interaction == "open" && "Interaction-Open" in tags.value then
      if tags.value["Interaction-Open"] == [] then None else Some(tags.value["Interaction-Open"][0])
    else None
  }

  /** `AUTO_CONFIRM_TAGS.split(',').map(t => t.trim())`; an unset variable is the empty string and names none. */
  function AutoConfirmTags(setting: string): (tags: seq<string>)
    ensures setting == "" ==> tags == []
    ensures setting != "" ==>
      |tags| == |Split(setting, ',')| && forall i :: 0 <= i < |tags| ==> tags[i] == Trim(Split(setting, ',')[i])
  {
    if setting == "" then [] else TrimAll(Split(setting, ','))
  }

  function TrimAll(parts: seq<string>): (r: seq<string>)
    ensures |r| == |parts| && forall i :: 0 <= i < |parts| ==> r[i] == Trim(parts[i])
  {
    if parts == [] then [] else [Trim(parts[0])] + TrimAll(parts[1..])
  }

  /**
   * `doTrigger`'s update of a known subscriber: the interaction times, and
   * for an add-tag trigger the tag and then `active` added to the tags the
   * index holds; an upsert like every unconditional update.
   */
  function Triggered(record: Subscriber, status: Subscriber, trigger: Option<string>, interaction: string,
                     autoConfirm: string, now: nat, isoNow: string): Subscriber
  {
    var tag := if trigger.Some? then AddTagDirective(trigger.value) else None;
    var tagged := if tag.Some? then record.(tags := Some(AddTag("active", AddTag(tag.value, TagsOf(status))))) else record;
    var confirmed := if tag.Some? && interaction == "click" && tag.value in AutoConfirmTags(autoConfirm)
                     then tagged.(confirmed := Str(isoNow)) else tagged;
    var clicked := if interaction == "click" then confirmed.(lastClick := now) else confirmed;
    var stamped := if interaction == "open" then clicked.(lastOpen := now) else clicked;
    stamped.(lastOpenOrClick := now)
  }

  /** The Subscribers table after `doTrigger`: nothing for an address the index does not know. */
  function DoTrigger(subscribers: map<string, Subscriber>, index: Option<Subscriber>, trigger: Option<string>,
                     interaction: string, autoConfirm: string, now: nat, isoNow: string): map<string, Subscriber>
  {
    if index.None? then subscribers
    else
      var id := index.value.subscriberId;
      subscribers[id := Triggered(Current(subscribers, id), index.value, trigger, interaction, autoConfirm, now, isoNow)]
  }

  /**
   * A known subscriber: the interaction times are stamped; an add-tag
   * trigger adds its tag and `active` to the indexed tags, keeping those in
   * order; `confirmed` becomes the timestamp exactly for a click whose tag
   * is an auto-confirm tag; nothing else of the record changes.
   */
  lemma TriggeredStamps(record: Subscriber, status: Subscriber, trigger: Option<string>, interaction: string,
                        autoConfirm: string, now: nat, isoNow: string)
    ensures var r := Triggered(record, status, trigger, interaction, autoConfirm, now, isoNow);
      var tag := if trigger.Some? then AddTagDirective(trigger.value) else None;
      r.lastOpenOrClick == now
      && r.lastClick == (if interaction == "click" then now else record.lastClick)
      && r.lastOpen == (if interaction == "open" then now else record.lastOpen)
      && (tag.None? ==> r.tags == record.tags && r.confirmed == record.confirmed)
      && (tag.Some? ==> r.tags.Some? && TagsAdded(r.tags.value, TagsOf(status), tag.value))
      && (r.confirmed == Str(isoNow) || r.confirmed == record.confirmed)
      && (tag.Some? && interaction == "click" && tag.value in AutoConfirmTags(autoConfirm) ==> r.confirmed == Str(isoNow))
      && (tag.None? || interaction != "click" || tag.value !in AutoConfirmTags(autoConfirm) ==> r.confirmed == record.confirmed)
      && r == record.(tags := r.tags, confirmed := r.confirmed, lastClick := r.lastClick, lastOpen := r.lastOpen,
                      lastOpenOrClick := r.lastOpenOrClick)
  {
    var tag := if trigger.Some? then AddTagDirective(trigger.value) else None;
    if tag.Some? {
      AddTagThenActive(TagsOf(status), tag.value);
    }
  }

  /** The tags after an add-tag trigger: the indexed tags in their order, then only the tag and `active`. */
  ghost predicate TagsAdded(r: seq<string>, indexed: seq<string>, tag: string) {
    tag in r && "active" in r && |indexed| <= |r| && r[..|indexed|] == indexed
    && (forall x :: x in r <==> x in indexed || x == tag || x == "active")
  }

  lemma AddTagThenActive(indexed: seq<string>, tag: string)
    ensures TagsAdded(AddTag("active", AddTag(tag, indexed)), indexed, tag)
  {
    var once := AddTag(tag, indexed);
    var twice := AddTag("active", once);
    assert twice[..|indexed|] == once[..|once|][..|indexed|];
  }

  /** A trigger built from a tag adds exactly that tag: the directive and the tag it carries correspond. */
  lemma TriggerCarriesTag(record: Subscriber, status: Subscriber, tag: string, interaction: string,
                          autoConfirm: string, now: nat, isoNow: string)
    requires 1 <= |tag| <= 248 && IdChars(tag)
    ensures Triggered(record, status, Some(AddTagPrefix + tag), interaction, autoConfirm, now, isoNow).tags
         == Some(AddTag("active", AddTag(tag, TagsOf(status))))
  {
    AddTagDirectiveRoundTrip(tag);
  }

  // ---------------------------------------------------------------------
  // The queue item the e-mail was sent from

  /**
   * `updateQueueItem`'s key: only for an open or click whose `DateStamp`
   * and `RunAtModified` tags hold a string with a date and digits around
   * an underscore; the first underscore becomes the decimal point again.
   */
  function SentItemKey(tags: Option<map<string, seq<string>>>, interaction: string): (key: Option<QueueKey>)
    ensures key.Some? ==>
      tags.Some? && "DateStamp" in tags.value && "RunAtModified" in tags.value
      && tags.value["DateStamp"] != [] && tags.value["RunAtModified"] != []
      && key.value == QueueKey(tags.value["DateStamp"][0], KeyOfTag(tags.value["RunAtModified"][0]))
    ensures key.Some? ==> interaction == "click" || interaction == "open"
  {
    if !(interaction == "click" || interaction == "open") || tags.None? then None
    else if "DateStamp" !in tags.value || "RunAtModified" !in tags.value then None
    else if tags.value["DateStamp"] == [] || tags.value["RunAtModified"] == [] then None
    else
      var date := tags.value["DateStamp"][0];
      var runAtModified := tags.value["RunAtModified"][0];
      if ContainsIsoDate(date) && HasDigitsUnderscoreDigits(runAtModified) then Some(QueueKey(date, KeyOfTag(runAtModified)))
      else None
  }

  /** The conditional update: the item records the time of the open or click; a missing item is left missing. */
  function Recorded(queue: map<QueueKey, QueueItem>, key: Option<QueueKey>, interaction: string, now: nat): (r: map<QueueKey, QueueItem>)
    ensures r.Keys == queue.Keys
    ensures forall k :: k in queue && (key.None? || k != key.value) ==> r[k] == queue[k]
    ensures key.Some? && key.value in queue && interaction == "click" ==> r[key.value] == queue[key.value].(click := now)
    ensures key.Some? && key.value in queue && interaction != "click" ==> r[key.value] == queue[key.value].(open := now)
  {
    if key.None? || key.value !in queue then queue
    else if interaction == "click" then queue[key.value := queue[key.value].(click := now)]
    else queue[key.value := queue[key.value].(open := now)]
  }

  /**
   * The e-mail tagged with the key of the item it was sent from, as the
   * sender writes it (the decimal point as an underscore), finds that item
   * again, which then records the interaction and nothing else.
   */
  lemma SentItemFound(queue: map<QueueKey, QueueItem>, date: string, runAt: nat, random: string,
                      tags: map<string, seq<string>>, interaction: string, now: nat)
    requires IsIsoDate(date) && IsPlainFraction(random)
    requires interaction == "click" || interaction == "open"
    requires "DateStamp" in tags && tags["DateStamp"] == [date]
    requires "RunAtModified" in tags && tags["RunAtModified"] == [KeyTag(RunAtModified(runAt, random))]
    requires QueueKey(date, RunAtModified(runAt, random)) in queue
    ensures var key := QueueKey(date, RunAtModified(runAt, random));
      var r := Recorded(queue, SentItemKey(Some(tags), interaction), interaction, now);
      r[key] == if interaction == "click" then queue[key].(click := now) else queue[key].(open := now)
  {
    SentItemKeyOfTags(date, runAt, random, tags, interaction);
  }

  /** The handler's key for such tags is the item's key. */
  lemma SentItemKeyOfTags(date: string, runAt: nat, random: string, tags: map<string, seq<string>>, interaction: string)
    requires IsIsoDate(date) && IsPlainFraction(random)
    requires interaction == "click" || interaction == "open"
    requires "DateStamp" in tags && tags["DateStamp"] == [date]
    requires "RunAtModified" in tags && tags["RunAtModified"] == [KeyTag(RunAtModified(runAt, random))]
    ensures SentItemKey(Some(tags), interaction) == Some(QueueKey(date, RunAtModified(runAt, random)))
  {
    var tag := KeyTag(RunAtModified(runAt, random));
    IsoDateContained(date);
    TagHasDigitsUnderscoreDigits(runAt, random);
    SentItemKeyOfMatch(date, tag, tags, interaction);
    KeyTagRoundTrip(runAt, random);
  }

  lemma SentItemKeyOfMatch(date: string, tag: string, tags: map<string, seq<string>>, interaction: string)
    requires ContainsIsoDate(date) && HasDigitsUnderscoreDigits(tag)
    requires interaction == "click" || interaction == "open"
    requires "DateStamp" in tags && tags["DateStamp"] == [date]
    requires "RunAtModified" in tags && tags["RunAtModified"] == [tag]
    ensures SentItemKey(Some(tags), interaction) == Some(QueueKey(date, KeyOfTag(tag)))
  {
  }

  /** A date is found in itself. */
  lemma IsoDateContained(date: string)
    requires IsIsoDate(date)
    ensures ContainsIsoDate(date)
  {
    assert date[0..10] == date;
    assert IsoDateAt(date, 0);
  }

  /** The sender's tag for a key built from a plain fraction passes the handler's `\d+_\d+` test. */
  lemma TagHasDigitsUnderscoreDigits(runAt: nat, random: string)
    requires IsPlainFraction(random)
    ensures HasDigitsUnderscoreDigits(KeyTag(RunAtModified(runAt, random)))
  {
    var digits := NatToString(runAt);
    var key := RunAtModified(runAt, random);
    var n := |digits|;
    assert key == digits + random[1..];
    assert key[n] == '.' && key[n - 1] == digits[n - 1] && key[n + 1] == random[2];
    assert '.' !in digits;
    FirstIndexUnique(key, '.', n);
    var tag := KeyTag(key);
    assert tag == key[..n] + ['_'] + key[n + 1..];
    assert tag[n] == '_' && tag[n - 1] == key[n - 1] && tag[n + 1] == key[n + 1];
  }

  // ---------------------------------------------------------------------
  // The handler

  /**
   * One notification: the index entry for its first destination address
   * (none when there is no entry, or no address to look up), the
   * `AUTO_CONFIRM_TAGS` setting, the clock and its ISO rendering.
   */
  datatype Call = Call(n: Notification, index: Option<Subscriber>, autoConfirm: string, now: nat, isoNow: string)

  /** What the handler does to the two tables. */
  function React(subscribers: map<string, Subscriber>, queue: map<QueueKey, QueueItem>, call: Call)
    : (map<string, Subscriber>, map<QueueKey, QueueItem>)
  {
    if IsUnsubscribeClick(call.n) then (subscribers, queue)
    else
      var interaction := ToLower(call.n.eventType);
      var trigger := GetTrigger(call.n.tags, interaction);
      (DoTrigger(subscribers, call.index, trigger, interaction, call.autoConfirm, call.now, call.isoNow),
       Recorded(queue, SentItemKey(call.n.tags, interaction), interaction, call.now))
  }

  /** A click on an unsubscribe link changes nothing. */
  lemma UnsubscribeClickIgnored(subscribers: map<string, Subscriber>, queue: map<QueueKey, QueueItem>, call: Call)
    requires IsUnsubscribeClick(call.n)
    ensures React(subscribers, queue, call) == (subscribers, queue)
  {
  }

  /**
   * Otherwise only the indexed subscriber's record changes (an unknown
   * address changes none), and the queue changes at most in the item the
   * tags name, and only in its click or open time.
   */
  lemma ReactChangesOnlyTheirs(subscribers: map<string, Subscriber>, queue: map<QueueKey, QueueItem>, call: Call)
    requires Keyed(subscribers, queue)
    ensures var (subs, q) := React(subscribers, queue, call);
      Keyed(subs, q)
      && (call.index.None? ==> subs == subscribers)
      && (call.index.Some? ==> forall id :: id in subscribers && id != call.index.value.subscriberId ==> id in subs && subs[id] == subscribers[id])
      && q.Keys == queue.Keys
      && (forall k :: k in queue ==> q[k] == queue[k] || q[k] == queue[k].(click := call.now) || q[k] == queue[k].(open := call.now))
  {
    if !IsUnsubscribeClick(call.n) {
      var interaction := ToLower(call.n.eventType);
      var key := SentItemKey(call.n.tags, interaction);
      RecordedStampsOnly(queue, key, interaction, call.now);
      var q := Recorded(queue, key, interaction, call.now);
      assert forall k :: k in q ==> q[k].key == k;
      DoTriggerOthers(subscribers, q, call.index, GetTrigger(call.n.tags, interaction), interaction, call.autoConfirm,
                      call.now, call.isoNow);
    }
  }

  /** `doTrigger` keeps the table keyed and changes no record but the indexed subscriber's. */
  lemma DoTriggerOthers(subscribers: map<string, Subscriber>, queue: map<QueueKey, QueueItem>, index: Option<Subscriber>,
                        trigger: Option<string>, interaction: string, autoConfirm: string, now: nat, isoNow: string)
    requires Keyed(subscribers, queue)
    ensures var subs := DoTrigger(subscribers, index, trigger, interaction, autoConfirm, now, isoNow);
      Keyed(subs, queue)
      && (index.None? ==> subs == subscribers)
      && (index.Some? ==> forall id :: id in subscribers && id != index.value.subscriberId ==> id in subs && subs[id] == subscribers[id])
  {
    if index.Some? {
      var id := index.value.subscriberId;
      KeyedPut(subscribers, queue, Triggered(Current(subscribers, id), index.value, trigger, interaction, autoConfirm, now, isoNow));
    }
  }

  /** Recording an interaction changes at most its click or open time, and keeps every item under its key. */
  lemma RecordedStampsOnly(queue: map<QueueKey, QueueItem>, key: Option<QueueKey>, interaction: string, now: nat)
    ensures var q := Recorded(queue, key, interaction, now);
      q.Keys == queue.Keys
      && (forall k :: k in queue ==> q[k] == queue[k] || q[k] == queue[k].(click := now) || q[k] == queue[k].(open := now))
      && (forall k :: k in queue ==> q[k].key == queue[k].key)
  {
  }

  /** `doTrigger`: the update is built field by field and applied to the record. */
  method StampSubscriber(store: Store, index: Option<Subscriber>, trigger: Option<string>, interaction: string,
                         autoConfirm: string, now: nat, isoNow: string)
    requires store.Valid()
    modifies store
    ensures store.Valid() && store.settings == old(store.settings) && store.queue == old(store.queue)
    ensures store.subscribers == DoTrigger(old(store.subscribers), index, trigger, interaction, autoConfirm, now, isoNow)
  {
    if index.None? {
      return;
    }
    var record := BuildUpdate(Current(store.subscribers, index.value.subscriberId), index.value, trigger, interaction,
                              autoConfirm, now, isoNow);
    KeyedPut(store.subscribers, store.queue, record);
    store.subscribers := store.subscribers[index.value.subscriberId := record];
  }

  /** `doTrigger`'s `updateDef`, one assignment after another. */
  method BuildUpdate(current: Subscriber, status: Subscriber, trigger: Option<string>, interaction: string,
                     autoConfirm: string, now: nat, isoNow: string) returns (record: Subscriber)
    ensures record == Triggered(current, status, trigger, interaction, autoConfirm, now, isoNow)
    ensures record.subscriberId == current.subscriberId
  {
    record := current;
    var tag := if trigger.Some? then AddTagDirective(trigger.value) else None;
    if tag.Some? {
      record := record.(tags := Some(AddTag("active", AddTag(tag.value, TagsOf(status)))));
      if interaction == "click" && tag.value in AutoConfirmTags(autoConfirm) {
        record := record.(confirmed := Str(isoNow));
      }
    }
    if interaction == "click" {
      record := record.(lastClick := now);
    }
    if interaction == "open" {
      record := record.(lastOpen := now);
    }
    record := record.(lastOpenOrClick := now);
  }

  /** `updateQueueItem`: the conditional update of the item the tags name. */
  method RecordOnItem(store: Store, tags: Option<map<string, seq<string>>>, interaction: string, now: nat)
    requires store.Valid()
    modifies store
    ensures store.Valid() && store.settings == old(store.settings) && store.subscribers == old(store.subscribers)
    ensures store.queue == Recorded(old(store.queue), SentItemKey(tags, interaction), interaction, now)
  {
    var key := SentItemKey(tags, interaction);
    if key.None? || key.value !in store.queue {
      return;
    }
    var item := store.queue[key.value];
    if interaction == "click" {
      store.queue := store.queue[key.value := item.(click := now)];
    } else {
      store.queue := store.queue[key.value := item.(open := now)];
    }
  }

  /** The handler: both updates, one after the other. */
  method Handle(store: Store, call: Call)
    requires store.Valid()
    modifies store
    ensures store.Valid() && store.settings == old(store.settings)
    ensures (store.subscribers, store.queue) == React(old(store.subscribers), old(store.queue), call)
  {
    if IsUnsubscribeClick(call.n) {
      return;
    }
    var interaction := ToLower(call.n.eventType);
    var trigger := GetTrigger(call.n.tags, interaction);
    StampSubscriber(store, call.index, trigger, interaction, call.autoConfirm, call.now, call.isoNow);
    RecordOnItem(store, call.n.tags, interaction, call.now);
  }
}

=== FILE: react_to_unsubscribe_event.dfy ===
/**
 * The reaction to an SES delivery notification: a complaint, or a
 * permanent bounce, unsubscribes the recipient and deletes their queued
 * items in batch writes of at most 25; every other notification is
 * ignored, and a failure is only logged.
 */
module ReactToUnsubscribeEvent {
  import opened Js
  import opened Model
  import opened Cleanup

  /**
   * The parts of the notification the handler reads: its event type, the
   * bounce type (empty when there is none), and the addresses of the
   * complained or bounced recipients, in order.
   */
  datatype Notification = Notification(eventType: string, bounceType: string, recipients: seq<string>)

  /** Only complaints and permanent bounces unsubscribe. */
  predicate Acts(n: Notification) {
    n.eventType == "Complaint" || (n.eventType == "Bounce" && n.bounceType == "Permanent")
  }

  /** The reason recorded with the unsubscription. */
  function Reason(n: Notification): (reason: string)
    requires Acts(n)
    ensures n.eventType == "Complaint" <==> reason == "Complaint"
    ensures n.eventType == "Bounce" <==> reason == "Bounce - Permanent"
  {
    if n.eventType == "Complaint" then "Complaint" else "Bounce - Permanent"
  }

  /** The first recipient's address, lower-cased; none when there is no recipient or it is empty. */
  function Address(n: Notification): (email: Option<string>)
    ensures email.Some? <==> n.recipients != [] && n.recipients[0] != ""
    ensures email.Some? ==> email.value == ToLower(n.recipients[0]) && IsLowerCase(email.value)
  {
    if n.recipients != [] && n.recipients[0] != "" then
      LowerIsLowerCase(n.recipients[0]);
      Some(ToLower(n.recipients[0]))
    else None
  }

  /**
   * What is left behind: both tables, and the delete requests issued, in
   * the order of the queue query's answer.
   */
  datatype Effect = Effect(subscribers: map<string, Subscriber>, queue: map<QueueKey, QueueItem>, deletes: seq<QueueKey>)

  /** The update: unsubscribed now, for the reason the notification gives; an upsert like every unconditional update. */
  function Unsubscribed(subscribers: map<string, Subscriber>, id: string, now: nat, reason: string): (r: map<string, Subscriber>)
    ensures id in r && Truthy(r[id].unsubscribed) && r[id].unsubscribeTimestamp == now && r[id].unsubscribeReason == reason
  {
    subscribers[id := Current(subscribers, id).(unsubscribed := Bool(true), unsubscribeTimestamp := now, unsubscribeReason := reason)]
  }

  /**
   * What the handler does, given the email-index entry for the address and
   * the answer of the queued-items query.
   */
  function React(subscribers: map<string, Subscriber>, queue: map<QueueKey, QueueItem>, n: Notification,
                 index: Option<Subscriber>, pending: seq<QueueItem>, now: nat): Effect
  {
    if !Acts(n) || Address(n).None? || index.None? || Truthy(index.value.unsubscribed) then Effect(subscribers, queue, [])
    else
      var id := index.value.subscriberId;
      Effect(Unsubscribed(subscribers, id, now, Reason(n)), queue - KeysOf(pending), Requests(pending))
  }

  /** Deliveries, transient bounces and notifications without a usable address or known subscriber change nothing. */
  lemma IgnoresOthers(subscribers: map<string, Subscriber>, queue: map<QueueKey, QueueItem>, n: Notification,
                      index: Option<Subscriber>, pending: seq<QueueItem>, now: nat)
    requires !Acts(n) || Address(n).None? || index.None?
    ensures React(subscribers, queue, n, index, pending, now) == Effect(subscribers, queue, [])
  {
  }

  /** A subscriber already unsubscribed is left as it is. */
  lemma AlreadyUnsubscribedIsQuiet(subscribers: map<string, Subscriber>, queue: map<QueueKey, QueueItem>, n: Notification,
                                   index: Option<Subscriber>, pending: seq<QueueItem>, now: nat)
    requires index.Some? && Truthy(index.value.unsubscribed)
    ensures React(subscribers, queue, n, index, pending, now) == Effect(subscribers, queue, [])
  {
  }

  /**
   * A complaint or permanent bounce for a subscribed recipient: the record
   * is unsubscribed with the time and reason, nothing else of it changes,
   * one delete is issued per item of the answer, and a complete answer
   * leaves no queued item of the subscriber.
   */
  lemma ReactUnsubscribes(subscribers: map<string, Subscriber>, queue: map<QueueKey, QueueItem>, n: Notification,
                          index: Option<Subscriber>, pending: seq<QueueItem>, now: nat)
    requires Acts(n) && Address(n).Some? && index.Some? && !Truthy(index.value.unsubscribed)
    requires PageOf(queue, index.value.subscriberId, pending)
    ensures var r := React(subscribers, queue, n, index, pending, now);
      var id := index.value.subscriberId;
      r.subscribers == subscribers[id := Current(subscribers, id).(unsubscribed := Bool(true), unsubscribeTimestamp := now, unsubscribeReason := Reason(n))]
      && |r.deletes| == |pending| && KeySet(r.deletes) == KeysOf(pending)
      && (forall k :: k in queue && k !in r.queue ==> IsPendingFor(queue[k], id))
      && (CompleteFor(queue, id, pending) ==> NoPendingFor(r.queue, id))
  {
    RequestsNameAnswer(pending);
    DeleteAnswer(queue, index.value.subscriberId, pending);
  }

  /** Every outcome keeps each record under its own key. */
  lemma ReactKeepsKeys(subscribers: map<string, Subscriber>, queue: map<QueueKey, QueueItem>, n: Notification,
                       index: Option<Subscriber>, pending: seq<QueueItem>, now: nat)
    requires Keyed(subscribers, queue)
    ensures var r := React(subscribers, queue, n, index, pending, now); Keyed(r.subscribers, r.queue)
  {
  }

  /**
   * The handler: the update, then the delete requests for the answer,
   * grouped into batches of at most 25 whose concatenation is the requests
   * in order; no batch is written when the answer is empty.
   */
  method Handle(store: Store, n: Notification, index: Option<Subscriber>, pending: seq<QueueItem>, now: nat)
    returns (batches: seq<seq<QueueKey>>)
    requires store.Valid()
    modifies store
    ensures store.Valid() && store.settings == old(store.settings)
    ensures var e := React(old(store.subscribers), old(store.queue), n, index, pending, now);
      store.subscribers == e.subscribers && store.queue == e.queue && Flatten(batches) == e.deletes
    ensures batches == [] || WellBatched(batches)
  {
    batches := [];
    if !Acts(n) || Address(n).None? || index.None? || Truthy(index.value.unsubscribed) {
      return;
    }
    var id := index.value.subscriberId;
    store.subscribers := Unsubscribed(store.subscribers, id, now, Reason(n));
    if pending == [] {
      assert KeysOf(pending) == {};
      return;
    }
    var requests := Requests(pending);
    batches := Batch(requests);
    RequestsNameAnswer(pending);
    WriteBatches(store, batches);
  }
}

=== FILE: requests.dfy ===
/**
 * What the API handlers receive: the parsed JSON body, the single-valued
 * and the multi-valued query string, and the conversions Joi applies while
 * validating them.
 */
module Requests {
  import opened Js
  import opened Model
  import opened Patterns

  /**
   * An API Gateway event: `JSON.parse(event.body)` (`None` when the body is
   * not JSON), `queryStringParameters` and `multiValueQueryStringParameters`
   * (`None` when the request has no query string).
   */
  datatype Request = Request(
    body: Option<JsVal>,
    query: Option<map<string, string>>,
    multiQuery: Option<map<string, seq<string>>>)

  /** `body[key]`: `undefined` when the body is not an object or lacks the key. */
  function Field(v: JsVal, key: string): (r: JsVal)
    ensures !v.Obj? ==> r == Undefined
    ensures v.Obj? && key in v.fields ==> r == v.fields[key]
    ensures v.Obj? && key !in v.fields ==> r == Undefined
  {
    if v.Obj? && key in v.fields then v.fields[key] else Undefined
  }

  /** An object whose keys are all declared by its schema (Joi's default for `object()`). */
  predicate OnlyKeys(v: JsVal, allowed: set<string>) {
    v.Obj? && v.fields.Keys <= allowed
  }

  predicate AllStrings(elems: seq<JsVal>) {
    forall j :: 0 <= j < |elems| ==> elems[j].Str?
  }

  /** The strings of an array of strings. */
  function Strings(elems: seq<JsVal>): (r: seq<string>)
    requires AllStrings(elems)
    ensures |r| == |elems|
    ensures forall j :: 0 <= j < |r| ==> elems[j] == Str(r[j])
  {
    seq(|elems|, j requires 0 <= j < |elems| => elems[j].s)
  }

  /** A non-empty string (Joi's `string()` refuses `''` unless told otherwise). */
  predicate IsNonEmptyString(v: JsVal) {
    v.Str? && v.s != ""
  }

  /**
   * `alternatives().try(boolean(), number(), string())` with Joi's default
   * conversion: the strings `true` and `false` (in any case) become booleans,
   * a string of digits becomes a number, any other non-empty string stays a
   * string; every other value is refused.
   */
  function JoiScalar(v: JsVal): (r: Option<JsVal>)
    ensures r.Some? ==> r.value.Bool? || r.value.Num? || r.value.Str?
    ensures v.Bool? || v.Num? ==> r == Some(v)
    ensures r.Some? && r.value.Str? ==> r.value == v && ToLower(v.s) != "true" && ToLower(v.s) != "false"
    ensures r.None? <==> !(v.Bool? || v.Num? || IsNonEmptyString(v))
  {
    match v
    case Bool(_) => Some(v)
    case Num(_) => Some(v)
    case Str(s) =>
      if ToLower(s) == "true" then Some(Bool(true))
      else if ToLower(s) == "false" then Some(Bool(false))
      else if s != "" && AllDigits(s) then Some(Num(DigitsValue(s)))
      else if s != "" then Some(v)
      else None
    case _ => None
  }

  /** `boolean()` with Joi's default conversion: a boolean, or the string `true` or `false` in any case. */
  function JoiBoolean(v: JsVal): (r: Option<bool>)
    ensures v.Bool? ==> r == Some(v.b)
    ensures r.Some? ==> v.Bool? || (v.Str? && ToLower(v.s) == (if r.value then "true" else "false"))
  {
    if v.Bool? then Some(v.b)
    else if v.Str? && ToLower(v.s) == "true" then Some(true)
    else if v.Str? && ToLower(v.s) == "false" then Some(false)
    else None
  }

  /** `string().lowercase().email()`: a non-empty string the address check accepts, lower-cased. */
  function LowerEmail(v: JsVal, emailOk: bool): (r: Option<string>)
    ensures r.Some? ==> v.Str? && v.s != "" && emailOk && r.value == ToLower(v.s) && IsLowerCase(r.value)
    ensures r.None? <==> !(IsNonEmptyString(v) && emailOk)
  {
    if IsNonEmptyString(v) && emailOk then LowerIsLowerCase(v.s); Some(ToLower(v.s)) else None
  }

  // ---------------------------------------------------------------------
  // The subscriber fields both admin subscriber schemas declare

  /** `timezone`: absent, or a zone name the timezone database knows (`zoneOk`). */
  function ParseTimezone(v: JsVal, zoneOk: bool): (r: Option<Option<string>>)
    ensures v.Undefined? ==> r == Some(None)
    ensures r.Some? && r.value.Some? ==> v == Str(r.value.value) && r.value.value != "" && zoneOk
  {
    if v.Undefined? then Some(None)
    else if IsNonEmptyString(v) && zoneOk then Some(Some(v.s))
    else None
  }

  /**
   * `number().integer().min(lo).max(hi).required()`: a number, or a digit
   * string Joi converts, in `[lo, hi]`.
   */
  predicate IntegerIn(v: JsVal, lo: int, hi: int) {
    JoiNumber(v).Some? && lo <= JoiNumber(v).value <= hi
  }

  /**
   * `deliveryTimePreference`: absent, or an object holding exactly an hour
   * 0-23 and a minute 0-59, each stored as the number Joi converts it to.
   */
  function ParseDtp(v: JsVal): (r: Option<Option<Dtp>>)
    ensures v.Undefined? ==> r == Some(None)
    ensures r.Some? && r.value.Some? ==>
      OnlyKeys(v, {"hour", "minute"})
      && JoiNumber(Field(v, "hour")) == Some(r.value.value.hour) && 0 <= r.value.value.hour <= 23
      && JoiNumber(Field(v, "minute")) == Some(r.value.value.minute) && 0 <= r.value.value.minute <= 59
    ensures OnlyKeys(v, {"hour", "minute"}) && IntegerIn(Field(v, "hour"), 0, 23) && IntegerIn(Field(v, "minute"), 0, 59) ==>
      r == Some(Some(Dtp(JoiNumber(Field(v, "hour")).value, JoiNumber(Field(v, "minute")).value)))
    ensures !v.Undefined? && r.Some? ==> r.value.Some?
  {
    if v.Undefined? then Some(None)
    else if OnlyKeys(v, {"hour", "minute"}) && IntegerIn(Field(v, "hour"), 0, 23) && IntegerIn(Field(v, "minute"), 0, 59)
    then Some(Some(Dtp(JoiNumber(Field(v, "hour")).value, JoiNumber(Field(v, "minute")).value)))
    else None
  }

  /**
   * `tags`: absent, `null`, or at most 50 strings of 1 to 64 characters.
   * The outer option is the schema's verdict; inside it, `None` is an absent
   * key and `Some(t)` the attribute the key writes (`None` for `null`).
   */
  function ParseTags(v: JsVal): (r: Option<Option<Option<seq<string>>>>)
    ensures v.Undefined? ==> r == Some(None)
    ensures v.Null? ==> r == Some(Some(None))
    ensures r.Some? && r.value.Some? && r.value.value.Some? ==>
      var tags := r.value.value.value;
      v == Arr(seq(|tags|, j requires 0 <= j < |tags| => Str(tags[j])))
      && |tags| <= 50 && forall j :: 0 <= j < |tags| ==> 1 <= |tags[j]| <= 64
    ensures v.Arr? ==> (r.Some? <==> |v.elems| <= 50 && AllStrings(v.elems) && forall j :: 0 <= j < |v.elems| ==> 1 <= |v.elems[j].s| <= 64)
  {
    if v.Undefined? then Some(None)
    else if v.Null? then Some(Some(None))
    else if v.Arr? && |v.elems| <= 50 && AllStrings(v.elems) && forall j :: 0 <= j < |v.elems| ==> 1 <= |v.elems[j].s| <= 64
    then
      var tags := Strings(v.elems);
      assert Arr(seq(|tags|, j requires 0 <= j < |tags| => Str(tags[j]))).elems == v.elems;
      Some(Some(Some(tags)))
    else None
  }

  /** `number()`: a number, or a string of decimal digits, which Joi converts. */
  function JoiNumber(v: JsVal): (r: Option<int>)
    ensures v.Num? ==> r == Some(v.n)
    ensures r.Some? ==> v.Num? || (v.Str? && v.s != "" && AllDigits(v.s))
  {
    if v.Num? then Some(v.n)
    else if v.Str? && v.s != "" && AllDigits(v.s) then Some(DigitsValue(v.s))
    else None
  }

  /** `confirmed` / `unsubscribed`: absent, or a boolean, number or string after Joi's conversion. */
  function ParseFlag(v: JsVal): (r: Option<JsVal>)
    ensures v.Undefined? ==> r == Some(Undefined)
    ensures !v.Undefined? ==> r == JoiScalar(v)
  {
    if v.Undefined? then Some(Undefined) else JoiScalar(v)
  }

  // ---------------------------------------------------------------------
  // The tag handlers' body

  datatype TagRequest = TagRequest(email: string, tag: string)

  /**
   * An object holding exactly a valid address, lower-cased, and a tag of
   * word characters and dashes no longer than `maxLength`.
   */
  function ParseTagBody(body: Option<JsVal>, emailOk: bool, maxLength: nat): (r: Option<TagRequest>)
    ensures r.Some? ==>
      body.Some? && OnlyKeys(body.value, {"email", "tag"})
      && Field(body.value, "email").Str? && r.value.email == ToLower(Field(body.value, "email").s) && IsLowerCase(r.value.email)
      && Field(body.value, "tag") == Str(r.value.tag) && IsWordDash(r.value.tag) && |r.value.tag| <= maxLength
    ensures r.None? <==>
      !(body.Some? && OnlyKeys(body.value, {"email", "tag"}) && IsNonEmptyString(Field(body.value, "email")) && emailOk
        && Field(body.value, "tag").Str? && IsWordDash(Field(body.value, "tag").s) && |Field(body.value, "tag").s| <= maxLength)
  {
    if body.None? || !OnlyKeys(body.value, {"email", "tag"}) then None
    else
      var email := LowerEmail(Field(body.value, "email"), emailOk);
      var tag := Field(body.value, "tag");
      if email.Some? && tag.Str? && IsWordDash(tag.s) && |tag.s| <= maxLength then Some(TagRequest(email.value, tag.s)) else None
  }
}

=== FILE: scheduling.dfy ===
/**
 * How queue items are keyed and built: the run-time key with its random
 * fraction, the key carried in an e-mail's tags, the send time in the
 * subscriber's timezone, and the items that enrol a subscriber in an
 * autoresponder.
 */
module Scheduling {
  import opened Js
  import opened Model

  // ---------------------------------------------------------------------
  // Queue keys

  /** `Math.random().toString().substring(1)`, given the rendering of the random number. */
  function FractionSuffix(random: string): string {
    if |random| >= 1 then random[1..] else ""
  }

  /** `${runAt}${Math.random().toString().substring(1)}` */
  function RunAtModified(runAt: nat, random: string): (key: string)
    ensures StartsWith(key, NatToString(runAt))
  {
    NatToString(runAt) + FractionSuffix(random)
  }

  /** A number in [0, 1) rendered in plain notation with at least one fractional digit. */
  predicate IsPlainFraction(random: string) {
    |random| >= 3 && random[..2] == "0." && AllDigits(random[2..])
  }

  /** The run time a key records: the number its digits before the first `.` spell. */
  function KeyRunAt(key: string): Option<nat> {
    var k := FirstIndex(key, '.');
    if AllDigits(key[..k]) then Some(DigitsValue(key[..k])) else None
  }

  /** A key built from a plain fraction gives back the run time it was built from. */
  lemma RunAtModifiedRoundTrip(runAt: nat, random: string)
    requires IsPlainFraction(random)
    ensures KeyRunAt(RunAtModified(runAt, random)) == Some(runAt)
  {
    var digits := NatToString(runAt);
    var key := RunAtModified(runAt, random);
    assert key[|digits|] == '.';
    assert '.' !in digits;
    assert key[..|digits|] == digits;
    FirstIndexUnique(key, '.', |digits|);
    DigitsRoundTrip(runAt);
  }

  /** Two keys built from plain fractions are equal only when their run times are. */
  lemma RunAtModifiedSeparatesTimes(t1: nat, r1: string, t2: nat, r2: string)
    requires IsPlainFraction(r1) && IsPlainFraction(r2)
    requires RunAtModified(t1, r1) == RunAtModified(t2, r2)
    ensures t1 == t2
  {
    RunAtModifiedRoundTrip(t1, r1);
    RunAtModifiedRoundTrip(t2, r2);
  }

  /**
   * The sending side tags an e-mail with its queue key, the `.` replaced by
   * `_`; the interaction handler replaces the first `_` back.
   */
  function KeyTag(runAtModified: string): string {
    ReplaceFirst(runAtModified, '.', '_')
  }

  function KeyOfTag(tag: string): string {
    ReplaceFirst(tag, '_', '.')
  }

  lemma KeyTagRoundTrip(runAt: nat, random: string)
    requires IsPlainFraction(random)
    ensures KeyOfTag(KeyTag(RunAtModified(runAt, random))) == RunAtModified(runAt, random)
  {
    var key := RunAtModified(runAt, random);
    assert '_' !in key by {
      forall i | 0 <= i < |key| ensures key[i] != '_' {
        if i >= |NatToString(runAt)| {
          assert key[i] == random[i - |NatToString(runAt)| + 1];
        }
      }
    }
    ReplaceFirstRoundTrip(key, '.', '_');
  }

  // ---------------------------------------------------------------------
  // Send times

  /**
   * The send time in a timezone: `moment(t).tz(zone)` with the hour and
   * minute of a delivery preference and second 0. The timezone database is
   * not part of this model; the projection is a parameter.
   */
  type ZoneSetter = (nat, string, Dtp) -> nat

  const DefaultDtp: Dtp := Dtp(9, 30)

  /** `getRunAtTime` */
  function GetRunAtTime(startSendAt: nat, timezone: Option<string>, userDtp: Option<Dtp>, setLocal: ZoneSetter): (r: nat)
    ensures timezone.None? || timezone.value == "" ==> r == startSendAt
    ensures timezone.Some? && timezone.value != "" && userDtp.None? ==> r == setLocal(startSendAt, timezone.value, Dtp(9, 30))
    ensures timezone.Some? && timezone.value != "" && userDtp.Some? ==> r == setLocal(startSendAt, timezone.value, userDtp.value)
  {
    if timezone.None? || timezone.value == "" then startSendAt
    else setLocal(startSendAt, timezone.value, if userDtp.Some? then userDtp.value else DefaultDtp)
  }

  // ---------------------------------------------------------------------
  // Enrolment items

  /** A freshly queued item: pending, never attempted, keyed by its own run time. */
  predicate FreshPending(item: QueueItem) {
    item.key.queuePlacement == Queued && item.attempts == 0 && !item.failed && !item.completed
    && StartsWith(item.key.runAtModified, NatToString(item.runAt))
  }

  /** The start step of `autoresponder-<id>`, when the setting has one. */
  function StartStep(settings: map<string, SettingItem>, autoresponderId: string): (r: Option<Step>)
    ensures r.Some? ==> "autoresponder-" + autoresponderId in settings
  {
    var name := "autoresponder-" + autoresponderId;
    if name in settings && settings[name].value.AutoresponderDef? && "Start" in settings[name].value.autoresponder.steps
    then Some(settings[name].value.autoresponder.steps["Start"])
    else None
  }

  /** The step's attributes overlaid with the queue bookkeeping and the subscriber snapshot. */
  function EnrolmentItem(step: Step, subscriber: Subscriber, autoresponderId: string, stepName: string, runAt: nat, random: string): (item: QueueItem)
    ensures FreshPending(item) && IsPendingFor(item, subscriber.subscriberId)
    ensures item.subscriber == subscriber && item.step == step && item.runAt == runAt
    ensures item.autoresponderId == autoresponderId && item.autoresponderStep == stepName
  {
    QueueItem(QueueKey(Queued, RunAtModified(runAt, random)), runAt, 0, false, false,
              subscriber, subscriber.subscriberId, autoresponderId, stepName, step, 0, 0, 0)
  }

  /**
   * `addSubscriberToAutoresponder` and the autoresponder branch of
   * `runTrigger`: without a start step nothing is written; otherwise one
   * pending item that runs the start step now.
   */
  method Enrol(store: Store, autoresponderId: string, subscriber: Subscriber, now: nat, random: string)
    returns (enqueued: seq<QueueItem>)
    requires store.Valid()
    modifies store
    ensures store.Valid()
    ensures store.subscribers == old(store.subscribers) && store.settings == old(store.settings)
    ensures store.queue == PutAll(old(store.queue), enqueued)
    ensures StartStep(old(store.settings), autoresponderId).None? ==> enqueued == []
    ensures StartStep(old(store.settings), autoresponderId).Some? ==>
      enqueued == [EnrolmentItem(StartStep(old(store.settings), autoresponderId).value, subscriber, autoresponderId, "Start", now, random)]
  {
    var start := StartStep(store.settings, autoresponderId);
    if start.None? {
      return [];
    }
    var item := EnrolmentItem(start.value, subscriber, autoresponderId, "Start", now, random);
    store.queue := store.queue[item.key := item];
    enqueued := [item];
    assert PutAll(old(store.queue), enqueued) == PutAll(store.queue, []);
  }

  // ---------------------------------------------------------------------
  // The items a confirmation enqueues

  /** An autoresponder whose start step sends a template. */
  predicate SendsOnConfirm(ar: Autoresponder) {
    "Start" in ar.steps && ar.steps["Start"].stepType == "send email" && ar.steps["Start"].templateId != ""
  }

  /** `newQueueItem`: the start step's type and template, run at the subscriber's preferred local time. */
  function NewQueueItem(ar: Autoresponder, subscriber: Subscriber, now: nat, random: string, setLocal: ZoneSetter): (item: QueueItem)
    requires SendsOnConfirm(ar)
    ensures FreshPending(item) && IsPendingFor(item, subscriber.subscriberId)
    ensures item.runAt == GetRunAtTime(now, subscriber.timezone, subscriber.deliveryTimePreference, setLocal)
    ensures item.autoresponderId == ar.autoresponderId && item.autoresponderStep == "Start"
    ensures item.step.stepType == "send email" && item.step.templateId == ar.steps["Start"].templateId
  {
    var start := ar.steps["Start"];
    var runAt := GetRunAtTime(now, subscriber.timezone, subscriber.deliveryTimePreference, setLocal);
    QueueItem(QueueKey(Queued, RunAtModified(runAt, random)), runAt, 0, false, false,
              subscriber, subscriber.subscriberId, ar.autoresponderId, "Start",
              Step(start.stepType, start.templateId, [], map[]), 0, 0, 0)
  }

  /** The autoresponders that contribute an item, in scan order. */
  function Eligible(ars: seq<Autoresponder>): (r: seq<Autoresponder>)
    ensures |r| <= |ars|
    ensures forall j :: 0 <= j < |r| ==> SendsOnConfirm(r[j])
  {
    if ars == [] then []
    else
      var init := ars[..|ars| - 1];
      var last := ars[|ars| - 1];
      assert ars == init + [last];
      Eligible(init) + (if SendsOnConfirm(last) then [last] else [])
  }

  /** The eligible autoresponders are exactly those scanned whose start step sends a template. */
  lemma {:induction false} EligibleMembers(ars: seq<Autoresponder>)
    ensures forall a :: a in Eligible(ars) <==> a in ars && SendsOnConfirm(a)
  {
    if ars != [] {
      var init := ars[..|ars| - 1];
      var last := ars[|ars| - 1];
      assert ars == init + [last];
      EligibleMembers(init);
    }
  }

  lemma EligibleSnoc(ars: seq<Autoresponder>, i: nat)
    requires i < |ars|
    ensures Eligible(ars[..i + 1]) == Eligible(ars[..i]) + (if SendsOnConfirm(ars[i]) then [ars[i]] else [])
  {
    assert ars[..i + 1][..i] == ars[..i];
  }

  /** The items for the eligible autoresponders, the j-th drawing the j-th random fraction. */
  function BatchOf(elig: seq<Autoresponder>, subscriber: Subscriber, now: nat, random: nat -> string, setLocal: ZoneSetter)
    : (batch: seq<QueueItem>)
    requires forall j :: 0 <= j < |elig| ==> SendsOnConfirm(elig[j])
    ensures |batch| == |elig|
  {
    if elig == [] then []
    else
      var init := elig[..|elig| - 1];
      BatchOf(init, subscriber, now, random, setLocal)
      + [NewQueueItem(elig[|elig| - 1], subscriber, now, random(|elig| - 1), setLocal)]
  }

  lemma {:induction false} BatchOfItems(elig: seq<Autoresponder>, subscriber: Subscriber, now: nat, random: nat -> string, setLocal: ZoneSetter)
    requires forall j :: 0 <= j < |elig| ==> SendsOnConfirm(elig[j])
    ensures forall j :: 0 <= j < |elig| ==>
      BatchOf(elig, subscriber, now, random, setLocal)[j] == NewQueueItem(elig[j], subscriber, now, random(j), setLocal)
  {
    if elig != [] {
      var init := elig[..|elig| - 1];
      BatchOfItems(init, subscriber, now, random, setLocal);
    }
  }

  /** An autoresponder added at the end adds its item at the end, drawing the next random fraction. */
  lemma BatchOfSnoc(elig: seq<Autoresponder>, ar: Autoresponder, subscriber: Subscriber, now: nat, random: nat -> string, setLocal: ZoneSetter)
    requires forall j :: 0 <= j < |elig| ==> SendsOnConfirm(elig[j])
    requires SendsOnConfirm(ar)
    ensures BatchOf(elig + [ar], subscriber, now, random, setLocal) ==
      BatchOf(elig, subscriber, now, random, setLocal) + [NewQueueItem(ar, subscriber, now, random(|elig|), setLocal)]
  {
    var e := elig + [ar];
    assert e[..|e| - 1] == elig;
  }

  /**
   * `constructQueueBatch`: one item per autoresponder whose start step sends
   * a template, in scan order; the j-th item draws the j-th random fraction.
   */
  method ConstructQueueBatch(ars: seq<Autoresponder>, subscriber: Subscriber, now: nat, random: nat -> string, setLocal: ZoneSetter)
    returns (batch: seq<QueueItem>)
    ensures |batch| == |Eligible(ars)|
    ensures forall j :: 0 <= j < |batch| ==>
      batch[j] == NewQueueItem(Eligible(ars)[j], subscriber, now, random(j), setLocal)
  {
    batch := [];
    var i := 0;
    while i < |ars|
      invariant 0 <= i <= |ars|
      invariant batch == BatchOf(Eligible(ars[..i]), subscriber, now, random, setLocal)
    {
      EligibleSnoc(ars, i);
      var ar := ars[i];
      ghost var elig := Eligible(ars[..i]);
      assert |batch| == |elig|;
      if SendsOnConfirm(ar) {
        BatchOfSnoc(elig, ar, subscriber, now, random, setLocal);
        batch := batch + [NewQueueItem(ar, subscriber, now, random(|batch|), setLocal)];
        assert Eligible(ars[..i + 1]) == elig + [ar];
        assert batch == BatchOf(elig + [ar], subscriber, now, random, setLocal);
      } else {
        assert Eligible(ars[..i + 1]) == elig;
      }
      assert batch == BatchOf(Eligible(ars[..i + 1]), subscriber, now, random, setLocal);
      i := i + 1;
    }
    assert ars[..i] == ars;
    BatchOfItems(Eligible(ars), subscriber, now, random, setLocal);
  }
}

=== FILE: subscriber_confirm.dfy ===
/**
 * The confirmation link of the subscribe e-mail: the subscriber it names is
 * confirmed and enrolled in every autoresponder that starts on
 * confirmation, and the browser is sent on to the thank-you page.
 */
module SubscriberConfirm {
  import opened Js
  import opened Model
  import opened Patterns
  import opened Scheduling
  import opened Cleanup

  /**
   * One invocation: `queryStringParameters` (none when the request has no
   * query string); the answer
   * of the scan for autoresponders triggered by confirmation; the clock;
   * the random fraction each new item draws; the timezone projection; the
   * thank-you page.
   */
  datatype Call = Call(query: Option<map<string, string>>, triggered: seq<Autoresponder>, now: nat, random: nat -> string,
                       setLocal: ZoneSetter, thankYouUrl: string)

  /** `queryStringParameters['t']`, none when the query string lacks it. */
  function IdParam(query: map<string, string>): (r: Option<string>)
    ensures r.Some? <==> "t" in query
    ensures r.Some? ==> r.value == query["t"]
  {
    if "t" in query then Some(query["t"]) else None
  }

  /** The items a confirmation enqueues: one per eligible autoresponder, in scan order. */
  function QueueBatch(ars: seq<Autoresponder>, subscriber: Subscriber, now: nat, random: nat -> string, setLocal: ZoneSetter)
    : (batch: seq<QueueItem>)
    ensures |batch| == |Eligible(ars)|
    ensures forall j :: 0 <= j < |batch| ==> batch[j] == NewQueueItem(Eligible(ars)[j], subscriber, now, random(j), setLocal)
  {
    var eligible := Eligible(ars);
    seq(|eligible|, j requires 0 <= j < |eligible| => NewQueueItem(eligible[j], subscriber, now, random(j), setLocal))
  }

  /** `confirmSubscriber`: confirmed, subscribed, and stamped with the time. */
  function Confirmed(subscribers: map<string, Subscriber>, id: string, now: nat): (r: map<string, Subscriber>)
    ensures id in r && r[id].confirmed == Bool(true) && r[id].unsubscribed == Bool(false) && r[id].confirmTimestamp == now
  {
    subscribers[id := Current(subscribers, id).(confirmed := Bool(true), unsubscribed := Bool(false), confirmTimestamp := now)]
  }

  /** Already confirmed and still subscribed: the strict comparisons the handler makes. */
  predicate AlreadyConfirmed(s: Subscriber) {
    s.confirmed == Bool(true) && s.unsubscribed == Bool(false)
  }

  /** A redirect to the thank-you page; its body is the `Location` it names. */
  function ThankYou(call: Call): (r: Response)
    ensures r.statusCode == 307 && r.body == call.thankYouUrl
  {
    Response(307, call.thankYouUrl)
  }

  /**
   * What the handler does; `None` when the invocation fails without an
   * answer. The `t` parameter is read from the query string outside any
   * promise, so a request without a query string throws there and nothing
   * is written. The batch is written in one `batchWrite`, which refuses more
   * than 25 requests; the refusal comes after the subscriber is confirmed,
   * and answers 500.
   */
  function Confirm(subscribers: map<string, Subscriber>, queue: map<QueueKey, QueueItem>, call: Call): Option<Outcome> {
    if call.query.None? then None
    else
      var t := IdParam(call.query.value);
      if t.None? || !IsUuidV4(t.value) then Some(NoChange(Response(400, ""), subscribers, queue))
      else if t.value !in subscribers then Some(NoChange(Response(404, ""), subscribers, queue))
      else Some(Enrolled(subscribers, queue, t.value, call))
  }

  /** A known subscriber who is not yet confirmed, or has unsubscribed since. */
  function Enrolled(subscribers: map<string, Subscriber>, queue: map<QueueKey, QueueItem>, id: string, call: Call): Outcome
    requires id in subscribers
  {
    var record := subscribers[id];
    if AlreadyConfirmed(record) then NoChange(ThankYou(call), subscribers, queue)
    else
      var confirmed := Confirmed(subscribers, id, call.now);
      var batch := QueueBatch(call.triggered, record, call.now, call.random, call.setLocal);
      if |batch| > BatchThreshold then NoChange(Response(500, ""), confirmed, queue)
      else Outcome(ThankYou(call), confirmed, PutAll(queue, batch), [], batch)
  }

  /**
   * A request without a query string fails without an answer; a missing or
   * malformed id, or one without a subscriber, is refused. None of them
   * changes anything.
   */
  lemma ConfirmRefuses(subscribers: map<string, Subscriber>, queue: map<QueueKey, QueueItem>, call: Call)
    ensures var r := Confirm(subscribers, queue, call);
      (r.None? <==> call.query.None?)
      && (call.query.Some? && !("t" in call.query.value && IsUuidV4(call.query.value["t"])) ==>
            r == Some(NoChange(Response(400, ""), subscribers, queue)))
      && (call.query.Some? && "t" in call.query.value && IsUuidV4(call.query.value["t"]) && call.query.value["t"] !in subscribers ==>
            r == Some(NoChange(Response(404, ""), subscribers, queue)))
  {
  }

  /** A subscriber confirmed and subscribed is sent on and nothing is written. */
  lemma AlreadyConfirmedIsQuiet(subscribers: map<string, Subscriber>, queue: map<QueueKey, QueueItem>, id: string, call: Call)
    requires id in subscribers && AlreadyConfirmed(subscribers[id])
    ensures Enrolled(subscribers, queue, id, call) == NoChange(ThankYou(call), subscribers, queue)
  {
  }

  /**
   * Otherwise the subscriber is confirmed, subscribed and stamped, nothing
   * else of them changes, and every item enqueued is a fresh pending item of
   * theirs that runs the start step of an autoresponder sending on
   * confirmation, in scan order; with no such autoresponder nothing is
   * written to the queue.
   */
  lemma EnrolledConfirms(subscribers: map<string, Subscriber>, queue: map<QueueKey, QueueItem>, id: string, call: Call)
    requires id in subscribers && !AlreadyConfirmed(subscribers[id])
    ensures var r := Enrolled(subscribers, queue, id, call);
      var record := subscribers[id];
      r.subscribers == subscribers[id := subscribers[id].(confirmed := Bool(true), unsubscribed := Bool(false), confirmTimestamp := call.now)]
      && r.emails == []
      && (forall j :: 0 <= j < |r.enqueued| ==>
            FreshPending(r.enqueued[j]) && IsPendingFor(r.enqueued[j], record.subscriberId)
            && r.enqueued[j].subscriber == record && r.enqueued[j].autoresponderStep == "Start"
            && r.enqueued[j].autoresponderId == Eligible(call.triggered)[j].autoresponderId)
      && r.queue == PutAll(queue, r.enqueued)
      && (Eligible(call.triggered) == [] ==> r.response == ThankYou(call) && r.queue == queue)
      && (|Eligible(call.triggered)| <= BatchThreshold ==> r.response == ThankYou(call) && |r.enqueued| == |Eligible(call.triggered)|)
      && (|Eligible(call.triggered)| > BatchThreshold ==> r.response == Response(500, "") && r.enqueued == [] && r.queue == queue)
  {
    var record := subscribers[id];
    var batch := QueueBatch(call.triggered, record, call.now, call.random, call.setLocal);
    forall j | 0 <= j < |batch|
      ensures FreshPending(batch[j]) && batch[j].subscriber == record
    {
      NewQueueItemSnapshot(Eligible(call.triggered)[j], record, call.now, call.random(j), call.setLocal);
    }
  }

  /** The snapshot a new item carries is the subscriber as read. */
  lemma NewQueueItemSnapshot(ar: Autoresponder, subscriber: Subscriber, now: nat, random: string, setLocal: ZoneSetter)
    requires SendsOnConfirm(ar)
    ensures NewQueueItem(ar, subscriber, now, random, setLocal).subscriber == subscriber
  {
  }

  /** Confirming twice: the second visit finds the subscriber confirmed and writes nothing. */
  lemma ConfirmTwice(subscribers: map<string, Subscriber>, queue: map<QueueKey, QueueItem>, call: Call, later: Call)
    requires Keyed(subscribers, queue)
    requires later.query == call.query
    ensures var first := Confirm(subscribers, queue, call);
      first.Some? ==>
      Confirm(first.value.subscribers, first.value.queue, later) == Some(NoChange(
        if first.value.response.statusCode == 400 then Response(400, "")
        else if first.value.response.statusCode == 404 then Response(404, "")
        else ThankYou(later), first.value.subscribers, first.value.queue))
  {
    if call.query.Some? && "t" in call.query.value && IsUuidV4(call.query.value["t"]) && call.query.value["t"] in subscribers {
      var id := call.query.value["t"];
      assert subscribers[id].subscriberId == id;
      assert ThankYou(call).statusCode == 307;
    }
  }

  /** Every outcome keeps each record under its own key. */
  lemma ConfirmKeepsKeys(subscribers: map<string, Subscriber>, queue: map<QueueKey, QueueItem>, call: Call)
    requires Keyed(subscribers, queue)
    ensures var r := Confirm(subscribers, queue, call);
      r.Some? ==> Keyed(r.value.subscribers, r.value.queue)
  {
    if call.query.Some? {
      var t := IdParam(call.query.value);
      if t.Some? && IsUuidV4(t.value) && t.value in subscribers {
        EnrolledKeepsKeys(subscribers, queue, t.value, call);
      }
    }
  }

  lemma EnrolledKeepsKeys(subscribers: map<string, Subscriber>, queue: map<QueueKey, QueueItem>, id: string, call: Call)
    requires Keyed(subscribers, queue) && id in subscribers
    ensures Keyed(Enrolled(subscribers, queue, id, call).subscribers, Enrolled(subscribers, queue, id, call).queue)
  {
    if !AlreadyConfirmed(subscribers[id]) {
      var record := subscribers[id];
      var batch := QueueBatch(call.triggered, record, call.now, call.random, call.setLocal);
      KeyedPut(subscribers, queue, Current(subscribers, id).(confirmed := Bool(true), unsubscribed := Bool(false), confirmTimestamp := call.now));
      PutAllKeyed(Confirmed(subscribers, id, call.now), queue, batch);
    }
  }

  /**
   * The handler: the update, then the scan's batch, written when it is not
   * empty. `None` is an invocation that fails before answering.
   */
  method Handle(store: Store, call: Call) returns (response: Option<Response>, enqueued: seq<QueueItem>)
    requires store.Valid()
    modifies store
    ensures store.Valid() && store.settings == old(store.settings)
    ensures response.None? ==> Confirm(old(store.subscribers), old(store.queue), call).None? && unchanged(store)
    ensures response.Some? ==>
      Confirm(old(store.subscribers), old(store.queue), call) == Some(Outcome(response.value, store.subscribers, store.queue, [], enqueued))
  {
    enqueued := [];
    if call.query.None? {
      return None, [];
    }
    var t := IdParam(call.query.value);
    if t.None? || !IsUuidV4(t.value) {
      return Some(Response(400, "")), [];
    }
    if t.value !in store.subscribers {
      return Some(Response(404, "")), [];
    }
    var record := store.subscribers[t.value];
    if AlreadyConfirmed(record) {
      return Some(ThankYou(call)), [];
    }
    ConfirmKeepsKeys(store.subscribers, store.queue, call);
    store.subscribers := Confirmed(store.subscribers, t.value, call.now);
    var batch := ConstructQueueBatch(call.triggered, record, call.now, call.random, call.setLocal);
    assert batch == QueueBatch(call.triggered, record, call.now, call.random, call.setLocal);
    if |batch| > BatchThreshold {
      return Some(Response(500, "")), [];
    }
    store.queue := PutAll(store.queue, batch);
    enqueued := batch;
    response := Some(ThankYou(call));
  }
}

=== FILE: tags.dfy ===
/**
 * The tag-list algebra the handlers share: the "has every requested tag"
 * test, merging requested tags into stored ones, adding one tag, and
 * removing the first occurrence of a tag (JavaScript `indexOf` then
 * `splice`). A missing or `null` list is the empty list.
 */
module Tags {
  import opened Js

  /** Every tag of `tagsB` occurs in `tagsA`. */
  predicate HasAll(tagsA: seq<string>, tagsB: seq<string>) {
    forall i :: 0 <= i < |tagsB| ==> tagsB[i] in tagsA
  }

  predicate NoDup(s: seq<string>) {
    forall i, j :: 0 <= i < j < |s| ==> s[i] != s[j]
  }

  /**
   * `checkHasAllTags` / `hasAllTags`: an empty request is always satisfied,
   * an empty stored list satisfies no non-empty request, and otherwise every
   * requested tag is looked up.
   */
  method CheckHasAllTags(tagsA: seq<string>, tagsB: seq<string>) returns (r: bool)
    ensures r <==> HasAll(tagsA, tagsB)
    ensures tagsB == [] ==> r
    ensures tagsA == [] && tagsB != [] ==> !r
  {
    if |tagsB| == 0 {
      return true;
    }
    if |tagsA| == 0 {
      assert tagsB[0] !in tagsA;
      return false;
    }
    var i := 0;
    while i < |tagsB|
      invariant 0 <= i <= |tagsB|
      invariant HasAll(tagsA, tagsB[..i])
    {
      if tagsB[i] !in tagsA {
        return false;
      }
      i := i + 1;
    }
    assert tagsB[..i] == tagsB;
    return true;
  }

  lemma HasAllReflexive(tags: seq<string>)
    ensures HasAll(tags, tags)
  {
  }

  /**
   * The tags `current` ends with once each of `newTags` that it lacks has
   * been appended, in request order.
   */
  function AppendMissing(current: seq<string>, newTags: seq<string>): (r: seq<string>)
    ensures |current| <= |r| <= |current| + |newTags|
    ensures r[..|current|] == current
    ensures forall x :: x in r <==> x in current || x in newTags
    ensures NoDup(current) ==> NoDup(r)
    decreases |newTags|
  {
    if newTags == [] then current
    else
      var next := if newTags[0] in current then current else current + [newTags[0]];
      var r := AppendMissing(next, newTags[1..]);
      assert r[..|current|] == r[..|next|][..|current|];
      assert forall x :: x in newTags <==> x == newTags[0] || x in newTags[1..];
      r
  }

  /** `mergeTags` / `updateSubscriberTags`: a copy of the stored tags with each missing requested tag pushed. */
  method MergeTags(currentTags: seq<string>, newTags: seq<string>) returns (merged: seq<string>)
    ensures merged == AppendMissing(currentTags, newTags)
  {
    merged := currentTags;
    var i := 0;
    while i < |newTags|
      invariant 0 <= i <= |newTags|
      invariant AppendMissing(merged, newTags[i..]) == AppendMissing(currentTags, newTags)
    {
      assert newTags[i..][1..] == newTags[i + 1..];
      if newTags[i] !in merged {
        merged := merged + [newTags[i]];
      }
      i := i + 1;
    }
  }

  /** Merging tags the subscriber already has changes nothing. */
  lemma {:induction false} AppendMissingKeepsAll(current: seq<string>, newTags: seq<string>)
    requires HasAll(current, newTags)
    ensures AppendMissing(current, newTags) == current
    decreases |newTags|
  {
    if newTags != [] {
      assert newTags[0] in current;
      AppendMissingKeepsAll(current, newTags[1..]);
    }
  }

  /** After a merge the subscriber has every requested tag, so merging again changes nothing. */
  lemma AppendMissingIdempotent(current: seq<string>, newTags: seq<string>)
    ensures HasAll(AppendMissing(current, newTags), newTags)
    ensures AppendMissing(AppendMissing(current, newTags), newTags) == AppendMissing(current, newTags)
  {
    AppendMissingKeepsAll(AppendMissing(current, newTags), newTags);
  }

  /** `addTag`: the list with `tagName` appended unless it is already there (a missing list becomes `[tagName]`). */
  function AddTag(tagName: string, tags: seq<string>): (r: seq<string>)
    ensures tagName in r
    ensures forall x :: x in r <==> x == tagName || x in tags
    ensures |tags| <= |r| <= |tags| + 1 && r[..|tags|] == tags
    ensures tagName in tags ==> r == tags
    ensures NoDup(tags) ==> NoDup(r)
  {
    if |tags| == 0 then [tagName]
    else if tagName in tags then tags
    else tags + [tagName]
  }

  /** Adding one tag is merging a request that names only that tag. */
  lemma {:induction false} AddTagIsMerge(tagName: string, tags: seq<string>)
    ensures AddTag(tagName, tags) == AppendMissing(tags, [tagName])
  {
    var next := if tagName in tags then tags else tags + [tagName];
    assert [tagName][1..] == [];
    assert AppendMissing(tags, [tagName]) == AppendMissing(next, []);
  }

  /** `indexOf` then `splice(index, 1)`: the first occurrence of `tag` leaves the list. */
  function RemoveFirst(tags: seq<string>, tag: string): (r: seq<string>)
    ensures tag !in tags ==> r == tags
    ensures tag in tags ==> |r| == |tags| - 1
  {
    if tags == [] then []
    else if tags[0] == tag then tags[1..]
    else [tags[0]] + RemoveFirst(tags[1..], tag)
  }

  /** Exactly one copy of `tag` goes, when there is one, and nothing else. */
  lemma {:induction false} RemoveFirstMultiset(tags: seq<string>, tag: string)
    ensures multiset(RemoveFirst(tags, tag)) == multiset(tags) - multiset{tag}
  {
    if tags != [] {
      assert tags == [tags[0]] + tags[1..];
      if tags[0] != tag {
        RemoveFirstMultiset(tags[1..], tag);
      }
    }
  }

  /** The removal is a splice at the index `indexOf` reports. */
  lemma {:induction false} RemoveFirstIsSplice(tags: seq<string>, tag: string)
    requires tag in tags
    ensures var k := FirstIndex(tags, tag);
      RemoveFirst(tags, tag) == tags[..k] + tags[k + 1..]
  {
    if tags[0] == tag {
      assert FirstIndex(tags, tag) == 0;
    } else {
      var rest := tags[1..];
      assert tag in rest;
      var k := FirstIndex(rest, tag);
      assert FirstIndex(tags, tag) == k + 1;
      RemoveFirstIsSplice(rest, tag);
      assert tags[..k + 1] == [tags[0]] + rest[..k];
      assert tags[k + 2..] == rest[k + 1..];
    }
  }

  /** Removing the first occurrence of each of `ids`, in order. */
  function RemoveEach(tags: seq<string>, ids: seq<string>): seq<string>
    decreases |ids|
  {
    if ids == [] then tags else RemoveEach(RemoveFirst(tags, ids[0]), ids[1..])
  }

  /** Removing each of `ids` once takes exactly one copy of each away, as far as there are copies. */
  lemma {:induction false} RemoveEachMultiset(tags: seq<string>, ids: seq<string>)
    ensures multiset(RemoveEach(tags, ids)) == multiset(tags) - multiset(ids)
    decreases |ids|
  {
    if ids != [] {
      var next := RemoveFirst(tags, ids[0]);
      assert multiset(RemoveEach(next, ids[1..])) == multiset(next) - multiset(ids[1..]) by {
        RemoveEachMultiset(next, ids[1..]);
      }
      assert multiset(ids) == multiset{ids[0]} + multiset(ids[1..]) by {
        assert ids == [ids[0]] + ids[1..];
      }
      assert RemoveEach(tags, ids) == RemoveEach(next, ids[1..]);
      RemoveFirstMultiset(tags, ids[0]);
      DifferenceOfSum(multiset(tags), multiset{ids[0]}, multiset(ids[1..]));
    }
  }

  lemma DifferenceOfSum(a: multiset<string>, b: multiset<string>, c: multiset<string>)
    ensures (a - b) - c == a - (b + c)
  {
    forall x ensures ((a - b) - c)[x] == (a - (b + c))[x] { }
  }

  /** A tag absent from the stored list is still absent after removals. */
  lemma RemoveEachKeepsOut(tags: seq<string>, ids: seq<string>, x: string)
    requires x !in tags
    ensures x !in RemoveEach(tags, ids)
  {
    RemoveEachMultiset(tags, ids);
    assert multiset(tags)[x] == 0;
    assert (multiset(tags) - multiset(ids))[x] == 0;
    assert multiset(RemoveEach(tags, ids))[x] == 0;
  }
}

=== FILE: triggers.dfy ===
/**
 * What the admin subscriber handlers do after saving a record: read the
 * trigger named in the query string, send a confirmation e-mail or enrol
 * the subscriber in autoresponders, one queue item per enrolment, in order.
 */
module Triggers {
  import opened Js
  import opened Model
  import opened Scheduling

  /** What a trigger asks for. */
  datatype TriggerAction = NoAction | SendConfirmation(template: string) | EnrolIn(autoresponderId: string)

  /**
   * `runTrigger`'s dispatch on `triggerType`: a confirmation uses the
   * template named by `triggerId`, `Confirmation` when there is none; an
   * autoresponder needs a non-empty `triggerId`.
   */
  function TriggerOf(params: Option<map<string, string>>): (action: TriggerAction)
    ensures params.None? ==> action == NoAction
    ensures action.SendConfirmation? <==> params.Some? && "triggerType" in params.value && params.value["triggerType"] == "confirmation"
    ensures action.SendConfirmation? && "triggerId" in params.value && params.value["triggerId"] != "" ==> action.template == params.value["triggerId"]
    ensures action.SendConfirmation? && ("triggerId" !in params.value || params.value["triggerId"] == "") ==> action.template == "Confirmation"
    ensures action.EnrolIn? <==>
      params.Some? && "triggerType" in params.value && params.value["triggerType"] == "autoresponder"
      && "triggerId" in params.value && params.value["triggerId"] != ""
    ensures action.EnrolIn? ==> action.autoresponderId == params.value["triggerId"]
  {
    if params.None? || "triggerType" !in params.value then NoAction
    else
      var q := params.value;
      var id := if "triggerId" in q then q["triggerId"] else "";
      if q["triggerType"] == "confirmation" then SendConfirmation(if id != "" then id else "Confirmation")
      else if q["triggerType"] == "autoresponder" && id != "" then EnrolIn(id)
      else NoAction
  }

  /** The autoresponders an action enrols in: at most the one it names. */
  function ActionIds(action: TriggerAction): (ids: seq<string>)
    ensures |ids| <= 1
  {
    if action.EnrolIn? then [action.autoresponderId] else []
  }

  /** The link a confirmation e-mail carries: the API's confirm route with the subscriber id as `t`. */
  function ConfirmationLink(api: string, subscriberId: string): (link: string)
    ensures EndsWith(link, subscriberId)
    ensures StartsWith(link, api)
  {
    var link := api + "subscriber/confirm/?t=" + subscriberId;
    assert link[|link| - |subscriberId|..] == subscriberId;
    link
  }

  /** The e-mails an action sends to `to`: one confirmation when it asks for one, carrying the subscriber's link. */
  function TriggerEmails(action: TriggerAction, to: string, api: string, subscriberId: string): (emails: seq<Email>)
    ensures |emails| <= 1
    ensures emails != [] <==> action.SendConfirmation?
    ensures forall e :: e in emails ==> e.to == to && e.template == action.template && EndsWith(e.link, subscriberId)
  {
    if action.SendConfirmation? then [Email(to, action.template, ConfirmationLink(api, subscriberId))] else []
  }

  // ---------------------------------------------------------------------
  // Enrolment in several autoresponders

  /** The items one enrolment puts: none without a start step, else the one item. */
  function EnrolOne(settings: map<string, SettingItem>, id: string, subscriber: Subscriber, now: nat, random: string): (items: seq<QueueItem>)
    ensures |items| <= 1
  {
    var start := StartStep(settings, id);
    if start.None? then [] else [EnrolmentItem(start.value, subscriber, id, "Start", now, random)]
  }

  /**
   * Enrolment in each autoresponder in turn (`addSubscriberToAutoresponder`
   * in a loop): those without a start step are skipped. The enrolment in
   * the j-th requested autoresponder takes `random(j)` as its random fraction.
   */
  function EnrolAll(settings: map<string, SettingItem>, ids: seq<string>, subscriber: Subscriber, now: nat, random: nat -> string)
    : (items: seq<QueueItem>)
    ensures |items| <= |ids|
    decreases |ids|
  {
    if ids == [] then []
    else EnrolAll(settings, ids[..|ids| - 1], subscriber, now, random)
         + EnrolOne(settings, ids[|ids| - 1], subscriber, now, random(|ids| - 1))
  }

  /** Every enrolment item is a fresh pending item of the subscriber for one of the requested autoresponders. */
  lemma {:induction false} EnrolAllShape(settings: map<string, SettingItem>, ids: seq<string>, subscriber: Subscriber, now: nat, random: nat -> string)
    ensures forall item :: item in EnrolAll(settings, ids, subscriber, now, random) ==>
      FreshPending(item) && IsPendingFor(item, subscriber.subscriberId)
      && item.subscriber == subscriber && item.runAt == now
      && item.autoresponderStep == "Start" && item.autoresponderId in ids
    decreases |ids|
  {
    if ids != [] {
      var init := ids[..|ids| - 1];
      EnrolAllShape(settings, init, subscriber, now, random);
      forall item | item in EnrolAll(settings, ids, subscriber, now, random)
        ensures item.autoresponderId in ids
      {
        if item in EnrolAll(settings, init, subscriber, now, random) {
          assert item.autoresponderId in init;
          var j :| 0 <= j < |init| && init[j] == item.autoresponderId;
          assert ids[j] == item.autoresponderId;
        }
      }
    }
  }

  /** When every named autoresponder has a start step, one item per id, in the order requested. */
  lemma {:induction false} EnrolAllInOrder(settings: map<string, SettingItem>, ids: seq<string>, subscriber: Subscriber, now: nat, random: nat -> string)
    requires forall j :: 0 <= j < |ids| ==> StartStep(settings, ids[j]).Some?
    ensures |EnrolAll(settings, ids, subscriber, now, random)| == |ids|
    ensures forall j :: 0 <= j < |ids| ==>
      EnrolAll(settings, ids, subscriber, now, random)[j].autoresponderId == ids[j]
      && EnrolAll(settings, ids, subscriber, now, random)[j].step == StartStep(settings, ids[j]).value
    decreases |ids|
  {
    if ids != [] {
      var n := |ids| - 1;
      var init := ids[..n];
      EnrolAllInOrder(settings, init, subscriber, now, random);
      var head := EnrolAll(settings, init, subscriber, now, random);
      var last := EnrolOne(settings, ids[n], subscriber, now, random(n));
      assert StartStep(settings, ids[n]).Some?;
      assert |last| == 1 && last[0].autoresponderId == ids[n] && last[0].step == StartStep(settings, ids[n]).value;
      var all := EnrolAll(settings, ids, subscriber, now, random);
      assert all == head + last;
      forall j | 0 <= j < |ids|
        ensures all[j].autoresponderId == ids[j] && all[j].step == StartStep(settings, ids[j]).value
      {
        if j < n {
          assert all[j] == head[j] && ids[j] == init[j];
        }
      }
    }
  }

  /** Autoresponders without a start step enrol nobody. */
  lemma {:induction false} EnrolAllWithoutStart(settings: map<string, SettingItem>, ids: seq<string>, subscriber: Subscriber, now: nat, random: nat -> string)
    requires forall j :: 0 <= j < |ids| ==> StartStep(settings, ids[j]).None?
    ensures EnrolAll(settings, ids, subscriber, now, random) == []
    decreases |ids|
  {
    if ids != [] {
      EnrolAllWithoutStart(settings, ids[..|ids| - 1], subscriber, now, random);
      assert StartStep(settings, ids[|ids| - 1]).None?;
    }
  }

  lemma {:induction false} PutAllAppend(queue: map<QueueKey, QueueItem>, a: seq<QueueItem>, b: seq<QueueItem>)
    ensures PutAll(PutAll(queue, a), b) == PutAll(queue, a + b)
    decreases |a|
  {
    if a != [] {
      assert (a + b)[0] == a[0];
      assert (a + b)[1..] == a[1..] + b;
      PutAllAppend(queue[a[0].key := a[0]], a[1..], b);
    } else {
      assert a + b == b;
    }
  }

  /** `for (const autoresponderId of ids) await addSubscriberToAutoresponder(autoresponderId, subscriber)` */
  method EnrolEach(store: Store, ids: seq<string>, subscriber: Subscriber, now: nat, random: nat -> string)
    returns (enqueued: seq<QueueItem>)
    requires store.Valid()
    modifies store
    ensures store.Valid()
    ensures store.subscribers == old(store.subscribers) && store.settings == old(store.settings)
    ensures enqueued == EnrolAll(old(store.settings), ids, subscriber, now, random)
    ensures store.queue == PutAll(old(store.queue), enqueued)
  {
    enqueued := [];
    ghost var settings := store.settings;
    var i := 0;
    while i < |ids|
      invariant 0 <= i <= |ids|
      invariant store.Valid()
      invariant store.subscribers == old(store.subscribers) && store.settings == settings == old(store.settings)
      invariant store.queue == PutAll(old(store.queue), enqueued)
      invariant enqueued == EnrolAll(settings, ids[..i], subscriber, now, random)
    {
      assert ids[..i + 1][..i] == ids[..i];
      var more := Enrol(store, ids[i], subscriber, now, random(i));
      PutAllAppend(old(store.queue), enqueued, more);
      enqueued := enqueued + more;
      i := i + 1;
    }
    assert ids[..i] == ids;
  }

  /**
   * `runTrigger` then `triggerAutoresponders`: the confirmation e-mail or
   * the enrolment the action asks for, then the enrolments the list of
   * autoresponder ids asks for; `to` is the address the handler sends to.
   */
  method RunTriggers(store: Store, action: TriggerAction, autoresponderIds: seq<string>, subscriber: Subscriber, to: string,
                     api: string, now: nat, random: nat -> string)
    returns (emails: seq<Email>, enqueued: seq<QueueItem>)
    requires store.Valid()
    modifies store
    ensures store.Valid()
    ensures store.subscribers == old(store.subscribers) && store.settings == old(store.settings)
    ensures emails == TriggerEmails(action, to, api, subscriber.subscriberId)
    ensures enqueued == EnrolAll(old(store.settings), ActionIds(action) + autoresponderIds, subscriber, now, random)
    ensures store.queue == PutAll(old(store.queue), enqueued)
  {
    emails := [];
    if action.SendConfirmation? {
      emails := [Email(to, action.template, ConfirmationLink(api, subscriber.subscriberId))];
    }
    enqueued := EnrolEach(store, ActionIds(action) + autoresponderIds, subscriber, now, random);
  }
}

=== FILE: web.dfy ===
/**
 * Text encodings a handler puts in a URL: `JSON.stringify` of a string
 * (QuoteJSONString, ECMA-262 section 25.5.2.3) and `encodeURIComponent`
 * (the UTF-8 encoding of RFC 3629 followed by the percent-encoding of
 * RFC 3986 section 2.1), each with the decoder that undoes it.
 */
module Web {
  import opened Js
  import opened Model

  // ---------------------------------------------------------------------
  // JSON strings

  /** The escape QuoteJSONString writes for one character. */
  function EscapeChar(c: char): (e: string)
    ensures |e| >= 1
    ensures c != '"' && c != '\\' && c as int >= 0x20 ==> e == [c]
  {
    var n := c as int;
    if n == 0x08 then "\\b"
    else if n == 0x09 then "\\t"
    else if n == 0x0A then "\\n"
    else if n == 0x0C then "\\f"
    else if n == 0x0D then "\\r"
    else if c == '"' then "\\\""
    else if c == '\\' then "\\\\"
    else if n < 0x20 then "\\u00" + [HexChar(n / 16), HexChar(n % 16)]
    else [c]
  }

  function Escape(s: string): (t: string)
    ensures |t| >= |s|
  {
    if s == [] then [] else EscapeChar(s[0]) + Escape(s[1..])
  }

  /** `JSON.stringify(s)` for a string `s`. */
  function JsonQuote(s: string): (t: string)
    ensures |t| >= |s| + 2 && t[0] == '"' && t[|t| - 1] == '"'
  {
    "\"" + Escape(s) + "\""
  }

  /** The character a one-letter escape stands for. */
  function SimpleUnescape(c: char): char {
    if c == 'b' then 0x08 as char
    else if c == 't' then 0x09 as char
    else if c == 'n' then 0x0A as char
    else if c == 'f' then 0x0C as char
    else if c == 'r' then 0x0D as char
    else c
  }

  predicate LowerHexRun(t: string, from: nat, to: nat)
    requires from <= to <= |t|
  {
    forall i :: from <= i < to ==> IsLowerHex(t[i])
  }

  /** The value of the four hexadecimal digits after `\u`. */
  function UnitValue(t: string): (n: nat)
    requires |t| >= 6 && LowerHexRun(t, 2, 6)
    ensures n < 0x10000
  {
    HexValue(t[2]) * 4096 + HexValue(t[3]) * 256 + HexValue(t[4]) * 16 + HexValue(t[5])
  }

  /** Reading the characters of a JSON string body back: each escape becomes the character it stands for. */
  function Unescape(t: string): string
    decreases |t|
  {
    if t == [] then []
    else if t[0] == '\\' && |t| >= 6 && t[1] == 'u' && LowerHexRun(t, 2, 6) && UnitValue(t) < 0xD800 then
      [UnitValue(t) as char] + Unescape(t[6..])
    else if t[0] == '\\' && |t| >= 2 then [SimpleUnescape(t[1])] + Unescape(t[2..])
    else [t[0]] + Unescape(t[1..])
  }

  /** A control character without a one-letter escape reads back from its `\u00XX` escape. */
  lemma UnescapeControl(c: char, rest: string)
    requires c as int < 0x20 && c as int !in {0x08, 0x09, 0x0A, 0x0C, 0x0D}
    ensures Unescape(EscapeChar(c) + rest) == [c] + Unescape(rest)
  {
    var t := EscapeChar(c) + rest;
    var n := c as int;
    assert t[2..6] == "00" + [HexChar(n / 16), HexChar(n % 16)];
    assert HexValue(HexChar(n / 16)) == n / 16 && HexValue(HexChar(n % 16)) == n % 16;
    assert UnitValue(t) == n;
    assert t[6..] == rest;
  }

  /** A character with a two-character escape reads back from it. */
  lemma UnescapeShort(c: char, rest: string)
    requires |EscapeChar(c)| == 2
    ensures Unescape(EscapeChar(c) + rest) == [c] + Unescape(rest)
  {
    var t := EscapeChar(c) + rest;
    assert t[1] != 'u' && SimpleUnescape(t[1]) == c;
    assert t[2..] == rest;
  }

  /** A character written as itself reads back as itself. */
  lemma UnescapePlain(c: char, rest: string)
    requires EscapeChar(c) == [c] && c != '\\'
    ensures Unescape(EscapeChar(c) + rest) == [c] + Unescape(rest)
  {
    var t := EscapeChar(c) + rest;
    assert t[1..] == rest;
  }

  lemma UnescapeChar(c: char, rest: string)
    ensures Unescape(EscapeChar(c) + rest) == [c] + Unescape(rest)
  {
    var n := c as int;
    if n < 0x20 && n != 0x08 && n != 0x09 && n != 0x0A && n != 0x0C && n != 0x0D {
      UnescapeControl(c, rest);
    } else if n < 0x20 || c == '"' || c == '\\' {
      UnescapeShort(c, rest);
    } else {
      UnescapePlain(c, rest);
    }
  }

  /** Decoding a quoted string gives back the string: the quoting loses nothing. */
  lemma {:induction false} UnescapeEscape(s: string)
    ensures Unescape(Escape(s)) == s
  {
    if s != [] {
      UnescapeChar(s[0], Escape(s[1..]));
      UnescapeEscape(s[1..]);
    }
  }

  /** A JSON string is read back between its quotes. */
  lemma JsonQuoteRoundTrip(s: string)
    ensures var t := JsonQuote(s); Unescape(t[1..|t| - 1]) == s
  {
    var t := JsonQuote(s);
    assert t[1..|t| - 1] == Escape(s);
    UnescapeEscape(s);
  }

  /** A string without quotes, backslashes or control characters is quoted as it is. */
  lemma {:induction false} PlainQuote(s: string)
    requires forall i :: 0 <= i < |s| ==> s[i] != '"' && s[i] != '\\' && s[i] as int >= 0x20
    ensures JsonQuote(s) == JsonString(s)
  {
    PlainEscape(s);
  }

  lemma {:induction false} PlainEscape(s: string)
    requires forall i :: 0 <= i < |s| ==> s[i] != '"' && s[i] != '\\' && s[i] as int >= 0x20
    ensures Escape(s) == s
  {
    if s != [] {
      PlainEscape(s[1..]);
      assert s == [s[0]] + s[1..];
    }
  }

  // ---------------------------------------------------------------------
  // encodeURIComponent

  /** The characters `encodeURIComponent` leaves as they are. */
  predicate IsUriUnreserved(c: char) {
    IsAlnum(c) || c in "-_.!~*'()"
  }

  /** The UTF-8 encoding of one character (RFC 3629 section 3). */
  function Utf8(c: char): (bs: seq<byte>)
    ensures 1 <= |bs| <= 4
  {
    var n := c as int;
    if n < 0x80 then [n as byte]
    else if n < 0x800 then [(0xC0 + n / 64) as byte, (0x80 + n % 64) as byte]
    else if n < 0x10000 then [(0xE0 + n / 4096) as byte, (0x80 + n / 64 % 64) as byte, (0x80 + n % 64) as byte]
    else [(0xF0 + n / 262144) as byte, (0x80 + n / 4096 % 64) as byte, (0x80 + n / 64 % 64) as byte, (0x80 + n % 64) as byte]
  }

  /** The number of bytes a sequence starting with `b0` has. */
  function Utf8Length(b0: byte): nat {
    if b0 < 0x80 then 1 else if b0 < 0xE0 then 2 else if b0 < 0xF0 then 3 else 4
  }

  /** The code point a sequence of bytes encodes. */
  function Utf8Value(bs: seq<byte>): int
    requires 1 <= |bs| <= 4
  {
    if |bs| == 1 then bs[0] as int
    else if |bs| == 2 then (bs[0] as int - 0xC0) * 64 + (bs[1] as int - 0x80)
    else if |bs| == 3 then (bs[0] as int - 0xE0) * 4096 + (bs[1] as int - 0x80) * 64 + (bs[2] as int - 0x80)
    else (bs[0] as int - 0xF0) * 262144 + (bs[1] as int - 0x80) * 4096 + (bs[2] as int - 0x80) * 64 + (bs[3] as int - 0x80)
  }

  predicate IsScalarValue(n: int) {
    (0 <= n < 0xD800) || (0xE000 <= n < 0x110000)
  }

  lemma Utf8Decodes(c: char)
    ensures Utf8Length(Utf8(c)[0]) == |Utf8(c)|
    ensures Utf8Value(Utf8(c)) == c as int
  {
    var n := c as int;
    if n < 0x80 {
    } else if n < 0x800 {
      Utf8Two(n);
    } else if n < 0x10000 {
      Utf8Three(n);
    } else {
      Utf8Four(n);
    }
  }

  lemma Utf8Two(n: int)
    requires 0x80 <= n < 0x800
    ensures 0xC0 <= 0xC0 + n / 64 < 0xE0
    ensures (n / 64) * 64 + n % 64 == n
  {
  }

  lemma Utf8Three(n: int)
    requires 0x800 <= n < 0x10000
    ensures 0xE0 <= 0xE0 + n / 4096 < 0xF0
    ensures (n / 4096) * 4096 + (n / 64 % 64) * 64 + n % 64 == n
  {
    var q := n / 64;
    assert n == q * 64 + n % 64;
    assert q == (q / 64) * 64 + q % 64;
    assert q / 64 == n / 4096;
  }

  lemma Utf8Four(n: int)
    requires 0x10000 <= n < 0x110000
    ensures 0xF0 <= 0xF0 + n / 262144 < 0x100
    ensures (n / 262144) * 262144 + (n / 4096 % 64) * 4096 + (n / 64 % 64) * 64 + n % 64 == n
  {
    var q := n / 64;
    var p := q / 64;
    assert n == q * 64 + n % 64;
    assert q == p * 64 + q % 64;
    assert p == (p / 64) * 64 + p % 64;
    assert p == n / 4096;
    assert p / 64 == n / 262144;
  }

  /** `%` and two upper-case hexadecimal digits. */
  function UpperHex(d: nat): (c: char)
    requires d < 16
  {
    if d < 10 then DigitChar(d) else ('A' as int + d - 10) as char
  }

  lemma UpperHexRoundTrip(d: nat)
    requires d < 16
    ensures UpperHexValue(UpperHex(d)) == d
  {
  }

  function UpperHexValue(c: char): int {
    if IsDigit(c) then DigitValue(c) else if 'A' <= c <= 'F' then c as int - 'A' as int + 10 else -1
  }

  function PercentBytes(bs: seq<byte>): (t: string)
    ensures |t| == 3 * |bs|
  {
    if bs == [] then [] else ['%', UpperHex(bs[0] as int / 16), UpperHex(bs[0] as int % 16)] + PercentBytes(bs[1..])
  }

  function EncodeChar(c: char): string {
    if IsUriUnreserved(c) then [c] else PercentBytes(Utf8(c))
  }

  /** `encodeURIComponent(s)`. */
  function EncodeUriComponent(s: string): (t: string)
    ensures |t| >= |s|
  {
    if s == [] then [] else EncodeChar(s[0]) + EncodeUriComponent(s[1..])
  }

  /** The byte of the escape at `i`, when there is one. */
  function EscapedByte(t: string, i: nat): (b: Option<byte>)
    ensures b.Some? ==> i + 3 <= |t|
  {
    if i + 3 <= |t| && t[i] == '%' && 0 <= UpperHexValue(t[i + 1]) && 0 <= UpperHexValue(t[i + 2])
    then Some((UpperHexValue(t[i + 1]) * 16 + UpperHexValue(t[i + 2])) as byte)
    else None
  }

  /** The `n` escaped bytes from the start of `t`, when they are all there. */
  function EscapedBytes(t: string, n: nat): (bs: Option<seq<byte>>)
    ensures bs.Some? ==> |bs.value| == n && 3 * n <= |t|
    decreases n
  {
    if n == 0 then Some([])
    else
      var b := EscapedByte(t, 0);
      if b.None? then None
      else
        var rest := EscapedBytes(t[3..], n - 1);
        if rest.Some? then Some([b.value] + rest.value) else None
  }

  /** `decodeURIComponent(t)`, with a sequence that does not decode kept as it is. */
  function DecodeUriComponent(t: string): string
    decreases |t|
  {
    if t == [] then []
    else
      var b0 := EscapedByte(t, 0);
      if b0.None? then [t[0]] + DecodeUriComponent(t[1..])
      else
        var n := Utf8Length(b0.value);
        var bs := EscapedBytes(t, n);
        if bs.Some? && IsScalarValue(Utf8Value(bs.value)) then
          [Utf8Value(bs.value) as char] + DecodeUriComponent(t[3 * n..])
        else [t[0]] + DecodeUriComponent(t[1..])
  }

  lemma EscapedByteOf(b: byte, rest: string)
    ensures EscapedByte(['%', UpperHex(b as int / 16), UpperHex(b as int % 16)] + rest, 0) == Some(b)
  {
    var hi, lo := b as int / 16, b as int % 16;
    UpperHexRoundTrip(hi);
    UpperHexRoundTrip(lo);
  }

  lemma {:induction false} EscapedBytesOf(bs: seq<byte>, rest: string)
    ensures EscapedBytes(PercentBytes(bs) + rest, |bs|) == Some(bs)
    decreases |bs|
  {
    if bs != [] {
      var tail := PercentBytes(bs[1..]) + rest;
      var t := PercentBytes(bs) + rest;
      assert t == ['%', UpperHex(bs[0] as int / 16), UpperHex(bs[0] as int % 16)] + tail;
      EscapedByteOf(bs[0], tail);
      assert t[3..] == tail;
      EscapedBytesOf(bs[1..], rest);
      assert bs == [bs[0]] + bs[1..];
    }
  }

  lemma DecodeChar(c: char, rest: string)
    ensures DecodeUriComponent(EncodeChar(c) + rest) == [c] + DecodeUriComponent(rest)
  {
    var t := EncodeChar(c) + rest;
    if IsUriUnreserved(c) {
      assert t[0] == c && t[1..] == rest;
      assert EscapedByte(t, 0).None?;
    } else {
      var bs := Utf8(c);
      Utf8Decodes(c);
      EscapedBytesOf(bs, rest);
      EscapedBytesOf(bs[..1], PercentBytes(bs[1..]) + rest);
      assert PercentBytes(bs) == PercentBytes(bs[..1]) + PercentBytes(bs[1..]) by {
        assert bs == [bs[0]] + bs[1..];
        assert bs[..1] == [bs[0]];
        assert PercentBytes([bs[0]]) == ['%', UpperHex(bs[0] as int / 16), UpperHex(bs[0] as int % 16)];
      }
      assert EscapedByte(t, 0) == Some(bs[0]);
      assert t[3 * |bs|..] == rest;
    }
  }

  /** Decoding the encoded text gives back the text (for every string of characters). */
  lemma {:induction false} UriComponentRoundTrip(s: string)
    ensures DecodeUriComponent(EncodeUriComponent(s)) == s
  {
    if s != [] {
      DecodeChar(s[0], EncodeUriComponent(s[1..]));
      UriComponentRoundTrip(s[1..]);
    }
  }

  /** The encoded text holds only unreserved characters, `%` and upper-case hexadecimal digits. */
  lemma {:induction false} EncodedAlphabet(s: string)
    ensures forall i :: 0 <= i < |EncodeUriComponent(s)| ==>
      var c := EncodeUriComponent(s)[i]; IsUriUnreserved(c) || c == '%' || ('A' <= c <= 'F')
  {
    if s != [] {
      EncodedAlphabet(s[1..]);
      PercentAlphabet(Utf8(s[0]));
    }
  }

  lemma {:induction false} PercentAlphabet(bs: seq<byte>)
    ensures forall i :: 0 <= i < |PercentBytes(bs)| ==>
      var c := PercentBytes(bs)[i]; IsDigit(c) || c == '%' || ('A' <= c <= 'F')
  {
    if bs != [] {
      PercentAlphabet(bs[1..]);
    }
  }
}
